=== FILE: README.md ===
# Swift package dependency analysis, modelled in Dafny

This project models the pure logic of a Python tool that tracks Swift packages
which build on Linux but not yet on Android. The tool ranks the packages for
migration work. At its centre is the manifest-to-graph pipeline of
`swift_package_analyzer/analysis/dependencies.py`:

- clean a `Package.swift` text;
- find its `dependencies: [...]` section and cut it into `.package(...)` declarations;
- read the URL, name, version and kind of each declaration;
- resolve the URL to a GitHub `owner/repo` identity;
- build the dependency graph and the package cache;
- compute every package's BFS depth and its direct and indirect migration impact.

Around it, the project models the small pure rules inside the I/O classes:

- the two fetchers' URL parsing and manifest-field extraction;
- the skip-and-count rules of repository processing;
- the repository record's state machine and URL validator;
- the issue-form parser of community status requests and its tally;
- the Android priority score and its rationale;
- the refresh scheduling rules.

Every regular expression is modelled by its matching semantics, worked out for
that one pattern. That includes the backtracking order, Python's `$` (which also
matches before a final newline), `re.IGNORECASE` and `str.isspace`. Regex
alternatives that can never decide anything are proved redundant
(`Manifest.SecondSectionPatternSubsumed`, `Identity.SecondPatternSubsumed`).

Modules, one per file:

- **Leaf modules:**
  - `Wrappers`: `Option` and `Result`;
  - `Text`: the Python string built-ins used;
  - `Sorting`: a stable sort, standing for `sorted`, `list.sort` and pandas `nlargest`.
- **The manifest pipeline:**
  - `Clean`, `Manifest` and `Identity`: parsing;
  - `Graph`, `Bfs`, `Tree` and `Impact`: the analyzer.
- **The rest:**
  - `Url`: the part of `urllib.parse.urlparse` that the fetchers observe;
  - `Fetcher`: both fetcher copies, through a `Variant` parameter;
  - `Models`, `Community`, `Priority` and `Refresh`.

Four behaviours of the code are worth knowing before reading the model:

- **URLs in manifests.** The `//`-to-end-of-line comment removal also cuts the
  `//` of `https://`, together with the rest of that line
  (`Clean.UrlLiteralIsCut`). So a declaration written as
  `url: "https://github.com/org/b"` loses its URL, and no edge is added for it.
- **Indirect impact of a chain.** In `a -> b -> c`, the indirect impact of `c`
  counts `b` and then `a`. That gives 2, and a total impact of 3
  (`Impact.ChainImpact`).
- **Back edges.** An edge back into a cycle still adds 1 to the impact
  (`Impact.CycleImpact`).
- **Empty form fields.** An issue-form heading followed only by white space to
  the end of the text yields the empty string
  (`Community.LineFieldIsFirstLine`).

## Model

| member | source | states |
|---|---|---|
| Clean.StripLineComments | swift_package_analyzer/analysis/dependencies.py:116-117 | no `//` survives, the result is no longer than the input, and a kept leading `/` was not part of a `//` |
| Clean.StripLineCommentsPrefix | swift_package_analyzer/analysis/dependencies.py:117 | text before the first `/` is kept unchanged in front of what the rest strips to |
| Clean.StripLineCommentsToEol | swift_package_analyzer/analysis/dependencies.py:117 | a `//` span is removed up to, but not including, the end of its line |
| Clean.StripLineCommentsKeepsLines | swift_package_analyzer/analysis/dependencies.py:117 | removing line comments keeps every newline (`re.MULTILINE` `$` stops before it) |
| Clean.StripLineCommentsIdentity | swift_package_analyzer/analysis/dependencies.py:117 | text without `//` is left untouched |
| Clean.UrlLiteralIsCut | swift_package_analyzer/analysis/dependencies.py:117 | the `//` of a quoted `https://` URL starts a comment: the rest of that line is lost |
| Clean.StripBlockComments | swift_package_analyzer/analysis/dependencies.py:119-120 | removing block comments never lengthens the text |
| Clean.StripBlockCommentsCut | swift_package_analyzer/analysis/dependencies.py:120 | a block comment closed by its first `*/` is removed together with its delimiters, and stripping carries on after it |
| Clean.StripBlockCommentsIdentity | swift_package_analyzer/analysis/dependencies.py:120 | text without a block-comment opening is left untouched |
| Clean.CollapseWhitespace | swift_package_analyzer/analysis/dependencies.py:122-123 | every whitespace run becomes exactly one space: no two spaces touch, no other white space is left, the visible characters are kept in order, and a leading run stays a leading space |
| Clean.CollapseAppend | swift_package_analyzer/analysis/dependencies.py:123 | when the first part ends in a visible character, collapsing the concatenation is collapsing each part and joining the results |
| Clean.CollapseRun | swift_package_analyzer/analysis/dependencies.py:123 | a non-empty whitespace run at the front, followed by the end or by a visible character, becomes a single space |
| Clean.CollapseRunBetween | swift_package_analyzer/analysis/dependencies.py:123 | a maximal whitespace run between two visible stretches becomes exactly one space, and the text on each side collapses on its own |
| Clean.CollapseIdentity | swift_package_analyzer/analysis/dependencies.py:123 | text whose only white space is single spaces, each followed by a visible character, is left unchanged |
| Clean.CleanContent | swift_package_analyzer/analysis/dependencies.py:114-125 | the cleaned manifest contains no newline and no two adjacent spaces |
| Clean.CleanKeepsCommentFreeText | swift_package_analyzer/analysis/dependencies.py:114-125 | a comment-free manifest keeps all its visible characters, in order |
| Clean.CleanIdentity | swift_package_analyzer/analysis/dependencies.py:114-125 | text with no `//`, no `/*` and only single spaces each followed by a visible character comes out of the cleaning unchanged |
| Manifest.SkipSpaces | swift_package_analyzer/analysis/dependencies.py:131-132 | the `\s*` of the section patterns consumes exactly the white-space run |
| Manifest.OpeningAt | swift_package_analyzer/analysis/dependencies.py:131 | a case-insensitive `dependencies\s*:\s*[` found at `i` locates a `[` after the keyword |
| Manifest.SectionAt | swift_package_analyzer/analysis/dependencies.py:131 | the lazy `(.*?)\]` group never contains `]` |
| Manifest.SearchSection | swift_package_analyzer/analysis/dependencies.py:135-138 | a reported section is the pattern's match at some position, and nothing is reported only when no position matches |
| Manifest.SearchSectionFindsFirst | swift_package_analyzer/analysis/dependencies.py:136 | `re.search` reports the match at the first position where the pattern matches |
| Manifest.SearchSection2 | swift_package_analyzer/analysis/dependencies.py:132-138 | the second pattern's search reports nothing when no position matches |
| Manifest.ExtractSection | swift_package_analyzer/analysis/dependencies.py:127-140 | the section is the first pattern's first match and holds no `]` |
| Manifest.SecondSectionImpliesFirst | swift_package_analyzer/analysis/dependencies.py:130-133 | wherever the newline-closing pattern matches, the lazy `]` pattern matches too |
| Manifest.SecondSectionPatternSubsumed | swift_package_analyzer/analysis/dependencies.py:135-140 | the second section pattern is never reached with a match |
| Manifest.Declarations | swift_package_analyzer/analysis/dependencies.py:149-151 | every declaration starts with `.package(`, ends at the first `)` after it, and none exist without `.package(` |
| Manifest.DeclarationsRoundTrip | swift_package_analyzer/analysis/dependencies.py:149-151 | a `, `-separated list of `.package(args)` with `)`-free arguments is found again one for one, in source order |
| Manifest.DeclarationsStep | swift_package_analyzer/analysis/dependencies.py:149-151 | a leading `)`-free declaration is found first, and the search goes on after it |
| Manifest.SkipSeparator | swift_package_analyzer/analysis/dependencies.py:149-151 | the separator between declarations yields nothing |
| Manifest.DeclarationsHead | swift_package_analyzer/analysis/dependencies.py:149-151 | a `)`-free declaration at the very start is found first, and the search goes on with the text after its `)` |
| Manifest.ArgAt | swift_package_analyzer/analysis/dependencies.py:164-167 | a quoted argument is non-empty and quote-free |
| Manifest.SearchArg | swift_package_analyzer/analysis/dependencies.py:170-174 | a reported argument is non-empty, quote-free and the pattern's match at some position; nothing is reported only when no position matches |
| Manifest.SearchArgFindsFirst | swift_package_analyzer/analysis/dependencies.py:171 | `re.search` of an argument pattern reports the match at the first position where it matches |
| Manifest.VersionRequirement | swift_package_analyzer/analysis/dependencies.py:212-227 | the version is the match of the first pattern, in the order `from`, `upToNext…From`, `exact`, `branch`, `revision`, that matches anywhere; it is absent exactly when none does |
| Manifest.LastSlash | swift_package_analyzer/analysis/dependencies.py:209-210 | the index found holds the last `/`, and none is found only for `/`-free text |
| Manifest.NameFromUrl | swift_package_analyzer/analysis/dependencies.py:206-210 | the name is `/`-free; it is the text after the last `/` minus an optional `.git` and a final newline, or the whole URL when it has no `/` |
| Manifest.NameDropsGitSuffix | swift_package_analyzer/analysis/dependencies.py:206-210 | the name of `…/repo.git` is `repo` |
| Manifest.KindOf | swift_package_analyzer/analysis/dependencies.py:188-191 | the kind is `test` exactly when the declaration mentions `testTarget` or, lower-cased, `test`, and so exactly when the lower-cased text contains `test` |
| Manifest.TestTargetMentionsTest | swift_package_analyzer/analysis/dependencies.py:188-191 | a declaration mentioning `testTarget` contains `test` once lower-cased, so the `testTarget` check never decides the kind |
| Manifest.ParseSingleDependency | swift_package_analyzer/analysis/dependencies.py:160-204 | no dependency without a `url:` string; otherwise the URL, the `name:` string or the URL-derived name, the version and the kind, with the identity resolved as the constructor does |
| Manifest.ParseDeclarations | swift_package_analyzer/analysis/dependencies.py:142-158 | every result is the parse of some declaration, and there are no more results than declarations |
| Manifest.ParseDeclarationsAppend | swift_package_analyzer/analysis/dependencies.py:153-158 | the results for two lists of declarations are the results for the first followed by those for the second, so order and multiplicity follow the declarations |
| Manifest.ParseDeclarationsOne | swift_package_analyzer/analysis/dependencies.py:153-156 | one declaration gives its dependency when it has a `url:` string, and nothing otherwise |
| Manifest.ParsePackageSwift | swift_package_analyzer/analysis/dependencies.py:91-112 | no section or an empty one gives no dependencies; otherwise the dependencies are the parsed declarations of the cleaned text's section, each with a non-empty URL |
| Manifest.NoPackageCallNoDependencies | swift_package_analyzer/analysis/dependencies.py:91-112 | a manifest whose cleaned text has no `.package(` yields no dependency |
| Manifest.SectionWithout | swift_package_analyzer/analysis/dependencies.py:127-140 | the section is a substring of the text, so it lacks whatever the text lacks |
| Manifest.SectionOfBracket | swift_package_analyzer/analysis/dependencies.py:127-140 | in `dependencies: [d]` with a `]`-free `d`, the section is exactly `d` |
| Manifest.UrlArgFirst | swift_package_analyzer/analysis/dependencies.py:170-174 | the quoted `url:` argument written right after `.package(` is the one the search reports |
| Manifest.TidyAppend | swift_package_analyzer/analysis/dependencies.py:114-125 | text with no comment opening and no stray white space stays so when two such texts are joined |
| Manifest.TidyIsClean | swift_package_analyzer/analysis/dependencies.py:114-125 | such text comes out of the cleaning unchanged |
| Manifest.SshManifestIsClean | swift_package_analyzer/analysis/dependencies.py:114-125 | the one-dependency manifest `dependencies: [.package(url: "git@github.com:owner/repo.git", from: "1.0.0")]` is already clean |
| Manifest.SshSection | swift_package_analyzer/analysis/dependencies.py:97-100 | that manifest's section is its single declaration, and the declaration search finds it once |
| Manifest.SshDependency | swift_package_analyzer/analysis/dependencies.py:160-204 | that declaration parses to a dependency with the SSH URL, owner `owner` and repository `repo` |
| Manifest.SshManifestEndToEnd | swift_package_analyzer/analysis/dependencies.py:91-112 | from end to end, that manifest yields exactly one dependency, with its URL, resolved to `owner` and `repo`, when `repo` does not end in `.`, `g`, `i` or `t` |
| Manifest.SshManifestExample | swift_package_analyzer/analysis/dependencies.py:91-112 | the same manifest with owner `o` and repository `r` yields one dependency resolved to `o`/`r` |
| Identity.CleanUrlDropsCharSet | swift_package_analyzer/analysis/dependencies.py:42 | `rstrip(".git")` removes exactly the longest trailing run of `.`, `g`, `i`, `t` |
| Identity.SwiftLogLosesItsG | swift_package_analyzer/analysis/dependencies.py:42 | `…/swift-log.git` becomes `…/swift-lo` |
| Identity.MatchAt | swift_package_analyzer/analysis/dependencies.py:45-46 | a match at `i` starts with `github.com` and captures two non-empty `/`-free groups |
| Identity.Search | swift_package_analyzer/analysis/dependencies.py:50-53 | a reported pair is the pattern's match at some position, and nothing is reported only when no position matches |
| Identity.SearchFindsFirst | swift_package_analyzer/analysis/dependencies.py:51 | `re.search` reports the match at the first position where the pattern matches |
| Identity.ParseGithubUrl | swift_package_analyzer/analysis/dependencies.py:38-57 | the identity is a pair of non-empty `/`-free segments, and is absent exactly when no position of the stripped URL matches |
| Identity.SlashMatchIsColonMatch | swift_package_analyzer/analysis/dependencies.py:45-48 | a match of the `/` pattern is a match of the `[:/]` pattern with the same groups |
| Identity.SecondPatternSubsumed | swift_package_analyzer/analysis/dependencies.py:45-55 | the second pattern never matches where the first did not |
| Identity.ParseIsFirstPattern | swift_package_analyzer/analysis/dependencies.py:38-57 | resolution is exactly the first `[:/]` match of the stripped URL |
| Identity.NonGithubIsUnresolved | swift_package_analyzer/analysis/dependencies.py:55 | a URL without `github.com` resolves to `(None, None)` |
| Identity.PlainGithubUrlResolves | swift_package_analyzer/analysis/dependencies.py:38-57 | `https://github.com/owner/repo` resolves to `(owner, repo)` when `repo` does not end in `.`, `g`, `i` or `t` |
| Identity.SshGithubUrlResolves | swift_package_analyzer/analysis/dependencies.py:38-57 | `git@github.com:owner/repo.git` resolves to `(owner, repo)` when `repo` does not end in `.`, `g`, `i` or `t` |
| Identity.NewDependency | swift_package_analyzer/analysis/dependencies.py:33-36 | resolution runs exactly when the URL is non-empty and no owner is preset (an empty owner counts as unset); otherwise the preset pair is kept. The duplicate copy in `src/dependencies.py` (lines 26-50) strips the same character set, tries the same two patterns, and yields `(None, None)` when nothing matches |
| Identity.PresetOwnerIsKept | src/dependencies.py:27-29 | a preset owner wins over whatever the URL says |
| Graph.PredecessorList | swift_package_analyzer/analysis/dependencies.py:442 | the enumeration holds exactly the nodes with an edge into `p`, each once |
| Graph.PredecessorListCounts | swift_package_analyzer/analysis/dependencies.py:391-393 | in a valid graph the enumeration's length is the number of distinct predecessors |
| Graph.Target | swift_package_analyzer/analysis/dependencies.py:310-311 | a target exists exactly when the owner and the repo are both non-empty, and it is `owner/repo` |
| Graph.LastDeclaration | swift_package_analyzer/analysis/dependencies.py:322-327 | some declaration of an edge is found exactly when the steps declare that edge |
| Graph.RunContents | swift_package_analyzer/analysis/dependencies.py:296-327 | the built graph's nodes are the old ones plus every node the steps introduce, and its edges the old ones plus every declared edge |
| Graph.RunEdgeAttrs | swift_package_analyzer/analysis/dependencies.py:322-327 | each edge carries its last declaration's kind and version; undeclared edges keep theirs |
| Graph.RunExternal | swift_package_analyzer/analysis/dependencies.py:298-319 | an existing node's `external` flag never changes, and a new node is external exactly when a placeholder introduced it first |
| Graph.RunValid | swift_package_analyzer/analysis/dependencies.py:296-327 | every edge joins two nodes, and the node list enumerates the nodes once, throughout construction |
| Graph.RunTwiceSameSets | swift_package_analyzer/analysis/dependencies.py:292-327 | replaying the same steps over the built graph changes no node set, no edge set and no edge attribute |
| Tree.NewNode | swift_package_analyzer/analysis/dependencies.py:60-82 | a new node has the given fields, empty lists for absent ones, depth 0 and no metrics; the duplicate node class in `src/dependencies.py` (lines 53-75) has the same defaults |
| Tree.Put | swift_package_analyzer/analysis/dependencies.py:290 | assigning a cache key replaces its value; a new key goes last and an existing key keeps its place |
| Tree.NodeFor | swift_package_analyzer/analysis/dependencies.py:266-288 | a row's node has id `owner/name`, missing counts read as 0, and a manifest is parsed only when its text is non-empty |
| Tree.BuildCacheContents | swift_package_analyzer/analysis/dependencies.py:254-290 | each key holds the node of its last completed row, or its old node; the keys are the old ones plus the completed rows' ids |
| Tree.BuildCacheKeepsOrder | swift_package_analyzer/analysis/dependencies.py:290 | rows whose ids are already cached leave the key order alone |
| Tree.AddDependentsContents | swift_package_analyzer/analysis/dependencies.py:329-333 | appending dependents changes nothing else, and a known target's distinct new dependents are the sources of its declared edges |
| Tree.DeclaredPairsMeaning | swift_package_analyzer/analysis/dependencies.py:309-311 | a pair is declared exactly when its package is known and one of its declarations resolves to the target |
| Tree.PackageStepsContents | swift_package_analyzer/analysis/dependencies.py:296-327 | the loop introduces exactly the known packages and their resolved targets, and declares exactly the resolved pairs |
| Tree.GraphContents | swift_package_analyzer/analysis/dependencies.py:292-333 | every known package and every resolved target becomes a node, and the edges are the resolved pairs, so an unresolved declaration adds none |
| Tree.DependentsArePredecessors | swift_package_analyzer/analysis/dependencies.py:329-333 | built fresh, a known package's distinct dependents are exactly its graph predecessors |
| Tree.Metrics | swift_package_analyzer/analysis/dependencies.py:335-353 | every cached package in the graph gets its reference depth and its out- and in-degree, and nothing else changes |
| Tree.BuildDependencyTree | swift_package_analyzer/analysis/dependencies.py:242-252 | without a refresh, a filled cache is returned unchanged, and the analyzer stays well formed |
| Tree.BuildShape | swift_package_analyzer/analysis/dependencies.py:242-252 | a build's cache is the rebuilt cache up to dependents and metrics, and its graph is the step replay over that cache |
| Tree.BuildCacheTwice | swift_package_analyzer/analysis/dependencies.py:254-290 | rebuilding a rebuilt cache from the same rows changes nothing |
| Tree.RebuildIsIdempotent | swift_package_analyzer/analysis/dependencies.py:242-252 | rebuilding from the same rows reproduces the node set, the edge set, every edge's attributes and every depth |
| Tree.DepthSameKeys | swift_package_analyzer/analysis/dependencies.py:355-379 | depth depends only on the node and edge sets |
| Tree.TreeDepths | swift_package_analyzer/analysis/dependencies.py:242-252 | after a build every cached package is a graph node whose depth is the reference depth |
| Bfs.DepthFacts | swift_package_analyzer/analysis/dependencies.py:355-379 | each level below the depth reaches a new node, and the level after the depth reaches none |
| Bfs.DepthMeaning | swift_package_analyzer/analysis/dependencies.py:355-379 | everything reachable lies within `Depth` edges, and a non-zero depth is the exact distance of some node |
| Bfs.StrictBelow | swift_package_analyzer/analysis/dependencies.py:355-379 | every level below the depth misses some node of the depth's level, so the depth is the greatest shortest distance |
| Bfs.DepthZeroIff | swift_package_analyzer/analysis/dependencies.py:358-359 | the depth is 0 exactly when the node is absent or has no successor besides itself |
| Bfs.DepthBound | swift_package_analyzer/analysis/dependencies.py:355-379 | the depth is at most the node count minus one |
| Bfs.QueueSuccessors | swift_package_analyzer/analysis/dependencies.py:375-377 | every unvisited successor is queued one level deeper, keeping the search invariant |
| Bfs.Visit | swift_package_analyzer/analysis/dependencies.py:367-377 | visiting the head keeps the invariant and shrinks the set of unvisited nodes, so the search ends |
| Bfs.BfsDepth | swift_package_analyzer/analysis/dependencies.py:355-382 | the breadth-first search with one visited set returns the reference depth: the greatest shortest-path distance |
| Impact.SumOverAtLeast | swift_package_analyzer/analysis/dependencies.py:442-445 | each predecessor adds at least 1 |
| Impact.IndirectAtLeastDirect | swift_package_analyzer/analysis/dependencies.py:428-447 | the indirect impact is at least the direct count, and is 0 exactly when the node is on the path, absent, or has no predecessor |
| Impact.IndirectAntitone | swift_package_analyzer/analysis/dependencies.py:435-445 | a longer path never increases the count |
| Impact.ChainImpact | swift_package_analyzer/analysis/dependencies.py:428-447 | in `a -> b -> c` the end has one direct dependent and indirect impact 2 |
| Impact.DiamondImpact | swift_package_analyzer/analysis/dependencies.py:428-447 | in the diamond, the bottom's shared dependent `a` is counted once per path, for indirect impact 4 |
| Impact.CycleImpact | swift_package_analyzer/analysis/dependencies.py:435-445 | in a two-node cycle the back edge still adds 1, for indirect impact 2 |
| Impact.RecordFor | swift_package_analyzer/analysis/dependencies.py:391-409 | a record's direct count is the predecessor count, its total is direct plus indirect, and its dependency count counts every declaration |
| Impact.Records | swift_package_analyzer/analysis/dependencies.py:388-410 | records exist for exactly the cached packages present in the graph |
| Impact.RecordsAppend | swift_package_analyzer/analysis/dependencies.py:388-410 | the records of two runs of the cache order are those of the first followed by those of the second, so there is one record per package, in cache order |
| Impact.RecordsOne | swift_package_analyzer/analysis/dependencies.py:388-410 | one cached package gives its record exactly when it is in the graph |
| Impact.ImpactAnalysis | swift_package_analyzer/analysis/dependencies.py:384-426 | the report permutes the records, sorted by total impact from largest down, keeps the input order among equal totals, and counts totals over 5 and direct counts over 10 |
| Impact.ReportCoversGraphPackages | swift_package_analyzer/analysis/dependencies.py:388-389 | a package is reported exactly when it is cached and in the graph |
| Impact.SummaryCountsRecords | swift_package_analyzer/analysis/dependencies.py:415-426 | the summary counts do not depend on the sort |
| Sorting.SortCorrect | swift_package_analyzer/analysis/dependencies.py:413 | the sort orders by key, permutes its input, and is stable on equal keys |
| Sorting.SortedPrefixSmallest | swift_package_analyzer/analysis/analyzer.py:289 | cutting the sorted list keeps the elements with the smallest keys |
| Sorting.WithKeyPrefix | swift_package_analyzer/analysis/analyzer.py:289 | cutting a list keeps, for every key, a prefix of the elements with that key in their order |
| Sorting.SortPrefixMultiset | swift_package_analyzer/analysis/analyzer.py:289 | a cut of the sorted list holds input elements no more often than the input does, and the uncut list holds them all |
| Url.Sanitize | swift_package_analyzer/data/fetcher.py:83 | `urlparse` deletes tab, carriage return and newline everywhere, and leaves input without them that does not start with a control character or space unchanged |
| Url.SplitScheme | swift_package_analyzer/data/fetcher.py:83 | a scheme is the lowered text before the first `:` and the rest follows it; without one the URL is untouched |
| Url.SplitNetloc | swift_package_analyzer/data/fetcher.py:83-84 | after `//` the network location runs to the first `/`, `?` or `#` |
| Url.SplitParams | swift_package_analyzer/data/fetcher.py:83-84 | the parameters start at a `;` and the path and parameters together rebuild the text |
| Url.Parse | swift_package_analyzer/data/fetcher.py:83-84 | the network location has no stop character, the path has no query or fragment, and an unmatched bracket fails |
| Fetcher.DropGit | swift_package_analyzer/data/fetcher.py:76 | the packaged copy removes `.git` occurrences without adding characters; the legacy copy in `fetcher.py` (line 58) strips a trailing run of `.`, `g`, `i`, `t` |
| Fetcher.ParseRepoUrl | swift_package_analyzer/data/fetcher.py:69-89 | a parsed pair is two `/`-free segments from a Swift Package Index URL or a `github.com` host; anything else raises the unparsable-URL error, or `urlparse`'s invalid-IPv6 error |
| Fetcher.GithubRoundTrip | swift_package_analyzer/data/fetcher.py:83-87 | `https://github.com/owner/repo` parses back to `(owner, repo)`; in the legacy copy in `fetcher.py` (lines 65-69) the repository name loses its trailing `.`, `g`, `i`, `t` characters |
| Fetcher.GithubGitSuffix | swift_package_analyzer/data/fetcher.py:83-87 | a `.git` suffix is removed by the packaged copy |
| Fetcher.JwtExample | fetcher.py:51-71 | `https://github.com/vapor/jwt` gives `jw` in the legacy copy and `jwt` in the packaged one |
| Fetcher.SpiRoundTrip | swift_package_analyzer/data/fetcher.py:72-80 | a Swift Package Index URL yields its first two segments, with no `urlparse` involved |
| Fetcher.OwnerOnlyFails | swift_package_analyzer/data/fetcher.py:83-89 | a GitHub URL naming only an owner raises, in the packaged copy and in the legacy copy in `fetcher.py` (lines 63-71) |
| Fetcher.NoSegmentsFails | swift_package_analyzer/data/fetcher.py:83-89 | a host that is not GitHub, or a path with fewer than two segments, raises |
| Fetcher.ToolsField | swift_package_analyzer/data/fetcher.py:237-241 | a line yields a field exactly when it mentions `swift-tools-version` and holds a `:` |
| Fetcher.ToolsVersionInFirst | swift_package_analyzer/data/fetcher.py:235-243 | the version comes from the first line that has such a field, and is absent exactly when no line has one; the legacy copy in `fetcher.py` (lines 137-145) scans the lines the same way |
| Fetcher.ToolsVersionInFound | swift_package_analyzer/data/fetcher.py:235-243 | a found version is the field of some line, and no earlier line has a field |
| Fetcher.ToolsVersionInNone | swift_package_analyzer/data/fetcher.py:235-243 | when no version is found, no line has a field |
| Fetcher.ToolsHeader | swift_package_analyzer/data/fetcher.py:235-243 | the header `// swift-tools-version:5.9` yields the stripped `5.9` |
| Fetcher.BasicDeclarations | swift_package_analyzer/data/fetcher.py:252 | each match starts with `.package(`, has an argument, and ends at the first `)` |
| Fetcher.BasicAreDeclarationsWithArguments | swift_package_analyzer/data/fetcher.py:252 | the fetchers' pattern finds exactly the manifest parser's declarations that have arguments |
| Fetcher.EntryOf | swift_package_analyzer/data/fetcher.py:254-268 | an entry is kept exactly when a `url:` or `from:` string is found; its version is then `from: X` |
| Fetcher.ExtractDependencies | swift_package_analyzer/data/fetcher.py:245-270 | the entries are exactly the kept entries of the matched declarations, and the legacy copy in `fetcher.py` (lines 147-172) extracts the same entries |
| Fetcher.EntriesAppend | swift_package_analyzer/data/fetcher.py:254-268 | the entries of two lists of declarations are the first list's entries followed by the second's, so order and multiplicity follow the declarations |
| Fetcher.EntriesOne | swift_package_analyzer/data/fetcher.py:254-268 | one declaration gives its entry when a `url:` or `from:` string is found, and nothing otherwise |
| Fetcher.FieldsOf | swift_package_analyzer/data/fetcher.py:112-125 | the manifest flag says whether the file was fetched, the other fields are filled only for non-empty text, and the count is the length of the list; the legacy copy in `fetcher.py` (lines 103-117) extracts twice and gets the same list and count |
| Fetcher.ProcessRepository | swift_package_analyzer/data/fetcher.py:297-367 | a repository fetched within 24 hours is skipped before any fetch, and the outcome is a success exactly when the repository was not recent, a record was fetched, and both the record commit and the processing-log commit went through |
| Fetcher.LegacyIsNotError | fetcher.py:195-256 | the legacy success flag is "not an error", so a recent fetch counts as a success |
| Fetcher.ProcessBatch | swift_package_analyzer/data/fetcher.py:393-433 | each URL adds one to exactly one of success, error and skipped, so the counts add up to the batch size |
| Fetcher.StoredAfter | swift_package_analyzer/data/fetcher.py:308-389 | after an attempt a row exists exactly when one did or the attempt committed the repository row, a committed row carries the attempt's time as `last_fetched` even when the log commit after it failed, and the only change an attempt makes is writing that time, which a skip never does |
| Fetcher.LogFailureKeepsNewRow | swift_package_analyzer/data/fetcher.py:341-378 | a new repository whose record commit goes through and whose log commit fails is an error and stays stored with `last_fetched` set; a failed record commit leaves it unstored |
| Fetcher.BatchAttempts | swift_package_analyzer/data/fetcher.py:404-405 | the attempt at each position carries that position's clock reading and fetch and write outcomes |
| Fetcher.FirstCopySeesInitial | swift_package_analyzer/data/fetcher.py:303-312 | the first copy of a URL in a batch sees the row the batch started with |
| Fetcher.RepeatSeesEarlierWrite | swift_package_analyzer/data/fetcher.py:326-378 | a later copy of a URL sees the row its previous copy left |
| Fetcher.RepeatAfterSuccessSkipped | swift_package_analyzer/data/fetcher.py:308-312 | a URL that succeeded is skipped when it comes again less than 24 hours later in the same batch |
| Fetcher.RepeatAfterCommitSkipped | swift_package_analyzer/data/fetcher.py:308-312 | the same for any earlier copy that committed its row, including one that ended as an error because its log commit failed |
| Fetcher.LegacyProcessBatch | fetcher.py:282-295 | success and error add up to the batch size, with skips among the successes |
| Models.Values | src/models.py:40-43 | the values list each member's value in declaration order |
| Models.StateOf | src/models.py:40-43 | a stored value names a member exactly when it is one of the values |
| Models.StateValuesFacts | src/models.py:28-62 | there are 8 distinct values; each names its own member; the keys of `descriptions()` are exactly the values; the default state is one of them |
| Models.SegmentLength | src/models.py:136-137 | a greedy `[\w\-\.]*` stops exactly at the first character outside the class |
| Models.PatternOnForm | src/models.py:136-137 | on `https://github.com/<owner>/<repo>` text, the pattern accepts exactly an optional `/` followed by the end or by a final newline |
| Models.RepoPatternAccepts | src/models.py:136-137 | every allowed ending is accepted |
| Models.RepoParts | src/models.py:136-137 | an accepted URL is exactly prefix, owner segment, `/`, repository segment and ending |
| Models.ValidateUrl | src/models.py:131-138 | a missing or empty URL is rejected as required; otherwise it passes exactly when the pattern accepts it with trailing `/` removed, and the error quotes the URL as given |
| Models.ValidateUrlAccepts | src/models.py:131-138 | any number of trailing slashes is accepted |
| Models.ValidateUrlRejectsDeeper | src/models.py:131-138 | a path below the repository is rejected |
| Models.ValidateUrlAcceptsNewline | src/models.py:136-137 | a URL ending in one newline is accepted |
| Models.Validate | src/models.py:140-148 | validation checks the URL first, then a non-blank owner, then a non-blank name, and reports the first failure |
| Models.ValidateConsistentRecord | src/models.py:140-148 | a record whose URL is built from its own owner and name validates |
| Models.TransitionState | src/models.py:150-175 | an unknown state fails before anything changes; otherwise the state is replaced, `(old, new)` is returned, and a transition row with the given reason, changer and issue is logged exactly when a session is passed |
| Models.TransitionKeepsRecord | src/models.py:159-160 | a transition leaves a valid state and touches nothing that validation reads |
| Models.TransitionUndo | src/models.py:150-175 | moving back to the returned old state restores the record, and the second row logs the reverse move |
| Models.TransitionIdempotent | src/models.py:150-175 | repeating a transition changes nothing more, and the repeat reports the state as both old and new |
| Community.SpaceRun | src/community_input.py:34 | `\s*` consumes exactly the leading white-space run |
| Community.BlockLength | src/community_input.py:56-57 | the lazy group stops at the first place where `\n###`, `\n---` or the end follows |
| Community.Search | src/community_input.py:33-57 | a field is found only where its heading occurs |
| Community.KeptContext | src/community_input.py:60-63 | the context is kept exactly when it is present, non-empty and not `_No response_` |
| Community.ParseIssueBody | src/community_input.py:26-89 | a request exists exactly when the four required headings yield values and the lowered status is a known state; its fields are those values, the lowered status and the kept context; a missing body gives none |
| Community.MissingHeadingRejected | src/community_input.py:65-76 | a body lacking any required heading is no request |
| Community.LineFieldIsFirstLine | src/community_input.py:33-52 | a field is the first non-blank line after its heading with trailing white space removed, so it is non-empty unless only white space follows |
| Community.LineHere | src/community_input.py:33-35 | a one-line value after a blank line reads back as itself |
| Community.BlockHere | src/community_input.py:55-58 | a one-line context that ends the text reads back as itself |
| Community.HeadingTakenAsValue | src/community_input.py:33-40 | an owner left empty takes the next heading as its value |
| Community.FormFields | src/community_input.py:26-63 | every field of a rendered form reads back as filled in |
| Community.IssueFormRoundTrip | src/community_input.py:26-89 | reading back a rendered form gives the request filled in, with the status lowered and an empty context dropped |
| Community.ParseFromFields | src/community_input.py:65-86 | a body whose fields hold given values parses to the request built from them |
| Community.IssueFormBadStatus | src/community_input.py:78-83 | a status outside the known states makes the form unreadable |
| Community.DetailFor | src/community_input.py:231-268 | an issue outside the dataset fails with a fixed message; a dry run reports the transaction it would create; otherwise the result of creating it is reported |
| Community.ProcessStatusUpdates | src/community_input.py:214-270 | each issue adds one detail and counts as exactly one success or failure, with the details in issue order |
| Community.SuccessCountAppend | src/community_input.py:214-270 | each further issue adds one success exactly when it succeeds |
| Priority.MaxOf | swift_package_analyzer/analysis/analyzer.py:259-286 | the column maximum is an element at least as large as every value |
| Priority.MaxPresent | swift_package_analyzer/analysis/analyzer.py:272-273 | the maximum skips missing values, and is absent only when all are missing |
| Priority.MaximaOf | swift_package_analyzer/analysis/analyzer.py:259-286 | every row lies below the maxima, and the day maximum is absent exactly when no row has a push date |
| Priority.Score | swift_package_analyzer/analysis/analyzer.py:256-286 | the score is the sum of the four weighted factors, and is undefined exactly where the recency term is |
| Priority.ScoreBounds | swift_package_analyzer/analysis/analyzer.py:258-286 | over non-negative data each factor lies between 0 and its weight, so the score lies in [0, 1] |
| Priority.ScoreMonotoneInStars | swift_package_analyzer/analysis/analyzer.py:259-262 | more stars, everything else equal, never lower the score |
| Priority.ScoredRows | swift_package_analyzer/analysis/analyzer.py:272-289 | the scored rows are exactly the rows with a defined score, each paired with that score |
| Priority.ScoredRowsAppend | swift_package_analyzer/analysis/analyzer.py:272-289 | splitting the data splits the scored rows the same way, so they keep input order and multiplicity |
| Priority.ScoredRowsOne | swift_package_analyzer/analysis/analyzer.py:272-289 | one row is kept with its score exactly when the score is defined |
| Priority.NoPushDatesScoresAll | swift_package_analyzer/analysis/analyzer.py:272-280 | without any push date the recency factor is skipped, and every row is scored |
| Priority.UnscoredRows | swift_package_analyzer/analysis/analyzer.py:272-280 | the rows whose score is NaN are exactly those with no defined score, and with the scored rows they account for every row |
| Priority.UnscoredRowsAppend | swift_package_analyzer/analysis/analyzer.py:289 | the NaN-score rows of two concatenated inputs are those of the first followed by those of the second, so input order is kept |
| Priority.MissingPushRankedLast | swift_package_analyzer/analysis/analyzer.py:272-289 | when other rows have a push date at a positive distance, a row without one has a NaN score, is not among the scored rows, and is listed unless 50 records already are |
| Priority.UnscoredListedUnlessFull | swift_package_analyzer/analysis/analyzer.py:289 | a NaN-score row is listed whenever fewer than 50 records are |
| Priority.ScoredListedUnlessOutranked | swift_package_analyzer/analysis/analyzer.py:289 | a row with a score is listed with it unless the list holds 50 records that all score at least as high |
| Priority.AssembleKeepsShort | swift_package_analyzer/analysis/analyzer.py:289 | with room for every row, the NaN-score rows follow the scored ones one for one |
| Priority.Top | swift_package_analyzer/analysis/analyzer.py:289 | at most 50 rows are listed, from the highest score down; none is listed more often than it is scored, and with at most 50 scored rows all of them are listed; among rows with equal scores the listed ones are the first ones in input order, in that order |
| Priority.TopAreLargest | swift_package_analyzer/analysis/analyzer.py:289 | no row left out outranks a listed one |
| Priority.LeftOutMeansFull | swift_package_analyzer/analysis/analyzer.py:289 | a scored row is left out only when more than 50 rows are scored and 50 are listed |
| Priority.ReasonsMeaning | swift_package_analyzer/analysis/analyzer.py:309-325 | each reason is listed exactly when its threshold holds, and only the four reasons occur |
| Priority.RationaleGeneralIff | swift_package_analyzer/analysis/analyzer.py:309-325 | the rationale is "General priority" exactly when no reason applies, and otherwise opens with the first reason that does |
| Priority.RationaleAllReasons | swift_package_analyzer/analysis/analyzer.py:311-325 | a package meeting every threshold lists the four reasons in order, joined by `; ` |
| Priority.PriorityAnalysis | swift_package_analyzer/analysis/analyzer.py:248-307 | an empty data set gives no records; otherwise as many records as rows up to 50: first the ranked scored rows, one record each, from the highest score down, then the NaN-score rows in input order, each the record of an input row with its own score |
| Priority.Entries | swift_package_analyzer/analysis/analyzer.py:291-305 | one record per ranked row, in rank order |
| Priority.UnscoredEntries | swift_package_analyzer/analysis/analyzer.py:291-305 | one NaN-score record per unscored row, in the given order |
| Priority.PriorityEntriesSound | swift_package_analyzer/analysis/analyzer.py:248-307 | over non-negative data every defined listed score lies in [0, 1], and each record names an input row with that row's own score (NaN included) and rationale |
| Refresh.Lookup | swift_package_analyzer/data/incremental_processor.py:34-36 | the first stored row for the URL, absent exactly when none is stored |
| Refresh.ThresholdDays | swift_package_analyzer/data/incremental_processor.py:50-57 | popular repositories use the popular threshold, moderately popular ones get 2 more days, and the rest use the default |
| Refresh.ShouldUpdate | swift_package_analyzer/data/incremental_processor.py:32-65 | unknown, unfinished or never-fetched repositories are due; otherwise a repository is due exactly when more than its threshold has elapsed |
| Refresh.ShouldUpdateLater | swift_package_analyzer/data/incremental_processor.py:59-60 | once due, a repository stays due as time passes |
| Refresh.FreshRowNotDue | swift_package_analyzer/data/incremental_processor.py:51-60 | a finished row fetched within its threshold is not due |
| Refresh.ShouldUpdateAsWritten | swift_package_analyzer/data/incremental_processor.py:32-51 | against the configuration object as defined, the rule fails exactly for stored, finished rows that were fetched once; in every other case it says "due" |
| Refresh.ShouldUpdateAsWrittenAgrees | swift_package_analyzer/data/incremental_processor.py:38-48 | where the code as written does not fail, it agrees with the corrected rule for every configuration |
| Refresh.Due | swift_package_analyzer/data/incremental_processor.py:74-76 | the due URLs are exactly the input URLs that need an update |
| Refresh.DueAppend | swift_package_analyzer/data/incremental_processor.py:74-76 | splitting the input splits the due URLs the same way, so they keep input order and multiplicity |
| Refresh.DueOne | swift_package_analyzer/data/incremental_processor.py:74-76 | one URL is kept exactly when it is due |
| Refresh.IncrementalSelection | swift_package_analyzer/data/incremental_processor.py:70-100 | the result is a prefix of the due URLs in priority order (so a sub-multiset of the due URLs), ordered by the key, and its length is the cut at `batch_size * 10` |
| Refresh.KeyOrder | swift_package_analyzer/data/incremental_processor.py:79-95 | the key order puts new URLs first, then the longest unrefreshed, then the most popular |
| Refresh.IncrementalSelectionKeepsFirst | swift_package_analyzer/data/incremental_processor.py:97-100 | a due URL that the cut leaves out does not come before any kept one |
| Refresh.NewUrls | swift_package_analyzer/data/simple_processor.py:38-39 | the new URLs are exactly the input URLs with no stored row |
| Refresh.NewKeyIsNew | swift_package_analyzer/data/incremental_processor.py:81-82 | the URLs with the new-URL key are exactly the new URLs |
| Refresh.NewUrlsOfDue | swift_package_analyzer/data/incremental_processor.py:38-40 | every new URL is due |
| Refresh.NewUrlsKeepInputOrder | swift_package_analyzer/data/incremental_processor.py:97 | the stable sort keeps the new URLs at the front, in input order |
| Refresh.Limit | swift_package_analyzer/data/simple_processor.py:33 | a limit keeps a prefix of that length, and a negative limit keeps everything |
| Refresh.RowsAmong | swift_package_analyzer/data/simple_processor.py:26 | the rows queried are exactly the stored rows whose URL is among the input |
| Refresh.RowsAmongAppend | swift_package_analyzer/data/simple_processor.py:24-26 | splitting the table splits the queried rows the same way: table order, one entry per stored row |
| Refresh.RowsAmongOne | swift_package_analyzer/data/simple_processor.py:26 | one row is queried exactly when its URL is among the input |
| Refresh.StaleRows | swift_package_analyzer/data/simple_processor.py:24-33 | the query returns stored rows among the input, ordered never fetched first and then by age, each stored row at most once, all of them when the limit allows, and `chunk_size` of them otherwise |
| Refresh.StaleUrls | swift_package_analyzer/data/simple_processor.py:35 | the stale URLs are the queried rows' URLs in query order, all stored input URLs |
| Refresh.StaleUrlsAreStored | swift_package_analyzer/data/simple_processor.py:24-35 | the stale part holds stored input URLs, at most `chunk_size` of them |
| Refresh.StaleUrlsNeverFetchedFirst | swift_package_analyzer/data/simple_processor.py:27-32 | rows never fetched come before rows fetched at some time |
| Refresh.ChunkSelection | swift_package_analyzer/data/simple_processor.py:19-48 | the selection takes input URLs, new ones before stored ones, with the new ones in input order; its length is the cut at `chunk_size` |
| Refresh.ChunkSelectionParts | swift_package_analyzer/data/simple_processor.py:35-43 | after the new URLs the selection reads the stale URLs from their start, in query order, and a position holds an unstored URL exactly when it lies in the new part, so the two parts are disjoint |
| Refresh.NewUrlsFirst | swift_package_analyzer/data/simple_processor.py:42-43 | a new URL left out means the chunk is full of new URLs |
| Refresh.ProcessChunk | swift_package_analyzer/data/simple_processor.py:53-75 | an empty selection reports nothing to refresh and skips every URL; otherwise it reports the selection size, the available total and the tallies of successes and errors of the selected URLs processed one after another |
| Refresh.InitialStored | swift_package_analyzer/data/fetcher.py:303-308 | a URL starts the chunk stored exactly when the table has a row for it, with that row's `last_fetched` |
| Refresh.RepeatedNewUrlCountsOnce | swift_package_analyzer/data/simple_processor.py:39-75 | a new URL given twice is selected twice and, after one success, counted once: one success and one skip |
| Refresh.RepeatedNewUrlAfterLogFailure | swift_package_analyzer/data/simple_processor.py:39-75 | when the first copy's log commit fails after its row was committed, the second copy is still skipped: one error, one skip, no success |
| Refresh.BucketsPartitionRow | swift_package_analyzer/data/simple_processor.py:84-113 | each row falls in exactly one freshness bucket |
| Refresh.RefreshStatusOf | swift_package_analyzer/data/simple_processor.py:77-130 | the bucket counts add up to the total, and the completed count is at most the total |
| Refresh.BucketsAddUp | swift_package_analyzer/data/simple_processor.py:84-113 | the four bucket counts add up to the row count |

## Left out

- Database sessions, queries and commits become input sequences, and the network becomes the observed outcome of each fetch. This covers the GitHub API, rate limits, retries and sleeps. Logging is dropped.
- `networkx.DiGraph` becomes an explicit node list with node and edge attribute maps.
- Configuration values, the current time, and the days since the last push are parameters. Times are integer microseconds.
- Floating point: the priority score uses exact reals, so `round(…, 3)` is not modelled.
- pandas, charts, the CLI and the report writers are not part of this model. JSON serialisation is dropped too: the fetchers' `json.dumps` of the dependency list is modelled as the list itself.
- The order that pandas and SQLite give rows tied on every sort key is not modelled. The model keeps table order.
- `DependencyVisualizer` is not part of this model.
- The checkpoint batch loop of the incremental processor is not part of this model. This covers `process_incremental_batch`, the checkpoint methods and `get_processing_status`. It depends on the database and on sleeps.
- These inputs are parameters of the modelled operations: `validate_repository_exists`, `get_status_update_issues`, `create_status_transaction` and `get_transactions_summary`.
- Fetcher metadata beyond the manifest fields is not modelled. That includes stars, topics, licence and the extra fields of the legacy dictionary.
- Fetcher.FieldsOf: the `dependencies_count = 0` branch for an exception during extraction is not modelled. Extraction cannot raise in the model.
- Fetcher.ProcessRepository: the record contents it stores and the error log rows are not modelled. Only the outcome is.
- Models.ValidateUrl: `\w` is modelled as ASCII letters, digits and `_`. Python's Unicode word characters are not modelled.
- Text.LowerStr: `str.lower` is modelled as ASCII lowering plus the KELVIN SIGN. Other characters are kept, which no comparison against ASCII text can tell apart.
- Url.Parse: the NFKC check on the network location and the detailed validation of bracketed hosts are simplified to the unmatched-bracket rejection.
- Community.ParseIssueBody: exceptions other than a missing body cannot arise in the model, so the catch-all `except` is represented only by that case.
- Priority.PriorityAnalysis: the dictionary records keep the fields that the score and rationale read. `round` is not applied, and a NaN score stays undefined (`None`) rather than a float NaN.
- Fetcher.StoredAfter: the `last_fetched` written is the attempt's own clock reading, while the source reads the clock again a moment later; rows changed by anything other than the batch itself are not modelled; the error handler's own commit is taken to succeed, so the case where it fails too and the exception leaves `process_repository` is not modelled.
- Refresh.ShouldUpdate: takes the three staleness settings as a `Config` parameter. The configuration class (`swift_package_analyzer/core/config.py`, lines 16-51) defines none of them, so the source raises `AttributeError` where the model compares against a threshold, and `get_repositories_for_incremental_update` (`Refresh.IncrementalSelection`) raises with it as soon as one stored URL reaches that comparison (see Findings; `Refresh.ShouldUpdateAsWritten` models that failure).
- Priority.PriorityAnalysis: when there are at most 50 rows, pandas sorts with an unstable quicksort, so the order of equal scores is not fixed by the code; the model orders ties stably, as pandas does when it cuts more than 50 rows.
- Bfs.BfsDepth: successors are taken in any order, because `networkx` order is not modelled. The result is proved independent of it.

## Findings

| source | as written | input that shows it | evidently intended | confidence | as-written member | corrected member |
|---|---|---|---|---|---|---|
| swift_package_analyzer/data/incremental_processor.py:51 | reads `config.staleness_threshold_days` (and, below it, `popular_repo_threshold_stars` and `popular_repo_staleness_days`), none of which the `Config` class in `core/config.py` (lines 16-51) declares | a stored row with status `completed` and a `last_fetched` time: the lookup raises `AttributeError` (`Refresh.ShouldUpdateAsWrittenExample`) | the three settings are configuration fields, and the threshold rule decides whether the row is due | not executed | Refresh.ShouldUpdateAsWritten | Refresh.ShouldUpdate |

=== FILE: bfs.dfy ===
/** Dependency depth: the reference definition by reachability levels and
    the breadth-first search of `_calculate_dependency_depth`. */
module Bfs {
  import opened Graph

  /** Targets of edges leaving `w`. */
  function Targets(g: Graph, w: set<string>): set<string> {
    set e | e in g.edges && e.0 in w :: e.1
  }

  /** The nodes reachable from `s` in at most `k` edges. */
  function Within(g: Graph, s: string, k: nat): set<string>
    decreases k
  {
    if k == 0 then {s} else Within(g, s, k - 1) + Targets(g, Within(g, s, k - 1))
  }

  /** `u` is exactly `k` edges away from `s`. */
  predicate AtLevel(g: Graph, s: string, u: string, k: nat) {
    u in Within(g, s, k) && (k > 0 ==> u !in Within(g, s, k - 1))
  }

  function Universe(g: Graph, s: string): set<string> {
    {s} + set e | e in g.edges :: e.1
  }

  lemma {:induction false} WithinInUniverse(g: Graph, s: string, k: nat)
    ensures Within(g, s, k) <= Universe(g, s)
    decreases k
  {
    if k > 0 { WithinInUniverse(g, s, k - 1); }
  }

  lemma {:induction false} WithinMono(g: Graph, s: string, i: nat, j: nat)
    requires i <= j
    ensures Within(g, s, i) <= Within(g, s, j)
    decreases j
  {
    if i < j { WithinMono(g, s, i, j - 1); }
  }

  lemma {:induction false} WithinMonoAll(g: Graph, s: string)
    ensures forall i: nat, j: nat :: i <= j ==> Within(g, s, i) <= Within(g, s, j)
  {
    forall i: nat, j: nat | i <= j ensures Within(g, s, i) <= Within(g, s, j) {
      WithinMono(g, s, i, j);
    }
  }

  lemma {:induction false} ProperSubsetCard(a: set<string>, b: set<string>)
    requires a <= b && a != b
    ensures |a| < |b|
  {
    var x :| x in b && x !in a;
    SubsetCard(a, b - {x});
    assert b == (b - {x}) + {x};
  }

  /** The levels of `s` as one function of the distance. */
  function Levels(g: Graph, s: string): nat -> set<string> {
    (j: nat) => Within(g, s, j)
  }

  /** A chain of sets, each inside `u`. */
  ghost predicate Bounded(f: nat -> set<string>, u: set<string>) {
    forall j: nat :: f(j) <= u
  }

  /** A chain of sets, each inside the next. */
  ghost predicate Growing(f: nat -> set<string>) {
    forall j: nat :: f(j) <= f(j + 1)
  }

  /** Step `j + 1` of the chain holds more than step `j`. */
  predicate Grows(f: nat -> set<string>, j: nat) {
    |f(j)| < |f(j + 1)|
  }

  lemma {:induction false} Growth(f: nat -> set<string>, u: set<string>, k: nat)
    requires Bounded(f, u) && Grows(f, k)
    ensures |u| - |f(k + 1)| < |u| - |f(k)|
    ensures |f(k + 1)| <= |u|
  {
    SubsetCard(f(k + 1), u);
  }

  /** The first step from `k` on after which the chain stops growing. */
  function Settle(f: nat -> set<string>, u: set<string>, k: nat): (r: nat)
    requires Bounded(f, u)
    ensures k <= r
    decreases |u| - |f(k)|
  {
    if !Grows(f, k) then k
    else
      Growth(f, u, k);
      Settle(f, u, k + 1)
  }

  /** In a growing chain, `Settle` stops at the first step from `k` on that
      adds nothing, and every step before it adds something. */
  lemma {:induction false} SettleFacts(f: nat -> set<string>, u: set<string>, k: nat)
    requires Bounded(f, u) && Growing(f)
    ensures f(Settle(f, u, k) + 1) == f(Settle(f, u, k))
    ensures forall j: nat :: k <= j < Settle(f, u, k) ==> Grows(f, j)
    decreases Settle(f, u, k) - k
  {
    if Grows(f, k) {
      Growth(f, u, k);
      SettleFacts(f, u, k + 1);
    } else {
      SubsetCard(f(k), f(k + 1));
      if f(k) != f(k + 1) { ProperSubsetCard(f(k), f(k + 1)); }
    }
  }

  /** `Settle` depends only on the chain's values. */
  lemma {:induction false} SettleSame(f1: nat -> set<string>, f2: nat -> set<string>, u: set<string>, k: nat)
    requires Bounded(f1, u) && forall j: nat :: f1(j) == f2(j)
    ensures Bounded(f2, u) && Settle(f1, u, k) == Settle(f2, u, k)
    decreases |u| - |f1(k)|
  {
    assert f1(k) == f2(k) && f1(k + 1) == f2(k + 1);
    if Grows(f1, k) {
      Growth(f1, u, k);
      SettleSame(f1, f2, u, k + 1);
    }
  }

  lemma {:induction false} SubsetCard(a: set<string>, b: set<string>)
    requires a <= b
    ensures |a| <= |b|
  {
    assert b == a + (b - a);
  }

  lemma {:induction false} LevelsChain(g: Graph, s: string)
    ensures Bounded(Levels(g, s), Universe(g, s)) && Growing(Levels(g, s))
  {
    forall j: nat ensures Within(g, s, j) <= Universe(g, s) && Within(g, s, j) <= Within(g, s, j + 1) {
      WithinInUniverse(g, s, j);
    }
  }

  /** The reference depth: the greatest shortest-path distance from `s` to a
      node it reaches, and 0 for a node absent from the graph. */
  function Depth(g: Graph, s: string): nat {
    if s !in g.attrs then 0
    else
      LevelsChain(g, s);
      Settle(Levels(g, s), Universe(g, s), 0)
  }

  /** Level `j + 1` reaches a node level `j` does not, for every level
      below the depth; the depth's next level adds nothing. */
  lemma {:induction false} DepthFacts(g: Graph, s: string)
    requires s in g.attrs
    ensures Within(g, s, Depth(g, s) + 1) == Within(g, s, Depth(g, s))
    ensures forall j: nat :: j < Depth(g, s) ==> |Within(g, s, j)| < |Within(g, s, j + 1)|
  {
    DepthStops(g, s);
    forall j: nat | j < Depth(g, s) ensures |Within(g, s, j)| < |Within(g, s, j + 1)| {
      DepthGrows(g, s, j);
    }
  }

  lemma {:induction false} DepthStops(g: Graph, s: string)
    requires s in g.attrs
    ensures Within(g, s, Depth(g, s) + 1) == Within(g, s, Depth(g, s))
  {
    LevelsChain(g, s);
    var f := Levels(g, s);
    var d := Settle(f, Universe(g, s), 0);
    SettleFacts(f, Universe(g, s), 0);
    assert f(d + 1) == Within(g, s, d + 1) && f(d) == Within(g, s, d);
  }

  lemma {:induction false} DepthGrows(g: Graph, s: string, j: nat)
    requires s in g.attrs && j < Depth(g, s)
    ensures |Within(g, s, j)| < |Within(g, s, j + 1)|
  {
    LevelsChain(g, s);
    var f := Levels(g, s);
    SettleFacts(f, Universe(g, s), 0);
    assert Grows(f, j);
    assert f(j) == Within(g, s, j) && f(j + 1) == Within(g, s, j + 1);
  }

  /** Once no new node is reached, none ever is. */
  lemma {:induction false} StableAfter(g: Graph, s: string, k: nat, j: nat)
    requires Within(g, s, k + 1) == Within(g, s, k)
    requires k <= j
    ensures Within(g, s, j) == Within(g, s, k)
    decreases j
  {
    if j > k { StableAfter(g, s, k, j - 1); }
  }

  /** Everything reachable is reached within `Depth` edges, and, unless the
      depth is 0, some node is exactly `Depth` edges away. */
  lemma {:induction false} DepthMeaning(g: Graph, s: string)
    requires s in g.attrs
    ensures forall j: nat :: Within(g, s, j) <= Within(g, s, Depth(g, s))
    ensures Depth(g, s) > 0 ==> exists u :: AtLevel(g, s, u, Depth(g, s))
  {
    var d := Depth(g, s);
    DepthFacts(g, s);
    forall j: nat ensures Within(g, s, j) <= Within(g, s, d) {
      if j <= d { WithinMono(g, s, j, d); } else { StableAfter(g, s, d, j); }
    }
    if d > 0 {
      assert |Within(g, s, d - 1)| < |Within(g, s, d)|;
      assert Within(g, s, d - 1) != Within(g, s, d);
      WithinMono(g, s, d - 1, d);
      var u :| u in Within(g, s, d) && u !in Within(g, s, d - 1);
      assert AtLevel(g, s, u, d);
    }
  }

  /** Some node of level `d` lies beyond level `j`. */
  predicate Beyond(g: Graph, s: string, d: nat, j: nat) {
    exists x :: x in Within(g, s, d) && x !in Within(g, s, j)
  }

  lemma {:induction false} StrictBelow(g: Graph, s: string)
    requires s in g.attrs
    ensures forall j: nat :: j < Depth(g, s) ==> Beyond(g, s, Depth(g, s), j)
  {
    var d := Depth(g, s);
    DepthFacts(g, s);
    forall j: nat | j < d ensures Beyond(g, s, d, j) {
      assert |Within(g, s, j)| < |Within(g, s, j + 1)|;
      GrowsBeyond(g, s, j, d);
    }
  }

  lemma {:induction false} GrowsBeyond(g: Graph, s: string, j: nat, d: nat)
    requires j < d && |Within(g, s, j)| < |Within(g, s, j + 1)|
    ensures Beyond(g, s, d, j)
  {
    WithinMono(g, s, j, j + 1);
    WithinMono(g, s, j + 1, d);
    assert Within(g, s, j) != Within(g, s, j + 1);
    var x :| x in Within(g, s, j + 1) && x !in Within(g, s, j);
    assert x in Within(g, s, d);
  }

  /** Depth 0 exactly when `s` is absent or has no successor besides itself. */
  lemma {:induction false} DepthZeroIff(g: Graph, s: string)
    ensures Depth(g, s) == 0 <==> s !in g.attrs || Successors(g, s) <= {s}
  {
    if s in g.attrs {
      LevelsChain(g, s);
      var f := Levels(g, s);
      assert Targets(g, {s}) == Successors(g, s);
      assert f(0) == {s} && f(1) == {s} + Successors(g, s);
      assert Depth(g, s) == 0 <==> !Grows(f, 0);
      if Successors(g, s) <= {s} {
        assert f(1) == f(0);
      } else {
        ProperSubsetCard(f(0), f(1));
      }
    }
  }

  /** The depth is at most the node count minus one. */
  lemma {:induction false} DepthBound(g: Graph, s: string)
    requires Valid(g) && s in g.attrs
    ensures Depth(g, s) < |g.attrs|
  {
    var d := Depth(g, s);
    LevelsGrow(g, s, d);
    WithinNodes(g, s, d);
    SubsetCard(Within(g, s, d), g.attrs.Keys);
  }

  lemma {:induction false} LevelsGrow(g: Graph, s: string, k: nat)
    requires s in g.attrs && k <= Depth(g, s)
    ensures |Within(g, s, k)| >= k + 1
    decreases k
  {
    if k > 0 {
      LevelsGrow(g, s, k - 1);
      DepthFacts(g, s);
      assert |Within(g, s, k - 1)| < |Within(g, s, k)|;
    }
  }

  lemma {:induction false} WithinNodes(g: Graph, s: string, k: nat)
    requires Valid(g) && s in g.attrs
    ensures Within(g, s, k) <= g.attrs.Keys
    decreases k
  {
    if k > 0 { WithinNodes(g, s, k - 1); }
  }

  lemma {:induction false} SuccessorNextLevel(g: Graph, s: string, v: string, w: string, k: nat)
    requires v in Within(g, s, k) && w in Successors(g, v)
    ensures w in Within(g, s, k + 1)
  {
    var e :| e in g.edges && e.0 == v && e.1 == w;
    assert w in Targets(g, Within(g, s, k));
  }

  /** A set holding `s` and closed under successors holds every level. */
  lemma {:induction false} ClosedHoldsLevels(g: Graph, s: string, visited: set<string>, k: nat)
    requires s in visited
    requires forall u, w :: u in visited && w in Successors(g, u) ==> w in visited
    ensures Within(g, s, k) <= visited
    decreases k
  {
    if k > 0 {
      ClosedHoldsLevels(g, s, visited, k - 1);
      forall w | w in Targets(g, Within(g, s, k - 1)) ensures w in visited {
        var e :| e in g.edges && e.0 in Within(g, s, k - 1) && e.1 == w;
        assert w in Successors(g, e.0);
      }
    }
  }

  /** The search's final state pins its answer to the reference depth. */
  lemma {:induction false} FinalDepth(g: Graph, s: string, visited: set<string>, m: nat, level: nat, u: string)
    requires s in g.attrs
    requires forall j: nat :: Within(g, s, j) <= visited
    requires visited <= Within(g, s, m) && visited <= Within(g, s, level)
    requires u in visited && AtLevel(g, s, u, m)
    ensures m == Depth(g, s)
  {
    var d := Depth(g, s);
    StrictBelow(g, s);
    DepthMeaning(g, s);
    WithinMonoAll(g, s);
    assert Within(g, s, d) <= Within(g, s, m);
    assert u in Within(g, s, d);
  }

  /** The queue holds depths `level` or `level + 1` in non-decreasing
      order, each entry within its depth of `s`. */
  ghost predicate QueueOk(g: Graph, s: string, queue: seq<(string, nat)>, level: nat) {
    && (forall i :: 0 <= i < |queue| ==> queue[i].1 == level || queue[i].1 == level + 1)
    && (forall i, j :: 0 <= i < j < |queue| ==> queue[i].1 <= queue[j].1)
    && (forall i :: 0 <= i < |queue| ==> queue[i].0 in Within(g, s, queue[i].1))
  }

  /** Everything nearer than `level` is visited, nothing beyond it is, and
      each node of `level` is visited or queued at that depth. */
  ghost predicate LevelsOk(g: Graph, s: string, queue: seq<(string, nat)>, visited: set<string>, level: nat) {
    && (level > 0 ==> Within(g, s, level - 1) <= visited)
    && visited <= Within(g, s, level)
    && (forall x :: x in Within(g, s, level) ==> x in visited || (x, level) in queue)
  }

  /** Successors of visited nodes (other than `except`) are visited or
      queued. */
  ghost predicate ClosedOk(g: Graph, queue: seq<(string, nat)>, visited: set<string>, level: nat,
                           except: set<string>) {
    forall u, w :: u in visited && u !in except && w in Successors(g, u) ==>
      w in visited || (w, level) in queue || (w, level + 1) in queue
  }

  /** The loop invariant of the search. `deepest` is a visited node exactly
      `maxDepth` edges from `s`. */
  ghost predicate Inv(g: Graph, s: string, queue: seq<(string, nat)>, visited: set<string>, level: nat,
                      maxDepth: nat, deepest: string) {
    && QueueOk(g, s, queue, level)
    && LevelsOk(g, s, queue, visited, level)
    && ClosedOk(g, queue, visited, level, {})
    && visited <= Within(g, s, maxDepth) && maxDepth <= level
    && (visited != {} ==> deepest in visited && AtLevel(g, s, deepest, maxDepth))
    && (visited == {} ==> queue == [(s, 0)])
  }

  /** The invariant while the successors of `v`, except those in `succ`, have
      been queued. */
  ghost predicate InnerInv(g: Graph, s: string, queue: seq<(string, nat)>, visited: set<string>, level: nat,
                           v: string, succ: set<string>) {
    && QueueOk(g, s, queue, level)
    && LevelsOk(g, s, queue, visited, level)
    && ClosedOk(g, queue, visited, level, {v})
    && succ <= Successors(g, v)
    && (forall w :: w in Successors(g, v) && w !in succ ==> w in visited || (w, level + 1) in queue)
    && v in visited && AtLevel(g, s, v, level)
  }

  lemma {:induction false} HeadFacts(g: Graph, s: string, queue: seq<(string, nat)>, visited: set<string>, level: nat,
                  maxDepth: nat, deepest: string)
    requires Inv(g, s, queue, visited, level, maxDepth, deepest)
    requires |queue| > 0
    ensures queue[0].1 == level || queue[0].1 == level + 1
    ensures maxDepth <= level
  {
  }

  lemma {:induction false} InvInit(g: Graph, s: string)
    ensures Inv(g, s, [(s, 0)], {}, 0, 0, s)
  {
    assert Within(g, s, 0) == {s};
  }

  /** Moving to the next level once its first entry reaches the head. */
  lemma {:induction false} Advance(g: Graph, s: string, queue: seq<(string, nat)>, visited: set<string>, level: nat,
                maxDepth: nat, deepest: string)
    requires Inv(g, s, queue, visited, level, maxDepth, deepest)
    requires |queue| > 0 && queue[0].1 == level + 1
    ensures Inv(g, s, queue, visited, level + 1, maxDepth, deepest)
  {
    NoLevelEntries(queue, level);
    AdvanceQueue(g, s, queue, level);
    AdvanceLevels(g, s, queue, visited, level);
    AdvanceClosed(g, queue, visited, level);
  }

  lemma {:induction false} AdvanceQueue(g: Graph, s: string, queue: seq<(string, nat)>, level: nat)
    requires QueueOk(g, s, queue, level)
    requires |queue| > 0 && queue[0].1 == level + 1
    ensures QueueOk(g, s, queue, level + 1)
  {
    forall i | 0 <= i < |queue| ensures queue[i].1 == level + 1 {
      if i > 0 { assert queue[0].1 <= queue[i].1; }
    }
  }

  lemma {:induction false} AdvanceLevels(g: Graph, s: string, queue: seq<(string, nat)>, visited: set<string>, level: nat)
    requires LevelsOk(g, s, queue, visited, level) && ClosedOk(g, queue, visited, level, {})
    requires forall x :: (x, level) !in queue
    ensures LevelsOk(g, s, queue, visited, level + 1)
  {
    WithinMono(g, s, level, level + 1);
    forall x | x in Within(g, s, level + 1) ensures x in visited || (x, level + 1) in queue {
      if x !in Within(g, s, level) {
        var e :| e in g.edges && e.0 in Within(g, s, level) && e.1 == x;
        assert x in Successors(g, e.0);
      }
    }
  }

  lemma {:induction false} AdvanceClosed(g: Graph, queue: seq<(string, nat)>, visited: set<string>, level: nat)
    requires ClosedOk(g, queue, visited, level, {})
    requires forall x :: (x, level) !in queue
    ensures ClosedOk(g, queue, visited, level + 1, {})
  {
  }

  /** Dropping a head entry whose node was already visited. */
  lemma {:induction false} PopSeen(g: Graph, s: string, queue: seq<(string, nat)>, visited: set<string>, level: nat,
                maxDepth: nat, deepest: string)
    requires Inv(g, s, queue, visited, level, maxDepth, deepest)
    requires |queue| > 0 && queue[0].1 == level && queue[0].0 in visited
    ensures Inv(g, s, queue[1..], visited, level, maxDepth, deepest)
  {
    assert forall y :: y in queue && y != queue[0] ==> y in queue[1..];
  }

  /** Visiting the head node: it is exactly `level` edges from `s`. */
  lemma {:induction false} VisitStart(g: Graph, s: string, queue: seq<(string, nat)>, visited: set<string>, level: nat,
                   maxDepth: nat, deepest: string)
    requires Inv(g, s, queue, visited, level, maxDepth, deepest)
    requires |queue| > 0 && queue[0].1 == level && queue[0].0 !in visited
    ensures InnerInv(g, s, queue[1..], visited + {queue[0].0}, level, queue[0].0, Successors(g, queue[0].0))
    ensures |Universe(g, s) - (visited + {queue[0].0})| < |Universe(g, s) - visited|
  {
    var v := queue[0].0;
    HeadRemoved(queue);
    VisitLevels(g, s, queue, visited, level);
    VisitClosed(g, queue, visited, level);
    WithinInUniverse(g, s, level);
    ProperSubsetCard(Universe(g, s) - (visited + {v}), Universe(g, s) - visited);
  }

  lemma {:induction false} HeadRemoved(queue: seq<(string, nat)>)
    requires |queue| > 0
    ensures forall y :: y in queue && y != queue[0] ==> y in queue[1..]
  {
  }

  lemma {:induction false} VisitLevels(g: Graph, s: string, queue: seq<(string, nat)>, visited: set<string>, level: nat)
    requires QueueOk(g, s, queue, level) && LevelsOk(g, s, queue, visited, level)
    requires |queue| > 0 && queue[0].1 == level && queue[0].0 !in visited
    ensures QueueOk(g, s, queue[1..], level)
    ensures LevelsOk(g, s, queue[1..], visited + {queue[0].0}, level)
    ensures AtLevel(g, s, queue[0].0, level)
  {
    HeadRemoved(queue);
  }

  lemma {:induction false} VisitClosed(g: Graph, queue: seq<(string, nat)>, visited: set<string>, level: nat)
    requires ClosedOk(g, queue, visited, level, {})
    requires |queue| > 0 && queue[0].1 == level
    ensures ClosedOk(g, queue[1..], visited + {queue[0].0}, level, {queue[0].0})
  {
    HeadRemoved(queue);
  }

  /** Queueing an unvisited successor `w` of the visited node `v`. */
  lemma {:induction false} PushNew(g: Graph, s: string, queue: seq<(string, nat)>, visited: set<string>, level: nat,
                v: string, succ: set<string>, w: string)
    requires InnerInv(g, s, queue, visited, level, v, succ)
    requires w in succ && w !in visited
    ensures InnerInv(g, s, queue + [(w, level + 1)], visited, level, v, succ - {w})
  {
    SuccessorNextLevel(g, s, v, w, level);
    PushQueue(g, s, queue, level, w);
    AppendKeeps(queue, (w, level + 1));
  }

  lemma {:induction false} PushQueue(g: Graph, s: string, queue: seq<(string, nat)>, level: nat, w: string)
    requires QueueOk(g, s, queue, level) && w in Within(g, s, level + 1)
    ensures QueueOk(g, s, queue + [(w, level + 1)], level)
  {
  }

  lemma {:induction false} AppendKeeps<T>(q: seq<T>, x: T)
    ensures forall y :: y in q ==> y in q + [x]
  {
  }

  /** Skipping a successor `w` that is already visited. */
  lemma {:induction false} PushSeen(g: Graph, s: string, queue: seq<(string, nat)>, visited: set<string>, level: nat,
                 v: string, succ: set<string>, w: string)
    requires InnerInv(g, s, queue, visited, level, v, succ)
    requires w in succ && w in visited
    ensures InnerInv(g, s, queue, visited, level, v, succ - {w})
  {
  }

  lemma {:induction false} VisitEnd(g: Graph, s: string, queue: seq<(string, nat)>, visited: set<string>, level: nat, v: string,
                 maxDepth: nat)
    requires InnerInv(g, s, queue, visited, level, v, {}) && maxDepth == level
    ensures Inv(g, s, queue, visited, level, maxDepth, v)
  {
  }

  /** With the queue empty, the search's answer is the reference depth. */
  lemma {:induction false} Finish(g: Graph, s: string, visited: set<string>, level: nat, maxDepth: nat, deepest: string)
    requires s in g.attrs
    requires Inv(g, s, [], visited, level, maxDepth, deepest)
    ensures maxDepth == Depth(g, s)
  {
    WithinMono(g, s, 0, level);
    assert s in Within(g, s, 0);
    forall j: nat ensures Within(g, s, j) <= visited {
      ClosedHoldsLevels(g, s, visited, j);
    }
    FinalDepth(g, s, visited, maxDepth, level, deepest);
  }

  /** The inner loop of the search: every unvisited successor of `v` is
      queued one level deeper. */
  method QueueSuccessors(g: Graph, s: string, queue0: seq<(string, nat)>, visited: set<string>,
                         level: nat, v: string) returns (queue: seq<(string, nat)>)
    requires InnerInv(g, s, queue0, visited, level, v, Successors(g, v))
    ensures InnerInv(g, s, queue, visited, level, v, {})
  {
    queue := queue0;
    var succ := Successors(g, v);
    while succ != {}
      invariant InnerInv(g, s, queue, visited, level, v, succ)
      decreases |succ|
    {
      var w :| w in succ;
      if w !in visited {
        PushNew(g, s, queue, visited, level, v, succ, w);
        queue := queue + [(w, level + 1)];
      } else {
        PushSeen(g, s, queue, visited, level, v, succ, w);
      }
      succ := succ - {w};
    }
  }

  /** Visiting the unvisited head node: record its depth and queue its
      successors. */
  method Visit(g: Graph, s: string, queue0: seq<(string, nat)>, visited0: set<string>, ghost level: nat,
               maxDepth0: nat, ghost deepest: string)
    returns (queue: seq<(string, nat)>, visited: set<string>, maxDepth: nat)
    requires Inv(g, s, queue0, visited0, level, maxDepth0, deepest)
    requires |queue0| > 0 && queue0[0].1 == level && queue0[0].0 !in visited0
    ensures Inv(g, s, queue, visited, level, maxDepth, queue0[0].0)
    ensures |Universe(g, s) - visited| < |Universe(g, s) - visited0|
  {
    var v := queue0[0].0;
    var dv := queue0[0].1;
    VisitStart(g, s, queue0, visited0, level, maxDepth0, deepest);
    visited := visited0 + {v};
    maxDepth := if maxDepth0 < dv then dv else maxDepth0;
    queue := QueueSuccessors(g, s, queue0[1..], visited, dv, v);
    VisitEnd(g, s, queue, visited, level, v, maxDepth);
  }

  /** `_calculate_dependency_depth`: breadth-first search from `s` with one
      visited set, recording the largest depth at which a node is first
      dequeued. Successors are taken in an arbitrary order. */
  method BfsDepth(g: Graph, s: string) returns (d: nat)
    ensures d == Depth(g, s)
  {
    if s !in g.attrs { return 0; }
    var maxDepth: nat := 0;
    var visited: set<string> := {};
    var queue: seq<(string, nat)> := [(s, 0)];
    ghost var level: nat := 0;
    ghost var deepest: string := s;
    InvInit(g, s);
    while |queue| > 0
      invariant Inv(g, s, queue, visited, level, maxDepth, deepest)
      decreases |Universe(g, s) - visited|, |queue|
    {
      HeadFacts(g, s, queue, visited, level, maxDepth, deepest);
      if queue[0].1 == level + 1 {
        Advance(g, s, queue, visited, level, maxDepth, deepest);
        level := level + 1;
      }
      var v := queue[0].0;
      var dv := queue[0].1;
      HeadFacts(g, s, queue, visited, level, maxDepth, deepest);
      assert dv == level;
      if v in visited {
        PopSeen(g, s, queue, visited, level, maxDepth, deepest);
        queue := queue[1..];
        continue;
      }
      queue, visited, maxDepth := Visit(g, s, queue, visited, level, maxDepth, deepest);
      deepest := v;
    }
    Finish(g, s, visited, level, maxDepth, deepest);
    return maxDepth;
  }

  /** When the head of the queue is a level deeper, no entry of the current
      level is left. */
  lemma {:induction false} NoLevelEntries(queue: seq<(string, nat)>, level: nat)
    requires |queue| > 0 && queue[0].1 == level + 1
    requires forall i, j :: 0 <= i < j < |queue| ==> queue[i].1 <= queue[j].1
    ensures forall x :: (x, level) !in queue
  {
    forall x ensures (x, level) !in queue {
      forall i | 0 <= i < |queue| ensures queue[i] != (x, level) {
        if i > 0 { assert queue[0].1 <= queue[i].1; }
      }
    }
  }
}

=== FILE: clean.dfy ===
/** Normalisation of manifest text before the dependency section is looked
    up: line comments, then block comments, then whitespace runs. */
module Clean {
  import opened Wrappers
  import opened Text

  function NewlineCount(s: string): nat {
    if |s| == 0 then 0 else (if s[0] == '\n' then 1 else 0) + NewlineCount(s[1..])
  }

  /** The characters of `s` that are not whitespace, in order. */
  function Visible(s: string): string {
    if |s| == 0 then ""
    else if IsSpace(s[0]) then Visible(s[1..])
    else [s[0]] + Visible(s[1..])
  }

  lemma {:induction false} NewlineCountAppend(a: string, b: string)
    ensures NewlineCount(a + b) == NewlineCount(a) + NewlineCount(b)
    decreases |a|
  {
    if |a| > 0 {
      assert (a + b)[1..] == a[1..] + b;
      NewlineCountAppend(a[1..], b);
    } else {
      assert a + b == b;
    }
  }

  lemma {:induction false} NoNewlineCount(a: string)
    requires '\n' !in a
    ensures NewlineCount(a) == 0
    decreases |a|
  {
    if |a| > 0 {
      assert a[0] in a;
      assert forall c :: c in a[1..] ==> c in a;
      NoNewlineCount(a[1..]);
    }
  }

  /** Deletes every span from `//` to the end of its line (the newline itself
      is kept). Nothing here knows about string literals, so the `//` of a
      `https://` URL starts such a span too. */
  function StripLineComments(s: string): (r: string)
    ensures |r| <= |s|
    ensures |r| > 0 && r[0] == '/' ==> s[0] == '/' && !At(s, 0, "//")
    ensures forall i: nat :: !At(r, i, "//")
    decreases |s|
  {
    if |s| == 0 then ""
    else if At(s, 0, "//") then
      match IndexOfChar(s, '\n')
      case None => ""
      case Some(k) => StripLineComments(s[k..])
    else
      var rest := StripLineComments(s[1..]);
      var r := [s[0]] + rest;
      assert r[1..] == rest;
      forall i: nat | 1 <= i ensures At(r, i, "//") == At(rest, i - 1, "//") {
        AtTail(r, i - 1, "//");
      }
      assert |s| > 1 ==> s[1..][0] == s[1];
      AtTwo(r, 0, "//");
      AtTwo(s, 0, "//");
      r
  }

  /** A `//` cuts its line down to the text before it. */
  lemma {:induction false} StripLineCommentsPrefix(a: string, t: string)
    requires '/' !in a
    ensures StripLineComments(a + t) == a + StripLineComments(t)
    decreases |a|
  {
    if |a| > 0 {
      var s := a + t;
      assert s[1..] == a[1..] + t;
      assert a[0] in a;
      AtTwo(s, 0, "//");
      assert '/' !in a[1..] by { assert forall c :: c in a[1..] ==> c in a; }
      StripLineCommentsPrefix(a[1..], t);
      assert StripLineComments(s) == [a[0]] + StripLineComments(a[1..] + t);
      assert a + StripLineComments(t) == [a[0]] + (a[1..] + StripLineComments(t));
    } else {
      assert a + t == t;
    }
  }

  lemma {:induction false} StripLineCommentsToEol(b: string, c: string)
    requires '\n' !in b
    requires |c| == 0 || c[0] == '\n'
    ensures StripLineComments("//" + b + c) == StripLineComments(c)
  {
    var s := "//" + b + c;
    assert At(s, 0, "//") by { assert s[..2] == "//"; }
    assert '\n' !in s[..|b| + 2] by { assert s[..|b| + 2] == "//" + b; }
    if |c| > 0 {
      assert s[|b| + 2] == '\n';
      assert s[|b| + 2..] == c;
    } else {
      assert s == "//" + b;
    }
  }

  /** Line-comment stripping keeps every newline, so the manifest keeps its
      line structure until whitespace is collapsed. */
  lemma {:induction false} StripLineCommentsKeepsLines(s: string)
    ensures NewlineCount(StripLineComments(s)) == NewlineCount(s)
    decreases |s|
  {
    if |s| > 0 && At(s, 0, "//") {
      match IndexOfChar(s, '\n')
      case None =>
        NoNewlineCount(s);
      case Some(j) =>
        CommentSpanHasNoNewline(s, j);
        StripLineCommentsKeepsLines(s[j..]);
    } else if |s| > 0 {
      KeptCharCount(s);
      StripLineCommentsKeepsLines(s[1..]);
    }
  }

  lemma {:induction false} CommentSpanHasNoNewline(s: string, j: nat)
    requires j < |s| && '\n' !in s[..j]
    ensures NewlineCount(s) == NewlineCount(s[j..])
  {
    assert s == s[..j] + s[j..];
    NewlineCountAppend(s[..j], s[j..]);
    NoNewlineCount(s[..j]);
  }

  lemma {:induction false} KeptCharCount(s: string)
    requires |s| > 0 && !At(s, 0, "//")
    ensures NewlineCount(StripLineComments(s)) - NewlineCount(StripLineComments(s[1..]))
         == NewlineCount(s) - NewlineCount(s[1..])
  {
    var rest := StripLineComments(s[1..]);
    assert StripLineComments(s) == [s[0]] + rest;
    assert ([s[0]] + rest)[1..] == rest;
  }

  /** Text without `//` is left untouched. */
  lemma {:induction false} StripLineCommentsIdentity(s: string)
    requires forall i: nat :: !At(s, i, "//")
    ensures StripLineComments(s) == s
    decreases |s|
  {
    if |s| > 0 {
      assert !At(s, 0, "//");
      forall i: nat ensures !At(s[1..], i, "//") {
        AtTail(s, i, "//");
      }
      StripLineCommentsIdentity(s[1..]);
    }
  }

  // Deletes every block comment (slash-star to the first star-slash after
  // it, non-greedy); an opening without a closing is kept as text.
  function StripBlockComments(s: string): (r: string)
    ensures |r| <= |s|
    decreases |s|
  {
    if |s| == 0 then ""
    else if At(s, 0, "/*") then
      match Find(s, "*/", 2)
      case Some(k) => StripBlockComments(s[k + 2..])
      case None => [s[0]] + StripBlockComments(s[1..])
    else [s[0]] + StripBlockComments(s[1..])
  }

  /** A closed block comment disappears entirely, up to its first closing. */
  lemma {:induction false} StripBlockCommentsCut(b: string, c: string)
    requires '*' !in b
    ensures StripBlockComments("/*" + b + "*/" + c) == StripBlockComments(c)
  {
    var s := "/*" + b + "*/" + c;
    var k := 2 + |b|;
    assert At(s, 0, "/*");
    assert s[k..k + 2] == "*/";
    assert At(s, k, "*/");
    forall j | 2 <= j < k ensures !At(s, j, "*/") {
      assert s[j] == b[j - 2];
    }
    assert Find(s, "*/", 2) == Some(k);
    assert s[k + 2..] == c;
  }

  // Text without a block-comment opening is left untouched.
  lemma {:induction false} StripBlockCommentsIdentity(s: string)
    requires forall i: nat :: !At(s, i, "/*")
    ensures StripBlockComments(s) == s
    decreases |s|
  {
    if |s| > 0 {
      assert !At(s, 0, "/*");
      forall i: nat ensures !At(s[1..], i, "/*") {
        AtTail(s, i, "/*");
      }
      StripBlockCommentsIdentity(s[1..]);
    }
  }

  /** Replaces every maximal whitespace run by one space. */
  function CollapseWhitespace(s: string): (r: string)
    ensures |r| > 0 <==> |s| > 0
    ensures |r| > 0 ==> (r[0] == ' ' <==> IsSpace(s[0]))
    ensures forall i :: 0 <= i < |r| && IsSpace(r[i]) ==> r[i] == ' '
    ensures forall i :: 0 <= i < |r| - 1 ==> !(r[i] == ' ' && r[i + 1] == ' ')
    ensures Visible(r) == Visible(s)
    decreases |s|
  {
    if |s| == 0 then ""
    else if IsSpace(s[0]) then
      var t := LStripBy(s, IsSpace);
      var rest := CollapseWhitespace(t);
      VisibleSkipsSpaces(s, |s| - |t|);
      assert (" " + rest)[1..] == rest;
      " " + rest
    else
      var rest := CollapseWhitespace(s[1..]);
      assert ([s[0]] + rest)[1..] == rest;
      [s[0]] + rest
  }

  lemma {:induction false} VisibleSkipsSpaces(s: string, n: nat)
    requires n <= |s|
    requires forall i :: 0 <= i < n ==> IsSpace(s[i])
    ensures Visible(s) == Visible(s[n..])
    decreases n
  {
    if n > 0 {
      assert s[1..][n - 1..] == s[n..];
      VisibleSkipsSpaces(s[1..], n - 1);
    }
  }

  /** A text whose last character is not white space ends every run it
      holds: collapsing the concatenation collapses each part on its own. */
  lemma {:induction false} CollapseAppend(a: string, b: string)
    requires |a| == 0 || !IsSpace(a[|a| - 1])
    ensures CollapseWhitespace(a + b) == CollapseWhitespace(a) + CollapseWhitespace(b)
    decreases |a|, 1
  {
    if |a| == 0 {
      assert a + b == b;
    } else if IsSpace(a[0]) {
      CollapseAppendRunFirst(a, b);
    } else {
      CollapseAppendVisibleFirst(a, b);
    }
  }

  lemma {:induction false} CollapseAppendRunFirst(a: string, b: string)
    requires |a| > 0 && IsSpace(a[0]) && !IsSpace(a[|a| - 1])
    ensures CollapseWhitespace(a + b) == CollapseWhitespace(a) + CollapseWhitespace(b)
    decreases |a|, 0
  {
    var t := LStripBy(a, IsSpace);
    assert |t| > 0 && t[|t| - 1] == a[|a| - 1];
    LStripAppend(a, b, IsSpace);
    CollapseAppend(t, b);
    assert CollapseWhitespace(a) == " " + CollapseWhitespace(t);
    assert (a + b)[0] == a[0];
    assert CollapseWhitespace(a + b) == " " + CollapseWhitespace(t + b);
    Regroup(" ", CollapseWhitespace(t), CollapseWhitespace(b));
  }

  lemma {:induction false} CollapseAppendVisibleFirst(a: string, b: string)
    requires |a| > 0 && !IsSpace(a[0]) && !IsSpace(a[|a| - 1])
    ensures CollapseWhitespace(a + b) == CollapseWhitespace(a) + CollapseWhitespace(b)
    decreases |a|, 0
  {
    assert (a + b)[1..] == a[1..] + b;
    CollapseAppend(a[1..], b);
    assert CollapseWhitespace(a + b) == [a[0]] + CollapseWhitespace(a[1..] + b);
    Regroup([a[0]], CollapseWhitespace(a[1..]), CollapseWhitespace(b));
  }

  /** A non-empty whitespace run followed by the end or by a visible
      character becomes one space. */
  lemma {:induction false} CollapseRun(w: string, b: string)
    requires |w| > 0 && forall i :: 0 <= i < |w| ==> IsSpace(w[i])
    requires |b| == 0 || !IsSpace(b[0])
    ensures CollapseWhitespace(w + b) == " " + CollapseWhitespace(b)
  {
    var s := w + b;
    var t := LStripBy(s, IsSpace);
    assert |t| == |b| by {
      if |b| > 0 { assert s[|w|] == b[0]; }
    }
    assert t == s[|w|..] == b;
  }

  /** Run by run: a maximal whitespace run between two visible stretches
      becomes exactly one space, and the text on either side collapses on its
      own. */
  lemma {:induction false} CollapseRunBetween(a: string, w: string, b: string)
    requires |a| == 0 || !IsSpace(a[|a| - 1])
    requires |w| > 0 && forall i :: 0 <= i < |w| ==> IsSpace(w[i])
    requires |b| == 0 || !IsSpace(b[0])
    ensures CollapseWhitespace(a + w + b) == CollapseWhitespace(a) + " " + CollapseWhitespace(b)
  {
    assert a + w + b == a + (w + b);
    CollapseAppend(a, w + b);
    CollapseRun(w, b);
    Regroup(CollapseWhitespace(a), " ", CollapseWhitespace(b));
  }

  /** Stripping a prefix whose kept part starts inside `a` leaves `b` alone. */
  lemma {:induction false} LStripAppend(a: string, b: string, drop: char -> bool)
    requires |a| > 0 && !drop(a[|a| - 1])
    ensures LStripBy(a + b, drop) == LStripBy(a, drop) + b
    decreases |a|
  {
    if drop(a[0]) {
      assert (a + b)[1..] == a[1..] + b;
      LStripAppend(a[1..], b, drop);
    }
  }

  /** Text whose only white space is single spaces, each followed by a
      visible character, is already collapsed. */
  lemma {:induction false} CollapseIdentity(s: string)
    requires forall i :: 0 <= i < |s| && IsSpace(s[i]) ==> s[i] == ' ' && i + 1 < |s| && !IsSpace(s[i + 1])
    ensures CollapseWhitespace(s) == s
    decreases |s|
  {
    if |s| > 0 {
      var rest := s[1..];
      assert forall i :: 0 <= i < |rest| ==> rest[i] == s[i + 1];
      CollapseIdentity(rest);
      if IsSpace(s[0]) {
        assert LStripBy(rest, IsSpace) == rest;
        assert LStripBy(s, IsSpace) == rest;
      }
    }
  }

  /** Text without comment openings and with only single spaces followed by a
      visible character comes out of the normalisation unchanged. */
  lemma {:induction false} CleanIdentity(s: string)
    requires forall i: nat :: !At(s, i, "//") && !At(s, i, "/*")
    requires forall i :: 0 <= i < |s| && IsSpace(s[i]) ==> s[i] == ' ' && i + 1 < |s| && !IsSpace(s[i + 1])
    ensures CleanContent(s) == s
  {
    StripLineCommentsIdentity(s);
    StripBlockCommentsIdentity(s);
    CollapseIdentity(s);
  }

  /** The whole normalisation, in the source's order. */
  function CleanContent(s: string): (r: string)
    ensures '\n' !in r
    ensures forall i :: 0 <= i < |r| - 1 ==> !(r[i] == ' ' && r[i + 1] == ' ')
  {
    var r := CollapseWhitespace(StripBlockComments(StripLineComments(s)));
    assert IsSpace('\n');
    r
  }

  /** Comment-free text keeps all its visible characters, in order. */
  lemma {:induction false} CleanKeepsCommentFreeText(s: string)
    requires forall i: nat :: !At(s, i, "//")
    requires forall i: nat :: !At(s, i, "/*")
    ensures Visible(CleanContent(s)) == Visible(s)
  {
    StripLineCommentsIdentity(s);
    StripBlockCommentsIdentity(s);
  }

  /** The `//` of a quoted `https://` URL is taken for a comment: whatever
      follows it on the line, closing quote included, is lost. */
  lemma {:induction false} UrlLiteralIsCut(before: string, after: string)
    requires '/' !in before && '\n' !in after
    ensures StripLineComments(before + "//" + after) == before
  {
    assert before + "//" + after == before + ("//" + after + "");
    StripLineCommentsPrefix(before, "//" + after + "");
    StripLineCommentsToEol(after, "");
    assert before + "" == before;
  }
}

=== FILE: community.dfy ===
/** Community status requests (`src/community_input.py`): reading a GitHub
    issue-form body into a status request, and the tally kept while the
    requests are applied. Fetching issues, the dataset lookup and the
    database transaction are inputs here. */
module Community {
  import opened Wrappers
  import opened Text
  import Models

  // ---------------------------------------------------------------------
  // The `### <heading>\s*\n\s*(.+)` searches

  /** A form heading as GitHub renders it. */
  function Heading(name: string): string {
    "### " + name
  }

  const OwnerName := "Repository Owner"
  const RepoName := "Repository Name"
  const StatusName := "New Status"
  const ReasonName := "Reason for Status Change"
  const ContextName := "Additional Context"

  /** GitHub's rendering of an optional field left empty. */
  const NoResponse := "_No response_"

  /** The two pattern shapes: `(.+)` on one line, and the `re.DOTALL`
      `(.+?)(?=\n###|\n---|\Z)` block of the additional context. */
  datatype FieldKind = LineField | BlockField

  /** Length of the leading white-space run. */
  function SpaceRun(u: string): (n: nat)
    ensures n <= |u|
    ensures forall i :: 0 <= i < n ==> IsSpace(u[i])
    ensures n == |u| || !IsSpace(u[n])
    decreases |u|
  {
    if |u| > 0 && IsSpace(u[0]) then 1 + SpaceRun(u[1..]) else 0
  }

  /** Length of the text before the first newline. */
  function LineLength(u: string): (n: nat)
    ensures n <= |u|
    ensures forall i :: 0 <= i < n ==> u[i] != '\n'
    ensures n == |u| || u[n] == '\n'
    decreases |u|
  {
    if |u| > 0 && u[0] != '\n' then 1 + LineLength(u[1..]) else 0
  }

  /** The lookahead `(?=\n###|\n---|\Z)` holds at index `m` of `v`. */
  predicate BlockStop(v: string, m: nat)
    requires m <= |v|
  {
    m == |v| || StartsWith(v[m..], "\n###") || StartsWith(v[m..], "\n---")
  }

  /** Where the lazy `.+?` stops: the first index from `m` on at which the
      lookahead holds. */
  function BlockLength(v: string, m: nat): (n: nat)
    requires m <= |v|
    ensures m <= n <= |v| && BlockStop(v, n)
    ensures forall k :: m <= k < n ==> !BlockStop(v, k)
    decreases |v| - m
  {
    if BlockStop(v, m) then m else BlockLength(v, m + 1)
  }

  /** The stripped group when the pattern is tried where the heading ends;
      `u` is the text after the heading. `\s*\n` must end at a newline of
      the white-space run, and the group starts at the first character
      after the run. When the run reaches the end of the text the group
      can only be white space, and exists only when some character is left
      after a newline for it. */
  function Here(kind: FieldKind, u: string): (r: Option<string>)
  {
    var w := SpaceRun(u);
    if '\n' !in u[..w] then None
    else if w < |u| then
      match kind
      case LineField => Some(LineGroup(u))
      case BlockField => Some(BlockGroup(u))
    else if kind == LineField then
      if exists j, k :: 0 <= j < k < w && u[j] == '\n' && u[k] != '\n' then Some("") else None
    else
      if exists j :: 0 <= j < w - 1 && u[j] == '\n' then Some("") else None
  }

  /** The stripped `(.+)` group: the rest of the first line after the
      white-space run. */
  function LineGroup(u: string): string
    requires SpaceRun(u) < |u|
  {
    Strip(FirstLine(u))
  }

  /** The first line after the white-space run. */
  function FirstLine(u: string): (line: string)
    requires SpaceRun(u) < |u|
    ensures |line| > 0 && line[0] == u[SpaceRun(u)]
  {
    var w := SpaceRun(u);
    assert u[w..][0] == u[w];
    u[w..w + LineLength(u[w..])]
  }

  /** The stripped lazy `(.+?)` group: at least one character after the
      white-space run, up to the first lookahead stop. */
  function BlockGroup(u: string): string
    requires SpaceRun(u) < |u|
  {
    var w := SpaceRun(u);
    Strip(u[w..w + BlockLength(u[w..], 1)])
  }

  /** `re.search`: the first position where the heading occurs and the rest
      of the pattern matches after it. */
  function Search(s: string, h: string, kind: FieldKind): (r: Option<string>)
    requires |h| > 0
    ensures r.Some? ==> Contains(s, h)
    decreases |s|
  {
    if StartsWith(s, h) && Here(kind, s[|h|..]).Some? then
      ContainsAt(s, h, 0);
      Here(kind, s[|h|..])
    else if |s| == 0 then None
    else
      var r := Search(s[1..], h, kind);
      ContainsOfTail(s, h);
      r
  }

  function Field(body: string, name: string, kind: FieldKind): Option<string> {
    Search(body, Heading(name), kind)
  }

  // ---------------------------------------------------------------------
  // parse_issue_body

  /** The dictionary `parse_issue_body` returns; `context` is the optional
      `additional_context` entry. */
  datatype StatusRequest = StatusRequest(
    owner: string,
    name: string,
    newStatus: string,
    reason: string,
    context: Option<string>)

  /** The additional context that is kept: present, non-empty and not the
      empty-field placeholder. */
  function KeptContext(c: Option<string>): (r: Option<string>)
    ensures r.Some? <==> c.Some? && c.value != "" && c.value != NoResponse
    ensures r.Some? ==> r == c
  {
    if c.Some? && c.value != "" && c.value != NoResponse then c else None
  }

  /** `GitHubIssueParser.parse_issue_body`. A missing body stands for the
      exception the source turns into `None`. */
  function ParseIssueBody(body: Option<string>): (r: Option<StatusRequest>)
    ensures body.None? ==> r.None?
    ensures body.Some? ==>
              (r.Some? <==>
                 && Field(body.value, OwnerName, LineField).Some?
                 && Field(body.value, RepoName, LineField).Some?
                 && Field(body.value, StatusName, LineField).Some?
                 && Field(body.value, ReasonName, LineField).Some?
                 && LowerStr(Field(body.value, StatusName, LineField).value) in Models.Values())
    ensures r.Some? ==>
              && r.value.owner == Field(body.value, OwnerName, LineField).value
              && r.value.name == Field(body.value, RepoName, LineField).value
              && r.value.newStatus == LowerStr(Field(body.value, StatusName, LineField).value)
              && r.value.reason == Field(body.value, ReasonName, LineField).value
              && r.value.context == KeptContext(Field(body.value, ContextName, BlockField))
    ensures r.Some? ==> Models.StateOf(r.value.newStatus).Some?
  {
    if body.None? then None
    else
      var b := body.value;
      var owner := Field(b, OwnerName, LineField);
      var name := Field(b, RepoName, LineField);
      var status := Field(b, StatusName, LineField);
      var reason := Field(b, ReasonName, LineField);
      var context := KeptContext(Field(b, ContextName, BlockField));
      if owner.None? || name.None? || status.None? || reason.None? then None
      else if LowerStr(status.value) !in Models.Values() then None
      else Some(StatusRequest(owner.value, name.value, LowerStr(status.value), reason.value, context))
  }

  /** A body without the owner heading is never a request. */
  lemma {:induction false} MissingHeadingRejected(body: string, name: string)
    requires name in [OwnerName, RepoName, StatusName, ReasonName]
    requires !Contains(body, Heading(name))
    ensures ParseIssueBody(Some(body)).None?
  {
  }

  // ---------------------------------------------------------------------
  // What a field holds

  /** A white-space prefix followed by a non-space is one run. */
  lemma {:induction false} SpaceRunOf(x: string, y: string)
    requires forall i :: 0 <= i < |x| ==> IsSpace(x[i])
    requires |y| == 0 || !IsSpace(y[0])
    ensures SpaceRun(x + y) == |x|
    decreases |x|
  {
    if |x| > 0 {
      assert (x + y)[1..] == x[1..] + y;
      SpaceRunOf(x[1..], y);
    } else {
      assert x + y == y;
    }
  }

  lemma {:induction false} LineLengthOf(x: string, y: string)
    requires forall i :: 0 <= i < |x| ==> x[i] != '\n'
    requires |y| == 0 || y[0] == '\n'
    ensures LineLength(x + y) == |x|
    decreases |x|
  {
    if |x| > 0 {
      assert (x + y)[1..] == x[1..] + y;
      LineLengthOf(x[1..], y);
    } else {
      assert x + y == y;
    }
  }

  /** A non-empty line with no white space at either end. */
  predicate OneLine(v: string) {
    && |v| > 0
    && (forall i :: 0 <= i < |v| ==> v[i] != '\n')
    && !IsSpace(v[0])
    && !IsSpace(v[|v| - 1])
  }

  /** One line of form input, which cannot contain a heading. */
  predicate LineValue(v: string) {
    OneLine(v) && forall i :: 0 <= i < |v| ==> v[i] != '#'
  }

  /** The placeholder of an empty answer is itself a one-line value. */
  lemma NoResponseIsLine()
    ensures LineValue(NoResponse)
  {
    assert LineValue(NoResponse);
  }

  lemma {:induction false} StripLine(v: string)
    requires |v| > 0 && !IsSpace(v[0]) && !IsSpace(v[|v| - 1])
    ensures Strip(v) == v
  {
    assert LStripBy(v, IsSpace) == v;
  }

  /** A field's value is the first non-blank line after its heading, with
      its trailing white space removed, so it is never empty unless the
      heading is followed by white space alone. */
  lemma {:induction false} LineFieldIsFirstLine(u: string)
    requires Here(LineField, u).Some?
    ensures SpaceRun(u) < |u| ==>
              && Here(LineField, u).value == RStripBy(FirstLine(u), IsSpace)
              && Here(LineField, u).value != ""
    ensures SpaceRun(u) == |u| ==> Here(LineField, u) == Some("")
  {
    if SpaceRun(u) < |u| {
      HereLine(u);
      StripNonSpaceStart(FirstLine(u));
    }
  }

  lemma {:induction false} HereLine(u: string)
    requires Here(LineField, u).Some? && SpaceRun(u) < |u|
    ensures Here(LineField, u) == Some(LineGroup(u))
  {
  }

  lemma {:induction false} StripNonSpaceStart(line: string)
    requires |line| > 0 && !IsSpace(line[0])
    ensures Strip(line) == RStripBy(line, IsSpace) && Strip(line) != ""
  {
    assert LStripBy(line, IsSpace) == line;
    assert |RStripBy(line, IsSpace)| > 0;
  }

  /** The line-field pattern reads a one-line value after a blank line. */
  lemma {:induction false} LineHere(v: string, t: string)
    requires OneLine(v)
    requires |t| == 0 || t[0] == '\n'
    ensures Here(LineField, "\n\n" + v + t) == Some(v)
  {
    var u := "\n\n" + v + t;
    assert u == "\n\n" + (v + t);
    SpaceRunOf("\n\n", v + t);
    assert u[..2] == "\n\n";
    assert Here(LineField, u) == Some(LineGroup(u));
    LineFirstLine(v, t);
    StripLine(v);
  }

  lemma {:induction false} LineFirstLine(v: string, t: string)
    requires OneLine(v)
    requires |t| == 0 || t[0] == '\n'
    requires SpaceRun("\n\n" + v + t) == 2
    ensures FirstLine("\n\n" + v + t) == v
  {
    var u := "\n\n" + v + t;
    assert u[2..] == v + t;
    LineLengthOf(v, t);
    assert u[2..2 + |v|] == v;
  }

  /** The lookahead needs a newline where it holds. */
  lemma {:induction false} NoStopInLine(v: string, k: nat)
    requires k < |v| && v[k] != '\n'
    ensures !BlockStop(v, k)
  {
    AtChar(v[k..], 0, "\n###", 0);
    AtChar(v[k..], 0, "\n---", 0);
  }

  /** The context pattern reads a one-line value that ends the text. */
  lemma {:induction false} BlockHere(v: string)
    requires LineValue(v)
    ensures Here(BlockField, "\n\n" + v) == Some(v)
  {
    var u := "\n\n" + v;
    SpaceRunOf("\n\n", v);
    assert u[..2] == "\n\n";
    assert u[2..] == v;
    forall k | 1 <= k < |v|
      ensures !BlockStop(v, k)
    {
      NoStopInLine(v, k);
    }
    var n := BlockLength(v, 1);
    assert n == |v|;
    assert u[2..2 + n] == v;
    StripLine(v);
  }

  /** The value may itself be the next heading: an owner left empty takes
      the repository-name heading as its value. */
  lemma {:induction false} HeadingTakenAsValue(rest: string)
    requires |rest| == 0 || rest[0] == '\n'
    ensures Field(Heading(OwnerName) + "\n\n" + Heading(RepoName) + rest, OwnerName, LineField)
            == Some(Heading(RepoName))
  {
    var s := Heading(OwnerName) + "\n\n" + Heading(RepoName) + rest;
    var h := Heading(OwnerName);
    assert s == h + ("\n\n" + Heading(RepoName) + rest);
    assert s[..|h|] == h;
    assert s[|h|..] == "\n\n" + Heading(RepoName) + rest;
    LineHere(Heading(RepoName), rest);
  }

  // ---------------------------------------------------------------------
  // Reading a whole form

  /** No occurrence of `h` starts inside `pre` when `pre` is followed by `s`. */
  predicate NoStart(pre: string, s: string, h: string) {
    forall i :: 0 <= i < |pre| ==> !At(pre + s, i, h)
  }

  /** Text in which the search finds nothing can be skipped. */
  lemma {:induction false} SearchSkip(pre: string, s: string, h: string, kind: FieldKind)
    requires |h| > 0
    requires NoStart(pre, s, h)
    ensures Search(pre + s, h, kind) == Search(s, h, kind)
    decreases |pre|
  {
    if |pre| > 0 {
      assert !At(pre + s, 0, h);
      assert (pre + s)[1..] == pre[1..] + s;
      forall i | 0 <= i < |pre[1..]|
        ensures !At(pre[1..] + s, i, h)
      {
        AtTail(pre + s, i, h);
      }
      SearchSkip(pre[1..], s, h, kind);
    } else {
      assert pre + s == s;
    }
  }

  /** Text without `#` hides no heading. */
  lemma {:induction false} PlainNoStart(t: string, s: string, y: string)
    requires forall i :: 0 <= i < |t| ==> t[i] != '#'
    ensures NoStart(t, s, Heading(y))
  {
    forall i | 0 <= i < |t|
      ensures !At(t + s, i, Heading(y))
    {
      AtChar(t + s, i, Heading(y), 0);
    }
  }

  /** A heading hides no other heading when the two names differ at some
      index `d` both reach. */
  lemma {:induction false} HeadingNoStart(x: string, y: string, d: nat, s: string)
    requires forall i :: 0 <= i < |x| ==> x[i] != '#'
    requires d < |x| && d < |y| && x[d] != y[d]
    ensures NoStart(Heading(x), s, Heading(y))
  {
    var g := Heading(x);
    var h := Heading(y);
    forall i | 0 <= i < |g|
      ensures !At(g + s, i, h)
    {
      if i == 0 {
        AtChar(g + s, 0, h, 4 + d);
      } else if i == 1 {
        AtChar(g + s, 1, h, 2);
      } else if i == 2 {
        AtChar(g + s, 2, h, 1);
      } else if i == 3 {
        AtChar(g + s, 3, h, 0);
      } else {
        AtChar(g + s, i, h, 0);
        assert (g + s)[i] == x[i - 4];
      }
    }
  }

  function Section(name: string, value: string): string {
    Heading(name) + "\n\n" + value + "\n\n"
  }

  /** Sections for `names` with `values`, in order, before `tail`. */
  function Sections(names: seq<string>, values: seq<string>, tail: string): string
    requires |names| == |values|
    decreases |names|
  {
    if |names| == 0 then tail
    else Section(names[0], values[0]) + Sections(names[1..], values[1..], tail)
  }

  predicate NoHash(x: string) {
    forall i :: 0 <= i < |x| ==> x[i] != '#'
  }

  /** Two heading names that differ at an index both reach. */
  predicate Differ(x: string, y: string) {
    exists d :: 0 <= d < |x| && d < |y| && x[d] != y[d]
  }

  /** Well-formed sections: names without `#`, one-line values. */
  predicate GoodSections(names: seq<string>, values: seq<string>) {
    && |names| == |values|
    && (forall i :: 0 <= i < |names| ==> NoHash(names[i]))
    && (forall i :: 0 <= i < |values| ==> LineValue(values[i]))
  }

  /** Searching for one heading passes over a section of another. */
  lemma {:induction false} SkipSection(x: string, v: string, y: string, s: string, kind: FieldKind)
    requires NoHash(x) && Differ(x, y)
    requires LineValue(v)
    ensures Search(Section(x, v) + s, Heading(y), kind) == Search(s, Heading(y), kind)
  {
    var d :| 0 <= d < |x| && d < |y| && x[d] != y[d];
    var tail := "\n\n" + v + "\n\n";
    assert Section(x, v) + s == Heading(x) + (tail + s);
    HeadingNoStart(x, y, d, tail + s);
    SearchSkip(Heading(x), tail + s, Heading(y), kind);
    TailSkip(v, s, y, kind);
  }

  /** The value part of a section holds no heading. */
  lemma {:induction false} TailSkip(v: string, s: string, y: string, kind: FieldKind)
    requires LineValue(v)
    ensures Search("\n\n" + v + "\n\n" + s, Heading(y), kind) == Search(s, Heading(y), kind)
  {
    var tail := "\n\n" + v + "\n\n";
    PlainNoStart(tail, s, y);
    SearchSkip(tail, s, Heading(y), kind);
  }

  /** ... and over any run of sections of other headings. */
  lemma {:induction false} SkipSections(names: seq<string>, values: seq<string>, s: string,
                                        y: string, kind: FieldKind)
    requires GoodSections(names, values)
    requires forall i :: 0 <= i < |names| ==> Differ(names[i], y)
    ensures Search(Sections(names, values, s), Heading(y), kind) == Search(s, Heading(y), kind)
    decreases |names|
  {
    if |names| > 0 {
      SkipSections(names[1..], values[1..], s, y, kind);
      SkipSection(names[0], values[0], y, Sections(names[1..], values[1..], s), kind);
    }
  }

  /** Searching for a heading stops at its own section. */
  lemma {:induction false} OwnSection(x: string, v: string, s: string)
    requires OneLine(v)
    ensures Search(Section(x, v) + s, Heading(x), LineField) == Some(v)
  {
    var h := Heading(x);
    var all := Section(x, v) + s;
    assert all == h + ("\n\n" + v + ("\n\n" + s));
    assert all[..|h|] == h;
    assert all[|h|..] == "\n\n" + v + ("\n\n" + s);
    LineHere(v, "\n\n" + s);
  }

  /** Each line field of a run of sections reads back its own value, as
      long as no earlier heading's name starts like its own. */
  lemma {:induction false} FieldOfSections(names: seq<string>, values: seq<string>, tail: string, k: nat)
    requires GoodSections(names, values) && k < |names|
    requires forall i :: 0 <= i < k ==> Differ(names[i], names[k])
    ensures Search(Sections(names, values, tail), Heading(names[k]), LineField) == Some(values[k])
    decreases k
  {
    if k == 0 {
      OwnSection(names[0], values[0], Sections(names[1..], values[1..], tail));
    } else {
      FieldOfSections(names[1..], values[1..], tail, k - 1);
      SkipSection(names[0], values[0], names[k], Sections(names[1..], values[1..], tail), LineField);
    }
  }

  const FormNames := [OwnerName, RepoName, StatusName, ReasonName]

  /** The names differ pairwise, and the context heading differs from all. */
  lemma FormNamesFacts()
    ensures forall i :: 0 <= i < |FormNames| ==> NoHash(FormNames[i])
    ensures forall i, j :: 0 <= i < j < |FormNames| ==> Differ(FormNames[i], FormNames[j])
    ensures forall i :: 0 <= i < |FormNames| ==> Differ(FormNames[i], ContextName)
    ensures NoHash(ContextName)
  {
    assert OwnerName[11] != RepoName[11];
    assert OwnerName[0] != StatusName[0];
    assert OwnerName[2] != ReasonName[2];
    assert RepoName[0] != StatusName[0];
    assert RepoName[2] != ReasonName[2];
    assert StatusName[0] != ReasonName[0];
    assert OwnerName[0] != ContextName[0];
    assert RepoName[0] != ContextName[0];
    assert StatusName[0] != ContextName[0];
    assert ReasonName[0] != ContextName[0];
  }

  /** The body GitHub renders for the status-update form: the four
      required fields in order, then the context, an empty one shown as the
      placeholder. */
  function IssueForm(owner: string, name: string, status: string, reason: string,
                     context: Option<string>): string {
    Sections(FormNames, [owner, name, status, reason],
             Heading(ContextName) + "\n\n" + context.GetOr(NoResponse))
  }

  /** Every field of a rendered form reads back as filled in. */
  lemma {:induction false} FormFields(owner: string, name: string, status: string, reason: string, context: Option<string>)
    requires LineValue(owner) && LineValue(name) && LineValue(status) && LineValue(reason)
    requires LineValue(context.GetOr(NoResponse))
    ensures var b := IssueForm(owner, name, status, reason, context);
            && Field(b, OwnerName, LineField) == Some(owner)
            && Field(b, RepoName, LineField) == Some(name)
            && Field(b, StatusName, LineField) == Some(status)
            && Field(b, ReasonName, LineField) == Some(reason)
            && Field(b, ContextName, BlockField) == Some(context.GetOr(NoResponse))
  {
    var values := [owner, name, status, reason];
    var c := context.GetOr(NoResponse);
    assert GoodSections(FormNames, values);
    FormLine(values, c, 0);
    FormLine(values, c, 1);
    FormLine(values, c, 2);
    FormLine(values, c, 3);
    FormContext(values, c);
  }

  lemma {:induction false} FormLine(values: seq<string>, c: string, k: nat)
    requires GoodSections(FormNames, values) && k < |FormNames|
    ensures Field(Sections(FormNames, values, Heading(ContextName) + "\n\n" + c), FormNames[k], LineField)
            == Some(values[k])
  {
    FormNamesFacts();
    FieldOfSections(FormNames, values, Heading(ContextName) + "\n\n" + c, k);
  }

  lemma {:induction false} FormContext(values: seq<string>, c: string)
    requires GoodSections(FormNames, values) && LineValue(c)
    ensures Field(Sections(FormNames, values, Heading(ContextName) + "\n\n" + c), ContextName, BlockField)
            == Some(c)
  {
    var tail := Heading(ContextName) + "\n\n" + c;
    FormNamesFacts();
    SkipSections(FormNames, values, tail, ContextName, BlockField);
    var h := Heading(ContextName);
    assert tail == h + ("\n\n" + c);
    assert tail[..|h|] == h;
    assert tail[|h|..] == "\n\n" + c;
    BlockHere(c);
  }

  /** Reading back a rendered form gives the request that was filled in:
      the status lowered, and an empty context dropped. */
  lemma {:induction false} IssueFormRoundTrip(owner: string, name: string, status: string, reason: string,
                           context: Option<string>)
    requires LineValue(owner) && LineValue(name) && LineValue(status) && LineValue(reason)
    requires context.Some? ==> LineValue(context.value) && context.value != NoResponse
    requires LowerStr(status) in Models.Values()
    ensures ParseIssueBody(Some(IssueForm(owner, name, status, reason, context)))
            == Some(StatusRequest(owner, name, LowerStr(status), reason, context))
  {
    NoResponseIsLine();
    FormFields(owner, name, status, reason, context);
    ParseFromFields(IssueForm(owner, name, status, reason, context), owner, name, status, reason, context);
  }

  /** The request read from a body whose fields hold the given values. */
  lemma {:induction false} ParseFromFields(b: string, owner: string, name: string, status: string, reason: string,
                                           context: Option<string>)
    requires Field(b, OwnerName, LineField) == Some(owner)
    requires Field(b, RepoName, LineField) == Some(name)
    requires Field(b, StatusName, LineField) == Some(status)
    requires Field(b, ReasonName, LineField) == Some(reason)
    requires Field(b, ContextName, BlockField) == Some(context.GetOr(NoResponse))
    requires context.Some? ==> context.value != "" && context.value != NoResponse
    requires LowerStr(status) in Models.Values()
    ensures ParseIssueBody(Some(b)) == Some(StatusRequest(owner, name, LowerStr(status), reason, context))
  {
    assert KeptContext(Some(context.GetOr(NoResponse))) == context;
  }

  /** A status outside the known states makes the whole form unreadable. */
  lemma {:induction false} IssueFormBadStatus(owner: string, name: string, status: string, reason: string,
                           context: Option<string>)
    requires LineValue(owner) && LineValue(name) && LineValue(status) && LineValue(reason)
    requires context.Some? ==> LineValue(context.value)
    requires LowerStr(status) !in Models.Values()
    ensures ParseIssueBody(Some(IssueForm(owner, name, status, reason, context))).None?
  {
    NoResponseIsLine();
    FormFields(owner, name, status, reason, context);
  }

  // ---------------------------------------------------------------------
  // process_status_update_issues

  /** One parsed issue with what the rest of the system answers for it:
      whether the dataset holds the repository, and the outcome
      `create_status_transaction` reports. */
  datatype IssueItem = IssueItem(
    request: StatusRequest,
    issueNumber: int,
    inDataset: bool,
    created: bool,
    message: string)

  datatype Detail = Detail(issueNumber: int, repository: string, status: string, message: string)

  datatype Tally = Tally(processed: nat, successful: nat, failed: nat, details: seq<Detail>)

  const NotInDataset := "Repository not found in dataset"

  /** The detail row written for one issue. */
  function DetailFor(it: IssueItem, dryRun: bool): (d: Detail)
    ensures d.issueNumber == it.issueNumber
    ensures d.repository == it.request.owner + "/" + it.request.name
    ensures !it.inDataset ==> d.status == "failed" && d.message == NotInDataset
    ensures it.inDataset && dryRun ==>
              d.status == "dry_run"
              && d.message == "Would create transaction for status: " + it.request.newStatus
    ensures it.inDataset && !dryRun ==>
              d.status == (if it.created then "success" else "failed") && d.message == it.message
  {
    var repo := it.request.owner + "/" + it.request.name;
    if !it.inDataset then Detail(it.issueNumber, repo, "failed", NotInDataset)
    else if dryRun then
      Detail(it.issueNumber, repo, "dry_run", "Would create transaction for status: " + it.request.newStatus)
    else Detail(it.issueNumber, repo, if it.created then "success" else "failed", it.message)
  }

  /** The issue counts as successful: found, and either a dry run or a
      transaction that was created. */
  predicate Succeeds(it: IssueItem, dryRun: bool) {
    it.inDataset && (dryRun || it.created)
  }

  /** `TransactionProcessor.process_status_update_issues`. */
  method ProcessStatusUpdates(items: seq<IssueItem>, dryRun: bool) returns (t: Tally)
    ensures t.processed == |items| == |t.details|
    ensures t.processed == t.successful + t.failed
    ensures t.successful == SuccessCount(items, dryRun)
    ensures forall i :: 0 <= i < |items| ==> t.details[i] == DetailFor(items[i], dryRun)
    ensures forall i :: 0 <= i < |items| ==>
              (t.details[i].status == "failed" <==> !Succeeds(items[i], dryRun))
  {
    t := Tally(0, 0, 0, []);
    var i := 0;
    while i < |items|
      invariant 0 <= i <= |items|
      invariant t.processed == i == |t.details|
      invariant t.processed == t.successful + t.failed
      invariant t.successful == SuccessCount(items[..i], dryRun)
      invariant forall j :: 0 <= j < i ==> t.details[j] == DetailFor(items[j], dryRun)
    {
      var it := items[i];
      var d := DetailFor(it, dryRun);
      assert items[..i + 1] == items[..i] + [it];
      SuccessCountAppend(items[..i], it, dryRun);
      if Succeeds(it, dryRun) {
        t := Tally(t.processed + 1, t.successful + 1, t.failed, t.details + [d]);
      } else {
        t := Tally(t.processed + 1, t.successful, t.failed + 1, t.details + [d]);
      }
      i := i + 1;
    }
    assert items[..|items|] == items;
  }

  /** How many of the issues succeed. */
  function SuccessCount(items: seq<IssueItem>, dryRun: bool): nat {
    if |items| == 0 then 0
    else SuccessCount(items[..|items| - 1], dryRun) + (if Succeeds(items[|items| - 1], dryRun) then 1 else 0)
  }

  lemma {:induction false} SuccessCountAppend(items: seq<IssueItem>, it: IssueItem, dryRun: bool)
    ensures SuccessCount(items + [it], dryRun)
            == SuccessCount(items, dryRun) + (if Succeeds(it, dryRun) then 1 else 0)
  {
    assert (items + [it])[..|items|] == items;
  }
}

=== FILE: fetcher.dfy ===
/** The small pure rules inside the two repository fetchers: the package
    copy (`swift_package_analyzer/data/fetcher.py`) and the legacy root copy
    (`fetcher.py`). They differ in how `.git` is removed from a URL and in
    how `process_batch` counts. */
module Fetcher {
  import opened Wrappers
  import opened Text
  import opened Url
  import Identity
  import Manifest

  datatype Variant = Packaged | Legacy

  const SpiPrefix := "https://swiftpackageindex.com/"
  const GithubPrefix := "https://github.com/"

  /** The packaged copy removes every `.git`; the legacy copy applies
      `rstrip(".git")`, which strips a trailing run of `.`, `g`, `i`, `t`. */
  function DropGit(v: Variant, s: string): (r: string)
    ensures v.Legacy? ==> |r| <= |s| && r == s[..|r|] && forall i :: |r| <= i < |s| ==> Identity.IsGitChar(s[i])
    ensures v.Packaged? ==> forall c :: c in r ==> c in s
  {
    match v
    case Packaged => ReplaceAllKeeps(s, ".git"); ReplaceAll(s, ".git", "")
    case Legacy => RStripBy(s, Identity.IsGitChar)
  }

  /** Deleting a pattern introduces no new character. */
  lemma {:induction false} ReplaceAllKeeps(s: string, pat: string)
    requires |pat| > 0
    ensures forall c :: c in ReplaceAll(s, pat, "") ==> c in s
    decreases |s|
  {
    if |s| >= |pat| {
      if At(s, 0, pat) {
        ReplaceAllKeeps(s[|pat|..], pat);
      } else {
        ReplaceAllKeeps(s[1..], pat);
      }
    }
  }

  function FirstTwo(parts: seq<string>): Option<(string, string)> {
    if |parts| >= 2 then Some((parts[0], parts[1])) else None
  }

  /** Neither of the first two `/`-segments holds a `/`. */
  lemma SplitPairFree(s: string)
    ensures FirstTwo(Split(s, '/')).Some? ==>
      '/' !in FirstTwo(Split(s, '/')).value.0 && '/' !in FirstTwo(Split(s, '/')).value.1
  {
  }

  /** The Swift Package Index form: the prefix removed everywhere, then
      `.git`, then the first two `/`-segments. */
  function SpiSegments(v: Variant, url: string): Option<(string, string)> {
    FirstTwo(Split(DropGit(v, ReplaceAll(url, SpiPrefix, "")), '/'))
  }

  /** The GitHub form: the path with `/` trimmed at both ends, then `.git`,
      then the first two `/`-segments. */
  function PathSegments(v: Variant, path: string): Option<(string, string)> {
    FirstTwo(Split(DropGit(v, StripBy(path, IsSlash)), '/'))
  }

  function UnparsableMessage(url: string): string {
    "Unable to parse GitHub URL: " + url
  }

  /** `parse_github_url`: `ValueError` becomes `Failure`. */
  function ParseRepoUrl(v: Variant, url: string): (r: Result<(string, string)>)
    ensures r.Success? ==> '/' !in r.value.0 && '/' !in r.value.1
    ensures r.Success? ==>
      (|| StartsWith(url, SpiPrefix)
       || (Parse(url).Success? && Contains(Parse(url).value.netloc, "github.com")))
    ensures r.Failure? ==> r.error == UnparsableMessage(url) || r.error == "Invalid IPv6 URL"
  {
    SplitPairFree(DropGit(v, ReplaceAll(url, SpiPrefix, "")));
    if StartsWith(url, SpiPrefix) && SpiSegments(v, url).Some? then Success(SpiSegments(v, url).value)
    else
      match Parse(url)
      case Failure(e) => Failure(e)
      case Success(u) =>
        SplitPairFree(DropGit(v, StripBy(u.path, IsSlash)));
        if Contains(u.netloc, "github.com") && PathSegments(v, u.path).Some? then Success(PathSegments(v, u.path).value)
        else Failure(UnparsableMessage(url))
  }

  // ---------------------------------------------------------------------
  // Round trips

  /** A path segment as people write them: non-empty, and free of the
      characters that end or split a URL component. */
  predicate Plain(x: string) {
    |x| > 0 && forall i :: 0 <= i < |x| ==> PlainChar(x[i])
  }

  predicate PlainChar(c: char) {
    && c != '/' && c != '?' && c != '#' && c != ';' && c != '[' && c != ']'
    && !IsUnsafe(c)
  }

  /** How each copy treats `owner/repo`. */
  function Expected(v: Variant, repo: string): string {
    match v
    case Packaged => repo
    case Legacy => RStripBy(repo, Identity.IsGitChar)
  }

  lemma {:induction false} RStripKeepsHead(a: string, b: string, drop: char -> bool)
    requires |a| > 0 && !drop(a[|a| - 1])
    ensures RStripBy(a + b, drop) == a + RStripBy(b, drop)
    decreases |b|
  {
    if |b| > 0 && drop(b[|b| - 1]) {
      assert (a + b)[..|a + b| - 1] == a + b[..|b| - 1];
      RStripKeepsHead(a, b[..|b| - 1], drop);
    } else if |b| == 0 {
      assert a + b == a;
    }
  }

  /** `.git` removal on `owner/repo` keeps the owner. */
  lemma {:induction false} DropGitPair(v: Variant, owner: string, repo: string)
    requires Plain(owner) && Plain(repo)
    requires v.Packaged? ==> !Contains(owner + "/" + repo, ".git")
    ensures DropGit(v, owner + "/" + repo) == owner + "/" + Expected(v, repo)
    ensures '/' !in Expected(v, repo)
  {
    match v
    case Packaged => ReplaceAllAbsent(owner + "/" + repo, ".git", "");
    case Legacy =>
      RStripKeepsHead(owner + "/", repo, Identity.IsGitChar);
      var e := RStripBy(repo, Identity.IsGitChar);
      assert e == repo[..|e|];
      assert forall c :: c in e ==> c in repo;
  }

  lemma {:induction false} SplitPair(owner: string, repo: string)
    requires '/' !in owner && '/' !in repo
    ensures Split(owner + "/" + repo, '/') == [owner, repo]
  {
    SplitCons(owner, repo, '/');
    SplitNone(repo, '/');
  }

  lemma {:induction false} SchemeHttps(x: string)
    ensures SplitScheme("https:" + x) == ("https", x)
  {
    var url := "https:" + x;
    assert url[5] == ':' && url[..5] == "https";
    IndexOfCharAt(url, ':', 5);
    assert LowerStr("https") == "https";
  }

  lemma {:induction false} NetlocGithub(y: string)
    requires |y| == 0 || IsNetlocStop(y[0])
    ensures SplitNetloc("//github.com" + y) == ("github.com", y)
  {
    var rest := "//github.com" + y;
    var e := FirstStop(rest, 2);
    assert forall k :: 2 <= k < 12 ==> !IsNetlocStop(rest[k]);
    assert |y| == 0 ==> |rest| == 12;
    assert |y| > 0 ==> rest[12] == y[0];
    assert e == 12;
    assert rest[2..12] == "github.com";
    assert rest[12..] == y;
  }

  /** The host has no brackets, so it is not taken for an IPv6 literal. */
  lemma NoBrackets()
    ensures '[' !in "github.com" && ']' !in "github.com"
  {
  }

  /** A character that leaves the path component of a URL intact. */
  predicate PathChar(c: char) {
    c != '?' && c != '#' && c != ';' && c != '[' && c != ']' && !IsUnsafe(c)
  }

  lemma {:induction false} PathFacts(x: string)
    requires forall i :: 0 <= i < |x| ==> PathChar(x[i])
    ensures forall c :: c in GithubPrefix + x ==> !IsUnsafe(c)
    ensures var tail := "/" + x; '#' !in tail && '?' !in tail && ';' !in tail
  {
    assert forall c :: c in GithubPrefix ==> !IsUnsafe(c);
  }

  /** `urlparse` of `https://github.com/` followed by path text. */
  lemma {:induction false} ParseGithubPath(x: string)
    requires forall i :: 0 <= i < |x| ==> PathChar(x[i])
    ensures Parse(GithubPrefix + x) == Success(Parts("https", "github.com", "/" + x, "", "", ""))
  {
    var tail := "/" + x;
    var url := GithubPrefix + x;
    assert url == "https:" + ("//github.com" + tail);
    PathFacts(x);
    assert Sanitize(url) == url;
    SchemeHttps("//github.com" + tail);
    NetlocGithub(tail);
    NoBrackets();
    assert CutAt(tail, '#') == (tail, "");
    assert CutAt(tail, '?') == (tail, "");
  }

  /** `urlparse` of a plain `https://github.com/owner/repo`. */
  lemma {:induction false} ParseGithubUrl(owner: string, repo: string)
    requires Plain(owner) && Plain(repo)
    ensures Parse(GithubPrefix + owner + "/" + repo) == Success(Parts("https", "github.com", "/" + owner + "/" + repo, "", "", ""))
  {
    var x := owner + "/" + repo;
    forall i | 0 <= i < |x| ensures PathChar(x[i]) {
      if i < |owner| { assert x[i] == owner[i]; }
      else if i > |owner| { assert x[i] == repo[i - |owner| - 1]; }
    }
    assert GithubPrefix + owner + "/" + repo == GithubPrefix + x;
    assert "/" + owner + "/" + repo == "/" + x;
    ParseGithubPath(x);
  }

  /** Trimming `/` from `/owner/repo` leaves `owner/repo`. */
  lemma {:induction false} StripPath(owner: string, repo: string)
    requires Plain(owner) && Plain(repo)
    ensures StripBy("/" + owner + "/" + repo, IsSlash) == owner + "/" + repo
  {
    var t := owner + "/" + repo;
    LStripSlash(t);
    assert owner[0] in owner;
    assert t[0] == owner[0];
    assert repo[|repo| - 1] in repo;
    assert t[|t| - 1] == repo[|repo| - 1];
  }

  lemma {:induction false} LStripSlash(t: string)
    requires |t| > 0 && !IsSlash(t[0])
    ensures LStripBy("/" + t, IsSlash) == t
  {
    assert ("/" + t)[1..] == t;
  }

  /** The path segments of `/owner/repo`. */
  lemma {:induction false} PathSegmentsPair(v: Variant, owner: string, repo: string)
    requires Plain(owner) && Plain(repo)
    requires v.Packaged? ==> !Contains(owner + "/" + repo, ".git")
    ensures PathSegments(v, "/" + owner + "/" + repo) == Some((owner, Expected(v, repo)))
  {
    StripPath(owner, repo);
    DropGitPair(v, owner, repo);
    SplitPair(owner, Expected(v, repo));
  }

  lemma GithubIsGithub()
    ensures Contains("github.com", "github.com")
  {
    ContainsAt("github.com", "github.com", 0);
  }

  lemma {:induction false} NotSpi(owner: string, repo: string)
    ensures !StartsWith(GithubPrefix + owner + "/" + repo, SpiPrefix)
  {
    var url := GithubPrefix + owner + "/" + repo;
    assert url[8] == 'g' && SpiPrefix[8] == 's';
  }

  /** `https://github.com/owner/repo` resolves to `(owner, repo)` in the
      packaged copy, and to the repository name with its trailing `.`, `g`,
      `i`, `t` characters stripped in the legacy copy. */
  lemma {:induction false} GithubRoundTrip(v: Variant, owner: string, repo: string)
    requires Plain(owner) && Plain(repo)
    requires v.Packaged? ==> !Contains(owner + "/" + repo, ".git")
    ensures ParseRepoUrl(v, GithubPrefix + owner + "/" + repo) == Success((owner, Expected(v, repo)))
  {
    NotSpi(owner, repo);
    ParseGithubUrl(owner, repo);
    GithubIsGithub();
    PathSegmentsPair(v, owner, repo);
  }

  /** A `.git` suffix is removed by the packaged copy. */
  lemma {:induction false} GithubGitSuffix(owner: string, repo: string)
    requires Plain(owner) && Plain(repo)
    requires !Contains(owner + "/" + repo, ".git")
    ensures ParseRepoUrl(Packaged, GithubPrefix + owner + "/" + repo + ".git") == Success((owner, repo))
  {
    var r := repo + ".git";
    assert Plain(r) by { assert forall i :: 0 <= i < |r| ==> r[i] in repo || r[i] in ".git"; }
    assert GithubPrefix + owner + "/" + repo + ".git" == GithubPrefix + owner + "/" + r;
    NotSpi(owner, r);
    ParseGithubUrl(owner, r);
    GithubIsGithub();
    PathSegmentsGit(owner, repo);
  }

  lemma {:induction false} PathSegmentsGit(owner: string, repo: string)
    requires Plain(owner) && Plain(repo + ".git")
    requires !Contains(owner + "/" + repo, ".git")
    ensures PathSegments(Packaged, "/" + owner + "/" + (repo + ".git")) == Some((owner, repo))
  {
    var r := repo + ".git";
    StripPath(owner, r);
    var k := owner + "/" + repo;
    assert owner + "/" + r == k + ".git";
    DropFinalGit(k);
    assert '/' !in repo by {
      forall i | 0 <= i < |repo| ensures repo[i] != '/' {
        assert repo[i] == r[i];
      }
    }
    SplitPair(owner, repo);
  }

  /** With no `.git` before it, a final `.git` is the only one removed. */
  lemma {:induction false} DropFinalGit(k: string)
    requires !Contains(k, ".git")
    ensures ReplaceAll(k + ".git", ".git", "") == k
  {
    var s := k + ".git";
    forall j | 0 <= j < |k| ensures !At(s, j, ".git") {
      if j + 4 <= |k| {
        if At(s, j, ".git") {
          assert k[j..j + 4] == s[j..j + 4];
          ContainsAt(k, ".git", j);
        }
      } else {
        assert s[|k|] == '.';
        AtChar(s, j, ".git", |k| - j);
      }
    }
    ReplaceAllSkip(k, ".git", ".git", "");
    assert At(".git", 0, ".git");
    assert ".git"[4..] == "";
  }

  /** `https://github.com/vapor/jwt`: the legacy copy drops the `t`. */
  lemma JwtExample()
    ensures ParseRepoUrl(Legacy, "https://github.com/vapor/jwt") == Success(("vapor", "jw"))
    ensures ParseRepoUrl(Packaged, "https://github.com/vapor/jwt") == Success(("vapor", "jwt"))
  {
    JwtLegacy();
    JwtPackaged();
  }

  lemma JwtLegacy()
    ensures ParseRepoUrl(Legacy, "https://github.com/vapor/jwt") == Success(("vapor", "jw"))
  {
    var o, r := "vapor", "jwt";
    JwtUrl(o, r);
    assert RStripBy("jw", Identity.IsGitChar) == "jw";
    assert Expected(Legacy, r) == "jw";
    GithubRoundTrip(Legacy, o, r);
  }

  lemma JwtPackaged()
    ensures ParseRepoUrl(Packaged, "https://github.com/vapor/jwt") == Success(("vapor", "jwt"))
  {
    var o, r := "vapor", "jwt";
    JwtUrl(o, r);
    GithubRoundTrip(Packaged, o, r);
  }

  /** The example URL is the plain GitHub form of `vapor/jwt`. */
  lemma JwtUrl(o: string, r: string)
    requires o == "vapor" && r == "jwt"
    ensures Plain(o) && Plain(r) && !Contains(o + "/" + r, ".git")
    ensures GithubPrefix + o + "/" + r == "https://github.com/vapor/jwt"
  {
    NoDotNoGit(o + "/" + r);
  }

  lemma {:induction false} NoDotNoGit(s: string)
    requires '.' !in s
    ensures !Contains(s, ".git")
  {
    forall j ensures !At(s, j, ".git") {
      AtChar(s, j, ".git", 0);
    }
  }

  lemma {:induction false} NoSpiInside(owner: string, repo: string)
    requires Plain(owner) && Plain(repo)
    ensures !Contains(owner + "/" + repo, SpiPrefix)
  {
    var t := owner + "/" + repo;
    forall k | 0 <= k < |t| && k != |owner| ensures t[k] != '/' {
      if k < |owner| { assert t[k] == owner[k]; }
      else { assert t[k] == repo[k - |owner| - 1]; }
    }
    forall j: nat ensures !At(t, j, SpiPrefix) {
      AtChar(t, j, SpiPrefix, 6);
      AtChar(t, j, SpiPrefix, 7);
    }
  }

  /** The Swift Package Index segments of `owner/repo` are the expected pair. */
  lemma {:induction false} SpiSegmentsOf(v: Variant, owner: string, repo: string)
    requires Plain(owner) && Plain(repo)
    requires v.Packaged? ==> !Contains(owner + "/" + repo, ".git")
    ensures SpiSegments(v, SpiPrefix + owner + "/" + repo) == Some((owner, Expected(v, repo)))
  {
    var t := owner + "/" + repo;
    var url := SpiPrefix + t;
    assert SpiPrefix + owner + "/" + repo == url;
    assert url[..|SpiPrefix|] == SpiPrefix;
    assert At(url, 0, SpiPrefix);
    assert url[|SpiPrefix|..] == t;
    NoSpiInside(owner, repo);
    ReplaceAllAbsent(t, SpiPrefix, "");
    assert ReplaceAll(url, SpiPrefix, "") == t;
    DropGitPair(v, owner, repo);
    SplitPair(owner, Expected(v, repo));
  }

  /** `https://swiftpackageindex.com/owner/repo` resolves without `urlparse`
      to the same pair as the GitHub form. */
  lemma {:induction false} SpiRoundTrip(v: Variant, owner: string, repo: string)
    requires Plain(owner) && Plain(repo)
    requires v.Packaged? ==> !Contains(owner + "/" + repo, ".git")
    ensures ParseRepoUrl(v, SpiPrefix + owner + "/" + repo) == Success((owner, Expected(v, repo)))
  {
    var url := SpiPrefix + owner + "/" + repo;
    assert url[..|SpiPrefix|] == SpiPrefix;
    assert StartsWith(url, SpiPrefix);
    SpiSegmentsOf(v, owner, repo);
  }

  /** A GitHub URL naming only an owner has fewer than two segments and is
      rejected. */
  lemma {:induction false} OwnerOnlyFails(v: Variant, owner: string)
    requires Plain(owner)
    ensures ParseRepoUrl(v, GithubPrefix + owner) == Failure(UnparsableMessage(GithubPrefix + owner))
  {
    var url := GithubPrefix + owner;
    assert !StartsWith(url, SpiPrefix) by {
      assert url[8] == 'g' && SpiPrefix[8] == 's';
    }
    ParseGithubPath(owner);
    OwnerOnlySegments(v, owner);
    NoSegmentsFails(v, url, Parts("https", "github.com", "/" + owner, "", "", ""));
  }

  lemma {:induction false} NoSegmentsFails(v: Variant, url: string, u: Parts)
    requires !StartsWith(url, SpiPrefix) && Parse(url) == Success(u) && PathSegments(v, u.path).None?
    ensures ParseRepoUrl(v, url) == Failure(UnparsableMessage(url))
  {
  }

  lemma {:induction false} OwnerOnlySegments(v: Variant, owner: string)
    requires Plain(owner)
    ensures PathSegments(v, "/" + owner).None?
  {
    LStripSlash(owner);
    assert owner[|owner| - 1] != '/';
    assert StripBy("/" + owner, IsSlash) == owner;
    var d := DropGit(v, owner);
    assert '/' !in owner;
    assert '/' !in d by {
      if v.Legacy? { assert forall c :: c in d ==> c in owner; }
    }
    SplitNone(d, '/');
  }

  // ---------------------------------------------------------------------
  // Manifest fields

  /** The value after the first `:` of a line mentioning
      `swift-tools-version`, when the line has a `:`. */
  function ToolsField(line: string): (r: Option<string>)
    ensures r.Some? ==> Contains(line, "swift-tools-version") && ':' in line
    ensures Contains(line, "swift-tools-version") && ':' in line ==> r.Some?
  {
    if Contains(line, "swift-tools-version") then
      var parts := Split(line, ':');
      if |parts| > 1 then Some(Strip(parts[1]))
      else
        assert ':' !in line by { SplitHasSeparator(line, ':'); }
        None
    else None
  }

  lemma {:induction false} SplitHasSeparator(s: string, sep: char)
    ensures sep in s ==> |Split(s, sep)| > 1
  {
    if sep in s {
      assert IndexOfChar(s, sep).Some?;
    }
  }

  function ToolsVersionIn(lines: seq<string>): Option<string> {
    FirstField(lines, ToolsField)
  }

  /** The field `field` finds in the first line that has one, scanning from
      the top. */
  function FirstField(lines: seq<string>, field: string -> Option<string>): Option<string> {
    if |lines| == 0 then None
    else if field(lines[0]).Some? then field(lines[0])
    else FirstField(lines[1..], field)
  }

  /** No line before `i` has a tools-version field. */
  predicate NoFieldBefore(lines: seq<string>, i: nat)
    requires i <= |lines|
  {
    forall j :: 0 <= j < i ==> ToolsField(lines[j]).None?
  }

  /** The scan returns the field of the first line that has one, and
      nothing when no line has one. */
  lemma {:induction false} ToolsVersionInFirst(lines: seq<string>)
    ensures ToolsVersionIn(lines).Some? ==>
      exists i :: 0 <= i < |lines| && ToolsField(lines[i]) == ToolsVersionIn(lines) && NoFieldBefore(lines, i)
    ensures ToolsVersionIn(lines).None? ==> NoFieldBefore(lines, |lines|)
  {
    if ToolsVersionIn(lines).Some? {
      ToolsVersionInFound(lines);
    } else {
      ToolsVersionInNone(lines);
    }
  }

  lemma {:induction false} ToolsVersionInFound(lines: seq<string>)
    requires ToolsVersionIn(lines).Some?
    ensures exists i :: 0 <= i < |lines| && ToolsField(lines[i]) == ToolsVersionIn(lines) && NoFieldBefore(lines, i)
  {
    FirstFieldFound(lines, ToolsField);
    var i :| 0 <= i < |lines| && ToolsField(lines[i]) == FirstField(lines, ToolsField)
             && forall k :: 0 <= k < i ==> ToolsField(lines[k]).None?;
    assert NoFieldBefore(lines, i);
  }

  lemma {:induction false} ToolsVersionInNone(lines: seq<string>)
    requires ToolsVersionIn(lines).None?
    ensures NoFieldBefore(lines, |lines|)
  {
    forall j | 0 <= j < |lines| ensures ToolsField(lines[j]).None? {
      FirstFieldNoneAt(lines, ToolsField, j);
    }
  }

  lemma {:induction false} FirstFieldFound(lines: seq<string>, field: string -> Option<string>)
    requires FirstField(lines, field).Some?
    ensures exists i :: 0 <= i < |lines| && field(lines[i]) == FirstField(lines, field)
                        && forall k :: 0 <= k < i ==> field(lines[k]).None?
  {
    if field(lines[0]).None? {
      var t := lines[1..];
      FirstFieldFound(t, field);
      var i :| 0 <= i < |t| && field(t[i]) == FirstField(t, field) && forall k :: 0 <= k < i ==> field(t[k]).None?;
      assert lines[i + 1] == t[i];
      forall k | 0 <= k < i + 1 ensures field(lines[k]).None? {
        if k > 0 { assert lines[k] == t[k - 1]; }
      }
    }
  }

  lemma {:induction false} FirstFieldNoneAt(lines: seq<string>, field: string -> Option<string>, j: nat)
    requires FirstField(lines, field).None? && j < |lines|
    ensures field(lines[j]).None?
    decreases j
  {
    if j > 0 {
      var t := lines[1..];
      FirstFieldNoneAt(t, field, j - 1);
      assert t[j - 1] == lines[j];
    }
  }

  /** `_extract_swift_tools_version`, the same in both copies: the first line
      with `swift-tools-version` and a `:` gives the stripped text between its
      first and second `:`. */
  function ToolsVersion(content: string): Option<string> {
    ToolsVersionIn(Split(content, '\n'))
  }

  /** The usual header `// swift-tools-version:5.9` yields `5.9`. */
  lemma {:induction false} ToolsHeader(version: string, rest: string)
    requires ':' !in version && '\n' !in version
    ensures ToolsVersion("// swift-tools-version:" + version + "\n" + rest) == Some(Strip(version))
  {
    var header := "// swift-tools-version:" + version;
    assert '\n' !in header;
    assert "// swift-tools-version:" + version + "\n" + rest == header + "\n" + rest;
    SplitCons(header, rest, '\n');
    HeaderField(version);
  }

  lemma {:induction false} HeaderField(version: string)
    requires ':' !in version
    ensures ToolsField("// swift-tools-version:" + version) == Some(Strip(version))
  {
    var key := "// swift-tools-version";
    var header := key + ":" + version;
    assert header == "// swift-tools-version:" + version;
    assert header[3..3 + 19] == "swift-tools-version";
    ContainsAt(header, "swift-tools-version", 3);
    assert ':' !in key;
    SplitCons(key, version, ':');
    SplitNone(version, ':');
  }

  // ---------------------------------------------------------------------
  // Basic dependency extraction

  /** `re.findall(r"\.package\([^)]+\)", content)`: a declaration runs to
      the first `)` and needs at least one character before it; a failed
      attempt moves on by one character. */
  function BasicDeclarations(s: string): (ds: seq<string>)
    ensures forall d :: d in ds ==> StartsWith(d, ".package(") && |d| > 10
    ensures forall d :: d in ds ==> d[|d| - 1] == ')' && ')' !in d[9..|d| - 1]
    decreases |s|
  {
    if |s| == 0 then []
    else if At(s, 0, ".package(") then
      match IndexOfChar(s[9..], ')')
      case Some(k) =>
        if k > 0 then
          var d := s[..9 + k + 1];
          assert d[9..|d| - 1] == s[9..][..k];
          assert d[..9] == s[..9];
          [d] + BasicDeclarations(s[9 + k + 1..])
        else BasicDeclarations(s[1..])
      case None => BasicDeclarations(s[1..])
    else BasicDeclarations(s[1..])
  }

  /** A declaration with something between its parentheses. */
  predicate HasArguments(d: string) {
    |d| > 10
  }

  /** Text with no `.` holds no match start, so the scan passes over it. */
  lemma {:induction false} BasicSkip(s: string, j: nat)
    requires j <= |s| && forall k :: 0 <= k < j ==> s[k] != '.'
    ensures BasicDeclarations(s) == BasicDeclarations(s[j..])
    decreases j
  {
    if j > 0 {
      AtFirstChar(s, 0, ".package(");
      assert BasicDeclarations(s) == BasicDeclarations(s[1..]);
      assert s[1..][j - 1..] == s[j..];
      BasicSkip(s[1..], j - 1);
    }
  }

  lemma {:induction false} AtFirstChar(s: string, i: nat, p: string)
    requires |p| > 0
    ensures At(s, i, p) ==> i < |s| && s[i] == p[0]
  {
    AtChar(s, i, p, 0);
  }

  /** The fetchers' pattern finds exactly the manifest parser's declarations
      that have arguments: an empty `.package()` is skipped by both. */
  lemma {:induction false} BasicAreDeclarationsWithArguments(s: string)
    ensures BasicDeclarations(s) == Filter(Manifest.Declarations(s), HasArguments)
    decreases |s|
  {
    if |s| > 0 {
      if At(s, 0, ".package(") {
        match IndexOfChar(s[9..], ')')
        case Some(k) =>
          BasicAreDeclarationsWithArguments(s[9 + k + 1..]);
          if k == 0 { EmptyCall(s); } else { CallWithArguments(s, k); }
        case None =>
          BasicAreDeclarationsWithArguments(s[1..]);
      } else {
        BasicAreDeclarationsWithArguments(s[1..]);
      }
    }
  }

  lemma {:induction false} CallWithArguments(s: string, k: nat)
    requires At(s, 0, ".package(") && IndexOfChar(s[9..], ')') == Some(k) && k > 0
    requires BasicDeclarations(s[9 + k + 1..]) == Filter(Manifest.Declarations(s[9 + k + 1..]), HasArguments)
    ensures BasicDeclarations(s) == Filter(Manifest.Declarations(s), HasArguments)
  {
    var d := s[..9 + k + 1];
    var rest := Manifest.Declarations(s[9 + k + 1..]);
    assert Manifest.Declarations(s) == [d] + rest;
    assert ([d] + rest)[0] == d && ([d] + rest)[1..] == rest;
    assert HasArguments(d);
  }

  lemma {:induction false} NoDotInCall(t: string)
    requires t == "package()"
    ensures forall k :: 0 <= k < |t| ==> t[k] != '.'
  {
  }

  lemma {:induction false} EmptyCall(s: string)
    requires At(s, 0, ".package(") && IndexOfChar(s[9..], ')') == Some(0)
    requires BasicDeclarations(s[10..]) == Filter(Manifest.Declarations(s[10..]), HasArguments)
    ensures BasicDeclarations(s) == Filter(Manifest.Declarations(s), HasArguments)
  {
    EmptyCallSkipped(s);
    EmptyCallDropped(s);
  }

  lemma {:induction false} EmptyCallDropped(s: string)
    requires At(s, 0, ".package(") && IndexOfChar(s[9..], ')') == Some(0)
    ensures Filter(Manifest.Declarations(s), HasArguments) == Filter(Manifest.Declarations(s[10..]), HasArguments)
  {
    var d := s[..10];
    var rest := Manifest.Declarations(s[10..]);
    assert Manifest.Declarations(s) == [d] + rest;
    assert ([d] + rest)[0] == d && ([d] + rest)[1..] == rest;
    assert !HasArguments(d);
  }

  lemma {:induction false} EmptyCallSkipped(s: string)
    requires At(s, 0, ".package(") && IndexOfChar(s[9..], ')') == Some(0)
    ensures BasicDeclarations(s) == BasicDeclarations(s[10..])
  {
    assert BasicDeclarations(s) == BasicDeclarations(s[1..]);
    assert s[..9] == ".package(";
    assert s[9] == ')';
    var t := s[1..];
    assert t[..9] == s[..9][1..] + [s[9]];
    assert t[..9] == "package()";
    NoDotInCall(t[..9]);
    assert forall k :: 0 <= k < 9 ==> t[k] == t[..9][k];
    BasicSkip(t, 9);
    assert t[9..] == s[10..];
  }

  /** `url:` and `from:` with no space allowed before the colon. */
  const BareUrlArg := Manifest.ArgPattern(["url"], false, ':')
  const BareFromArg := Manifest.ArgPattern(["from"], false, ':')

  datatype BasicDependency = BasicDependency(url: Option<string>, versionRequirement: Option<string>)

  /** The entry for one declaration: kept when a `url:` or a `from:` string
      is found, with the version written as `from: X`. */
  function EntryOf(d: string): (e: Option<BasicDependency>)
    ensures e.Some? <==> Manifest.SearchArg(d, 0, BareUrlArg).Some? || Manifest.SearchArg(d, 0, BareFromArg).Some?
    ensures e.Some? ==> e.value.url == Manifest.SearchArg(d, 0, BareUrlArg)
    ensures e.Some? ==> (e.value.versionRequirement.Some? <==> Manifest.SearchArg(d, 0, BareFromArg).Some?)
    ensures e.Some? && e.value.versionRequirement.Some? ==>
      e.value.versionRequirement.value == "from: " + Manifest.SearchArg(d, 0, BareFromArg).value
  {
    var u := Manifest.SearchArg(d, 0, BareUrlArg);
    var f := Manifest.SearchArg(d, 0, BareFromArg);
    if u.None? && f.None? then None
    else Some(BasicDependency(u, if f.Some? then Some("from: " + f.value) else None))
  }

  function Entries(ds: seq<string>): (es: seq<BasicDependency>)
    ensures |es| <= |ds|
    ensures forall e :: e in es <==> exists d :: d in ds && EntryOf(d) == Some(e)
  {
    if |ds| == 0 then []
    else
      var rest := Entries(ds[1..]);
      var out := match EntryOf(ds[0])
        case Some(e) => [e] + rest
        case None => rest;
      ListedFromCons(ds, rest, out, EntryOf);
      out
  }

  /** Putting the head's value, if any, before what the tail produced lists
      exactly what the whole list produces. */
  lemma ListedFromCons<A, B>(xs: seq<A>, rest: seq<B>, out: seq<B>, f: A -> Option<B>)
    requires |xs| > 0
    requires forall e :: e in rest <==> exists d :: d in xs[1..] && f(d) == Some(e)
    requires out == if f(xs[0]).Some? then [f(xs[0]).value] + rest else rest
    ensures forall e :: e in out <==> exists d :: d in xs && f(d) == Some(e)
  {
    assert forall d :: d in xs[1..] ==> d in xs;
    assert forall d :: d in xs ==> d == xs[0] || d in xs[1..];
  }

  /** The entries of concatenated declaration lists are those of the first
      followed by those of the second: order and repetitions are kept. */
  lemma {:induction false} EntriesAppend(xs: seq<string>, ys: seq<string>)
    ensures Entries(xs + ys) == Entries(xs) + Entries(ys)
    decreases |xs|
  {
    if |xs| > 0 {
      assert (xs + ys)[0] == xs[0];
      assert (xs + ys)[1..] == xs[1..] + ys;
      EntriesAppend(xs[1..], ys);
      match EntryOf(xs[0])
      case Some(e) => Regroup([e], Entries(xs[1..]), Entries(ys));
      case None =>
    } else {
      assert xs + ys == ys;
    }
  }

  /** One declaration gives its entry, or nothing when it has neither a
      `url:` nor a `from:` string. */
  lemma {:induction false} EntriesOne(d: string)
    ensures Entries([d]) == match EntryOf(d)
                            case Some(e) => [e]
                            case None => []
  {
    assert [d][1..] == [];
    assert Entries([d][1..]) == [];
  }

  /** `_extract_dependencies`, the same in both copies. */
  function ExtractDependencies(content: string): (deps: seq<BasicDependency>)
    ensures |deps| <= |BasicDeclarations(content)|
    ensures forall e :: e in deps <==> exists d :: d in BasicDeclarations(content) && EntryOf(d) == Some(e)
    ensures forall e :: e in deps ==> e.url.Some? || e.versionRequirement.Some?
  {
    Entries(BasicDeclarations(content))
  }

  /** What a fetch records about the manifest. */
  datatype ManifestFields = ManifestFields(
    hasPackageSwift: bool,
    toolsVersion: Option<string>,
    dependencies: Option<seq<BasicDependency>>,
    dependenciesCount: Option<nat>)

  /** `has_package_swift` says whether the file was fetched; the other fields
      are filled only for non-empty content, and the count is the length of
      the list (both copies; the legacy copy extracts twice and gets the same
      list). */
  function FieldsOf(content: Option<string>): (m: ManifestFields)
    ensures m.hasPackageSwift <==> content.Some?
    ensures m.dependencies.Some? <==> content.Some? && content.value != ""
    ensures m.dependencies.Some? ==> m.dependenciesCount == Some(|m.dependencies.value|)
    ensures m.dependencies.Some? ==> m.dependencies.value == ExtractDependencies(content.value)
    ensures m.dependencies.Some? ==> m.toolsVersion == ToolsVersion(content.value)
    ensures m.dependencies.None? ==> m.toolsVersion.None? && m.dependenciesCount.None?
  {
    match content
    case Some(text) =>
      if text != "" then
        var deps := ExtractDependencies(text);
        ManifestFields(true, ToolsVersion(text), Some(deps), Some(|deps|))
      else ManifestFields(true, None, None, None)
    case None => ManifestFields(false, None, None, None)
  }

  // ---------------------------------------------------------------------
  // Processing one repository and a batch

  /** 24 hours in microseconds, the resolution of Python's `datetime`. */
  const Day: int := 86_400_000_000

  /** The stored row for a URL, if any, with its `last_fetched` time. */
  datatype Stored = NotStored | StoredRow(lastFetched: Option<int>)

  /** How writing a fetched record went. The repository row and the
      processing log are committed one after the other: the first commit can
      fail (and is rolled back), or it can go through and the second one fail,
      which leaves the row in place. */
  datatype WriteOutcome = RecordNotSaved | LogNotSaved | Saved

  /** What processing one URL observes: the stored row, the current time,
      whether the metadata fetch returned a record, and how writing it to the
      database went. */
  datatype Attempt = Attempt(stored: Stored, now: int, fetched: bool, write: WriteOutcome)

  datatype Outcome = Succeeded | Errored | Skipped

  /** Fetched less than 24 hours ago; a `last_fetched` in the future counts
      as recent, since the difference is negative. */
  predicate Recent(a: Attempt) {
    a.stored.StoredRow? && a.stored.lastFetched.Some? && a.now - a.stored.lastFetched.value < Day
  }

  /** `process_repository` of the packaged copy: a recent fetch is skipped
      before any network access; a failed fetch or a failed write is an
      error. */
  function ProcessRepository(a: Attempt): (o: Outcome)
    ensures o == Skipped <==> Recent(a)
    ensures o == Succeeded <==> !Recent(a) && a.fetched && a.write == Saved
  {
    if Recent(a) then Skipped
    else if !a.fetched then Errored
    else if a.write != Saved then Errored
    else Succeeded
  }

  /** `process_repository` of the legacy copy returns a flag; a recent fetch
      counts as success. */
  function LegacyProcessRepository(a: Attempt): bool {
    if Recent(a) then true
    else if !a.fetched then false
    else a.write == Saved
  }

  /** The legacy flag is "not an error" of the packaged outcome. */
  lemma {:induction false} LegacyIsNotError(a: Attempt)
    ensures LegacyProcessRepository(a) <==> ProcessRepository(a) != Errored
  {
  }

  /** What the clock, the metadata fetch and the database write give the
      URL at one position of a batch. */
  datatype Step = Step(now: int, fetched: bool, write: WriteOutcome)

  /** The attempt got as far as committing the repository row. */
  predicate Committed(a: Attempt) {
    !Recent(a) && a.fetched && a.write != RecordNotSaved
  }

  /** The stored row after one attempt. A committed row carries the new
      `last_fetched`, also when the log commit after it fails, since the
      rollback cannot undo it and the error handler stamps the row again. An
      error before the row is committed stamps only a row that already
      exists, the rolled-back new row being gone. A skip writes nothing.
      The write uses the attempt's clock reading. */
  function StoredAfter(a: Attempt): (s: Stored)
    ensures s.StoredRow? <==> a.stored.StoredRow? || Committed(a)
    ensures s != a.stored ==> s == StoredRow(Some(a.now)) && ProcessRepository(a) != Skipped
    ensures Committed(a) ==> s == StoredRow(Some(a.now))
    ensures ProcessRepository(a) == Succeeded ==> s == StoredRow(Some(a.now))
  {
    match ProcessRepository(a)
    case Skipped => a.stored
    case Succeeded => StoredRow(Some(a.now))
    case Errored => if a.stored.StoredRow? || Committed(a) then StoredRow(Some(a.now)) else NotStored
  }

  /** A new repository whose row is committed but whose log commit fails is
      an error, and is stored afterwards with `last_fetched` set. */
  lemma {:induction false} LogFailureKeepsNewRow(now: int)
    ensures ProcessRepository(Attempt(NotStored, now, true, LogNotSaved)) == Errored
    ensures StoredAfter(Attempt(NotStored, now, true, LogNotSaved)) == StoredRow(Some(now))
    ensures StoredAfter(Attempt(NotStored, now, true, RecordNotSaved)) == NotStored
  {
  }

  /** The row `u` has once the attempts `done` for `urls` have run: the row
      its last attempt left, or the one it started with. */
  function StoredNow(initial: string -> Stored, done: seq<Attempt>, urls: seq<string>, u: string): Stored
    requires |done| == |urls|
    decreases |urls|
  {
    if |urls| == 0 then initial(u)
    else if urls[|urls| - 1] == u then StoredAfter(done[|done| - 1])
    else StoredNow(initial, done[..|done| - 1], urls[..|urls| - 1], u)
  }

  /** The attempts of `process_batch`, one URL after another: each sees the
      row the earlier attempts of the batch left behind. */
  function BatchAttempts(initial: string -> Stored, urls: seq<string>, steps: nat -> Step): (r: seq<Attempt>)
    ensures |r| == |urls|
    ensures forall j :: 0 <= j < |urls| ==>
              r[j].now == steps(j).now && r[j].fetched == steps(j).fetched && r[j].write == steps(j).write
    decreases |urls|
  {
    if |urls| == 0 then []
    else
      var n := |urls| - 1;
      var before := BatchAttempts(initial, urls[..n], steps);
      before + [Attempt(StoredNow(initial, before, urls[..n], urls[n]), steps(n).now, steps(n).fetched, steps(n).write)]
  }

  lemma {:induction false} BatchAttemptsPrefix(initial: string -> Stored, urls: seq<string>, steps: nat -> Step, k: nat)
    requires k <= |urls|
    ensures BatchAttempts(initial, urls, steps)[..k] == BatchAttempts(initial, urls[..k], steps)
    decreases |urls| - k
  {
    if k < |urls| {
      BatchAttemptsPrefix(initial, urls[..|urls| - 1], steps, k);
      BatchAttemptsPrefixStep(initial, urls, steps, k);
    } else {
      BatchAttemptsWhole(initial, urls, steps, k);
    }
  }

  /** The prefix property for `urls` from the one for `urls` without its last URL. */
  lemma BatchAttemptsPrefixStep(initial: string -> Stored, urls: seq<string>, steps: nat -> Step, k: nat)
    requires k < |urls|
    requires BatchAttempts(initial, urls[..|urls| - 1], steps)[..k]
               == BatchAttempts(initial, urls[..|urls| - 1][..k], steps)
    ensures BatchAttempts(initial, urls, steps)[..k] == BatchAttempts(initial, urls[..k], steps)
  {
    var n := |urls| - 1;
    BatchAttemptsInit(initial, urls, steps);
    TakeTake(urls, n, k);
    PrefixWithin(BatchAttempts(initial, urls, steps), BatchAttempts(initial, urls[..n], steps),
                 BatchAttempts(initial, urls[..k], steps), n, k);
  }

  lemma BatchAttemptsWhole(initial: string -> Stored, urls: seq<string>, steps: nat -> Step, k: nat)
    requires k == |urls|
    ensures BatchAttempts(initial, urls, steps)[..k] == BatchAttempts(initial, urls[..k], steps)
  {
    assert urls[..k] == urls;
  }

  /** Dropping the last URL drops the last attempt. */
  lemma BatchAttemptsInit(initial: string -> Stored, urls: seq<string>, steps: nat -> Step)
    requires |urls| > 0
    ensures BatchAttempts(initial, urls, steps)[..|urls| - 1] == BatchAttempts(initial, urls[..|urls| - 1], steps)
  {
  }

  /** The attempt at position `j` sees the row left by the attempts before it. */
  lemma {:induction false} BatchAttemptAt(initial: string -> Stored, urls: seq<string>, steps: nat -> Step, j: nat)
    requires j < |urls|
    ensures BatchAttempts(initial, urls, steps)[j].stored
              == StoredNow(initial, BatchAttempts(initial, urls, steps)[..j], urls[..j], urls[j])
  {
    var r := BatchAttempts(initial, urls, steps);
    BatchAttemptsPrefix(initial, urls, steps, j + 1);
    BatchAttemptsPrefix(initial, urls, steps, j);
    var p := urls[..j + 1];
    assert p[..j] == urls[..j] && p[j] == urls[j];
    assert r[j] == r[..j + 1][j];
  }

  lemma {:induction false} StoredNowLast(initial: string -> Stored, done: seq<Attempt>, urls: seq<string>, u: string, i: nat)
    requires |done| == |urls| && i < |urls| && urls[i] == u
    requires forall k :: i < k < |urls| ==> urls[k] != u
    ensures StoredNow(initial, done, urls, u) == StoredAfter(done[i])
    decreases |urls|
  {
    var n := |urls| - 1;
    if i < n {
      assert done[..n][i] == done[i];
      StoredNowLast(initial, done[..n], urls[..n], u, i);
    }
  }

  lemma {:induction false} StoredNowUntouched(initial: string -> Stored, done: seq<Attempt>, urls: seq<string>, u: string)
    requires |done| == |urls| && forall k :: 0 <= k < |urls| ==> urls[k] != u
    ensures StoredNow(initial, done, urls, u) == initial(u)
    decreases |urls|
  {
    if |urls| > 0 {
      StoredNowUntouched(initial, done[..|done| - 1], urls[..|urls| - 1], u);
    }
  }

  /** The first copy of a URL in a batch sees the row it started with, so a
      batch without repeats is a batch of independent attempts. */
  lemma {:induction false} FirstCopySeesInitial(initial: string -> Stored, urls: seq<string>, steps: nat -> Step, j: nat)
    requires j < |urls| && forall k :: 0 <= k < j ==> urls[k] != urls[j]
    ensures BatchAttempts(initial, urls, steps)[j]
              == Attempt(initial(urls[j]), steps(j).now, steps(j).fetched, steps(j).write)
  {
    var r := BatchAttempts(initial, urls, steps);
    BatchAttemptAt(initial, urls, steps, j);
    StoredNowUntouched(initial, r[..j], urls[..j], urls[j]);
  }

  /** A later copy of a URL sees the row its previous copy left. */
  lemma {:induction false} RepeatSeesEarlierWrite(initial: string -> Stored, urls: seq<string>, steps: nat -> Step, i: nat, j: nat)
    requires i < j < |urls| && urls[i] == urls[j]
    requires forall k :: i < k < j ==> urls[k] != urls[j]
    ensures BatchAttempts(initial, urls, steps)[j].stored == StoredAfter(BatchAttempts(initial, urls, steps)[i])
  {
    var r := BatchAttempts(initial, urls, steps);
    BatchAttemptAt(initial, urls, steps, j);
    assert r[..j][i] == r[i];
    StoredNowLast(initial, r[..j], urls[..j], urls[j], i);
  }

  /** A URL processed successfully is skipped when it comes again less than
      24 hours later in the same batch. */
  lemma {:induction false} RepeatAfterSuccessSkipped(initial: string -> Stored, urls: seq<string>, steps: nat -> Step, i: nat, j: nat)
    requires i < j < |urls| && urls[i] == urls[j]
    requires forall k :: i < k < j ==> urls[k] != urls[j]
    requires ProcessRepository(BatchAttempts(initial, urls, steps)[i]) == Succeeded
    requires steps(j).now - steps(i).now < Day
    ensures ProcessRepository(BatchAttempts(initial, urls, steps)[j]) == Skipped
  {
    RepeatAfterCommitSkipped(initial, urls, steps, i, j);
  }

  /** The same holds whenever the earlier copy committed its row, also when
      it ended as an error because the log commit failed. */
  lemma {:induction false} RepeatAfterCommitSkipped(initial: string -> Stored, urls: seq<string>, steps: nat -> Step, i: nat, j: nat)
    requires i < j < |urls| && urls[i] == urls[j]
    requires forall k :: i < k < j ==> urls[k] != urls[j]
    requires Committed(BatchAttempts(initial, urls, steps)[i])
    requires steps(j).now - steps(i).now < Day
    ensures ProcessRepository(BatchAttempts(initial, urls, steps)[j]) == Skipped
  {
    var r := BatchAttempts(initial, urls, steps);
    RepeatSeesEarlierWrite(initial, urls, steps, i, j);
    CommitThenSkip(r[i], r[j]);
  }

  /** An attempt that sees the row a committed attempt left, less than a
      day later, is skipped. */
  lemma CommitThenSkip(a: Attempt, b: Attempt)
    requires Committed(a) && b.stored == StoredAfter(a) && b.now - a.now < Day
    ensures ProcessRepository(b) == Skipped
  {
  }

  /** The number of attempts with outcome `o`. */
  function Tally(attempts: seq<Attempt>, o: Outcome): nat
    decreases |attempts|
  {
    if |attempts| == 0 then 0
    else Tally(attempts[..|attempts| - 1], o) + (if ProcessRepository(attempts[|attempts| - 1]) == o then 1 else 0)
  }

  datatype Counts = Counts(success: nat, error: nat, skipped: nat)

  /** `process_batch` of the packaged copy: each URL adds one to exactly one
      of the three counters. */
  method ProcessBatch(attempts: seq<Attempt>) returns (c: Counts)
    ensures c.success == Tally(attempts, Succeeded)
    ensures c.error == Tally(attempts, Errored)
    ensures c.skipped == Tally(attempts, Skipped)
    ensures c.success + c.error + c.skipped == |attempts|
  {
    c := Counts(0, 0, 0);
    var i := 0;
    while i < |attempts|
      invariant 0 <= i <= |attempts|
      invariant c.success == Tally(attempts[..i], Succeeded)
      invariant c.error == Tally(attempts[..i], Errored)
      invariant c.skipped == Tally(attempts[..i], Skipped)
      invariant c.success + c.error + c.skipped == i
    {
      assert attempts[..i + 1][..i] == attempts[..i];
      var o := ProcessRepository(attempts[i]);
      if o == Succeeded {
        c := c.(success := c.success + 1);
      } else if o == Errored {
        c := c.(error := c.error + 1);
      } else {
        c := c.(skipped := c.skipped + 1);
      }
      i := i + 1;
    }
    assert attempts[..i] == attempts;
  }

  datatype LegacyCounts = LegacyCounts(success: nat, error: nat)

  /** `process_batch` of the legacy copy: two counters that add up to the
      batch size, with skipped URLs among the successes. */
  method LegacyProcessBatch(attempts: seq<Attempt>) returns (c: LegacyCounts)
    ensures c.success == Tally(attempts, Succeeded) + Tally(attempts, Skipped)
    ensures c.error == Tally(attempts, Errored)
    ensures c.success + c.error == |attempts|
  {
    c := LegacyCounts(0, 0);
    var i := 0;
    while i < |attempts|
      invariant 0 <= i <= |attempts|
      invariant c.success == Tally(attempts[..i], Succeeded) + Tally(attempts[..i], Skipped)
      invariant c.error == Tally(attempts[..i], Errored)
      invariant c.success + c.error == i
    {
      assert attempts[..i + 1][..i] == attempts[..i];
      LegacyIsNotError(attempts[i]);
      if LegacyProcessRepository(attempts[i]) {
        c := c.(success := c.success + 1);
      } else {
        c := c.(error := c.error + 1);
      }
      i := i + 1;
    }
    assert attempts[..i] == attempts;
  }
}

=== FILE: graph.dfy ===
/** The dependency graph and its construction from the package cache:
    `_build_dependency_graph` replayed as a sequence of steps over an
    explicit node/edge structure standing in for a `networkx.DiGraph`. */
module Graph {
  import opened Wrappers
  import opened Identity

  /** Store metadata of a known package, as copied onto its graph node. */
  datatype PackageInfo = PackageInfo(stars: int, forks: int, hasPackageSwift: bool,
                                     linuxCompatible: bool, androidCompatible: bool)

  /** Node attributes. `info` is present once the node was added as a known
      package; `external` is set when it was first added as a placeholder
      and, since `add_node` merges attributes, stays set afterwards. */
  datatype NodeAttrs = NodeAttrs(name: string, info: Option<PackageInfo>, external: bool)

  datatype EdgeAttrs = EdgeAttrs(kind: DepKind, version: Option<string>)

  /** `nodes` lists the nodes in insertion order; `attrs` and `edges` are the
      node and edge attribute maps. */
  datatype Graph = Graph(nodes: seq<string>, attrs: map<string, NodeAttrs>,
                         edges: map<(string, string), EdgeAttrs>)

  const EmptyGraph := Graph([], map[], map[])

  predicate Distinct<T(==)>(s: seq<T>) {
    forall i, j :: 0 <= i < j < |s| ==> s[i] != s[j]
  }

  /** Every edge joins two nodes and the node list enumerates the node map
      once. */
  predicate Valid(g: Graph) {
    && Distinct(g.nodes)
    && (forall n :: n in g.nodes ==> n in g.attrs)
    && (forall n :: n in g.attrs ==> n in g.nodes)
    && (forall e :: e in g.edges ==> e.0 in g.attrs && e.1 in g.attrs)
  }

  function Successors(g: Graph, p: string): set<string> {
    set e | e in g.edges && e.0 == p :: e.1
  }

  function Predecessors(g: Graph, p: string): set<string> {
    set e | e in g.edges && e.1 == p :: e.0
  }

  /** The predecessors of `p` in node order, as an enumeration for the
      impact recursion. */
  function PredecessorList(g: Graph, p: string): (r: seq<string>)
    ensures forall x :: x in r <==> x in g.nodes && (x, p) in g.edges
    ensures Distinct(g.nodes) ==> Distinct(r)
  {
    PredecessorsAmong(g, g.nodes, p)
  }

  /** The members of `ns` with an edge into `p`, in order. */
  function PredecessorsAmong(g: Graph, ns: seq<string>, p: string): (r: seq<string>)
    ensures forall x :: x in r <==> x in ns && (x, p) in g.edges
    ensures Distinct(ns) ==> Distinct(r)
  {
    if |ns| == 0 then []
    else
      var rest := PredecessorsAmong(g, ns[1..], p);
      assert forall x :: x in rest ==> x in ns[1..];
      if (ns[0], p) in g.edges then [ns[0]] + rest else rest
  }

  lemma {:induction false} PredecessorListCounts(g: Graph, p: string)
    requires Valid(g)
    ensures |PredecessorList(g, p)| == |Predecessors(g, p)|
  {
    var l := PredecessorList(g, p);
    assert forall x :: x in l <==> x in Predecessors(g, p) by {
      forall x ensures x in l <==> x in Predecessors(g, p) {
        if (x, p) in g.edges { assert x in g.attrs; }
      }
    }
    DistinctCard(l, Predecessors(g, p));
  }

  lemma {:induction false} DistinctCard(l: seq<string>, s: set<string>)
    requires Distinct(l)
    requires forall x :: x in l <==> x in s
    ensures |l| == |s|
    decreases |l|
  {
    if |l| > 0 {
      assert forall x :: x in l[1..] <==> x in s - {l[0]} by {
        forall x ensures x in l[1..] <==> x in s - {l[0]} {
          if x in l[1..] {
            var k :| 1 <= k < |l| && l[k] == x;
          }
          if x in s - {l[0]} {
            var k :| 0 <= k < |l| && l[k] == x;
            assert k != 0;
            assert l[1..][k - 1] == x;
          }
        }
      }
      DistinctCard(l[1..], s - {l[0]});
    } else {
      assert forall x :: x !in s;
      assert s == {};
    }
  }

  /** The target identity of a declaration, when its owner and repo are both
      non-empty. */
  function Target(dep: PackageDependency): (t: Option<string>)
    ensures t.Some? <==> dep.owner.Some? && dep.owner.value != "" && dep.repo.Some? && dep.repo.value != ""
    ensures t.Some? ==> t.value == dep.owner.value + "/" + dep.repo.value
  {
    if dep.owner.Some? && dep.owner.value != "" && dep.repo.Some? && dep.repo.value != ""
    then Some(dep.owner.value + "/" + dep.repo.value)
    else None
  }

  // ---------------------------------------------------------------------
  // Construction steps

  /** One mutation of the graph-building loop: adding a known package's node,
      or handling one of its dependency declarations. */
  datatype Step = AddPackage(id: string, name: string, info: PackageInfo)
                | Declare(source: string, dep: PackageDependency)

  /** Adds a node absent from the graph. */
  function AppendNode(g: Graph, n: string, a: NodeAttrs): Graph {
    Graph(g.nodes + [n], g.attrs[n := a], g.edges)
  }

  /** Applies one step. A known package's node gets its attributes merged in;
      a declaration with a target adds an `external` placeholder when the
      target is new, then sets the edge's attributes (the last declaration
      wins). `add_edge` would create a missing source node without
      attributes; the package step always comes first, so that case does not
      arise in a build. */
  function Apply(g: Graph, s: Step): Graph {
    match s
    case AddPackage(id, name, info) =>
      if id in g.attrs then g.(attrs := g.attrs[id := NodeAttrs(name, Some(info), g.attrs[id].external)])
      else AppendNode(g, id, NodeAttrs(name, Some(info), false))
    case Declare(p, dep) =>
      match Target(dep)
      case None => g
      case Some(t) =>
        var g1 := if t in g.attrs then g else AppendNode(g, t, NodeAttrs(dep.repo.value, None, true));
        var g2 := if p in g1.attrs then g1 else AppendNode(g1, p, NodeAttrs("", None, false));
        g2.(edges := g2.edges[(p, t) := EdgeAttrs(dep.kind, dep.version)])
  }

  function Run(g: Graph, steps: seq<Step>): Graph
    decreases |steps|
  {
    if |steps| == 0 then g else Run(Apply(g, steps[0]), steps[1..])
  }

  /** Nodes one step introduces. */
  function StepIntroduces(s: Step): set<string> {
    match s
    case AddPackage(id, _, _) => {id}
    case Declare(p, dep) => if Target(dep).Some? then {p, Target(dep).value} else {}
  }

  /** Edges one step declares. */
  function StepDeclares(s: Step): set<(string, string)> {
    match s
    case AddPackage(_, _, _) => {}
    case Declare(p, dep) => if Target(dep).Some? then {(p, Target(dep).value)} else {}
  }

  /** Nodes a step sequence introduces. */
  function Introduced(steps: seq<Step>): set<string> {
    if |steps| == 0 then {} else StepIntroduces(steps[0]) + Introduced(steps[1..])
  }

  /** Edges a step sequence declares. */
  function Declared(steps: seq<Step>): set<(string, string)> {
    if |steps| == 0 then {} else StepDeclares(steps[0]) + Declared(steps[1..])
  }

  predicate Declares(s: Step, e: (string, string)) {
    s.Declare? && Target(s.dep) == Some(e.1) && s.source == e.0
  }

  /** Attributes of the last declaration of edge `e`, if any. */
  function LastDeclaration(steps: seq<Step>, e: (string, string)): (r: Option<EdgeAttrs>)
    ensures r.Some? <==> e in Declared(steps)
  {
    if |steps| == 0 then None
    else match LastDeclaration(steps[1..], e)
      case Some(a) => Some(a)
      case None =>
        if Declares(steps[0], e) then Some(EdgeAttrs(steps[0].dep.kind, steps[0].dep.version)) else None
  }

  /** Whether the first step that introduces `n` is a placeholder. */
  function FirstIntroducedExternal(steps: seq<Step>, n: string): bool {
    if |steps| == 0 then false
    else match steps[0]
      case AddPackage(id, _, _) => if id == n then false else FirstIntroducedExternal(steps[1..], n)
      case Declare(p, dep) =>
        if Target(dep) == Some(n) then true
        else if Target(dep).Some? && p == n then false
        else FirstIntroducedExternal(steps[1..], n)
  }

  /** The built graph's nodes are the old ones plus every node the steps
      introduce, and its edges the old ones plus every declared edge. */
  lemma {:induction false} RunContents(g: Graph, steps: seq<Step>)
    ensures Run(g, steps).attrs.Keys == g.attrs.Keys + Introduced(steps)
    ensures Run(g, steps).edges.Keys == g.edges.Keys + Declared(steps)
    decreases |steps|
  {
    if |steps| > 0 {
      ApplyContents(g, steps[0]);
      RunContents(Apply(g, steps[0]), steps[1..]);
    }
  }

  lemma ApplyContents(g: Graph, s: Step)
    ensures Apply(g, s).attrs.Keys == g.attrs.Keys + StepIntroduces(s)
    ensures Apply(g, s).edges.Keys == g.edges.Keys + StepDeclares(s)
  {
  }

  /** Each declared edge carries its last declaration's attributes; other
      edges keep theirs. */
  lemma {:induction false} RunEdgeAttrs(g: Graph, steps: seq<Step>, e: (string, string))
    requires e in g.edges || e in Declared(steps)
    ensures e in Run(g, steps).edges
    ensures Run(g, steps).edges[e] ==
      match LastDeclaration(steps, e)
      case Some(a) => a
      case None => g.edges[e]
    decreases |steps|
  {
    RunContents(g, steps);
    if |steps| > 0 {
      var g1 := Apply(g, steps[0]);
      assert e in g1.edges || e in Declared(steps[1..]);
      RunEdgeAttrs(g1, steps[1..], e);
    }
  }

  /** Once a node exists its `external` flag never changes; a new node is
      external iff it was first introduced as a placeholder. */
  lemma {:induction false} RunExternal(g: Graph, steps: seq<Step>, n: string)
    requires n in g.attrs || n in Introduced(steps)
    ensures n in Run(g, steps).attrs
    ensures Run(g, steps).attrs[n].external ==
      if n in g.attrs then g.attrs[n].external else FirstIntroducedExternal(steps, n)
    decreases |steps|
  {
    RunContents(g, steps);
    if |steps| > 0 {
      var g1 := Apply(g, steps[0]);
      ApplyContents(g, steps[0]);
      if n in g.attrs {
        ApplyKeepsExternal(g, steps[0], n);
      } else if n in StepIntroduces(steps[0]) {
        ApplyNewExternal(g, steps, n);
      } else {
        FirstIntroducedSkip(steps, n);
      }
      RunExternal(g1, steps[1..], n);
    }
  }

  lemma ApplyKeepsExternal(g: Graph, s: Step, n: string)
    requires n in g.attrs
    ensures n in Apply(g, s).attrs && Apply(g, s).attrs[n].external == g.attrs[n].external
  {
  }

  lemma ApplyNewExternal(g: Graph, steps: seq<Step>, n: string)
    requires |steps| > 0 && n !in g.attrs && n in StepIntroduces(steps[0])
    ensures n in Apply(g, steps[0]).attrs && Apply(g, steps[0]).attrs[n].external == FirstIntroducedExternal(steps, n)
  {
  }

  lemma FirstIntroducedSkip(steps: seq<Step>, n: string)
    requires |steps| > 0 && n !in StepIntroduces(steps[0])
    ensures FirstIntroducedExternal(steps, n) == FirstIntroducedExternal(steps[1..], n)
  {
  }

  lemma {:induction false} ApplyValid(g: Graph, s: Step)
    requires Valid(g)
    ensures Valid(Apply(g, s))
  {
    match s
    case AddPackage(id, name, info) =>
      if id !in g.attrs { AppendValid(g, id, NodeAttrs(name, Some(info), false)); }
    case Declare(p, dep) =>
      match Target(dep)
      case None =>
      case Some(t) =>
        var g1 := if t in g.attrs then g else AppendNode(g, t, NodeAttrs(dep.repo.value, None, true));
        if t !in g.attrs { AppendValid(g, t, NodeAttrs(dep.repo.value, None, true)); }
        if p !in g1.attrs { AppendValid(g1, p, NodeAttrs("", None, false)); }
  }

  lemma {:induction false} AppendValid(g: Graph, n: string, a: NodeAttrs)
    requires Valid(g) && n !in g.attrs
    ensures Valid(AppendNode(g, n, a))
  {
    var h := AppendNode(g, n, a);
    forall i, j | 0 <= i < j < |h.nodes| ensures h.nodes[i] != h.nodes[j] {
      if j == |g.nodes| { assert h.nodes[i] in g.nodes; }
    }
  }

  lemma {:induction false} RunValid(g: Graph, steps: seq<Step>)
    requires Valid(g)
    ensures Valid(Run(g, steps))
    decreases |steps|
  {
    if |steps| > 0 {
      ApplyValid(g, steps[0]);
      RunValid(Apply(g, steps[0]), steps[1..]);
    }
  }

  /** Replaying the same steps over the graph they built changes no node or
      edge set and no edge attribute. */
  lemma {:induction false} RunTwiceSameSets(g: Graph, steps: seq<Step>)
    ensures Run(Run(g, steps), steps).attrs.Keys == Run(g, steps).attrs.Keys
    ensures Run(Run(g, steps), steps).edges.Keys == Run(g, steps).edges.Keys
    ensures forall e :: e in Run(g, steps).edges ==>
      Run(Run(g, steps), steps).edges[e] == Run(g, steps).edges[e]
  {
    var g1 := Run(g, steps);
    RunContents(g, steps);
    RunContents(g1, steps);
    forall e | e in g1.edges ensures Run(g1, steps).edges[e] == g1.edges[e] {
      RunEdgeAttrs(g1, steps, e);
      if e in Declared(steps) {
        RunEdgeAttrs(g, steps, e);
      }
    }
  }
}

=== FILE: identity.dfy ===
/** A dependency declaration and the resolution of its URL to a GitHub
    `owner/repo` identity. */
module Identity {
  import opened Wrappers
  import opened Text

  datatype DepKind = Regular | Test

  /** One declared dependency. `owner`/`repo` are the resolved identity;
      `None` when the URL did not match. */
  datatype PackageDependency = PackageDependency(
    name: string,
    url: string,
    version: Option<string>,
    kind: DepKind,
    owner: Option<string>,
    repo: Option<string>)

  /** The characters of the argument `".git"` given to `rstrip`: it strips a
      character set, not a suffix. */
  predicate IsGitChar(c: char) {
    c == '.' || c == 'g' || c == 'i' || c == 't'
  }

  function CleanUrl(url: string): string {
    RStripBy(url, IsGitChar)
  }

  /** `rstrip(".git")` removes exactly the longest trailing run of `.`, `g`,
      `i`, `t` characters. */
  lemma {:induction false} CleanUrlDropsCharSet(keep: string, tail: string)
    requires |keep| == 0 || !IsGitChar(keep[|keep| - 1])
    requires forall i :: 0 <= i < |tail| ==> IsGitChar(tail[i])
    ensures CleanUrl(keep + tail) == keep
  {
    var s := keep + tail;
    var r := CleanUrl(s);
    assert |keep| > 0 ==> !IsGitChar(s[|keep| - 1]);
    assert forall i :: |keep| <= i < |s| ==> IsGitChar(s[i]);
    assert |r| == |keep|;
    assert r == s[..|keep|] == keep;
  }

  /** The repository name of `.../swift-log.git` resolves to `swift-lo`. */
  lemma {:induction false} SwiftLogLosesItsG(prefix: string)
    ensures CleanUrl(prefix + "/swift-log.git") == prefix + "/swift-lo"
  {
    assert prefix + "/swift-log.git" == (prefix + "/swift-lo") + "g.git";
    CleanUrlDropsCharSet(prefix + "/swift-lo", "g.git");
  }

  /** First index at or after `from` holding `/`, or `|s|`. */
  function SegmentEnd(s: string, from: nat): (e: nat)
    requires from <= |s|
    ensures from <= e <= |s|
    ensures e < |s| ==> s[e] == '/'
    ensures forall k :: from <= k < e ==> s[k] != '/'
    decreases |s| - from
  {
    if from == |s| || s[from] == '/' then from else SegmentEnd(s, from + 1)
  }

  /** `github\.com<sep>([^/]+)/([^/]+)` tried at index `i`, where `sep` is the
      set of characters allowed after the host. Both groups are greedy, so
      each is a maximal `/`-free run. */
  function MatchAt(s: string, i: nat, colonAllowed: bool): (r: Option<(string, string)>)
    ensures r.Some? ==> |r.value.0| > 0 && |r.value.1| > 0
    ensures r.Some? ==> '/' !in r.value.0 && '/' !in r.value.1
    ensures r.Some? ==> At(s, i, "github.com")
  {
    if At(s, i, "github.com") && i + 10 < |s| && (s[i + 10] == '/' || (colonAllowed && s[i + 10] == ':')) then
      var o := SegmentEnd(s, i + 11);
      if o > i + 11 && o < |s| then
        var e := SegmentEnd(s, o + 1);
        if e > o + 1 then Some((s[i + 11..o], s[o + 1..e])) else None
      else None
    else None
  }

  /** `re.search` of that pattern from index `i` on. */
  function Search(s: string, i: nat, colonAllowed: bool): (r: Option<(string, string)>)
    ensures r.Some? ==> exists k :: i <= k <= |s| && MatchAt(s, k, colonAllowed) == r
    ensures r.None? ==> forall k :: i <= k ==> MatchAt(s, k, colonAllowed).None?
  {
    var at := (k: nat) => MatchAt(s, k, colonAllowed);
    var r := FirstMatch(at, i, |s|);
    assert r.None? ==> forall j :: i <= j ==> MatchAt(s, j, colonAllowed).None? by {
      if r.None? {
        forall j | i <= j ensures MatchAt(s, j, colonAllowed).None? {
          if j <= |s| { assert at(j).None?; }
        }
      }
    }
    r
  }

  /** The search reports the match at the first position that matches. */
  lemma {:induction false} SearchFindsFirst(s: string, i: nat, k: nat, colonAllowed: bool)
    requires i <= k <= |s| && MatchAt(s, k, colonAllowed).Some?
    requires forall j :: i <= j < k ==> MatchAt(s, j, colonAllowed).None?
    ensures Search(s, i, colonAllowed) == MatchAt(s, k, colonAllowed)
  {
    FirstMatchFindsFirst((k: nat) => MatchAt(s, k, colonAllowed), i, k, |s|);
  }

  /** `_parse_github_url`: strip, then the `[:/]` pattern, then the `/`
      pattern; `(None, None)` when neither matches. */
  function ParseGithubUrl(url: string): (r: Option<(string, string)>)
    ensures r.Some? ==> |r.value.0| > 0 && |r.value.1| > 0
    ensures r.Some? ==> '/' !in r.value.0 && '/' !in r.value.1
    ensures r.None? <==> forall k :: !At(CleanUrl(url), k, "github.com") || MatchAt(CleanUrl(url), k, true).None?
  {
    var c := CleanUrl(url);
    match Search(c, 0, true)
    case Some(p) => Some(p)
    case None => Search(c, 0, false)
  }

  /** A `/`-only match is also a `[:/]` match with the same groups. */
  lemma {:induction false} SlashMatchIsColonMatch(s: string, i: nat)
    ensures MatchAt(s, i, false).Some? ==> MatchAt(s, i, true) == MatchAt(s, i, false)
  {
  }

  /** The second, `/`-only pattern never decides anything: whenever it would
      match, the first one already has. */
  lemma {:induction false} SecondPatternSubsumed(s: string, i: nat)
    ensures Search(s, i, true).None? ==> Search(s, i, false).None?
    decreases |s| - i
  {
    if i <= |s| {
      SlashMatchIsColonMatch(s, i);
      SecondPatternSubsumed(s, i + 1);
    }
  }

  /** Resolution is exactly the first `[:/]` match of the stripped URL. */
  lemma {:induction false} ParseIsFirstPattern(url: string)
    ensures ParseGithubUrl(url) == Search(CleanUrl(url), 0, true)
  {
    SecondPatternSubsumed(CleanUrl(url), 0);
  }

  /** A URL without the GitHub host yields `(None, None)`. */
  lemma {:induction false} NonGithubIsUnresolved(url: string)
    requires !Contains(CleanUrl(url), "github.com")
    ensures ParseGithubUrl(url).None?
  {
    var c := CleanUrl(url);
    forall k ensures !At(c, k, "github.com") {
      if At(c, k, "github.com") { ContainsAt(c, "github.com", k); }
    }
  }

  /** A direct `https://github.com/<owner>/<repo>` URL whose repository name
      does not end in one of `.`, `g`, `i`, `t` resolves to that pair. */
  lemma {:induction false} PlainGithubUrlResolves(owner: string, repo: string)
    requires |owner| > 0 && |repo| > 0 && '/' !in owner && '/' !in repo
    requires !IsGitChar(repo[|repo| - 1])
    ensures ParseGithubUrl("https://github.com/" + owner + "/" + repo) == Some((owner, repo))
  {
    var url := "https://github.com/" + owner + "/" + repo;
    CleanUrlDropsCharSet(url, "");
    assert url + "" == url;
    PlainMatch(url, owner, repo);
    PlainNoEarlierHost(url, owner, repo);
    SearchSkips(url, 0, 8, true);
  }

  lemma {:induction false} PlainMatch(url: string, owner: string, repo: string)
    requires |owner| > 0 && |repo| > 0 && '/' !in owner && '/' !in repo
    requires url == "https://github.com/" + owner + "/" + repo
    ensures MatchAt(url, 8, true) == Some((owner, repo))
  {
    assert url[8..18] == "github.com";
    assert url[18] == '/';
    assert url[19..19 + |owner|] == owner;
    assert url[19 + |owner|] == '/';
    assert url[20 + |owner|..] == repo;
    SegmentEndOfFreeRun(url, 19, 19 + |owner|);
    SegmentEndOfFreeRun(url, 20 + |owner|, |url|);
    assert At(url, 8, "github.com");
    var o := SegmentEnd(url, 19);
    var e := SegmentEnd(url, o + 1);
    assert o == 19 + |owner| && e == |url|;
    assert url[19..o] == owner;
    assert url[o + 1..e] == url[20 + |owner|..] == repo;
  }

  lemma {:induction false} PlainNoEarlierHost(url: string, owner: string, repo: string)
    requires url == "https://github.com/" + owner + "/" + repo
    ensures forall k: nat :: k < 8 ==> !At(url, k, "github.com")
  {
    forall k: nat | k < 8 ensures !At(url, k, "github.com") {
      assert url[k] == "https://"[k];
      AtFirstChar(url, k, "github.com");
    }
  }

  /** An SSH `git@github.com:<owner>/<repo>.git` URL whose repository name
      does not end in one of `.`, `g`, `i`, `t` resolves to that pair. */
  lemma {:induction false} SshGithubUrlResolves(owner: string, repo: string)
    requires |owner| > 0 && |repo| > 0 && '/' !in owner && '/' !in repo
    requires !IsGitChar(repo[|repo| - 1])
    ensures ParseGithubUrl("git@github.com:" + owner + "/" + repo + ".git") == Some((owner, repo))
  {
    var url := "git@github.com:" + owner + "/" + repo + ".git";
    var c := "git@github.com:" + owner + "/" + repo;
    var t := "github.com:" + owner + "/" + repo;
    SshUrlShape(owner, repo);
    CleanUrlDropsCharSet(c, ".git");
    SshMatch(c, owner, repo);
    NoHostBeforeAt(t);
    SearchSkips(c, 0, 4, true);
    ParseIsFirstPattern(url);
  }

  lemma {:induction false} SshUrlShape(owner: string, repo: string)
    ensures "git@github.com:" + owner + "/" + repo + ".git" == ("git@github.com:" + owner + "/" + repo) + ".git"
    ensures "git@github.com:" + owner + "/" + repo == "git@" + ("github.com:" + owner + "/" + repo)
  {
  }

  /** Text opening with `git@` holds no `github.com` before index 4. */
  lemma {:induction false} NoHostBeforeAt(t: string)
    ensures forall k: nat :: k < 4 ==> !At("git@" + t, k, "github.com")
  {
    var c := "git@" + t;
    assert c[3] == '@';
    forall k: nat | k < 4 ensures !At(c, k, "github.com") {
      AtChar(c, k, "github.com", 3 - k);
    }
  }

  lemma {:induction false} SshMatch(c: string, owner: string, repo: string)
    requires |owner| > 0 && |repo| > 0 && '/' !in owner && '/' !in repo
    requires c == "git@github.com:" + owner + "/" + repo
    ensures Search(c, 4, true) == Some((owner, repo))
  {
    assert c[4..14] == "github.com";
    assert c[14] == ':';
    assert c[15..15 + |owner|] == owner;
    assert c[15 + |owner|] == '/';
    assert c[16 + |owner|..] == repo;
    SegmentEndOfFreeRun(c, 15, 15 + |owner|);
    SegmentEndOfFreeRun(c, 16 + |owner|, |c|);
    assert At(c, 4, "github.com");
    var o := SegmentEnd(c, 15);
    var e := SegmentEnd(c, o + 1);
    assert o == 15 + |owner| && e == |c|;
    assert c[15..o] == owner;
    assert c[o + 1..e] == c[16 + |owner|..] == repo;
    SearchFindsFirst(c, 4, 4, true);
  }

  lemma {:induction false} AtFirstChar(s: string, i: nat, p: string)
    requires |p| > 0
    ensures At(s, i, p) ==> i < |s| && s[i] == p[0]
  {
    if At(s, i, p) {
      assert s[i..i + |p|][0] == s[i];
    }
  }

  /** A search started before a stretch without matches lands after it. */
  lemma {:induction false} SearchSkips(s: string, i: nat, j: nat, colonAllowed: bool)
    requires i <= j <= |s|
    requires forall k: nat :: i <= k < j ==> !At(s, k, "github.com")
    ensures Search(s, i, colonAllowed) == Search(s, j, colonAllowed)
    decreases j - i
  {
    if i < j {
      SearchStep(s, i, colonAllowed);
      SearchSkips(s, i + 1, j, colonAllowed);
      var a, b, c := Search(s, i, colonAllowed), Search(s, i + 1, colonAllowed), Search(s, j, colonAllowed);
      assert a == b && b == c;
    }
  }

  lemma {:induction false} SearchStep(s: string, i: nat, colonAllowed: bool)
    requires i < |s| && !At(s, i, "github.com")
    ensures Search(s, i, colonAllowed) == Search(s, i + 1, colonAllowed)
  {
  }

  lemma {:induction false} SegmentEndOfFreeRun(s: string, from: nat, e: nat)
    requires from <= e <= |s|
    requires forall k :: from <= k < e ==> s[k] != '/'
    requires e == |s| || s[e] == '/'
    ensures SegmentEnd(s, from) == e
    decreases e - from
  {
    if from < e {
      SegmentEndOfFreeRun(s, from + 1, e);
    }
  }

  /** `PackageDependency.__post_init__`: resolve the URL when it is
      non-empty and no owner was preset (an empty owner counts as unset). */
  function NewDependency(name: string, url: string, version: Option<string>, kind: DepKind,
                         presetOwner: Option<string>, presetRepo: Option<string>): (d: PackageDependency)
    ensures d.name == name && d.url == url && d.version == version && d.kind == kind
    ensures url != [] && (presetOwner.None? || presetOwner == Some("")) ==>
      match ParseGithubUrl(url)
      case Some((o, r)) => d.owner == Some(o) && d.repo == Some(r)
      case None => d.owner.None? && d.repo.None?
    ensures !(url != [] && (presetOwner.None? || presetOwner == Some(""))) ==>
      d.owner == presetOwner && d.repo == presetRepo
  {
    if url != [] && (presetOwner.None? || presetOwner == Some("")) then
      match ParseGithubUrl(url)
      case Some((o, r)) => PackageDependency(name, url, version, kind, Some(o), Some(r))
      case None => PackageDependency(name, url, version, kind, None, None)
    else PackageDependency(name, url, version, kind, presetOwner, presetRepo)
  }

  /** A preset owner wins over whatever the URL says. */
  lemma {:induction false} PresetOwnerIsKept(name: string, url1: string, url2: string, version: Option<string>,
                          kind: DepKind, owner: string, repo: Option<string>)
    requires owner != ""
    ensures NewDependency(name, url1, version, kind, Some(owner), repo).owner
         == NewDependency(name, url2, version, kind, Some(owner), repo).owner == Some(owner)
  {
  }
}

=== FILE: impact.dfy ===
/** Migration impact: `_calculate_indirect_impact` and
    `get_impact_analysis`. */
module Impact {
  import opened Wrappers
  import opened Text
  import opened Graph
  import opened Bfs
  import opened Tree
  import opened Sorting

  function NodeSet(g: Graph): set<string> {
    set n | n in g.nodes
  }

  /** `_calculate_indirect_impact(p, path)`: 0 when `p` is already on the
      path, else the sum over its predecessors `d` of
      `1 + indirect(d, path + {p})`. The visited set is copied per call, so
      it is the set of nodes on the current path. For a node outside the
      graph networkx raises `NetworkXError`; `ImpactAnalysis` asks only
      about nodes of the graph, whose predecessors in a valid graph are
      nodes too, so that branch is never reached from it and its 0 stands
      in for the raise. */
  function Indirect(g: Graph, p: string, path: set<string>): nat
    decreases |NodeSet(g) - path|, 0, 0
  {
    if p in path || p !in NodeSet(g) then 0
    else
      ProperSubsetCard(NodeSet(g) - (path + {p}), NodeSet(g) - path);
      SumOver(g, PredecessorList(g, p), path + {p})
  }

  /** The sum of `1 + indirect(d, path)` over `ds`. */
  function SumOver(g: Graph, ds: seq<string>, path: set<string>): nat
    decreases |NodeSet(g) - path|, 1, |ds|
  {
    if |ds| == 0 then 0 else 1 + Indirect(g, ds[0], path) + SumOver(g, ds[1..], path)
  }

  /** Outside valid graphs' nodes there are no predecessors, so the guard on
      graph membership changes nothing. */
  lemma {:induction false} AbsentHasNoPredecessors(g: Graph, p: string)
    requires Valid(g) && p !in NodeSet(g)
    ensures PredecessorList(g, p) == []
  {
    PredecessorListCounts(g, p);
    assert forall x :: x !in Predecessors(g, p);
    assert Predecessors(g, p) == {};
  }

  lemma {:induction false} SumOverAtLeast(g: Graph, ds: seq<string>, path: set<string>)
    ensures SumOver(g, ds, path) >= |ds|
    decreases |ds|
  {
    if |ds| > 0 { SumOverAtLeast(g, ds[1..], path); }
  }

  /** Each predecessor contributes at least 1, so the indirect impact is at
      least the number of direct dependents; it is 0 exactly when `p` is on
      the path, outside the graph, or has no predecessor. */
  lemma {:induction false} IndirectAtLeastDirect(g: Graph, p: string, path: set<string>)
    ensures p !in path && p in NodeSet(g) ==> Indirect(g, p, path) >= |PredecessorList(g, p)|
    ensures Indirect(g, p, path) == 0 <==> p in path || p !in NodeSet(g) || PredecessorList(g, p) == []
  {
    if p !in path && p in NodeSet(g) {
      SumOverAtLeast(g, PredecessorList(g, p), path + {p});
    }
  }

  /** A longer path never increases the count. */
  lemma {:induction false} IndirectAntitone(g: Graph, p: string, path1: set<string>, path2: set<string>)
    requires path1 <= path2
    ensures Indirect(g, p, path2) <= Indirect(g, p, path1)
    decreases |NodeSet(g) - path1|, 0, 0
  {
    if p !in path2 && p in NodeSet(g) {
      ProperSubsetCard(NodeSet(g) - (path1 + {p}), NodeSet(g) - path1);
      SumOverAntitone(g, PredecessorList(g, p), path1 + {p}, path2 + {p});
    }
  }

  lemma {:induction false} SumOverAntitone(g: Graph, ds: seq<string>, path1: set<string>, path2: set<string>)
    requires path1 <= path2
    ensures SumOver(g, ds, path2) <= SumOver(g, ds, path1)
    decreases |NodeSet(g) - path1|, 1, |ds|
  {
    if |ds| > 0 {
      IndirectAntitone(g, ds[0], path1, path2);
      SumOverAntitone(g, ds[1..], path1, path2);
    }
  }

  // ---------------------------------------------------------------------
  // Worked shapes

  /** `a -> b -> c`. */
  function Chain(a: string, b: string, c: string): Graph {
    Graph([a, b, c], map[a := NodeAttrs(a, None, false), b := NodeAttrs(b, None, false), c := NodeAttrs(c, None, false)],
          map[(a, b) := EdgeAttrs(Identity.Regular, None), (b, c) := EdgeAttrs(Identity.Regular, None)])
  }

  /** In a chain the end has one direct dependent and indirect impact 2,
      because the path through `b` counts `b` and then `a`. */
  lemma {:induction false} ChainImpact(a: string, b: string, c: string)
    requires a != b && b != c && a != c
    ensures |PredecessorList(Chain(a, b, c), c)| == 1
    ensures Indirect(Chain(a, b, c), c, {}) == 2
  {
    var g := Chain(a, b, c);
    assert NodeSet(g) == {a, b, c};
    ChainPredecessors(a, b, c);
    assert Indirect(g, a, {c} + {b}) == 0;
    assert SumOver(g, [a], {c} + {b}) == 1;
    assert Indirect(g, b, {c}) == 1;
    var e: set<string> := {};
    assert e + {c} == {c};
    assert SumOver(g, [b], e + {c}) == 2;
  }

  lemma {:induction false} ChainPredecessors(a: string, b: string, c: string)
    requires a != b && b != c && a != c
    ensures PredecessorList(Chain(a, b, c), c) == [b]
    ensures PredecessorList(Chain(a, b, c), b) == [a]
    ensures PredecessorList(Chain(a, b, c), a) == []
  {
    var g := Chain(a, b, c);
    assert g.edges.Keys == {(a, b), (b, c)};
    ThreeInto(g, a, b, c, c, false, true, false);
    ThreeInto(g, a, b, c, b, true, false, false);
    ThreeInto(g, a, b, c, a, false, false, false);
  }

  /** Unfolds the predecessor enumeration of `p` in a three-node graph,
      given which of the nodes have an edge into it. */
  lemma {:induction false} ThreeInto(g: Graph, a: string, b: string, c: string, p: string, ea: bool, eb: bool, ec: bool)
    requires g.nodes == [a, b, c]
    requires (a, p) in g.edges <==> ea
    requires (b, p) in g.edges <==> eb
    requires (c, p) in g.edges <==> ec
    ensures PredecessorList(g, p) == Pick(a, ea) + (Pick(b, eb) + Pick(c, ec))
  {
    var x2 := PredecessorsAmong(g, [c], p);
    var x1 := PredecessorsAmong(g, [b, c], p);
    AmongCons(g, a, [b, c], p, ea);
    AmongCons(g, b, [c], p, eb);
    AmongCons(g, c, [], p, ec);
    assert x2 == Pick(c, ec) + [];
    assert x2 == Pick(c, ec);
    assert x1 == Pick(b, eb) + x2;
  }

  /** `a -> b -> d` and `a -> c -> d`. */
  function Diamond(a: string, b: string, c: string, d: string): Graph {
    Graph([a, b, c, d],
          map[a := NodeAttrs(a, None, false), b := NodeAttrs(b, None, false),
              c := NodeAttrs(c, None, false), d := NodeAttrs(d, None, false)],
          map[(a, b) := EdgeAttrs(Identity.Regular, None), (a, c) := EdgeAttrs(Identity.Regular, None),
              (b, d) := EdgeAttrs(Identity.Regular, None), (c, d) := EdgeAttrs(Identity.Regular, None)])
  }

  /** The predecessor lists of the diamond's four nodes. */
  lemma {:induction false} DiamondPredecessors(a: string, b: string, c: string, d: string)
    requires a != b && a != c && a != d && b != c && b != d && c != d
    ensures PredecessorList(Diamond(a, b, c, d), d) == [b, c]
    ensures PredecessorList(Diamond(a, b, c, d), b) == [a]
    ensures PredecessorList(Diamond(a, b, c, d), c) == [a]
    ensures PredecessorList(Diamond(a, b, c, d), a) == []
  {
    DiamondInto(a, b, c, d, d, false, true, true, false);
    DiamondInto(a, b, c, d, b, true, false, false, false);
    DiamondInto(a, b, c, d, c, true, false, false, false);
    DiamondInto(a, b, c, d, a, false, false, false, false);
  }

  lemma {:induction false} DiamondInto(a: string, b: string, c: string, d: string, p: string, ea: bool, eb: bool, ec: bool, ed: bool)
    requires a != b && a != c && a != d && b != c && b != d && c != d
    requires p in {a, b, c, d}
    requires ea == (p == b || p == c) && eb == (p == d) && ec == (p == d) && !ed
    ensures PredecessorList(Diamond(a, b, c, d), p) == Pick(a, ea) + (Pick(b, eb) + (Pick(c, ec) + Pick(d, ed)))
  {
    var g := Diamond(a, b, c, d);
    assert g.edges.Keys == {(a, b), (a, c), (b, d), (c, d)};
    FourInto(g, a, b, c, d, p, ea, eb, ec, ed);
  }

  /** Unfolds the predecessor enumeration of `p` in a four-node graph,
      given which of the nodes have an edge into it. */
  lemma {:induction false} FourInto(g: Graph, a: string, b: string, c: string, d: string, p: string, ea: bool, eb: bool, ec: bool, ed: bool)
    requires g.nodes == [a, b, c, d]
    requires (a, p) in g.edges <==> ea
    requires (b, p) in g.edges <==> eb
    requires (c, p) in g.edges <==> ec
    requires (d, p) in g.edges <==> ed
    ensures PredecessorList(g, p) == Pick(a, ea) + (Pick(b, eb) + (Pick(c, ec) + Pick(d, ed)))
  {
    var x3 := PredecessorsAmong(g, [d], p);
    var x2 := PredecessorsAmong(g, [c, d], p);
    var x1 := PredecessorsAmong(g, [b, c, d], p);
    AmongCons(g, a, [b, c, d], p, ea);
    AmongCons(g, b, [c, d], p, eb);
    AmongCons(g, c, [d], p, ec);
    AmongCons(g, d, [], p, ed);
    assert x3 == Pick(d, ed) + [];
    assert x3 == Pick(d, ed);
    assert x2 == Pick(c, ec) + x3;
    assert x1 == Pick(b, eb) + x2;
  }

  /** One step of the predecessor enumeration. */
  lemma AmongCons(g: Graph, x: string, rest: seq<string>, p: string, e: bool)
    requires e <==> (x, p) in g.edges
    ensures PredecessorsAmong(g, [x] + rest, p) == Pick(x, e) + PredecessorsAmong(g, rest, p)
  {
    assert ([x] + rest)[1..] == rest;
  }

  function Pick(x: string, keep: bool): seq<string> {
    if keep then [x] else []
  }

  /** The shared dependent `a` is counted once per path: the bottom of the
      diamond has indirect impact 4. */
  lemma {:induction false} DiamondImpact(a: string, b: string, c: string, d: string)
    requires a != b && a != c && a != d && b != c && b != d && c != d
    ensures |PredecessorList(Diamond(a, b, c, d), d)| == 2
    ensures Indirect(Diamond(a, b, c, d), d, {}) == 4
  {
    var g := Diamond(a, b, c, d);
    DiamondPredecessors(a, b, c, d);
    assert NodeSet(g) == {a, b, c, d};
    var e: set<string> := {};
    var path := e + {d};
    assert path == {d};
    assert Indirect(g, a, path + {b}) == 0;
    assert Indirect(g, a, path + {c}) == 0;
    assert SumOver(g, [a], path + {b}) == 1;
    assert SumOver(g, [a], path + {c}) == 1;
    assert Indirect(g, b, path) == 1;
    assert Indirect(g, c, path) == 1;
    assert SumOver(g, [c], path) == 2;
    assert SumOver(g, [b, c], path) == 4;
  }

  /** `a -> b` and `b -> a`. */
  function Cycle(a: string, b: string): Graph {
    Graph([a, b], map[a := NodeAttrs(a, None, false), b := NodeAttrs(b, None, false)],
          map[(a, b) := EdgeAttrs(Identity.Regular, None), (b, a) := EdgeAttrs(Identity.Regular, None)])
  }

  /** A back edge still adds 1: `b` depends on `a`, and `a` (already on the
      path) depends on `b`. */
  lemma {:induction false} CycleImpact(a: string, b: string)
    requires a != b
    ensures Indirect(Cycle(a, b), a, {}) == 2
  {
    var g := Cycle(a, b);
    assert NodeSet(g) == {a, b};
    assert PredecessorsAmong(g, [], a) == [];
    assert PredecessorsAmong(g, [b], a) == [b];
    assert PredecessorsAmong(g, [], b) == [];
    assert PredecessorsAmong(g, [b], b) == [];
    assert PredecessorList(g, a) == [b];
    assert PredecessorList(g, b) == [a];
    assert Indirect(g, a, {a} + {b}) == 0;
    assert SumOver(g, [a], {a} + {b}) == 1;
    assert Indirect(g, b, {a}) == 1;
    var e: set<string> := {};
    assert e + {a} == {a};
    assert SumOver(g, [b], e + {a}) == 2;
  }

  // ---------------------------------------------------------------------
  // The report

  datatype ImpactRecord = ImpactRecord(
    packageId: string, name: string, owner: string, stars: int,
    directDependents: nat, indirectImpact: nat, totalImpact: nat,
    hasPackageSwift: bool, linuxCompatible: bool, androidCompatible: bool, dependencyCount: nat)

  datatype Summary = Summary(totalPackages: nat, highImpactPackages: nat, foundationalPackages: nat)

  datatype ImpactReport = ImpactReport(packages: seq<ImpactRecord>, summary: Summary)

  /** The record of a cached package in the graph. `dependencyCount` counts
      every declaration, resolved or not. */
  function RecordFor(g: Graph, id: string, n: DependencyNode): (r: ImpactRecord)
    ensures r.packageId == id && r.directDependents == |PredecessorList(g, id)|
    ensures r.indirectImpact == Indirect(g, id, {})
    ensures r.totalImpact == r.directDependents + r.indirectImpact
    ensures r.dependencyCount == |n.dependencies|
  {
    var direct := |PredecessorList(g, id)|;
    var indirect := Indirect(g, id, {});
    ImpactRecord(id, n.name, n.owner, n.stars, direct, indirect, direct + indirect,
                 n.hasPackageSwift, n.linuxCompatible, n.androidCompatible, |n.dependencies|)
  }

  /** Records in cache order, one per cached package present in the graph. */
  function Records(g: Graph, c: Cache, ids: seq<string>): (rs: seq<ImpactRecord>)
    requires forall id :: id in ids ==> id in c.nodes
    ensures |rs| <= |ids|
    ensures forall r :: r in rs ==>
      (r.packageId in ids && r.packageId in g.attrs && r == RecordFor(g, r.packageId, c.nodes[r.packageId]))
    ensures forall id :: id in ids && id in g.attrs ==> exists r :: r in rs && r.packageId == id
  {
    if |ids| == 0 then []
    else
      var rest := Records(g, c, ids[1..]);
      if ids[0] in g.attrs then [RecordFor(g, ids[0], c.nodes[ids[0]])] + rest else rest
  }

  /** Splitting the cache order splits the records the same way: one record
      per cached package in the graph, in cache order. */
  lemma {:induction false} RecordsAppend(g: Graph, c: Cache, a: seq<string>, b: seq<string>)
    requires forall id :: id in a + b ==> id in c.nodes
    ensures Records(g, c, a + b) == Records(g, c, a) + Records(g, c, b)
    decreases |a|
  {
    if |a| > 0 {
      var rest := a[1..];
      assert a + b == [a[0]] + (rest + b);
      assert a == [a[0]] + rest;
      RecordsAppend(g, c, rest, b);
      RecordsCons(g, c, a[0], rest + b);
      RecordsCons(g, c, a[0], rest);
      Regroup(RecordsHead(g, c, a[0]), Records(g, c, rest), Records(g, c, b));
    } else {
      assert a + b == b;
    }
  }

  /** The records a single cached id contributes. */
  function RecordsHead(g: Graph, c: Cache, id: string): seq<ImpactRecord>
    requires id in c.nodes
  {
    if id in g.attrs then [RecordFor(g, id, c.nodes[id])] else []
  }

  /** `Records` unfolded once on a list with a known head. */
  lemma RecordsCons(g: Graph, c: Cache, id: string, rest: seq<string>)
    requires id in c.nodes && forall x :: x in rest ==> x in c.nodes
    ensures Records(g, c, [id] + rest) == RecordsHead(g, c, id) + Records(g, c, rest)
  {
    assert ([id] + rest)[0] == id;
    assert ([id] + rest)[1..] == rest;
  }

  /** One cached package gives its record exactly when it is in the graph. */
  lemma {:induction false} RecordsOne(g: Graph, c: Cache, id: string)
    requires id in c.nodes
    ensures Records(g, c, [id]) == if id in g.attrs then [RecordFor(g, id, c.nodes[id])] else []
  {
    assert [id][1..] == [];
  }

  function TotalKey(r: ImpactRecord): seq<real> {
    [-(r.totalImpact as real)]
  }

  predicate HighImpact(r: ImpactRecord) {
    r.totalImpact > 5
  }

  predicate Foundational(r: ImpactRecord) {
    r.directDependents > 10
  }

  function CountWhere(rs: seq<ImpactRecord>, keep: ImpactRecord -> bool): nat {
    if |rs| == 0 then 0 else (if keep(rs[0]) then 1 else 0) + CountWhere(rs[1..], keep)
  }

  /** `get_impact_analysis`: the records sorted by total impact, largest
      first and stable on ties, with the summary counts. */
  function ImpactAnalysis(g: Graph, c: Cache): (rep: ImpactReport)
    requires ValidCache(c)
    ensures var unsorted := Records(g, c, c.order);
            && multiset(rep.packages) == multiset(unsorted)
            && (forall i, j :: 0 <= i < j < |rep.packages| ==>
                  rep.packages[i].totalImpact >= rep.packages[j].totalImpact)
            && (forall k :: WithKey(rep.packages, TotalKey, k) == WithKey(unsorted, TotalKey, k))
    ensures rep.summary.totalPackages == |rep.packages|
    ensures rep.summary.highImpactPackages == CountWhere(rep.packages, HighImpact)
    ensures rep.summary.foundationalPackages == CountWhere(rep.packages, Foundational)
  {
    var unsorted := Records(g, c, c.order);
    var sorted := Sort(unsorted, TotalKey);
    SortCorrect(unsorted, TotalKey);
    SortedByTotal(sorted);
    ImpactReport(sorted, Summary(|sorted|, CountWhere(sorted, HighImpact), CountWhere(sorted, Foundational)))
  }

  /** Ascending on `TotalKey` is descending on total impact. */
  lemma SortedByTotal(rs: seq<ImpactRecord>)
    requires Sorted(rs, TotalKey)
    ensures forall i, j :: 0 <= i < j < |rs| ==> rs[i].totalImpact >= rs[j].totalImpact
  {
    forall i, j | 0 <= i < j < |rs| ensures rs[i].totalImpact >= rs[j].totalImpact {
      assert LexLe(TotalKey(rs[i]), TotalKey(rs[j]));
    }
  }

  /** A record exists exactly for each cached package in the graph. */
  lemma {:induction false} ReportCoversGraphPackages(g: Graph, c: Cache, id: string)
    requires ValidCache(c)
    ensures (exists r :: r in ImpactAnalysis(g, c).packages && r.packageId == id) <==> id in c.nodes && id in g.attrs
  {
    var unsorted := Records(g, c, c.order);
    var rep := ImpactAnalysis(g, c);
    forall r ensures r in rep.packages <==> r in unsorted {
      assert r in rep.packages <==> r in multiset(rep.packages);
      assert r in unsorted <==> r in multiset(unsorted);
    }
  }

  /** Counting over a permutation gives the same count. */
  lemma {:induction false} CountWherePermutation(a: seq<ImpactRecord>, b: seq<ImpactRecord>, keep: ImpactRecord -> bool)
    requires multiset(a) == multiset(b)
    ensures CountWhere(a, keep) == CountWhere(b, keep)
    decreases |a|
  {
    if |a| > 0 {
      var x := a[0];
      assert x in multiset(b);
      var k :| 0 <= k < |b| && b[k] == x;
      var b' := b[..k] + b[k + 1..];
      CountWhereRemove(b, k, keep);
      RemoveAtMultiset(b, k);
      assert a == [x] + a[1..];
      assert multiset(a[1..]) == multiset(a) - multiset{x};
      CountWherePermutation(a[1..], b', keep);
    } else {
      assert b == [];
    }
  }

  /** Taking out the element at `k` takes one copy of it out of the multiset. */
  lemma RemoveAtMultiset(b: seq<ImpactRecord>, k: nat)
    requires k < |b|
    ensures multiset(b[..k] + b[k + 1..]) == multiset(b) - multiset{b[k]}
  {
    assert b == b[..k] + ([b[k]] + b[k + 1..]);
    assert multiset(b) == multiset(b[..k]) + multiset([b[k]] + b[k + 1..]);
    assert multiset([b[k]] + b[k + 1..]) == multiset{b[k]} + multiset(b[k + 1..]);
  }

  /** Taking out the element at `k` takes its contribution out of the count. */
  lemma CountWhereRemove(b: seq<ImpactRecord>, k: nat, keep: ImpactRecord -> bool)
    requires k < |b|
    ensures CountWhere(b, keep) == (if keep(b[k]) then 1 else 0) + CountWhere(b[..k] + b[k + 1..], keep)
  {
    assert b == b[..k] + ([b[k]] + b[k + 1..]);
    CountWhereAppend(b[..k], [b[k]] + b[k + 1..], keep);
    CountWhereAppend(b[..k], b[k + 1..], keep);
    assert ([b[k]] + b[k + 1..])[1..] == b[k + 1..];
  }

  lemma {:induction false} CountWhereAppend(a: seq<ImpactRecord>, b: seq<ImpactRecord>, keep: ImpactRecord -> bool)
    ensures CountWhere(a + b, keep) == CountWhere(a, keep) + CountWhere(b, keep)
    decreases |a|
  {
    if |a| > 0 {
      assert (a + b)[1..] == a[1..] + b;
      CountWhereAppend(a[1..], b, keep);
    } else {
      assert a + b == b;
    }
  }

  /** The summary counts do not depend on the sort. */
  lemma {:induction false} SummaryCountsRecords(g: Graph, c: Cache)
    requires ValidCache(c)
    ensures ImpactAnalysis(g, c).summary.highImpactPackages == CountWhere(Records(g, c, c.order), HighImpact)
    ensures ImpactAnalysis(g, c).summary.foundationalPackages == CountWhere(Records(g, c, c.order), Foundational)
  {
    CountWherePermutation(ImpactAnalysis(g, c).packages, Records(g, c, c.order), HighImpact);
    CountWherePermutation(ImpactAnalysis(g, c).packages, Records(g, c, c.order), Foundational);
  }
}

=== FILE: manifest.dfy ===
/** The manifest parser: locate the `dependencies: [...]` section of a
    cleaned manifest, cut it into `.package(...)` declarations and read the
    quoted arguments of each. */
module Manifest {
  import opened Wrappers
  import opened Text
  import opened Clean
  import opened Identity

  /** Index of the first non-whitespace character at or after `j`. */
  function SkipSpaces(s: string, j: nat): (k: nat)
    requires j <= |s|
    ensures j <= k <= |s|
    ensures forall m :: j <= m < k ==> IsSpace(s[m])
    ensures k < |s| ==> !IsSpace(s[k])
    decreases |s| - j
  {
    if j < |s| && IsSpace(s[j]) then SkipSpaces(s, j + 1) else j
  }

  // ---------------------------------------------------------------------
  // The dependencies section

  /** `c` matches the lower-case ASCII pattern letter `p` under Python's
      `re.IGNORECASE` (which also pairs `i` with U+0130/U+0131 and `s` with
      U+017F). */
  predicate CharCI(c: char, p: char) {
    || Lower(c) == p
    || (p == 'i' && (c == '\U{130}' || c == '\U{131}'))
    || (p == 's' && c == '\U{17F}')
  }

  predicate AtCI(s: string, i: nat, p: string) {
    i + |p| <= |s| && forall k :: 0 <= k < |p| ==> CharCI(s[i + k], p[k])
  }

  /** Index of the `[` opening a `dependencies\s*:\s*\[` that starts at `i`. */
  function OpeningAt(s: string, i: nat): (r: Option<nat>)
    ensures r.Some? ==> i + 12 < r.value < |s| && s[r.value] == '['
  {
    if AtCI(s, i, "dependencies") then
      var a := SkipSpaces(s, i + 12);
      if a < |s| && s[a] == ':' then
        var b := SkipSpaces(s, a + 1);
        if b < |s| && s[b] == '[' then Some(b) else None
      else None
    else None
  }

  /** First pattern at `i`: the text from the `[` to the first `]`. */
  function SectionAt(s: string, i: nat): (r: Option<string>)
    ensures r.Some? ==> ']' !in r.value
  {
    match OpeningAt(s, i)
    case None => None
    case Some(b) =>
      match IndexOfChar(s[b + 1..], ']')
      case None => None
      case Some(k) => Some(s[b + 1..b + 1 + k])
  }

  /** A newline, optional whitespace, then `]`, starting at `n`. */
  predicate NewlineCloseAt(s: string, n: nat) {
    n < |s| && s[n] == '\n' && SkipSpaces(s, n + 1) < |s| && s[SkipSpaces(s, n + 1)] == ']'
  }

  function FirstNewlineClose(s: string, n: nat): (r: Option<nat>)
    ensures r.Some? ==> n <= r.value && NewlineCloseAt(s, r.value)
    decreases |s| - n
  {
    if n >= |s| then None
    else if NewlineCloseAt(s, n) then Some(n)
    else FirstNewlineClose(s, n + 1)
  }

  /** Second pattern at `i`: the text from the `[` to the first newline that
      is followed by optional whitespace and `]`. */
  function SectionAt2(s: string, i: nat): Option<string> {
    match OpeningAt(s, i)
    case None => None
    case Some(b) =>
      match FirstNewlineClose(s, b + 1)
      case None => None
      case Some(n) => Some(s[b + 1..n])
  }

  /** `re.search` of the first pattern from index `i` on. */
  function SearchSection(s: string, i: nat): (r: Option<string>)
    ensures r.None? ==> forall k :: i <= k ==> SectionAt(s, k).None?
    ensures r.Some? ==> exists k :: i <= k <= |s| && r == SectionAt(s, k)
  {
    var at := (k: nat) => SectionAt(s, k);
    var r := FirstMatch(at, i, |s|);
    assert r.None? ==> forall j :: i <= j ==> SectionAt(s, j).None? by {
      if r.None? {
        forall j | i <= j ensures SectionAt(s, j).None? {
          if j <= |s| { assert at(j).None?; }
        }
      }
    }
    r
  }

  /** The search reports the match at the first position that matches. */
  lemma {:induction false} SearchSectionFindsFirst(s: string, i: nat, k: nat)
    requires i <= k <= |s| && SectionAt(s, k).Some?
    requires forall j :: i <= j < k ==> SectionAt(s, j).None?
    ensures SearchSection(s, i) == SectionAt(s, k)
  {
    FirstMatchFindsFirst((k: nat) => SectionAt(s, k), i, k, |s|);
  }

  /** `re.search` of the second pattern from index `i` on. */
  function SearchSection2(s: string, i: nat): (r: Option<string>)
    ensures r.None? ==> forall k :: i <= k ==> SectionAt2(s, k).None?
    decreases |s| - i
  {
    if i > |s| then None
    else if SectionAt2(s, i).Some? then SectionAt2(s, i)
    else SearchSection2(s, i + 1)
  }

  /** `_extract_dependencies_section`: the lazy `[...]` pattern, then the one
      closing on a line of its own. */
  function ExtractSection(content: string): (r: Option<string>)
    ensures r == SearchSection(content, 0)
    ensures r.Some? ==> ']' !in r.value
  {
    SecondSectionPatternSubsumed(content, 0);
    match SearchSection(content, 0)
    case Some(sec) => Some(sec)
    case None => SearchSection2(content, 0)
  }

  /** Where the second pattern matches, the first one does too. */
  lemma {:induction false} SecondSectionImpliesFirst(s: string, i: nat)
    ensures SectionAt2(s, i).Some? ==> SectionAt(s, i).Some?
  {
    match OpeningAt(s, i)
    case None =>
    case Some(b) =>
      match FirstNewlineClose(s, b + 1)
      case None =>
      case Some(n) =>
        CloseInTail(s, b, n);
    }

  /** A newline-closed section holds a `]` after its opening bracket. */
  lemma CloseInTail(s: string, b: nat, n: nat)
    requires b < |s| && b + 1 <= n && NewlineCloseAt(s, n)
    ensures ']' in s[b + 1..]
  {
    var c := SkipSpaces(s, n + 1);
    assert s[b + 1..][c - b - 1] == ']';
  }

  lemma {:induction false} SecondSectionPatternSubsumed(s: string, i: nat)
    ensures SearchSection(s, i).None? ==> SearchSection2(s, i).None?
    decreases |s| - i
  {
    if i <= |s| {
      SecondSectionImpliesFirst(s, i);
      SecondSectionPatternSubsumed(s, i + 1);
    }
  }

  // ---------------------------------------------------------------------
  // Declarations

  /** `re.findall` of `\.package\([^)]*(?:\([^)]*\)[^)]*)*\)`. The greedy
      `[^)]*` already reaches the first `)`, where the pattern succeeds with
      no repetition of the nested group, so every declaration ends at the
      first `)` after its `.package(`. */
  function Declarations(s: string): (ds: seq<string>)
    ensures forall d :: d in ds ==> StartsWith(d, ".package(") && |d| >= 10
    ensures forall d :: d in ds ==> d[|d| - 1] == ')' && ')' !in d[9..|d| - 1]
    ensures !Contains(s, ".package(") ==> ds == []
    decreases |s|
  {
    if |s| == 0 then []
    else if At(s, 0, ".package(") then
      ContainsAt(s, ".package(", 0);
      match IndexOfChar(s[9..], ')')
      case Some(k) =>
        DeclarationCut(s, k);
        var rest := Declarations(s[9 + k + 1..]);
        DeclarationsCons(s[..9 + k + 1], rest);
        [s[..9 + k + 1]] + rest
      case None => Declarations(s[1..])
    else
      ContainsOfTail(s, ".package(");
      Declarations(s[1..])
  }

  /** A `.package(` at the start, cut at the first `)` after it, is a
      declaration with no `)` inside its parentheses. */
  lemma DeclarationCut(s: string, k: nat)
    requires At(s, 0, ".package(") && IndexOfChar(s[9..], ')') == Some(k)
    ensures 9 + k + 1 <= |s|
    ensures var d := s[..9 + k + 1];
            StartsWith(d, ".package(") && |d| >= 10 && d[|d| - 1] == ')' && ')' !in d[9..|d| - 1]
  {
    var d := s[..9 + k + 1];
    assert d[9..|d| - 1] == s[9..][..k];
    assert d[..9] == s[..9];
  }

  lemma DeclarationsCons(d: string, rest: seq<string>)
    requires StartsWith(d, ".package(") && |d| >= 10 && d[|d| - 1] == ')' && ')' !in d[9..|d| - 1]
    requires forall x :: x in rest ==> StartsWith(x, ".package(") && |x| >= 10
    requires forall x :: x in rest ==> x[|x| - 1] == ')' && ')' !in x[9..|x| - 1]
    ensures forall x :: x in [d] + rest ==> StartsWith(x, ".package(") && |x| >= 10
    ensures forall x :: x in [d] + rest ==> x[|x| - 1] == ')' && ')' !in x[9..|x| - 1]
  {
  }

  /** A declaration rendered as `.package(` + arguments + `)`. */
  function RenderDeclaration(args: string): string {
    ".package(" + args + ")"
  }

  /** Declarations separated by `, `, as a manifest lists them. */
  function RenderDeclarations(argss: seq<string>): string {
    if |argss| == 0 then ""
    else RenderDeclaration(argss[0]) + ", " + RenderDeclarations(argss[1..])
  }

  /** Synthetic round trip: declarations whose arguments contain no `)` come
      back one for one and in order. */
  lemma {:induction false} DeclarationsRoundTrip(argss: seq<string>)
    requires forall i :: 0 <= i < |argss| ==> ')' !in argss[i]
    ensures Declarations(RenderDeclarations(argss)) == seq(|argss|, i requires 0 <= i < |argss| => RenderDeclaration(argss[i]))
  {
    if |argss| > 0 {
      DeclarationsStep(argss[0], RenderDeclarations(argss[1..]));
      DeclarationsRoundTrip(argss[1..]);
      RenderedCons(argss);
    }
  }

  lemma RenderedCons(argss: seq<string>)
    requires |argss| > 0
    ensures seq(|argss|, i requires 0 <= i < |argss| => RenderDeclaration(argss[i]))
            == [RenderDeclaration(argss[0])] + seq(|argss[1..]|, i requires 0 <= i < |argss[1..]| => RenderDeclaration(argss[1..][i]))
  {
  }

  lemma {:induction false} DeclarationsStep(a: string, rest: string)
    requires ')' !in a
    ensures Declarations(RenderDeclaration(a) + ", " + rest) == [RenderDeclaration(a)] + Declarations(rest)
  {
    assert RenderDeclaration(a) + ", " + rest == RenderDeclaration(a) + (", " + rest);
    DeclarationsHead(a, ", " + rest);
    SkipSeparator(rest);
  }

  /** A declaration at the very start is cut off at its `)`, and the search
      goes on after it. */
  lemma {:induction false} DeclarationsHead(a: string, rest: string)
    requires ')' !in a
    ensures Declarations(RenderDeclaration(a) + rest) == [RenderDeclaration(a)] + Declarations(rest)
  {
    var s := RenderDeclaration(a) + rest;
    assert s == ".package(" + a + ")" + rest;
    assert At(s, 0, ".package(") by { assert s[..9] == ".package("; }
    assert s[9..] == a + ")" + rest;
    assert IndexOfChar(s[9..], ')') == Some(|a|) by {
      assert s[9..][..|a|] == a;
      IndexOfCharAt(s[9..], ')', |a|);
    }
    assert s[..9 + |a| + 1] == RenderDeclaration(a);
    assert s[9 + |a| + 1..] == rest;
  }

  lemma {:induction false} SkipSeparator(rest: string)
    ensures Declarations(", " + rest) == Declarations(rest)
  {
    var t := ", " + rest;
    AtFirstChar(t, 0, ".package(");
    assert t[1..] == " " + rest;
    AtFirstChar(t[1..], 0, ".package(");
    assert t[1..][1..] == rest;
  }

  // ---------------------------------------------------------------------
  // Quoted arguments

  predicate IsQuote(c: char) {
    c == '"' || c == '\''
  }

  /** First index at or after `from` holding a quote, or `|s|`. */
  function QuoteEnd(s: string, from: nat): (e: nat)
    requires from <= |s|
    ensures from <= e <= |s|
    ensures e < |s| ==> IsQuote(s[e])
    ensures forall k :: from <= k < e ==> !IsQuote(s[k])
    decreases |s| - from
  {
    if from == |s| || IsQuote(s[from]) then from else QuoteEnd(s, from + 1)
  }

  /** `label \s* delim \s* ["'] ([^"']+) ["']`, with the first `\s*` absent
      when `spaceBefore` is false. Alternative labels are tried in order. */
  datatype ArgPattern = ArgPattern(labels: seq<string>, spaceBefore: bool, delim: char)

  const UrlArg := ArgPattern(["url"], true, ':')
  const NameArg := ArgPattern(["name"], true, ':')
  const FromArg := ArgPattern(["from"], true, ':')
  const UpToNextArg := ArgPattern([".upToNextMajorFrom", ".upToNextMinorFrom"], true, '(')
  const ExactArg := ArgPattern(["exact"], true, ':')
  const BranchArg := ArgPattern(["branch"], true, ':')
  const RevisionArg := ArgPattern(["revision"], true, ':')

  /** Length of the first label occurring at `i`. */
  function LabelAt(s: string, i: nat, labels: seq<string>): (r: Option<nat>)
    ensures r.Some? ==> exists l :: l in labels && |l| == r.value && At(s, i, l)
  {
    if |labels| == 0 then None
    else if At(s, i, labels[0]) then Some(|labels[0]|)
    else LabelAt(s, i, labels[1..])
  }

  function ArgAt(s: string, i: nat, p: ArgPattern): (r: Option<string>)
    ensures r.Some? ==> |r.value| > 0 && forall c :: c in r.value ==> !IsQuote(c)
  {
    match LabelAt(s, i, p.labels)
    case None => None
    case Some(n) =>
      var a := if p.spaceBefore then SkipSpaces(s, i + n) else i + n;
      if a < |s| && s[a] == p.delim then
        var b := SkipSpaces(s, a + 1);
        if b < |s| && IsQuote(s[b]) then
          var c := QuoteEnd(s, b + 1);
          if b + 1 < c < |s| then Some(s[b + 1..c]) else None
        else None
      else None
  }

  /** `re.search` of the argument pattern from index `i` on. */
  function SearchArg(s: string, i: nat, p: ArgPattern): (r: Option<string>)
    ensures r.Some? ==> |r.value| > 0 && forall c :: c in r.value ==> !IsQuote(c)
    ensures r.Some? ==> exists k :: i <= k <= |s| && ArgAt(s, k, p) == r
    ensures r.None? ==> forall k :: i <= k ==> ArgAt(s, k, p).None?
  {
    var at := (k: nat) => ArgAt(s, k, p);
    var r := FirstMatch(at, i, |s|);
    assert r.None? ==> forall j :: i <= j ==> ArgAt(s, j, p).None? by {
      if r.None? {
        forall j | i <= j ensures ArgAt(s, j, p).None? {
          if j <= |s| { assert at(j).None?; }
        }
      }
    }
    r
  }

  /** The search reports the match at the first position that matches. */
  lemma {:induction false} SearchArgFindsFirst(s: string, i: nat, k: nat, p: ArgPattern)
    requires i <= k <= |s| && ArgAt(s, k, p).Some?
    requires forall j :: i <= j < k ==> ArgAt(s, j, p).None?
    ensures SearchArg(s, i, p) == ArgAt(s, k, p)
  {
    FirstMatchFindsFirst((k: nat) => ArgAt(s, k, p), i, k, |s|);
  }

  /** The searches for the version patterns, in the order they are tried:
      `from:`, `.upToNextMajorFrom(`/`.upToNextMinorFrom(`, `exact:`,
      `branch:`, `revision:`. */
  function VersionSearches(decl: string): seq<Option<string>> {
    [SearchArg(decl, 0, FromArg), SearchArg(decl, 0, UpToNextArg), SearchArg(decl, 0, ExactArg),
     SearchArg(decl, 0, BranchArg), SearchArg(decl, 0, RevisionArg)]
  }

  /** The first present value of `opts`. */
  function FirstSome(opts: seq<Option<string>>): (r: Option<string>)
    ensures r.None? <==> forall k :: 0 <= k < |opts| ==> opts[k].None?
    ensures r.Some? ==> exists k :: 0 <= k < |opts| && r == opts[k]
                                   && forall j :: 0 <= j < k ==> opts[j].None?
    decreases |opts|
  {
    if |opts| == 0 then None
    else if opts[0].Some? then opts[0]
    else
      var r := FirstSome(opts[1..]);
      assert forall k :: 1 <= k < |opts| ==> opts[k] == opts[1..][k - 1];
      r
  }

  /** `_extract_version_requirement`: the match of the first version pattern,
      in order, that matches anywhere in the declaration. */
  function VersionRequirement(decl: string): (r: Option<string>)
    ensures r.None? <==> forall k :: 0 <= k < |VersionSearches(decl)| ==> VersionSearches(decl)[k].None?
    ensures r.Some? ==> exists k :: 0 <= k < |VersionSearches(decl)| && r == VersionSearches(decl)[k]
                                   && forall j :: 0 <= j < k ==> VersionSearches(decl)[j].None?
  {
    FirstSome(VersionSearches(decl))
  }

  /** Index of the last `/` in `s`. */
  function LastSlash(s: string): (r: Option<nat>)
    ensures r.Some? ==> r.value < |s| && s[r.value] == '/' && '/' !in s[r.value + 1..]
    ensures r.None? ==> '/' !in s
  {
    if |s| == 0 then None
    else if s[|s| - 1] == '/' then Some(|s| - 1)
    else
      var r := LastSlash(s[..|s| - 1]);
      assert r.Some? ==> s[r.value + 1..] == s[..|s| - 1][r.value + 1..] + [s[|s| - 1]];
      assert r.None? ==> s == s[..|s| - 1] + [s[|s| - 1]];
      r
  }

  predicate EndsWith(s: string, p: string) {
    |p| <= |s| && s[|s| - |p|..] == p
  }

  /** What `(?:\.git)?$` may leave after the name: nothing, `.git`, or either
      followed by the newline `$` allows. */
  predicate NameSuffix(t: string) {
    t == "" || t == ".git" || t == ".git\n" || t == "\n"
  }

  /** `_extract_name_from_url`: `/([^/]+?)(?:\.git)?$` (with `$` also matching
      before a final newline), falling back to the last `/`-segment. */
  function NameFromUrl(url: string): (name: string)
    ensures '/' !in name
    ensures LastSlash(url).None? ==> name == url
    ensures LastSlash(url).Some? ==>
      var r := url[LastSlash(url).value + 1..];
      |name| <= |r| && r[..|name|] == name && NameSuffix(r[|name|..])
  {
    match LastSlash(url)
    case None => url
    case Some(i) =>
      var r := url[i + 1..];
      var n := NameEnd(r);
      assert forall c :: c in r[..n] ==> c in r;
      r[..n]
  }

  /** Where the lazy name group of the last segment `r` ends: before a
      final `.git`, a newline, or both, provided a character is left. */
  function NameEnd(r: string): (n: nat)
    ensures n <= |r| && NameSuffix(r[n..])
  {
    if |r| > 5 && EndsWith(r, ".git\n") then |r| - 5
    else if |r| > 4 && EndsWith(r, ".git") then |r| - 4
    else if |r| > 1 && EndsWith(r, "\n") then |r| - 1
    else |r|
  }

  /** The repository name of a `.git` URL drops the suffix. */
  lemma {:induction false} NameDropsGitSuffix(prefix: string, repo: string)
    requires '/' !in repo && |repo| > 0
    ensures NameFromUrl(prefix + "/" + repo + ".git") == repo
  {
    var url := prefix + "/" + repo + ".git";
    assert url == (prefix + "/") + (repo + ".git");
    assert LastSlash(prefix + "/") == Some(|prefix|);
    LastSlashIgnoresSlashFree(prefix + "/", repo + ".git");
    assert url[|prefix| + 1..] == repo + ".git";
    var r := url[|prefix| + 1..];
    assert !EndsWith(r, ".git\n") by { assert r[|r| - 1] == 't'; }
    assert r[..|r| - 4] == repo;
  }

  lemma {:induction false} LastSlashIgnoresSlashFree(a: string, t: string)
    requires '/' !in t
    ensures LastSlash(a + t) == LastSlash(a)
    decreases |t|
  {
    if |t| > 0 {
      var u := a + t;
      assert u[|u| - 1] == t[|t| - 1];
      assert u[..|u| - 1] == a + t[..|t| - 1];
      LastSlashIgnoresSlashFree(a, t[..|t| - 1]);
    } else {
      assert a + t == a;
    }
  }

  /** The declaration is a test dependency when it mentions `testTarget` or,
      case-insensitively, `test`; the first test never decides, so this is
      the case-insensitive test alone. */
  function KindOf(decl: string): (k: DepKind)
    ensures k == Test <==> Contains(decl, "testTarget") || Contains(LowerStr(decl), "test")
    ensures k == Test <==> Contains(LowerStr(decl), "test")
  {
    TestTargetMentionsTest(decl);
    if Contains(decl, "testTarget") || Contains(LowerStr(decl), "test") then Test else Regular
  }

  /** Text mentioning `testTarget` mentions `test` once lower-cased, at the
      same place. */
  lemma {:induction false} TestTargetMentionsTest(decl: string)
    ensures Contains(decl, "testTarget") ==> Contains(LowerStr(decl), "test")
  {
    if Contains(decl, "testTarget") {
      var i := Find(decl, "testTarget", 0).value;
      var l := LowerStr(decl);
      assert decl[i..i + 10] == "testTarget";
      forall m | 0 <= m < 4 ensures l[i + m] == "test"[m] {
        assert decl[i + m] == decl[i..i + 10][m];
      }
      assert l[i..i + 4] == "test";
      ContainsAt(l, "test", i);
    }
  }

  /** `_parse_single_dependency`: `None` without a `url:` string; the name is
      the `name:` string or the URL's last segment. */
  function ParseSingleDependency(decl: string): (r: Option<PackageDependency>)
    ensures r.None? <==> SearchArg(decl, 0, UrlArg).None?
    ensures r.Some? ==> r.value.url == SearchArg(decl, 0, UrlArg).value && |r.value.url| > 0
    ensures r.Some? ==> r.value.name == match SearchArg(decl, 0, NameArg)
                                        case Some(n) => n
                                        case None => NameFromUrl(r.value.url)
    ensures r.Some? ==> r.value.version == VersionRequirement(decl) && r.value.kind == KindOf(decl)
    ensures r.Some? ==> r.value == NewDependency(r.value.name, r.value.url, r.value.version, r.value.kind, None, None)
  {
    match SearchArg(decl, 0, UrlArg)
    case None => None
    case Some(url) =>
      var name := match SearchArg(decl, 0, NameArg)
        case Some(n) => n
        case None => NameFromUrl(url);
      Some(NewDependency(name, url, VersionRequirement(decl), KindOf(decl), None, None))
  }

  /** `_parse_dependency_declarations`: parse each declaration, keep the
      successes in order. */
  function ParseDeclarations(decls: seq<string>): (deps: seq<PackageDependency>)
    ensures |deps| <= |decls|
    ensures forall d :: d in deps ==> exists k :: 0 <= k < |decls| && ParseSingleDependency(decls[k]) == Some(d)
  {
    if |decls| == 0 then []
    else
      var rest := ParseDeclarations(decls[1..]);
      ProducedFromTail(decls, rest, ParseSingleDependency);
      match ParseSingleDependency(decls[0])
      case Some(d) => [d] + rest
      case None => rest
  }

  /** What some element of a list's tail produces, some element of the list
      produces. */
  lemma ProducedFromTail<A, B>(xs: seq<A>, rest: seq<B>, f: A -> Option<B>)
    requires |xs| > 0
    requires forall d :: d in rest ==> exists k :: 0 <= k < |xs[1..]| && f(xs[1..][k]) == Some(d)
    ensures forall d :: d in rest ==> exists k :: 0 <= k < |xs| && f(xs[k]) == Some(d)
  {
    forall d | d in rest ensures exists k :: 0 <= k < |xs| && f(xs[k]) == Some(d) {
      var k :| 0 <= k < |xs[1..]| && f(xs[1..][k]) == Some(d);
      assert xs[1..][k] == xs[k + 1];
    }
  }

  /** Parsing distributes over concatenation: each declaration is parsed on
      its own and the results keep the declarations' order. */
  lemma {:induction false} ParseDeclarationsAppend(xs: seq<string>, ys: seq<string>)
    ensures ParseDeclarations(xs + ys) == ParseDeclarations(xs) + ParseDeclarations(ys)
    decreases |xs|
  {
    if |xs| > 0 {
      assert (xs + ys)[0] == xs[0];
      assert (xs + ys)[1..] == xs[1..] + ys;
      ParseDeclarationsAppend(xs[1..], ys);
      var r := ParseDeclarations(xs[1..] + ys);
      match ParseSingleDependency(xs[0])
      case Some(d) =>
        Regroup([d], ParseDeclarations(xs[1..]), ParseDeclarations(ys));
      case None =>
    } else {
      assert xs + ys == ys;
    }
  }

  /** One declaration gives its dependency, or nothing when it has no `url:`
      string. */
  lemma {:induction false} ParseDeclarationsOne(x: string)
    ensures ParseDeclarations([x]) == match ParseSingleDependency(x)
                                      case Some(d) => [d]
                                      case None => []
  {
    assert [x][1..] == [];
    assert ParseDeclarations([x][1..]) == [];
  }

  /** `parse_package_swift`: clean, find the section, parse its
      declarations; no section (or an empty one) gives no dependencies. */
  function ParsePackageSwift(content: string): (deps: seq<PackageDependency>)
    ensures ExtractSection(CleanContent(content)).None? ==> deps == []
    ensures ExtractSection(CleanContent(content)) == Some("") ==> deps == []
    ensures ExtractSection(CleanContent(content)).Some? ==>
      deps == ParseDeclarations(Declarations(ExtractSection(CleanContent(content)).value))
    ensures forall d :: d in deps ==> |d.url| > 0
  {
    var c := CleanContent(content);
    match ExtractSection(c)
    case None => []
    case Some(sec) => if sec == "" then [] else ParseDeclarations(Declarations(sec))
  }

  /** A manifest without any `.package(` yields no dependency. */
  lemma {:induction false} NoPackageCallNoDependencies(content: string)
    requires !Contains(CleanContent(content), ".package(")
    ensures ParsePackageSwift(content) == []
  {
    var c := CleanContent(content);
    if ExtractSection(c).Some? {
      SectionWithout(c, ".package(");
      assert Declarations(ExtractSection(c).value) == [];
    }
  }

  /** The section is a substring, so it lacks whatever the text lacks. */
  lemma {:induction false} SectionWithout(c: string, p: string)
    requires !Contains(c, p)
    ensures ExtractSection(c).Some? ==> !Contains(ExtractSection(c).value, p)
  {
    if ExtractSection(c).Some? {
      var k :| 0 <= k <= |c| && SectionAt(c, k) == ExtractSection(c);
      SectionAtWithout(c, k, p);
    }
  }

  lemma {:induction false} SectionAtWithout(c: string, k: nat, p: string)
    requires !Contains(c, p)
    ensures SectionAt(c, k).Some? ==> !Contains(SectionAt(c, k).value, p)
  {
    match OpeningAt(c, k)
    case None =>
    case Some(b) =>
      match IndexOfChar(c[b + 1..], ']')
      case None =>
      case Some(j) =>
        SectionSliceWithout(c, k, b, j, p);
  }

  lemma SectionSliceWithout(c: string, k: nat, b: nat, j: nat, p: string)
    requires !Contains(c, p)
    requires OpeningAt(c, k) == Some(b) && b + 1 <= |c| && IndexOfChar(c[b + 1..], ']') == Some(j)
    ensures SectionAt(c, k).Some? && !Contains(SectionAt(c, k).value, p)
  {
    assert b + 1 + j <= |c|;
    SubstringWithout(c, b + 1, b + 1 + j, p);
  }

  lemma {:induction false} SubstringWithout(s: string, i: nat, j: nat, p: string)
    requires i <= j <= |s|
    requires !Contains(s, p)
    ensures !Contains(s[i..j], p)
  {
    forall k: nat | k + |p| <= j - i
      ensures !At(s[i..j], k, p)
    {
      SliceOfSlice(s, i, j, k, k + |p|);
      assert !At(s, i + k, p);
    }
  }

  // ---------------------------------------------------------------------
  // A worked manifest

  /** An owner or repository name made of ASCII letters, digits, `-`, `_`. */
  predicate PlainName(x: string) {
    |x| > 0 && forall i :: 0 <= i < |x| ==> NameChar(x[i])
  }

  predicate NameChar(c: char) {
    'a' <= c <= 'z' || 'A' <= c <= 'Z' || '0' <= c <= '9' || c == '-' || c == '_'
  }

  function SshUrl(owner: string, repo: string): string {
    "git@github.com:" + owner + "/" + repo + ".git"
  }

  /** The arguments `url: "git@github.com:<owner>/<repo>.git", from: "1.0.0"`. */
  function SshArgs(owner: string, repo: string): string {
    "url: \"" + SshUrl(owner, repo) + "\", from: \"1.0.0\""
  }

  /** The manifest text
      `dependencies: [.package(url: "git@github.com:<owner>/<repo>.git", from: "1.0.0")]`. */
  function SshManifest(owner: string, repo: string): string {
    "dependencies: [" + RenderDeclaration(SshArgs(owner, repo)) + "]"
  }

  /** End to end: a manifest declaring one SSH GitHub dependency yields
      exactly that dependency, resolved to its owner and repository. */
  lemma {:induction false} SshManifestEndToEnd(owner: string, repo: string)
    requires PlainName(owner) && PlainName(repo) && !IsGitChar(repo[|repo| - 1])
    ensures |ParsePackageSwift(SshManifest(owner, repo))| == 1
    ensures ParsePackageSwift(SshManifest(owner, repo))[0].url == SshUrl(owner, repo)
    ensures ParsePackageSwift(SshManifest(owner, repo))[0].owner == Some(owner)
    ensures ParsePackageSwift(SshManifest(owner, repo))[0].repo == Some(repo)
  {
    var d := RenderDeclaration(SshArgs(owner, repo));
    SshSection(owner, repo);
    SshDependency(owner, repo);
    ParseDeclarationsOne(d);
  }

  /** The cleaned manifest's section is the one declaration, cut out whole. */
  lemma {:induction false} SshSection(owner: string, repo: string)
    requires PlainName(owner) && PlainName(repo)
    ensures ExtractSection(CleanContent(SshManifest(owner, repo))) == Some(RenderDeclaration(SshArgs(owner, repo)))
    ensures Declarations(RenderDeclaration(SshArgs(owner, repo))) == [RenderDeclaration(SshArgs(owner, repo))]
  {
    var args := SshArgs(owner, repo);
    var d := RenderDeclaration(args);
    SshManifestIsClean(owner, repo);
    SshPiecesFree(owner, repo);
    SectionOfBracket(d);
    assert d + "" == d;
    DeclarationsHead(args, "");
  }

  /** The declaration resolves to the SSH URL's owner and repository. */
  lemma {:induction false} SshDependency(owner: string, repo: string)
    requires PlainName(owner) && PlainName(repo) && !IsGitChar(repo[|repo| - 1])
    ensures ParseSingleDependency(RenderDeclaration(SshArgs(owner, repo))).Some?
    ensures ParseSingleDependency(RenderDeclaration(SshArgs(owner, repo))).value.url == SshUrl(owner, repo)
    ensures ParseSingleDependency(RenderDeclaration(SshArgs(owner, repo))).value.owner == Some(owner)
    ensures ParseSingleDependency(RenderDeclaration(SshArgs(owner, repo))).value.repo == Some(repo)
  {
    var url := SshUrl(owner, repo);
    var d := RenderDeclaration(SshArgs(owner, repo));
    SshPiecesFree(owner, repo);
    SshDeclarationShape(owner, repo);
    UrlArgFirst(url, ", from: \"1.0.0\")");
    assert SearchArg(d, 0, UrlArg) == Some(url);
    assert '/' !in owner && '/' !in repo by {
      assert forall c :: c in owner ==> NameChar(c);
      assert forall c :: c in repo ==> NameChar(c);
    }
    SshGithubUrlResolves(owner, repo);
    ParseSingleResolves(d, url, owner, repo);
  }

  /** A declaration whose `url:` argument is a GitHub URL parses to a
      dependency on that URL, resolved to the URL's owner and repository. */
  lemma ParseSingleResolves(decl: string, url: string, owner: string, repo: string)
    requires SearchArg(decl, 0, UrlArg) == Some(url) && ParseGithubUrl(url) == Some((owner, repo))
    ensures ParseSingleDependency(decl).Some? && ParseSingleDependency(decl).value.url == url
    ensures ParseSingleDependency(decl).value.owner == Some(owner)
    ensures ParseSingleDependency(decl).value.repo == Some(repo)
  {
  }

  /** The example with owner `o` and repository `r`: the manifest
      `dependencies: [.package(url: "git@github.com:o/r.git", from: "1.0.0")]`
      yields exactly one dependency, resolved to `o`/`r`. */
  lemma {:induction false} SshManifestExample()
    ensures |ParsePackageSwift(SshManifest("o", "r"))| == 1
    ensures ParsePackageSwift(SshManifest("o", "r"))[0].owner == Some("o")
    ensures ParsePackageSwift(SshManifest("o", "r"))[0].repo == Some("r")
  {
    assert PlainName("o") && PlainName("r") by {
      assert NameChar("o"[0]) && NameChar("r"[0]);
    }
    SshManifestEndToEnd("o", "r");
  }

  /** No character of the arguments is a `)`, a `]` or (in the URL) a quote. */
  lemma {:induction false} SshPiecesFree(owner: string, repo: string)
    requires PlainName(owner) && PlainName(repo)
    ensures forall c :: c in SshUrl(owner, repo) ==> !IsQuote(c) && c != ')' && c != ']'
    ensures ')' !in SshArgs(owner, repo) && ']' !in RenderDeclaration(SshArgs(owner, repo))
  {
    SshUrlFree(owner, repo);
    var url := SshUrl(owner, repo);
    assert ')' !in "url: \"" && ')' !in "\", from: \"1.0.0\"";
    assert ']' !in "url: \"" && ']' !in "\", from: \"1.0.0\"";
    assert ']' !in ".package(" && ']' !in ")";
  }

  lemma {:induction false} SshUrlFree(owner: string, repo: string)
    requires PlainName(owner) && PlainName(repo)
    ensures forall c :: c in SshUrl(owner, repo) ==> !IsQuote(c) && c != ')' && c != ']'
  {
    NamesFree(owner);
    NamesFree(repo);
    assert !('"' in "git@github.com:") && !('\'' in "git@github.com:");
    assert !(')' in "git@github.com:") && !(']' in "git@github.com:");
    assert !('"' in ".git") && !('\'' in ".git") && !(')' in ".git") && !(']' in ".git");
  }

  lemma {:induction false} NamesFree(x: string)
    requires PlainName(x)
    ensures forall c :: c in x ==> !IsQuote(c) && c != ')' && c != ']'
  {
    assert forall c :: c in x ==> NameChar(c);
  }

  lemma {:induction false} SshDeclarationShape(owner: string, repo: string)
    ensures RenderDeclaration(SshArgs(owner, repo))
         == ".package(url: \"" + SshUrl(owner, repo) + "\"" + ", from: \"1.0.0\")"
  {
  }

  /** A section opened at the very start and closed by the only `]`. */
  lemma {:induction false} SectionOfBracket(d: string)
    requires ']' !in d
    ensures ExtractSection("dependencies: [" + d + "]") == Some(d)
  {
    var s := "dependencies: [" + d + "]";
    BracketOpening(d);
    BracketSection(d);
    SearchSectionFindsFirst(s, 0, 0);
  }

  lemma {:induction false} BracketOpening(d: string)
    ensures OpeningAt("dependencies: [" + d + "]", 0) == Some(14)
  {
    var s := "dependencies: [" + d + "]";
    assert s[..15] == "dependencies: [";
    assert AtCI(s, 0, "dependencies") by {
      forall k | 0 <= k < 12 ensures CharCI(s[k], "dependencies"[k]) {
        assert s[k] == "dependencies"[k];
      }
    }
    assert SkipSpaces(s, 12) == 12 by { assert s[12] == ':'; }
    assert SkipSpaces(s, 13) == 14 by {
      assert s[13] == ' ' && s[14] == '[';
      assert SkipSpaces(s, 14) == 14;
    }
  }

  lemma {:induction false} BracketSection(d: string)
    requires ']' !in d
    requires OpeningAt("dependencies: [" + d + "]", 0) == Some(14)
    ensures SectionAt("dependencies: [" + d + "]", 0) == Some(d)
  {
    var s := "dependencies: [" + d + "]";
    assert s[15..] == d + "]";
    assert IndexOfChar(s[15..], ']') == Some(|d|) by {
      assert s[15..][..|d|] == d;
      IndexOfCharAt(s[15..], ']', |d|);
    }
    assert s[15..15 + |d|] == d;
  }

  /** The `url:` argument right after `.package(` is the one found. */
  lemma {:induction false} UrlArgFirst(url: string, tail: string)
    requires |url| > 0 && forall c :: c in url ==> !IsQuote(c)
    ensures SearchArg(".package(url: \"" + url + "\"" + tail, 0, UrlArg) == Some(url)
  {
    var s := ".package(url: \"" + url + "\"" + tail;
    UrlArgAt(url, tail);
    NoLabelInOpening(s);
    SearchArgFindsFirst(s, 0, 9, UrlArg);
  }

  lemma {:induction false} UrlArgAt(url: string, tail: string)
    requires |url| > 0 && forall c :: c in url ==> !IsQuote(c)
    ensures ArgAt(".package(url: \"" + url + "\"" + tail, 9, UrlArg) == Some(url)
    ensures (".package(url: \"" + url + "\"" + tail)[..9] == ".package("
  {
    var s := ".package(url: \"" + url + "\"" + tail;
    UrlArgLabel(s, url, tail);
    UrlArgQuoted(s, url, tail);
  }

  lemma {:induction false} UrlArgLabel(s: string, url: string, tail: string)
    requires s == ".package(url: \"" + url + "\"" + tail
    ensures s[..9] == ".package(" && |s| > 15 + |url|
    ensures LabelAt(s, 9, ["url"]) == Some(3)
    ensures s[12] == ':' && SkipSpaces(s, 12) == 12
    ensures s[14] == '"' && SkipSpaces(s, 13) == 14
  {
    assert s[..15] == ".package(url: \"";
    assert At(s, 9, "url") by { assert s[9..12] == "url"; }
    assert SkipSpaces(s, 12) == 12 by { assert s[12] == ':'; }
    assert SkipSpaces(s, 13) == 14 by {
      assert s[13] == ' ' && s[14] == '"';
      assert SkipSpaces(s, 14) == 14;
    }
  }

  lemma {:induction false} UrlArgQuoted(s: string, url: string, tail: string)
    requires |url| > 0 && forall c :: c in url ==> !IsQuote(c)
    requires s == ".package(url: \"" + url + "\"" + tail
    ensures s[15..15 + |url|] == url && s[15 + |url|] == '"'
    ensures QuoteEnd(s, 15) == 15 + |url|
  {
    assert s[15..15 + |url|] == url;
    assert s[15 + |url|] == '"';
    assert forall k :: 15 <= k < 15 + |url| ==> s[k] in url;
    QuoteEndOfFreeRun(s, 15, 15 + |url|);
  }

  /** No `url` label starts inside `.package(`. */
  lemma {:induction false} NoLabelInOpening(s: string)
    requires |s| >= 9 && s[..9] == ".package("
    ensures forall j :: 0 <= j < 9 ==> ArgAt(s, j, UrlArg).None?
  {
    forall j | 0 <= j < 9 ensures ArgAt(s, j, UrlArg).None? {
      assert s[j] == ".package("[j];
      AtChar(s, j, "url", 0);
      assert LabelAt(s, j, ["url"]).None?;
    }
  }

  lemma {:induction false} QuoteEndOfFreeRun(s: string, from: nat, e: nat)
    requires from <= e < |s| && IsQuote(s[e])
    requires forall k :: from <= k < e ==> !IsQuote(s[k])
    ensures QuoteEnd(s, from) == e
    decreases e - from
  {
    if from < e {
      QuoteEndOfFreeRun(s, from + 1, e);
    }
  }

  /** Each character is harmless for the normalisation: a `/` is followed by
      neither `/` nor `*`, and a white-space character is a single space
      followed by a visible one. */
  predicate Tidy(s: string) {
    forall i :: 0 <= i < |s| ==> TidyAt(s, i)
  }

  predicate TidyAt(s: string, i: nat)
    requires i < |s|
  {
    && (s[i] == '/' ==> i + 1 < |s| && s[i + 1] != '/' && s[i + 1] != '*')
    && (IsSpace(s[i]) ==> s[i] == ' ' && i + 1 < |s| && !IsSpace(s[i + 1]))
  }

  /** Tidy text ends in neither `/` nor white space, so tidiness survives
      concatenation. */
  lemma {:induction false} TidyAppend(a: string, b: string)
    requires Tidy(a) && Tidy(b)
    ensures Tidy(a + b)
  {
    var s := a + b;
    forall i | 0 <= i < |s| ensures TidyAt(s, i) {
      if i < |a| {
        assert TidyAt(a, i);
        assert s[i] == a[i];
        if i + 1 < |a| { assert s[i + 1] == a[i + 1]; }
      } else {
        assert TidyAt(b, i - |a|);
        assert s[i] == b[i - |a|];
        if i + 1 < |s| { assert s[i + 1] == b[i + 1 - |a|]; }
      }
    }
  }

  lemma {:induction false} TidyNoComment(s: string)
    requires Tidy(s)
    ensures forall i: nat :: !At(s, i, "//") && !At(s, i, "/*")
  {
    forall i: nat ensures !At(s, i, "//") && !At(s, i, "/*") {
      AtTwo(s, i, "//");
      AtTwo(s, i, "/*");
      if i < |s| { assert TidyAt(s, i); }
    }
  }

  lemma {:induction false} TidyPlainName(x: string)
    requires PlainName(x)
    ensures Tidy(x) && Tidy("/" + x)
  {
    var y := "/" + x;
    forall i | 0 <= i < |x| ensures TidyAt(x, i) {
      if i + 1 < |x| { assert NameChar(x[i + 1]); }
    }
    forall i | 0 <= i < |y| ensures TidyAt(y, i) {
      if i > 0 { assert y[i] == x[i - 1]; assert TidyAt(x, i - 1); if i + 1 < |y| { assert y[i + 1] == x[i]; } }
      else { assert y[1] == x[0]; }
    }
  }

  lemma {:induction false} SshManifestIsClean(owner: string, repo: string)
    requires PlainName(owner) && PlainName(repo)
    ensures CleanContent(SshManifest(owner, repo)) == SshManifest(owner, repo)
  {
    var a, b, c := "dependencies: [", ".package(url: \"", "git@github.com:";
    var e := ".git\", from: \"1.0.0\")]";
    TidyLiterals();
    TidyPlainName(owner);
    TidyPlainName(repo);
    TidyAppend(a, b);
    TidyAppend(a + b, c);
    TidyAppend(a + b + c, owner);
    TidyAppend(a + b + c + owner, "/" + repo);
    TidyAppend(a + b + c + owner + ("/" + repo), e);
    SshManifestPieces(owner, repo);
    TidyIsClean(SshManifest(owner, repo));
  }

  /** Tidy text comes out of the normalisation unchanged. */
  lemma {:induction false} TidyIsClean(s: string)
    requires Tidy(s)
    ensures CleanContent(s) == s
  {
    TidyNoComment(s);
    forall i | 0 <= i < |s| && IsSpace(s[i]) ensures s[i] == ' ' && i + 1 < |s| && !IsSpace(s[i + 1]) {
      assert TidyAt(s, i);
    }
    CleanIdentity(s);
  }

  lemma {:induction false} TidyLiterals()
    ensures Tidy("dependencies: [") && Tidy(".package(url: \"") && Tidy("git@github.com:")
    ensures Tidy(".git\", from: \"1.0.0\")]")
  {
    TidyHead();
    TidyTail();
  }

  lemma {:induction false} TidyHead()
    ensures Tidy("dependencies: [") && Tidy(".package(url: \"")
  {
  }

  lemma {:induction false} TidyTail()
    ensures Tidy("git@github.com:") && Tidy(".git\", from: \"1.0.0\")]")
  {
  }

  lemma {:induction false} SshManifestPieces(owner: string, repo: string)
    ensures SshManifest(owner, repo)
         == "dependencies: [" + ".package(url: \"" + "git@github.com:" + owner + ("/" + repo)
            + ".git\", from: \"1.0.0\")]"
  {
  }
}

=== FILE: models.dfy ===
/** The repository record's own rules (`src/models.py`): the package-state
    enumeration, the URL/owner/name validation and `transition_state`. The
    database columns are reduced to the values these rules read and write,
    and the session to whether one was passed. */
module Models {
  import opened Wrappers
  import opened Text

  datatype PackageState =
    | Unknown
    | Tracking
    | InProgress
    | AndroidSupported
    | Archived
    | Irrelevant
    | Blocked
    | Dependency
  {
    /** The enum member's string value, the form stored in `current_state`. */
    function Value(): string {
      match this
      case Unknown => "unknown"
      case Tracking => "tracking"
      case InProgress => "in_progress"
      case AndroidSupported => "android_supported"
      case Archived => "archived"
      case Irrelevant => "irrelevant"
      case Blocked => "blocked"
      case Dependency => "dependency"
    }
  }

  /** The members in declaration order, which is the order `values()` lists. */
  const AllStates: seq<PackageState> :=
    [Unknown, Tracking, InProgress, AndroidSupported, Archived, Irrelevant, Blocked, Dependency]

  /** `PackageState.values()`: each member's value, in declaration order. */
  function Values(): (vs: seq<string>)
    ensures |vs| == |AllStates|
    ensures forall i :: 0 <= i < |vs| ==> vs[i] == AllStates[i].Value()
  {
    ["unknown", "tracking", "in_progress", "android_supported",
     "archived", "irrelevant", "blocked", "dependency"]
  }

  /** `PackageState.descriptions()`, also exported as `PACKAGE_STATES`. */
  const Descriptions: map<string, string> := map[
    "unknown" := "State not yet determined",
    "tracking" := "Currently being tracked for migration",
    "in_progress" := "Migration work in progress",
    "android_supported" := "Successfully supports Android platform",
    "archived" := "Repository archived/no longer maintained",
    "irrelevant" := "Not relevant for Android migration",
    "blocked" := "Migration blocked by dependencies or issues",
    "dependency" := "Second-tier dependency not in original CSV"
  ]

  /** `DEFAULT_STATE`, also the column default of `current_state`. */
  const DefaultState := Tracking.Value()

  /** Looking a stored value up among the members. */
  function StateOf(s: string): (r: Option<PackageState>)
    ensures r.Some? <==> s in Values()
    ensures r.Some? ==> r.value.Value() == s
  {
    if s == "unknown" then Some(Unknown)
    else if s == "tracking" then Some(Tracking)
    else if s == "in_progress" then Some(InProgress)
    else if s == "android_supported" then Some(AndroidSupported)
    else if s == "archived" then Some(Archived)
    else if s == "irrelevant" then Some(Irrelevant)
    else if s == "blocked" then Some(Blocked)
    else if s == "dependency" then Some(Dependency)
    else None
  }

  /** Every member's value names that member and no other, and the
      description table has exactly the valid values as keys. */
  lemma {:induction false} StateValuesFacts(p: PackageState)
    ensures StateOf(p.Value()) == Some(p)
    ensures p.Value() in Values() && p.Value() in Descriptions
    ensures |Values()| == 8
    ensures forall i, j :: 0 <= i < j < |Values()| ==> Values()[i] != Values()[j]
    ensures forall v :: v in Descriptions <==> v in Values()
    ensures DefaultState in Values()
  {
    StateOfValue(p);
    ValuesDistinct();
    DescriptionKeys();
  }

  lemma StateOfValue(p: PackageState)
    ensures StateOf(p.Value()) == Some(p)
  {
    match p
    case Unknown =>
    case Tracking =>
    case InProgress =>
    case AndroidSupported =>
    case Archived =>
    case Irrelevant =>
    case Blocked =>
    case Dependency =>
  }

  lemma ValuesDistinct()
    ensures forall i, j :: 0 <= i < j < |Values()| ==> Values()[i] != Values()[j]
  {
  }

  lemma DescriptionKeys()
    ensures forall v :: v in Descriptions <==> v in Values()
  {
  }

  // ---------------------------------------------------------------------
  // Validation

  /** An ASCII `\w` character. */
  predicate IsWordChar(c: char) {
    ('a' <= c <= 'z') || ('A' <= c <= 'Z') || ('0' <= c <= '9') || c == '_'
  }

  /** A character of the class `[\w\-\.]`. */
  predicate IsSegmentChar(c: char) {
    IsWordChar(c) || c == '-' || c == '.'
  }

  /** Text that `[\w\-\.]+` matches in full. */
  predicate Segment(s: string) {
    |s| > 0 && forall i :: 0 <= i < |s| ==> IsSegmentChar(s[i])
  }

  /** What may follow the repository segment for `/?$` to match: an optional
      slash, then the end of the text or a newline that ends it. */
  predicate IsEnding(t: string) {
    t == "" || t == "/" || t == "\n" || t == "/\n"
  }

  const RepoUrlPrefix := "https://github.com/"

  /** How many leading characters a greedy `[\w\-\.]*` consumes. */
  function SegmentLength(s: string): (n: nat)
    ensures n <= |s|
    ensures forall i :: 0 <= i < n ==> IsSegmentChar(s[i])
    ensures n == |s| || !IsSegmentChar(s[n])
    decreases |s|
  {
    if |s| > 0 && IsSegmentChar(s[0]) then 1 + SegmentLength(s[1..]) else 0
  }

  /** `re.match(r"^https://github\.com/[\w\-\.]+/[\w\-\.]+/?$", s)` succeeds.
      Neither segment class contains `/` or a newline, so the greedy matches
      are the only candidates and no backtracking can help. */
  predicate MatchesRepoPattern(s: string) {
    && StartsWith(s, RepoUrlPrefix)
    && var rest := s[|RepoUrlPrefix|..];
       var a := SegmentLength(rest);
       && 0 < a < |rest|
       && rest[a] == '/'
       && var after := rest[a + 1..];
          var b := SegmentLength(after);
          b > 0 && IsEnding(after[b..])
  }

  /** A greedy segment stops exactly where a segment meets a character
      outside the class. */
  lemma {:induction false} SegmentLengthOf(x: string, y: string)
    requires forall i :: 0 <= i < |x| ==> IsSegmentChar(x[i])
    requires |y| == 0 || !IsSegmentChar(y[0])
    ensures SegmentLength(x + y) == |x|
    decreases |x|
  {
    if |x| > 0 {
      assert (x + y)[1..] == x[1..] + y;
      SegmentLengthOf(x[1..], y);
    } else {
      assert x + y == y;
    }
  }

  /** On text of the owner/repository form the pattern's verdict depends on
      the ending alone: it accepts exactly the allowed endings. */
  lemma {:induction false} PatternOnForm(a: string, b: string, t: string)
    requires Segment(a) && Segment(b)
    requires |t| == 0 || !IsSegmentChar(t[0])
    ensures MatchesRepoPattern(RepoUrlPrefix + a + "/" + b + t) <==> IsEnding(t)
  {
    var s := RepoUrlPrefix + a + "/" + b + t;
    JoinParts(RepoUrlPrefix, a, b, t);
    assert s[..|RepoUrlPrefix|] == RepoUrlPrefix;
    var rest := s[|RepoUrlPrefix|..];
    assert rest == a + ("/" + (b + t));
    SegmentLengthOf(a, "/" + (b + t));
    var after := rest[|a| + 1..];
    assert after == b + t;
    SegmentLengthOf(b, t);
    assert after[|b|..] == t;
    PatternFromCuts(s, |a|, |b|);
  }

  /** The pattern read off the two greedy segment lengths. */
  lemma PatternFromCuts(s: string, a: nat, b: nat)
    requires StartsWith(s, RepoUrlPrefix)
    requires a < |s[|RepoUrlPrefix|..]| && SegmentLength(s[|RepoUrlPrefix|..]) == a
    requires s[|RepoUrlPrefix|..][a] == '/' && SegmentLength(s[|RepoUrlPrefix|..][a + 1..]) == b
    ensures MatchesRepoPattern(s) <==> 0 < a && 0 < b && IsEnding(s[|RepoUrlPrefix|..][a + 1..][b..])
  {
  }

  /** The pattern accepts the owner/repository form with every allowed
      ending. */
  lemma {:induction false} RepoPatternAccepts(a: string, b: string, t: string)
    requires Segment(a) && Segment(b) && IsEnding(t)
    ensures MatchesRepoPattern(RepoUrlPrefix + a + "/" + b + t)
  {
    PatternOnForm(a, b, t);
  }

  /** What the pattern matched: owner segment, repository segment and
      ending; the text is exactly their concatenation. */
  function RepoParts(s: string): (p: (string, string, string))
    requires MatchesRepoPattern(s)
    ensures Segment(p.0) && Segment(p.1) && IsEnding(p.2)
    ensures s == RepoUrlPrefix + p.0 + "/" + p.1 + p.2
  {
    var rest := s[|RepoUrlPrefix|..];
    var a := SegmentLength(rest);
    var after := rest[a + 1..];
    var b := SegmentLength(after);
    JoinAround(s, RepoUrlPrefix, a, b);
    (rest[..a], after[..b], after[b..])
  }

  /** A text after a prefix, cut at a `/` and once more after it, is the
      prefix and the three pieces joined back. */
  lemma JoinAround(s: string, pre: string, a: nat, b: nat)
    requires StartsWith(s, pre) && a < |s| - |pre| && s[|pre|..][a] == '/'
    requires b <= |s[|pre|..][a + 1..]|
    ensures var rest := s[|pre|..];
            var after := rest[a + 1..];
            s == pre + rest[..a] + "/" + after[..b] + after[b..]
  {
    var rest := s[|pre|..];
    var after := rest[a + 1..];
    assert s == pre + rest;
    CutAround(rest, a);
    assert [rest[a]] == "/";
    assert after == after[..b] + after[b..];
    JoinParts(pre, rest[..a], after[..b], after[b..]);
  }

  lemma JoinParts(pre: string, x: string, y: string, z: string)
    ensures pre + x + "/" + y + z == pre + (x + ("/" + (y + z)))
  {
  }

  /** `if not x or not x.strip()`, inverted. */
  predicate NonBlank(x: Option<string>) {
    x.Some? && Strip(x.value) != ""
  }

  const UrlRequired := "Repository URL is required"
  const OwnerRequired := "Repository owner is required"
  const NameRequired := "Repository name is required"

  function InvalidUrlMessage(url: string): string {
    "Invalid GitHub repository URL format: " + url
  }

  /** `Repository.validate_url`: a missing or empty URL, then the pattern
      against the URL with trailing slashes removed; the message quotes the
      URL as given. */
  function ValidateUrl(url: Option<string>): (r: Result<()>)
    ensures (url.None? || url.value == "") ==> r == Failure(UrlRequired)
    ensures url.Some? && url.value != "" ==>
              (r.Success? <==> MatchesRepoPattern(RStripBy(url.value, IsSlash)))
    ensures url.Some? && url.value != "" && r.Failure? ==>
              r.error == InvalidUrlMessage(url.value)
  {
    if url.None? || url.value == "" then Failure(UrlRequired)
    else if MatchesRepoPattern(RStripBy(url.value, IsSlash)) then Success(())
    else Failure(InvalidUrlMessage(url.value))
  }

  /** `n` slashes. */
  function Slashes(n: nat): (r: string)
    ensures |r| == n && forall i :: 0 <= i < n ==> r[i] == '/'
  {
    seq(n, _ => '/')
  }

  lemma {:induction false} RStripSlashes(x: string, n: nat)
    requires |x| > 0 && x[|x| - 1] != '/'
    ensures RStripBy(x + Slashes(n), IsSlash) == x
    decreases n
  {
    if n > 0 {
      var s := x + Slashes(n);
      assert s[..|s| - 1] == x + Slashes(n - 1);
      RStripSlashes(x, n - 1);
    } else {
      assert x + Slashes(0) == x;
    }
  }

  /** Every `https://github.com/<owner>/<repo>` URL validates, whatever number
      of trailing slashes it carries. */
  lemma {:induction false} ValidateUrlAccepts(owner: string, repo: string, n: nat)
    requires Segment(owner) && Segment(repo)
    ensures ValidateUrl(Some(RepoUrlPrefix + owner + "/" + repo + Slashes(n))).Success?
  {
    var x := RepoUrlPrefix + owner + "/" + repo;
    assert x[|x| - 1] == repo[|repo| - 1];
    RStripSlashes(x, n);
    RepoPatternAccepts(owner, repo, "");
    assert x + "" == x;
  }

  /** A URL with a path below the repository is rejected with the message
      quoting it. */
  lemma {:induction false} ValidateUrlRejectsDeeper(owner: string, repo: string, sub: string)
    requires Segment(owner) && Segment(repo) && Segment(sub)
    ensures var url := RepoUrlPrefix + owner + "/" + repo + "/" + sub;
            ValidateUrl(Some(url)) == Failure(InvalidUrlMessage(url))
  {
    var url := RepoUrlPrefix + owner + "/" + repo + "/" + sub;
    assert url[|url| - 1] == sub[|sub| - 1];
    assert RStripBy(url, IsSlash) == url;
    var t := "/" + sub;
    assert url == RepoUrlPrefix + owner + "/" + repo + t;
    assert t[1] == sub[0];
    PatternOnForm(owner, repo, t);
  }

  /** `$` also matches before a final newline, so a URL ending in a newline
      validates. */
  lemma {:induction false} ValidateUrlAcceptsNewline(owner: string, repo: string)
    requires Segment(owner) && Segment(repo)
    ensures ValidateUrl(Some(RepoUrlPrefix + owner + "/" + repo + "\n")).Success?
  {
    var url := RepoUrlPrefix + owner + "/" + repo + "\n";
    assert RStripBy(url, IsSlash) == url;
    RepoPatternAccepts(owner, repo, "\n");
  }

  datatype Repository = Repository(
    id: Option<int>,
    url: Option<string>,
    owner: Option<string>,
    name: Option<string>,
    currentState: Option<string>)

  /** `Repository.validate`: URL first, then owner, then name. */
  function Validate(r: Repository): (res: Result<()>)
    ensures res.Success? <==> ValidateUrl(r.url).Success? && NonBlank(r.owner) && NonBlank(r.name)
    ensures ValidateUrl(r.url).Failure? ==> res == ValidateUrl(r.url)
    ensures ValidateUrl(r.url).Success? && !NonBlank(r.owner) ==> res == Failure(OwnerRequired)
    ensures ValidateUrl(r.url).Success? && NonBlank(r.owner) && !NonBlank(r.name) ==>
              res == Failure(NameRequired)
  {
    var u := ValidateUrl(r.url);
    if u.Failure? then u
    else if !NonBlank(r.owner) then Failure(OwnerRequired)
    else if !NonBlank(r.name) then Failure(NameRequired)
    else Success(())
  }

  /** A segment holds no white space, so it is never blank. */
  lemma {:induction false} SegmentNonBlank(s: string)
    requires Segment(s)
    ensures NonBlank(Some(s))
  {
    assert forall i :: 0 <= i < |s| ==> IsSegmentChar(s[i]) && !IsSpace(s[i]);
    assert LStripBy(s, IsSpace) == s;
    assert RStripBy(s, IsSpace) == s;
  }

  /** A record whose URL is built from its own owner and name validates. */
  lemma {:induction false} ValidateConsistentRecord(id: Option<int>, owner: string, name: string, state: Option<string>)
    requires Segment(owner) && Segment(name)
    ensures Validate(Repository(id, Some(RepoUrlPrefix + owner + "/" + name), Some(owner), Some(name), state)).Success?
  {
    ValidateUrlAccepts(owner, name, 0);
    assert RepoUrlPrefix + owner + "/" + name + Slashes(0) == RepoUrlPrefix + owner + "/" + name;
    SegmentNonBlank(owner);
    SegmentNonBlank(name);
  }

  // ---------------------------------------------------------------------
  // State transitions

  /** The `StateTransition` row written when a session is passed. */
  datatype StateTransition = StateTransition(
    repositoryId: Option<int>,
    repositoryUrl: Option<string>,
    fromState: Option<string>,
    toState: string,
    reason: Option<string>,
    changedBy: Option<string>,
    issueNumber: Option<int>)

  /** The record after the call, the returned `(old_state, new_state)` pair
      and the row added to the session, if any. */
  datatype Transitioned = Transitioned(
    repo: Repository,
    oldState: Option<string>,
    newState: string,
    logged: Option<StateTransition>)

  /** `repr` of a list of plain strings. */
  function ListRepr(vs: seq<string>): string {
    "[" + Join(seq(|vs|, i requires 0 <= i < |vs| => "'" + vs[i] + "'"), ", ") + "]"
  }

  function InvalidStateMessage(s: string): string {
    "Invalid state: " + s + ". Valid states: " + ListRepr(Values())
  }

  /** `Repository.transition_state`. An unknown state raises before anything
      changes; otherwise the state is replaced, and a transition row carrying
      the record's id and URL is produced exactly when a session is given. */
  function TransitionState(r: Repository, newState: string, reason: Option<string>,
                           changedBy: Option<string>, issueNumber: Option<int>,
                           session: bool): (t: Result<Transitioned>)
    ensures t.Failure? <==> StateOf(newState).None?
    ensures t.Failure? ==> t.error == InvalidStateMessage(newState)
    ensures t.Success? ==>
              && t.value.oldState == r.currentState
              && t.value.newState == newState
              && t.value.repo == r.(currentState := Some(newState))
    ensures t.Success? ==> (t.value.logged.Some? <==> session)
    ensures t.Success? && session ==>
              t.value.logged == Some(StateTransition(r.id, r.url, r.currentState, newState,
                                                     reason, changedBy, issueNumber))
  {
    if newState !in Values() then Failure(InvalidStateMessage(newState))
    else
      var log := if session
        then Some(StateTransition(r.id, r.url, r.currentState, newState, reason, changedBy, issueNumber))
        else None;
      Success(Transitioned(r.(currentState := Some(newState)), r.currentState, newState, log))
  }

  /** A transition leaves the record holding a valid state, and touches
      nothing `validate` reads. */
  lemma {:induction false} TransitionKeepsRecord(r: Repository, s: string, reason: Option<string>,
                              changer: Option<string>, issue: Option<int>, session: bool)
    requires TransitionState(r, s, reason, changer, issue, session).Success?
    ensures var t := TransitionState(r, s, reason, changer, issue, session).value;
            && t.repo.currentState.Some?
            && StateOf(t.repo.currentState.value).Some?
            && Validate(t.repo) == Validate(r)
            && t.repo.id == r.id && t.repo.url == r.url
  {
  }

  /** Moving to a state and then back to the state returned as old restores
      the record exactly; the second row logs the reverse move. */
  lemma {:induction false} TransitionUndo(r: Repository, s: string, session: bool)
    requires r.currentState.Some? && StateOf(r.currentState.value).Some?
    requires StateOf(s).Some?
    ensures var t := TransitionState(r, s, None, None, None, session);
            && t.Success?
            && var back := TransitionState(t.value.repo, t.value.oldState.value, None, None, None, session);
               && back.Success?
               && back.value.repo == r
               && back.value.oldState == Some(s)
               && (session ==> back.value.logged.value.fromState == Some(s)
                                && back.value.logged.value.toState == r.currentState.value)
  {
  }

  /** Repeating a transition changes nothing further, and the repeat reports
      the state as both old and new. */
  lemma {:induction false} TransitionIdempotent(r: Repository, s: string)
    requires StateOf(s).Some?
    ensures var t := TransitionState(r, s, None, None, None, false).value;
            var u := TransitionState(t.repo, s, None, None, None, false);
            u.Success? && u.value.repo == t.repo && u.value.oldState == Some(s) && u.value.newState == s
  {
  }
}

=== FILE: priority.dfy ===
/** The Android-work priority list (`generate_priority_analysis` and
    `_generate_priority_rationale` in
    `swift_package_analyzer/analysis/analyzer.py`). The data frame becomes a
    sequence of completed repositories; the days since the last push are an
    input, absent where `pushed_at` is missing. Scores are exact reals. */
module Priority {
  import opened Wrappers
  import opened Text
  import opened Sorting

  datatype Repo = Repo(
    owner: string,
    name: string,
    stars: int,
    forks: int,
    watchers: int,
    daysSincePush: Option<int>,
    dependenciesCount: int,
    hasPackageSwift: bool,
    swiftToolsVersion: Option<string>)

  function Engagement(r: Repo): int {
    r.forks + r.watchers
  }

  /** The column maxima the factors are normalised by; `days` is the largest
      days-since-push among the rows that have one. */
  datatype Maxima = Maxima(stars: int, engagement: int, days: Option<int>, deps: int)

  function MaxOf(xs: seq<int>): (m: int)
    requires |xs| > 0
    ensures m in xs && forall i :: 0 <= i < |xs| ==> xs[i] <= m
  {
    if |xs| == 1 then xs[0]
    else var rest := MaxOf(xs[1..]); if xs[0] >= rest then xs[0] else rest
  }

  /** The largest present value, or none when every value is absent
      (pandas' `max()` skips missing values). */
  function MaxPresent(xs: seq<Option<int>>): (m: Option<int>)
    ensures m.None? <==> forall i :: 0 <= i < |xs| ==> xs[i].None?
    ensures m.Some? ==> Some(m.value) in xs
    ensures m.Some? ==> forall i :: 0 <= i < |xs| && xs[i].Some? ==> xs[i].value <= m.value
  {
    if |xs| == 0 then None
    else
      var rest := MaxPresent(xs[1..]);
      if xs[0].None? then rest
      else if rest.None? || xs[0].value >= rest.value then xs[0]
      else rest
  }

  function MaximaOf(rs: seq<Repo>): (m: Maxima)
    requires |rs| > 0
    ensures forall i :: 0 <= i < |rs| ==>
              && rs[i].stars <= m.stars
              && Engagement(rs[i]) <= m.engagement
              && rs[i].dependenciesCount <= m.deps
              && (rs[i].daysSincePush.Some? ==> m.days.Some? && rs[i].daysSincePush.value <= m.days.value)
    ensures m.days.None? <==> forall i :: 0 <= i < |rs| ==> rs[i].daysSincePush.None?
  {
    var stars := seq(|rs|, i requires 0 <= i < |rs| => rs[i].stars);
    var engagement := seq(|rs|, i requires 0 <= i < |rs| => Engagement(rs[i]));
    var days := seq(|rs|, i requires 0 <= i < |rs| => rs[i].daysSincePush);
    var deps := seq(|rs|, i requires 0 <= i < |rs| => rs[i].dependenciesCount);
    var m := Maxima(MaxOf(stars), MaxOf(engagement), MaxPresent(days), MaxOf(deps));
    forall i | 0 <= i < |rs|
      ensures rs[i].stars <= m.stars && Engagement(rs[i]) <= m.engagement
      ensures rs[i].dependenciesCount <= m.deps
      ensures rs[i].daysSincePush.Some? ==> m.days.Some? && rs[i].daysSincePush.value <= m.days.value
    {
      assert stars[i] == rs[i].stars && engagement[i] == Engagement(rs[i]);
      assert days[i] == rs[i].daysSincePush && deps[i] == rs[i].dependenciesCount;
    }
    assert m.days.None? ==> forall i :: 0 <= i < |rs| ==> days[i].None?;
    m
  }

  // Each factor is added only when its maximum is positive.

  function Popularity(r: Repo, m: Maxima): real {
    if m.stars > 0 then 0.4 * (r.stars as real / m.stars as real) else 0.0
  }

  function Community(r: Repo, m: Maxima): real {
    if m.engagement > 0 then 0.3 * (Engagement(r) as real / m.engagement as real) else 0.0
  }

  /** The recency term, or none where it is NaN: a row without a push date
      when other rows have one and their largest distance is positive. */
  function Recency(r: Repo, m: Maxima): Option<real> {
    if m.days.Some? && m.days.value > 0 then
      if r.daysSincePush.Some? then
        Some(0.2 * (1.0 - r.daysSincePush.value as real / m.days.value as real))
      else None
    else Some(0.0)
  }

  function Simplicity(r: Repo, m: Maxima): real {
    if m.deps > 0 then 0.1 * (1.0 - r.dependenciesCount as real / m.deps as real) else 0.0
  }

  /** `priority_score`, undefined (NaN) exactly where the recency term is. */
  function Score(r: Repo, m: Maxima): (s: Option<real>)
    ensures s.None? <==> Recency(r, m).None?
    ensures s.Some? ==> s.value == Popularity(r, m) + Community(r, m) + Recency(r, m).value + Simplicity(r, m)
  {
    match Recency(r, m)
    case None => None
    case Some(rec) => Some(Popularity(r, m) + Community(r, m) + rec + Simplicity(r, m))
  }

  predicate NonNegative(r: Repo) {
    && r.stars >= 0 && r.forks >= 0 && r.watchers >= 0 && r.dependenciesCount >= 0
    && (r.daysSincePush.Some? ==> r.daysSincePush.value >= 0)
  }

  /** With non-negative inputs bounded by the maxima, each factor lies
      between zero and its weight, so the score lies in [0, 1]. */
  lemma {:induction false} ScoreBounds(r: Repo, m: Maxima)
    requires NonNegative(r)
    requires r.stars <= m.stars && Engagement(r) <= m.engagement && r.dependenciesCount <= m.deps
    requires r.daysSincePush.Some? ==> m.days.Some? && r.daysSincePush.value <= m.days.value
    ensures 0.0 <= Popularity(r, m) <= 0.4
    ensures 0.0 <= Community(r, m) <= 0.3
    ensures Recency(r, m).Some? ==> 0.0 <= Recency(r, m).value <= 0.2
    ensures 0.0 <= Simplicity(r, m) <= 0.1
    ensures Score(r, m).Some? ==> 0.0 <= Score(r, m).value <= 1.0
  {
    if m.stars > 0 {
      DivUnit(r.stars, m.stars);
    }
    if m.engagement > 0 {
      DivUnit(Engagement(r), m.engagement);
    }
    if m.days.Some? && m.days.value > 0 && r.daysSincePush.Some? {
      DivUnit(r.daysSincePush.value, m.days.value);
    }
    if m.deps > 0 {
      DivUnit(r.dependenciesCount, m.deps);
    }
  }

  lemma {:induction false} DivUnit(x: int, y: int)
    requires 0 <= x <= y && y > 0
    ensures 0.0 <= x as real / y as real <= 1.0
  {
    assert x as real <= y as real;
  }

  /** More stars, everything else equal, never lowers the score. */
  lemma {:induction false} ScoreMonotoneInStars(r: Repo, extra: nat, m: Maxima)
    requires Score(r, m).Some?
    ensures Score(r.(stars := r.stars + extra), m).Some?
    ensures Score(r, m).value <= Score(r.(stars := r.stars + extra), m).value
  {
    if m.stars > 0 {
      assert r.stars as real / m.stars as real <= (r.stars + extra) as real / m.stars as real;
    }
  }

  /** Rows with a defined score, in input order. */
  datatype Scored = Scored(repo: Repo, score: real)

  function ScoredRows(rs: seq<Repo>, m: Maxima): (out: seq<Scored>)
    ensures forall x :: x in out <==> x.repo in rs && Score(x.repo, m) == Some(x.score)
    ensures |out| <= |rs|
  {
    if |rs| == 0 then []
    else
      var rest := ScoredRows(rs[1..], m);
      match Score(rs[0], m)
      case None => rest
      case Some(s) => [Scored(rs[0], s)] + rest
  }

  /** Splitting the data splits the scored rows the same way, so they keep
      input order and multiplicity. */
  lemma {:induction false} ScoredRowsAppend(xs: seq<Repo>, ys: seq<Repo>, m: Maxima)
    ensures ScoredRows(xs + ys, m) == ScoredRows(xs, m) + ScoredRows(ys, m)
    decreases |xs|
  {
    if |xs| > 0 {
      assert (xs + ys)[0] == xs[0];
      assert (xs + ys)[1..] == xs[1..] + ys;
      ScoredRowsAppend(xs[1..], ys, m);
    } else {
      assert xs + ys == ys;
    }
  }

  /** One row is kept, with its score, exactly when its score is defined. */
  lemma {:induction false} ScoredRowsOne(r: Repo, m: Maxima)
    ensures ScoredRows([r], m) == match Score(r, m)
                                 case Some(s) => [Scored(r, s)]
                                 case None => []
  {
    assert [r][1..] == [];
  }

  /** Without any push date the recency factor is skipped entirely and
      every row is scored. */
  lemma {:induction false} NoPushDatesScoresAll(rs: seq<Repo>)
    requires |rs| > 0
    requires forall i :: 0 <= i < |rs| ==> rs[i].daysSincePush.None?
    ensures |ScoredRows(rs, MaximaOf(rs))| == |rs|
    ensures forall i :: 0 <= i < |rs| ==> Recency(rs[i], MaximaOf(rs)) == Some(0.0)
  {
    var m := MaximaOf(rs);
    AllScored(rs, m);
  }

  lemma {:induction false} AllScored(rs: seq<Repo>, m: Maxima)
    requires m.days.None?
    ensures |ScoredRows(rs, m)| == |rs|
    decreases |rs|
  {
    if |rs| > 0 {
      AllScored(rs[1..], m);
    }
  }

  /** Rows whose score is undefined (NaN), in input order. */
  function UnscoredRows(rs: seq<Repo>, m: Maxima): (out: seq<Repo>)
    ensures forall r :: r in out <==> r in rs && Score(r, m).None?
    ensures |ScoredRows(rs, m)| + |out| == |rs|
  {
    if |rs| == 0 then []
    else
      var rest := UnscoredRows(rs[1..], m);
      assert forall r :: r in rs <==> r == rs[0] || r in rs[1..];
      if Score(rs[0], m).None? then [rs[0]] + rest else rest
  }

  /** Splitting the data splits the undefined-score rows the same way, so
      they keep their input order. */
  lemma {:induction false} UnscoredRowsAppend(xs: seq<Repo>, ys: seq<Repo>, m: Maxima)
    ensures UnscoredRows(xs + ys, m) == UnscoredRows(xs, m) + UnscoredRows(ys, m)
    decreases |xs|
  {
    if |xs| > 0 {
      assert (xs + ys)[1..] == xs[1..] + ys;
      UnscoredRowsAppend(xs[1..], ys, m);
    } else {
      assert xs + ys == ys;
    }
  }

  function ScoreKey(x: Scored): seq<real> {
    [-x.score]
  }

  /** `nlargest(50)` over already scored rows: largest score first, equal
      scores in their original order, at most 50. */
  function Top(scored: seq<Scored>): (top: seq<Scored>)
    ensures |top| == if |scored| < 50 then |scored| else 50
    ensures forall i, j :: 0 <= i < j < |top| ==> top[i].score >= top[j].score
    ensures forall x :: x in top ==> x in scored
    ensures multiset(top) <= multiset(scored)
    ensures |scored| <= 50 ==> multiset(top) == multiset(scored)
    ensures forall k :: |WithKey(top, ScoreKey, k)| <= |WithKey(scored, ScoreKey, k)|
                        && WithKey(top, ScoreKey, k) == WithKey(scored, ScoreKey, k)[..|WithKey(top, ScoreKey, k)|]
  {
    var top := Take(Sort(scored, ScoreKey), 50);
    TopOrder(scored, top);
    TopTies(scored, top);
    top
  }

  lemma {:induction false} TopOrder(scored: seq<Scored>, top: seq<Scored>)
    requires top == Take(Sort(scored, ScoreKey), 50)
    ensures |top| == if |scored| < 50 then |scored| else 50
    ensures forall i, j :: 0 <= i < j < |top| ==> top[i].score >= top[j].score
    ensures forall x :: x in top ==> x in scored
    ensures multiset(top) <= multiset(scored)
    ensures |scored| <= 50 ==> multiset(top) == multiset(scored)
  {
    var sorted := Sort(scored, ScoreKey);
    SortCorrect(scored, ScoreKey);
    SortSameElements(scored, ScoreKey);
    SortPrefixMultiset(scored, ScoreKey, |top|);
    assert forall i, j :: 0 <= i < j < |top| ==> LexLe(ScoreKey(top[i]), ScoreKey(top[j]));
  }

  lemma {:induction false} TopTies(scored: seq<Scored>, top: seq<Scored>)
    requires top == Take(Sort(scored, ScoreKey), 50)
    ensures forall k :: |WithKey(top, ScoreKey, k)| <= |WithKey(scored, ScoreKey, k)|
                        && WithKey(top, ScoreKey, k) == WithKey(scored, ScoreKey, k)[..|WithKey(top, ScoreKey, k)|]
  {
    var sorted := Sort(scored, ScoreKey);
    SortCorrect(scored, ScoreKey);
    forall k ensures |WithKey(top, ScoreKey, k)| <= |WithKey(scored, ScoreKey, k)|
                     && WithKey(top, ScoreKey, k) == WithKey(scored, ScoreKey, k)[..|WithKey(top, ScoreKey, k)|] {
      WithKeyPrefix(sorted, ScoreKey, |top|, k);
    }
  }

  /** A scored row is left out of the top rows only when there are more than
      50 of them. */
  lemma {:induction false} LeftOutMeansFull(scored: seq<Scored>, x: Scored)
    requires x in scored && x !in Top(scored)
    ensures |scored| > 50 && |Top(scored)| == 50
  {
    assert multiset(Top(scored))[x] == 0;
    assert multiset(scored)[x] > 0;
  }

  /** Nothing left out of the top rows outranks what is in them. */
  lemma {:induction false} TopAreLargest(scored: seq<Scored>, x: Scored)
    requires x in scored && x !in Top(scored)
    ensures forall y :: y in Top(scored) ==> y.score >= x.score
  {
    var sorted := Sort(scored, ScoreKey);
    var k := if |scored| < 50 then |scored| else 50;
    assert Top(scored) == sorted[..k];
    SortedPrefixSmallest(scored, ScoreKey, k, x);
    forall y | y in Top(scored)
      ensures y.score >= x.score
    {
      assert LexLe(ScoreKey(y), ScoreKey(x));
    }
  }

  // ---------------------------------------------------------------------
  // The records

  const HighPopularity := "High popularity"
  const ActiveCommunity := "Active community"
  const LowComplexity := "Low complexity"
  const ModernPackage := "Modern Swift package"
  const GeneralPriority := "General priority"

  /** One of the four reasons. */
  predicate IsReason(x: string) {
    x == HighPopularity || x == ActiveCommunity || x == LowComplexity || x == ModernPackage
  }

  /** The reasons that apply, always in this order. */
  function Reasons(r: Repo): seq<string> {
    (if r.stars > 1000 then [HighPopularity] else [])
    + (if r.forks > 100 then [ActiveCommunity] else [])
    + (if r.dependenciesCount <= 5 then [LowComplexity] else [])
    + (if r.hasPackageSwift then [ModernPackage] else [])
  }

  /** Each reason is listed exactly when its threshold holds, and only the
      four reasons ever occur. */
  lemma {:induction false} ReasonsMeaning(r: Repo)
    ensures HighPopularity in Reasons(r) <==> r.stars > 1000
    ensures ActiveCommunity in Reasons(r) <==> r.forks > 100
    ensures LowComplexity in Reasons(r) <==> r.dependenciesCount <= 5
    ensures ModernPackage in Reasons(r) <==> r.hasPackageSwift
    ensures forall k :: 0 <= k < |Reasons(r)| ==> IsReason(Reasons(r)[k])
  {
    ReasonsListed(r);
    ReasonsOnlyFour(r);
  }

  lemma ReasonsListed(r: Repo)
    ensures HighPopularity in Reasons(r) <==> r.stars > 1000
    ensures ActiveCommunity in Reasons(r) <==> r.forks > 100
    ensures LowComplexity in Reasons(r) <==> r.dependenciesCount <= 5
    ensures ModernPackage in Reasons(r) <==> r.hasPackageSwift
  {
    ReasonsDistinct();
  }

  lemma ReasonsOnlyFour(r: Repo)
    ensures forall k :: 0 <= k < |Reasons(r)| ==> IsReason(Reasons(r)[k])
  {
  }

  lemma ReasonsDistinct()
    ensures HighPopularity != ActiveCommunity && HighPopularity != LowComplexity && HighPopularity != ModernPackage
    ensures ActiveCommunity != LowComplexity && ActiveCommunity != ModernPackage && LowComplexity != ModernPackage
  {
    assert HighPopularity[0] != ActiveCommunity[0] && HighPopularity[0] != LowComplexity[0];
    assert HighPopularity[0] != ModernPackage[0] && ActiveCommunity[0] != LowComplexity[0];
    assert ActiveCommunity[0] != ModernPackage[0] && LowComplexity[0] != ModernPackage[0];
  }

  /** `_generate_priority_rationale`. */
  function Rationale(r: Repo): string {
    var reasons := Reasons(r);
    if |reasons| == 0 then GeneralPriority else Join(reasons, "; ")
  }

  lemma {:induction false} JoinHead(parts: seq<string>, sep: string)
    requires |parts| > 0
    ensures |Join(parts, sep)| >= |parts[0]|
    ensures Join(parts, sep)[..|parts[0]|] == parts[0]
  {
  }

  /** The rationale reads "General priority" exactly when no reason applies,
      and otherwise opens with the first reason that does. */
  lemma {:induction false} RationaleGeneralIff(r: Repo)
    ensures Rationale(r) == GeneralPriority <==>
              r.stars <= 1000 && r.forks <= 100 && r.dependenciesCount > 5 && !r.hasPackageSwift
    ensures |Reasons(r)| > 0 ==> StartsWith(Rationale(r), Reasons(r)[0])
  {
    var reasons := Reasons(r);
    if |reasons| > 0 {
      JoinHead(reasons, "; ");
      var j := Join(reasons, "; ");
      assert j[0] == reasons[0][0];
      assert j[..|reasons[0]|] == reasons[0];
      ReasonsMeaning(r);
      assert IsReason(reasons[0]);
      assert j[0] != GeneralPriority[0];
    }
  }

  /** A popular, community-backed, simple, modern package lists all four
      reasons. */
  lemma {:induction false} RationaleAllReasons(r: Repo)
    requires r.stars > 1000 && r.forks > 100 && r.dependenciesCount <= 5 && r.hasPackageSwift
    ensures Rationale(r) == HighPopularity + "; " + ActiveCommunity + "; " + LowComplexity + "; " + ModernPackage
  {
    var all := [HighPopularity, ActiveCommunity, LowComplexity, ModernPackage];
    assert Reasons(r) == all;
    assert all[1..] == [ActiveCommunity, LowComplexity, ModernPackage];
    assert all[1..][1..] == [LowComplexity, ModernPackage];
    assert all[1..][1..][1..] == [ModernPackage];
    assert Join(all[1..][1..], "; ") == LowComplexity + "; " + ModernPackage;
    assert Join(all[1..], "; ") == ActiveCommunity + "; " + LowComplexity + "; " + ModernPackage;
    assert Join(all, "; ") == HighPopularity + "; " + ActiveCommunity + "; " + LowComplexity + "; " + ModernPackage;
  }

  /** One record of the list; a `priorityScore` of `None` stands for NaN. */
  datatype PriorityEntry = PriorityEntry(
    owner: string,
    name: string,
    stars: int,
    forks: int,
    dependenciesCount: int,
    priorityScore: Option<real>,
    hasPackageSwift: bool,
    swiftToolsVersion: Option<string>,
    rationale: string)

  function EntryOf(r: Repo, score: Option<real>): PriorityEntry {
    PriorityEntry(r.owner, r.name, r.stars, r.forks, r.dependenciesCount, score,
                  r.hasPackageSwift, r.swiftToolsVersion, Rationale(r))
  }

  /** One record per ranked scored row, in rank order. */
  function Entries(top: seq<Scored>): (out: seq<PriorityEntry>)
    ensures |out| == |top|
    ensures forall i :: 0 <= i < |out| ==> out[i] == EntryOf(top[i].repo, Some(top[i].score))
  {
    seq(|top|, i requires 0 <= i < |top| => EntryOf(top[i].repo, Some(top[i].score)))
  }

  /** One NaN-score record per row, in the given order. */
  function UnscoredEntries(us: seq<Repo>): (out: seq<PriorityEntry>)
    ensures |out| == |us|
    ensures forall i :: 0 <= i < |out| ==> out[i] == EntryOf(us[i], None)
  {
    seq(|us|, i requires 0 <= i < |us| => EntryOf(us[i], None))
  }

  /** `df.nlargest(50, "priority_score")` given the ranked scored rows and the
      NaN-score rows: the former, then the latter in the order given, until 50
      records are listed. */
  function Assemble(top: seq<Scored>, un: seq<Repo>): seq<PriorityEntry> {
    Entries(top) + UnscoredEntries(Take(un, 50 - |top|))
  }

  /** `generate_priority_analysis`: an empty data set gives no records;
      otherwise the first 50 rows (or all of them), those with a score first
      and from the highest score down, then those whose score is NaN, in
      input order; each record carries its row's own score. */
  function PriorityAnalysis(rs: seq<Repo>): (out: seq<PriorityEntry>)
    ensures |rs| == 0 ==> out == []
    ensures |out| == if |rs| < 50 then |rs| else 50
    ensures ScoresDescendFirst(out)
    ensures |rs| > 0 ==> FromRows(out, rs, MaximaOf(rs))
    ensures |rs| > 0 ==> UnscoredInInputOrder(out, rs, MaximaOf(rs))
    ensures |rs| > 0 ==> var top := Top(ScoredRows(rs, MaximaOf(rs)));
                         |top| <= |out| && out[..|top|] == Entries(top)
  {
    if |rs| == 0 then []
    else
      var m := MaximaOf(rs);
      var sc := ScoredRows(rs, m);
      var un := UnscoredRows(rs, m);
      var top := Top(sc);
      AssembleLength(top, un, |sc|);
      AssembleOrder(top, un);
      AssembleFromRows(top, un, rs, m);
      AssembleTail(top, un, |sc|);
      assert Assemble(top, un)[..|top|] == Entries(top);
      Assemble(top, un)
  }

  /** Records with a score come first, from the highest score down. */
  predicate ScoresDescendFirst(out: seq<PriorityEntry>) {
    forall i, j :: 0 <= i < j < |out| && out[j].priorityScore.Some? ==>
      out[i].priorityScore.Some? && out[i].priorityScore.value >= out[j].priorityScore.value
  }

  /** Every record is the record of an input row, with that row's score. */
  predicate FromRows(out: seq<PriorityEntry>, rs: seq<Repo>, m: Maxima) {
    forall i :: 0 <= i < |out| ==> RecordOfRow(out[i], rs, m)
  }

  predicate RecordOfRow(e: PriorityEntry, rs: seq<Repo>, m: Maxima) {
    exists r :: r in rs && e == EntryOf(r, Score(r, m))
  }

  /** The NaN-score records follow all scored rows and are the NaN-score rows
      in input order. */
  predicate UnscoredInInputOrder(out: seq<PriorityEntry>, rs: seq<Repo>, m: Maxima) {
    TailIsPrefix(out, |ScoredRows(rs, m)|, UnscoredRows(rs, m))
  }

  /** The NaN-score records sit after `n` records and read `un` from its
      start. */
  predicate TailIsPrefix(out: seq<PriorityEntry>, n: nat, un: seq<Repo>) {
    forall k :: 0 <= k < |out| && out[k].priorityScore.None? ==>
      n <= k < n + |un| && out[k] == EntryOf(un[k - n], None)
  }

  lemma {:induction false} AssembleLength(top: seq<Scored>, un: seq<Repo>, n: nat)
    requires |top| == if n < 50 then n else 50
    ensures |Assemble(top, un)| == if n + |un| < 50 then n + |un| else 50
  {
  }

  lemma {:induction false} AssembleOrder(top: seq<Scored>, un: seq<Repo>)
    requires forall i, j :: 0 <= i < j < |top| ==> top[i].score >= top[j].score
    ensures ScoresDescendFirst(Assemble(top, un))
  {
    var head := Entries(top);
    var out := Assemble(top, un);
    forall i, j | 0 <= i < j < |out| && out[j].priorityScore.Some?
      ensures out[i].priorityScore.Some? && out[i].priorityScore.value >= out[j].priorityScore.value
    {
      assert out[i] == head[i] && out[j] == head[j];
    }
  }

  lemma {:induction false} AssembleFromRows(top: seq<Scored>, un: seq<Repo>, rs: seq<Repo>, m: Maxima)
    requires forall x :: x in top ==> x.repo in rs && Score(x.repo, m) == Some(x.score)
    requires forall r :: r in un ==> r in rs && Score(r, m).None?
    ensures FromRows(Assemble(top, un), rs, m)
  {
    var head := Entries(top);
    var cut := Take(un, 50 - |top|);
    var out := Assemble(top, un);
    forall i | 0 <= i < |out|
      ensures RecordOfRow(out[i], rs, m)
    {
      if i < |head| {
        assert top[i] in top;
        assert out[i] == head[i] == EntryOf(top[i].repo, Score(top[i].repo, m));
      } else {
        var r := cut[i - |head|];
        assert r in un;
        assert out[i] == UnscoredEntries(cut)[i - |head|] == EntryOf(r, Score(r, m));
      }
    }
  }

  lemma {:induction false} AssembleTail(top: seq<Scored>, un: seq<Repo>, n: nat)
    requires |top| == if n < 50 then n else 50
    ensures TailIsPrefix(Assemble(top, un), n, un)
  {
    var head := Entries(top);
    var cut := Take(un, 50 - |top|);
    var tail := UnscoredEntries(cut);
    var out := Assemble(top, un);
    forall k | 0 <= k < |out| && out[k].priorityScore.None?
      ensures n <= k < n + |un| && out[k] == EntryOf(un[k - n], None)
    {
      assert k >= |head|;
      assert out[k] == tail[k - |head|];
    }
  }

  /** When fewer than 50 rows are given, every NaN-score row is listed, right
      after the scored ones. */
  lemma {:induction false} AssembleKeepsShort(top: seq<Scored>, un: seq<Repo>, j: nat)
    requires |top| + |un| <= 50 && j < |un|
    ensures |top| + j < |Assemble(top, un)| && Assemble(top, un)[|top| + j] == EntryOf(un[j], None)
  {
    assert Take(un, 50 - |top|) == un;
    assert Assemble(top, un)[|top| + j] == UnscoredEntries(un)[j];
  }

  /** When some row has a push date at a positive distance, a row without one
      has no score: it is ranked after every scored row, and left out only
      when the list is already full. */
  lemma {:induction false} MissingPushRankedLast(rs: seq<Repo>, i: nat)
    requires i < |rs| && rs[i].daysSincePush.None?
    requires MaximaOf(rs).days.Some? && MaximaOf(rs).days.value > 0
    ensures Score(rs[i], MaximaOf(rs)).None?
    ensures forall x :: x in ScoredRows(rs, MaximaOf(rs)) ==> x.repo != rs[i]
    ensures EntryOf(rs[i], None) in PriorityAnalysis(rs) || |PriorityAnalysis(rs)| == 50
  {
    UnscoredListedUnlessFull(rs, rs[i]);
  }

  /** A row whose score is NaN is listed unless 50 records already are. */
  lemma {:induction false} UnscoredListedUnlessFull(rs: seq<Repo>, r: Repo)
    requires r in rs && Score(r, MaximaOf(rs)).None?
    ensures EntryOf(r, None) in PriorityAnalysis(rs) || |PriorityAnalysis(rs)| == 50
  {
    var m := MaximaOf(rs);
    var sc := ScoredRows(rs, m);
    var un := UnscoredRows(rs, m);
    var top := Top(sc);
    if |rs| < 50 {
      assert r in un;
      var j :| 0 <= j < |un| && un[j] == r;
      ListedAt(top, un, j, PriorityAnalysis(rs));
    }
  }

  /** A row with a score is listed with it, unless the list is full of 50
      records that all score at least as high. */
  lemma {:induction false} ScoredListedUnlessOutranked(rs: seq<Repo>, r: Repo)
    requires r in rs && Score(r, MaximaOf(rs)).Some?
    ensures EntryOf(r, Score(r, MaximaOf(rs))) in PriorityAnalysis(rs)
            || (|PriorityAnalysis(rs)| == 50
                && (forall k :: 0 <= k < 50 ==>
                      PriorityAnalysis(rs)[k].priorityScore.Some?
                      && PriorityAnalysis(rs)[k].priorityScore.value >= Score(r, MaximaOf(rs)).value))
  {
    var m := MaximaOf(rs);
    var sc := ScoredRows(rs, m);
    var x := Scored(r, Score(r, m).value);
    assert x in sc;
    ListedOrOutranked(sc, PriorityAnalysis(rs), x);
  }

  /** The same for any list that opens with the entries of `Top(sc)` and
      holds at most 50 entries. */
  lemma {:induction false} ListedOrOutranked(sc: seq<Scored>, out: seq<PriorityEntry>, x: Scored)
    requires x in sc && |out| <= 50
    requires |Top(sc)| <= |out| && out[..|Top(sc)|] == Entries(Top(sc))
    ensures EntryOf(x.repo, Some(x.score)) in out
            || (|out| == 50
                && (forall k :: 0 <= k < 50 ==> out[k].priorityScore.Some? && out[k].priorityScore.value >= x.score))
  {
    var top := Top(sc);
    if x in top {
      var k :| 0 <= k < |top| && top[k] == x;
      HeadListed(top, out, k);
    } else {
      LeftOutMeansFull(sc, x);
      TopAreLargest(sc, x);
      HeadOutranks(top, out, x.score);
    }
  }

  /** A ranked row at the head of the list is listed with its score. */
  lemma {:induction false} HeadListed(top: seq<Scored>, out: seq<PriorityEntry>, k: nat)
    requires k < |top| <= |out| && out[..|top|] == Entries(top)
    ensures EntryOf(top[k].repo, Some(top[k].score)) in out
  {
    assert out[k] == out[..|top|][k];
  }

  /** A full list headed by 50 ranked rows scoring at least `s` holds only
      scores of at least `s`. */
  lemma {:induction false} HeadOutranks(top: seq<Scored>, out: seq<PriorityEntry>, s: real)
    requires |top| == 50 == |out| && out[..|top|] == Entries(top)
    requires forall y :: y in top ==> y.score >= s
    ensures forall k :: 0 <= k < 50 ==> out[k].priorityScore.Some? && out[k].priorityScore.value >= s
  {
    forall k | 0 <= k < 50
      ensures out[k].priorityScore.Some? && out[k].priorityScore.value >= s
    {
      assert out[k] == out[..|top|][k] == Entries(top)[k];
      assert top[k] in top;
    }
  }

  /** The step that places the row: with fewer than 50 rows nothing is cut. */
  lemma {:induction false} ListedAt(top: seq<Scored>, un: seq<Repo>, j: nat, out: seq<PriorityEntry>)
    requires |top| + |un| <= 50 && j < |un| && out == Assemble(top, un)
    ensures EntryOf(un[j], None) in out
  {
    AssembleKeepsShort(top, un, j);
  }

  /** Over non-negative data every listed score lies in [0, 1], and every
      record names an input row with that row's own score (NaN included) and
      rationale. */
  lemma {:induction false} PriorityEntriesSound(rs: seq<Repo>, e: PriorityEntry)
    requires forall i :: 0 <= i < |rs| ==> NonNegative(rs[i])
    requires e in PriorityAnalysis(rs)
    ensures e.priorityScore.Some? ==> 0.0 <= e.priorityScore.value <= 1.0
    ensures exists r :: r in rs && r.owner == e.owner && r.name == e.name
                        && Score(r, MaximaOf(rs)) == e.priorityScore
                        && e.rationale == Rationale(r)
  {
    var out := PriorityAnalysis(rs);
    var i :| 0 <= i < |out| && out[i] == e;
    var m := MaximaOf(rs);
    var r :| r in rs && out[i] == EntryOf(r, Score(r, m));
    var k :| 0 <= k < |rs| && rs[k] == r;
    ScoreBounds(r, m);
  }
}

=== FILE: refresh.dfy ===
/** Which stored repositories get refreshed, and when: the staleness rule and
    the priority order of `IncrementalDataProcessor`
    (`swift_package_analyzer/data/incremental_processor.py`) and the chunk
    selection, chunk result and freshness report of `SimpleChunkedProcessor`
    (`swift_package_analyzer/data/simple_processor.py`). The database table
    is a sequence of rows, "now" and the configuration are parameters, and
    times are microseconds. */
module Refresh {
  import opened Wrappers
  import opened Text
  import opened Sorting
  import Fetcher

  /** The columns of a stored repository the scheduling reads. */
  datatype Row = Row(
    url: string,
    processingStatus: string,
    lastFetched: Option<int>,
    updatedAt: Option<int>,
    stars: Option<int>,
    forks: Option<int>)

  /** The three configuration values the staleness rule reads, in days. */
  datatype Config = Config(
    stalenessThresholdDays: int,
    popularRepoThresholdStars: int,
    popularRepoStalenessDays: int)

  /** `query(Repository).filter(url == u).first()`: the first row stored for
      the URL. */
  function Lookup(db: seq<Row>, u: string): (r: Option<Row>)
    ensures r.None? <==> forall i :: 0 <= i < |db| ==> db[i].url != u
    ensures r.Some? ==> r.value in db && r.value.url == u
  {
    if |db| == 0 then None
    else if db[0].url == u then Some(db[0])
    else Lookup(db[1..], u)
  }

  /** Python's truth test on a nullable integer column. */
  predicate Truthy(x: Option<int>) {
    x.Some? && x.value != 0
  }

  /** The staleness threshold in days for a stored repository. */
  function ThresholdDays(cfg: Config, stars: Option<int>): (d: int)
    ensures Truthy(stars) && stars.value > cfg.popularRepoThresholdStars ==>
              d == cfg.popularRepoStalenessDays
    ensures Truthy(stars) && cfg.popularRepoThresholdStars / 10 < stars.value <= cfg.popularRepoThresholdStars ==>
              d == cfg.popularRepoStalenessDays + 2
    ensures !Truthy(stars) || (stars.value <= cfg.popularRepoThresholdStars && stars.value <= cfg.popularRepoThresholdStars / 10) ==>
              d == cfg.stalenessThresholdDays
  {
    if Truthy(stars) && stars.value > cfg.popularRepoThresholdStars then cfg.popularRepoStalenessDays
    else if Truthy(stars) && stars.value > cfg.popularRepoThresholdStars / 10 then cfg.popularRepoStalenessDays + 2
    else cfg.stalenessThresholdDays
  }

  /** A row the last run left unfinished. */
  predicate Unfinished(row: Row) {
    row.processingStatus == "pending" || row.processingStatus == "error"
  }

  /** `should_update_repository`. */
  function ShouldUpdate(db: seq<Row>, cfg: Config, now: int, u: string): (b: bool)
    ensures Lookup(db, u).None? ==> b
    ensures Lookup(db, u).Some? && (Unfinished(Lookup(db, u).value) || Lookup(db, u).value.lastFetched.None?) ==> b
    ensures Lookup(db, u).Some? && !Unfinished(Lookup(db, u).value) && Lookup(db, u).value.lastFetched.Some? ==>
              (b <==> now - Lookup(db, u).value.lastFetched.value
                        > ThresholdDays(cfg, Lookup(db, u).value.stars) * Fetcher.Day)
  {
    match Lookup(db, u)
    case None => true
    case Some(row) =>
      if Unfinished(row) then true
      else if row.lastFetched.None? then true
      else now - row.lastFetched.value > ThresholdDays(cfg, row.stars) * Fetcher.Day
  }

  /** Once a repository is due it stays due as time passes. */
  lemma {:induction false} ShouldUpdateLater(db: seq<Row>, cfg: Config, now: int, later: int, u: string)
    requires now <= later && ShouldUpdate(db, cfg, now, u)
    ensures ShouldUpdate(db, cfg, later, u)
  {
  }

  /** A stored, finished row fetched in the last `d` days, with `d` below
      its threshold, is not due. */
  lemma {:induction false} FreshRowNotDue(db: seq<Row>, cfg: Config, now: int, u: string, days: nat)
    requires Lookup(db, u).Some? && !Unfinished(Lookup(db, u).value)
    requires Lookup(db, u).value.lastFetched == Some(now - days * Fetcher.Day)
    requires days <= ThresholdDays(cfg, Lookup(db, u).value.stars)
    ensures !ShouldUpdate(db, cfg, now, u)
  {
  }

  /** The staleness rule as the source's configuration object actually
      runs it: `Config` in `core/config.py` defines none of
      `staleness_threshold_days`, `popular_repo_threshold_stars` or
      `popular_repo_staleness_days`, so reading the first of them raises
      `AttributeError` for every stored, finished, fetched row. */
  function ShouldUpdateAsWritten(db: seq<Row>, now: int, u: string): (r: Result<bool>)
    ensures r.Failure? <==>
              Lookup(db, u).Some? && !Unfinished(Lookup(db, u).value) && Lookup(db, u).value.lastFetched.Some?
    ensures r.Success? ==> r.value
  {
    match Lookup(db, u)
    case None => Success(true)
    case Some(row) =>
      if Unfinished(row) then Success(true)
      else if row.lastFetched.None? then Success(true)
      else Failure("AttributeError: 'Config' object has no attribute 'staleness_threshold_days'")
  }

  /** Where the configuration is not read, the code as written and the
      corrected rule agree, whatever the configuration would hold. */
  lemma {:induction false} ShouldUpdateAsWrittenAgrees(db: seq<Row>, cfg: Config, now: int, u: string)
    ensures ShouldUpdateAsWritten(db, now, u).Success? ==>
              ShouldUpdateAsWritten(db, now, u).value == ShouldUpdate(db, cfg, now, u)
  {
  }

  /** A repository stored as completed and fetched once makes the code as
      written fail. */
  lemma ShouldUpdateAsWrittenExample()
    ensures ShouldUpdateAsWritten([Row("u", "completed", Some(0), None, None, None)], 0, "u").Failure?
  {
    var db := [Row("u", "completed", Some(0), None, None, None)];
    assert Lookup(db, "u") == Some(db[0]);
    assert "completed" != "pending" && "completed" != "error";
  }

  // ---------------------------------------------------------------------
  // The incremental update order

  /** Whole days since the last fetch, `timedelta.days` (floor), or 0. */
  function StalenessDays(row: Row, now: int): int {
    if row.lastFetched.Some? then (now - row.lastFetched.value) / Fetcher.Day else 0
  }

  function Popularity(row: Row): int {
    row.stars.GetOr(0) + row.forks.GetOr(0) * 2
  }

  /** `priority_key`: `(0, 0)` for a URL not stored yet, otherwise
      `(1, -staleness, -popularity)`, compared ascending. */
  function PriorityKey(db: seq<Row>, now: int, u: string): seq<real> {
    match Lookup(db, u)
    case None => [0.0, 0.0]
    case Some(row) => [1.0, -(StalenessDays(row, now) as real), -(Popularity(row) as real)]
  }

  function PriorityKeyOf(db: seq<Row>, now: int): string -> seq<real> {
    u => PriorityKey(db, now, u)
  }

  /** The URLs that are due, in input order. */
  function Due(db: seq<Row>, cfg: Config, now: int, urls: seq<string>): (r: seq<string>)
    ensures |r| <= |urls|
    ensures forall u :: u in r <==> u in urls && ShouldUpdate(db, cfg, now, u)
  {
    if |urls| == 0 then []
    else (if ShouldUpdate(db, cfg, now, urls[0]) then [urls[0]] else []) + Due(db, cfg, now, urls[1..])
  }

  /** Splitting the input splits the due URLs the same way, so they keep
      input order and multiplicity. */
  lemma {:induction false} DueAppend(db: seq<Row>, cfg: Config, now: int, a: seq<string>, b: seq<string>)
    ensures Due(db, cfg, now, a + b) == Due(db, cfg, now, a) + Due(db, cfg, now, b)
    decreases |a|
  {
    if |a| > 0 {
      assert (a + b)[0] == a[0];
      assert (a + b)[1..] == a[1..] + b;
      DueAppend(db, cfg, now, a[1..], b);
      var head := if ShouldUpdate(db, cfg, now, a[0]) then [a[0]] else [];
      assert Due(db, cfg, now, a + b) == head + Due(db, cfg, now, a[1..] + b);
      Regroup(head, Due(db, cfg, now, a[1..]), Due(db, cfg, now, b));
    } else {
      assert a + b == b;
    }
  }

  /** One URL is kept exactly when it is due. */
  lemma {:induction false} DueOne(db: seq<Row>, cfg: Config, now: int, u: string)
    ensures Due(db, cfg, now, [u]) == if ShouldUpdate(db, cfg, now, u) then [u] else []
  {
    assert [u][1..] == [];
  }

  /** The due URLs in priority order, before the cut. */
  function DueInOrder(db: seq<Row>, cfg: Config, now: int, urls: seq<string>): seq<string> {
    Sort(Due(db, cfg, now, urls), PriorityKeyOf(db, now))
  }

  /** `get_repositories_for_incremental_update`: the due URLs, new ones
      first, then the longest unrefreshed, then the most popular, cut to
      `batch_size * 10` (a negative bound counts from the end, as a Python
      slice does). */
  function IncrementalSelection(db: seq<Row>, cfg: Config, now: int, urls: seq<string>, batchSize: int): (r: seq<string>)
    ensures forall u :: u in r ==> u in urls && ShouldUpdate(db, cfg, now, u)
    ensures batchSize >= 0 ==>
              |r| == if |Due(db, cfg, now, urls)| < batchSize * 10 then |Due(db, cfg, now, urls)| else batchSize * 10
    ensures forall i, j :: 0 <= i < j < |r| ==> Ahead(db, now, r[i], r[j])
    ensures |r| <= |DueInOrder(db, cfg, now, urls)| && r == DueInOrder(db, cfg, now, urls)[..|r|]
    ensures multiset(r) <= multiset(Due(db, cfg, now, urls))
  {
    var due := Due(db, cfg, now, urls);
    var key := PriorityKeyOf(db, now);
    var sorted := Sort(due, key);
    SortCorrect(due, key);
    SortSameElements(due, key);
    var r := Take(sorted, batchSize * 10);
    forall i, j | 0 <= i < j < |r|
      ensures Ahead(db, now, r[i], r[j])
    {
      assert r[i] == sorted[i] && r[j] == sorted[j];
      KeyOrder(db, now, r[i], r[j]);
    }
    SortPrefixMultiset(due, key, |r|);
    r
  }

  /** `u` may come before `v`: new URLs first, then by staleness and then
      popularity, both descending. */
  predicate Ahead(db: seq<Row>, now: int, u: string, v: string) {
    && (Lookup(db, v).None? ==> Lookup(db, u).None?)
    && (Lookup(db, u).Some? && Lookup(db, v).Some? ==>
          var a, b := Lookup(db, u).value, Lookup(db, v).value;
          StalenessDays(a, now) > StalenessDays(b, now)
          || (StalenessDays(a, now) == StalenessDays(b, now) && Popularity(a) >= Popularity(b)))
  }

  lemma {:induction false} KeyOrder(db: seq<Row>, now: int, u: string, v: string)
    requires LexLe(PriorityKeyOf(db, now)(u), PriorityKeyOf(db, now)(v))
    ensures Ahead(db, now, u, v)
  {
    var ku, kv := PriorityKey(db, now, u), PriorityKey(db, now, v);
    assert LexLe(ku, kv);
    if Lookup(db, u).Some? && Lookup(db, v).Some? {
      var a, b := Lookup(db, u).value, Lookup(db, v).value;
      assert ku == [1.0, -(StalenessDays(a, now) as real), -(Popularity(a) as real)];
      assert kv == [1.0, -(StalenessDays(b, now) as real), -(Popularity(b) as real)];
      assert LexLe(ku[1..], kv[1..]);
      if StalenessDays(a, now) == StalenessDays(b, now) {
        assert LexLe(ku[1..][1..], kv[1..][1..]);
      }
    }
  }

  /** A due URL the cut leaves out is not ahead of any URL it keeps. */
  lemma {:induction false} IncrementalSelectionKeepsFirst(db: seq<Row>, cfg: Config, now: int, urls: seq<string>, batchSize: nat, u: string)
    requires u in urls && ShouldUpdate(db, cfg, now, u)
    requires u !in IncrementalSelection(db, cfg, now, urls, batchSize)
    ensures forall v :: v in IncrementalSelection(db, cfg, now, urls, batchSize) ==>
              LexLe(PriorityKey(db, now, v), PriorityKey(db, now, u))
  {
    var due := Due(db, cfg, now, urls);
    var key := PriorityKeyOf(db, now);
    var k := if |due| < batchSize * 10 then |due| else batchSize * 10;
    assert IncrementalSelection(db, cfg, now, urls, batchSize) == Sort(due, key)[..k];
    SortedPrefixSmallest(due, key, k, u);
  }

  /** The URLs not stored yet, in input order. */
  function NewUrls(db: seq<Row>, urls: seq<string>): (r: seq<string>)
    ensures |r| <= |urls|
    ensures forall u :: u in r <==> u in urls && Lookup(db, u).None?
  {
    if |urls| == 0 then []
    else (if Lookup(db, urls[0]).None? then [urls[0]] else []) + NewUrls(db, urls[1..])
  }

  /** Picking the URLs with the key of a new one is picking the new ones. */
  lemma {:induction false} NewKeyIsNew(db: seq<Row>, now: int, urls: seq<string>)
    ensures WithKey(urls, PriorityKeyOf(db, now), [0.0, 0.0]) == NewUrls(db, urls)
    decreases |urls|
  {
    if |urls| > 0 {
      NewKeyIsNew(db, now, urls[1..]);
    }
  }

  /** Every new URL is due, so keeping the due ones keeps the new ones. */
  lemma {:induction false} NewUrlsOfDue(db: seq<Row>, cfg: Config, now: int, urls: seq<string>)
    ensures NewUrls(db, Due(db, cfg, now, urls)) == NewUrls(db, urls)
    decreases |urls|
  {
    if |urls| > 0 {
      NewUrlsOfDue(db, cfg, now, urls[1..]);
      var head := if ShouldUpdate(db, cfg, now, urls[0]) then [urls[0]] else [];
      NewUrlsAppend(db, head, Due(db, cfg, now, urls[1..]));
      assert urls == [urls[0]] + urls[1..];
      NewUrlsAppend(db, [urls[0]], urls[1..]);
    }
  }

  lemma {:induction false} NewUrlsAppend(db: seq<Row>, a: seq<string>, b: seq<string>)
    ensures NewUrls(db, a + b) == NewUrls(db, a) + NewUrls(db, b)
    decreases |a|
  {
    if |a| > 0 {
      assert (a + b)[0] == a[0];
      assert (a + b)[1..] == a[1..] + b;
      NewUrlsAppend(db, a[1..], b);
      var head := if Lookup(db, a[0]).None? then [a[0]] else [];
      assert NewUrls(db, a + b) == head + NewUrls(db, a[1..] + b);
      assert NewUrls(db, a) == head + NewUrls(db, a[1..]);
      Regroup(head, NewUrls(db, a[1..]), NewUrls(db, b));
    } else {
      assert a + b == b;
    }
  }

  /** The sort is stable: the new URLs lead the order in the order they
      were given. */
  lemma {:induction false} NewUrlsKeepInputOrder(db: seq<Row>, cfg: Config, now: int, urls: seq<string>)
    ensures NewUrls(db, DueInOrder(db, cfg, now, urls)) == NewUrls(db, urls)
  {
    var due := Due(db, cfg, now, urls);
    var key := PriorityKeyOf(db, now);
    SortCorrect(due, key);
    NewKeyIsNew(db, now, Sort(due, key));
    NewKeyIsNew(db, now, due);
    NewUrlsOfDue(db, cfg, now, urls);
  }

  // ---------------------------------------------------------------------
  // The chunked refresh

  /** SQLite's `LIMIT`: a negative limit means no limit. */
  function Limit<T>(s: seq<T>, n: int): (r: seq<T>)
    ensures n >= 0 ==> |r| == if n <= |s| then n else |s|
    ensures n < 0 ==> r == s
    ensures r == s[..|r|]
  {
    if n < 0 || n >= |s| then s else s[..n]
  }

  /** `last_fetched ASC NULLS FIRST, updated_at ASC NULLS FIRST`. */
  function AgeKey(row: Row): seq<real> {
    (if row.lastFetched.None? then [0.0, 0.0] else [1.0, row.lastFetched.value as real])
    + (if row.updatedAt.None? then [0.0, 0.0] else [1.0, row.updatedAt.value as real])
  }

  /** The stored rows whose URL is among `urls`, in table order. */
  function RowsAmong(db: seq<Row>, urls: seq<string>): (r: seq<Row>)
    ensures |r| <= |db|
    ensures forall row :: row in r <==> row in db && row.url in urls
  {
    if |db| == 0 then []
    else (if db[0].url in urls then [db[0]] else []) + RowsAmong(db[1..], urls)
  }

  /** Splitting the table splits the queried rows the same way: table order,
      one entry per stored row. */
  lemma {:induction false} RowsAmongAppend(a: seq<Row>, b: seq<Row>, urls: seq<string>)
    ensures RowsAmong(a + b, urls) == RowsAmong(a, urls) + RowsAmong(b, urls)
    decreases |a|
  {
    if |a| > 0 {
      assert (a + b)[0] == a[0];
      assert (a + b)[1..] == a[1..] + b;
      RowsAmongAppend(a[1..], b, urls);
      var head := if a[0].url in urls then [a[0]] else [];
      assert RowsAmong(a + b, urls) == head + RowsAmong(a[1..] + b, urls);
      Regroup(head, RowsAmong(a[1..], urls), RowsAmong(b, urls));
    } else {
      assert a + b == b;
    }
  }

  /** One row is queried exactly when its URL is among the input. */
  lemma {:induction false} RowsAmongOne(row: Row, urls: seq<string>)
    ensures RowsAmong([row], urls) == if row.url in urls then [row] else []
  {
    assert [row][1..] == [];
  }

  function UrlsOf(rows: seq<Row>): (r: seq<string>)
    ensures |r| == |rows|
    ensures forall i :: 0 <= i < |rows| ==> r[i] == rows[i].url
  {
    seq(|rows|, i requires 0 <= i < |rows| => rows[i].url)
  }

  /** The rows of the stale-repository query: stored rows whose URL is among
      `urls`, never fetched first and then oldest first, at most `chunkSize`
      of them, each stored row at most once. */
  function StaleRows(db: seq<Row>, urls: seq<string>, chunkSize: int): (r: seq<Row>)
    ensures forall i :: 0 <= i < |r| ==> r[i] in db && r[i].url in urls
    ensures forall i, j :: 0 <= i < j < |r| ==> LexLe(AgeKey(r[i]), AgeKey(r[j]))
    ensures multiset(r) <= multiset(RowsAmong(db, urls))
    ensures chunkSize < 0 || |RowsAmong(db, urls)| <= chunkSize ==> multiset(r) == multiset(RowsAmong(db, urls))
    ensures chunkSize >= 0 ==> |r| == if |RowsAmong(db, urls)| < chunkSize then |RowsAmong(db, urls)| else chunkSize
  {
    var rows := RowsAmong(db, urls);
    var sorted := Sort(rows, AgeKey);
    SortSorted(rows, AgeKey);
    SortSameElements(rows, AgeKey);
    var r := Limit(sorted, chunkSize);
    SortPrefixMultiset(rows, AgeKey, |r|);
    forall i | 0 <= i < |r| ensures r[i] in db && r[i].url in urls {
      assert r[i] == sorted[i] && sorted[i] in rows;
    }
    forall i, j | 0 <= i < j < |r| ensures LexLe(AgeKey(r[i]), AgeKey(r[j])) {
      assert r[i] == sorted[i] && r[j] == sorted[j];
    }
    r
  }

  /** The stale-repository query's URLs: stored input URLs, listed in the
      query's order. */
  function StaleUrls(db: seq<Row>, urls: seq<string>, chunkSize: int): (r: seq<string>)
    ensures |r| == |StaleRows(db, urls, chunkSize)|
    ensures forall i :: 0 <= i < |r| ==> r[i] == StaleRows(db, urls, chunkSize)[i].url
    ensures forall u :: u in r ==> u in urls && Lookup(db, u).Some?
    ensures chunkSize >= 0 ==> |r| <= chunkSize
  {
    var rows := StaleRows(db, urls, chunkSize);
    var r := UrlsOf(rows);
    forall u | u in r ensures u in urls && Lookup(db, u).Some? {
      var i :| 0 <= i < |r| && r[i] == u;
      assert rows[i] in db && rows[i].url == u;
    }
    r
  }

  lemma {:induction false} StaleUrlsAreStored(db: seq<Row>, urls: seq<string>, chunkSize: int)
    ensures forall u :: u in StaleUrls(db, urls, chunkSize) ==> u in urls && Lookup(db, u).Some?
    ensures chunkSize >= 0 ==> |StaleUrls(db, urls, chunkSize)| <= chunkSize
  {
  }

  /** The stale part lists rows never fetched before rows fetched at some
      time. */
  lemma {:induction false} StaleUrlsNeverFetchedFirst(db: seq<Row>, urls: seq<string>, chunkSize: int)
    ensures var limited := StaleRows(db, urls, chunkSize);
            forall i, j :: 0 <= i < j < |limited| && limited[j].lastFetched.None? ==> limited[i].lastFetched.None?
  {
    var limited := StaleRows(db, urls, chunkSize);
    forall i, j | 0 <= i < j < |limited| && limited[j].lastFetched.None?
      ensures limited[i].lastFetched.None?
    {
      assert LexLe(AgeKey(limited[i]), AgeKey(limited[j]));
    }
  }

  /** `get_repositories_for_refresh`: the URLs not stored yet, in input
      order, then the stale stored ones, cut to `chunk_size`. */
  function ChunkSelection(db: seq<Row>, urls: seq<string>, chunkSize: int): (r: seq<string>)
    ensures forall u :: u in r ==> u in urls
    ensures chunkSize >= 0 ==> |r| <= chunkSize
    ensures forall i, j :: 0 <= i < j < |r| && Lookup(db, r[j]).None? ==> Lookup(db, r[i]).None?
    ensures 0 <= chunkSize <= |NewUrls(db, urls)| ==> r == NewUrls(db, urls)[..chunkSize]
    ensures chunkSize > |NewUrls(db, urls)| ==> |NewUrls(db, urls)| <= |r| && r[..|NewUrls(db, urls)|] == NewUrls(db, urls)
    ensures chunkSize >= 0 ==> |r| == if |NewUrls(db, urls)| + |StaleUrls(db, urls, chunkSize)| < chunkSize
                                      then |NewUrls(db, urls)| + |StaleUrls(db, urls, chunkSize)| else chunkSize
  {
    var newOnes := NewUrls(db, urls);
    var stale := StaleUrls(db, urls, chunkSize);
    StaleUrlsAreStored(db, urls, chunkSize);
    NewThenStored(db, urls, newOnes, stale, chunkSize);
    Take(newOnes + stale, chunkSize)
  }

  /** The selection is the new URLs followed by the stale query's URLs in
      the query's order, cut: past the new part it reads the stale list from
      its start, and a position holds an unstored URL exactly when it lies in
      the new part, so the two parts share no URL. */
  lemma {:induction false} ChunkSelectionParts(db: seq<Row>, urls: seq<string>, chunkSize: int)
    ensures var r, n := ChunkSelection(db, urls, chunkSize), |NewUrls(db, urls)|;
            && (n <= |r| ==> |r| - n <= |StaleUrls(db, urls, chunkSize)|
                             && r[n..] == StaleUrls(db, urls, chunkSize)[..|r| - n])
            && (forall i :: 0 <= i < |r| ==> (Lookup(db, r[i]).None? <==> i < n))
  {
    var newOnes := NewUrls(db, urls);
    var stale := StaleUrls(db, urls, chunkSize);
    var r := ChunkSelection(db, urls, chunkSize);
    assert r == Take(newOnes + stale, chunkSize);
    StaleUrlsAreStored(db, urls, chunkSize);
    NewThenStored(db, urls, newOnes, stale, chunkSize);
  }

  /** Cutting "new URLs, then stored URLs" keeps the new ones in front. */
  lemma {:induction false} NewThenStored(db: seq<Row>, urls: seq<string>, a: seq<string>, b: seq<string>, n: int)
    requires forall u :: u in a ==> u in urls && Lookup(db, u).None?
    requires forall u :: u in b ==> u in urls && Lookup(db, u).Some?
    ensures var r := Take(a + b, n);
            && (forall u :: u in r ==> u in urls)
            && (forall i, j :: 0 <= i < j < |r| && Lookup(db, r[j]).None? ==> Lookup(db, r[i]).None?)
            && (0 <= n <= |a| ==> r == a[..n])
            && (n > |a| ==> |a| <= |r| && r[..|a|] == a)
            && (|a| <= |r| ==> |r| - |a| <= |b| && r[|a|..] == b[..|r| - |a|])
            && (forall i :: 0 <= i < |r| ==> (Lookup(db, r[i]).None? <==> i < |a|))
  {
    var all := a + b;
    var r := Take(all, n);
    forall k | 0 <= k < |a|
      ensures all[k] in urls && Lookup(db, all[k]).None?
    {
      assert all[k] == a[k];
    }
    forall k | |a| <= k < |all|
      ensures all[k] in urls && Lookup(db, all[k]).Some?
    {
      assert all[k] == b[k - |a|];
    }
    assert forall k :: 0 <= k < |r| ==> r[k] == all[k];
    if n > |a| {
      assert all[..|a|] == a;
      assert r[..|a|] == all[..|a|];
    }
    if |a| <= |r| {
      assert r[|a|..] == b[..|r| - |a|] by {
        forall k | 0 <= k < |r| - |a| ensures r[|a|..][k] == b[k] {
          assert r[|a| + k] == all[|a| + k];
        }
      }
    }
  }

  /** A new URL left out of the chunk means the chunk is full of new URLs. */
  lemma {:induction false} NewUrlsFirst(db: seq<Row>, urls: seq<string>, chunkSize: nat, u: string)
    requires u in urls && Lookup(db, u).None?
    requires u !in ChunkSelection(db, urls, chunkSize)
    ensures |ChunkSelection(db, urls, chunkSize)| == chunkSize
    ensures forall v :: v in ChunkSelection(db, urls, chunkSize) ==> Lookup(db, v).None?
  {
    var newOnes := NewUrls(db, urls);
    var r := ChunkSelection(db, urls, chunkSize);
    assert u in newOnes;
    if chunkSize > |newOnes| {
      assert false;
    }
  }

  /** The result of `process_chunk`. */
  datatype ChunkResult =
    | NothingToRefresh(success: nat, error: nat, skipped: nat)
    | Refreshed(success: nat, error: nat, processed: nat, totalAvailable: nat)

  /** The row a URL has when the chunk starts. */
  function InitialStored(db: seq<Row>, u: string): (s: Fetcher.Stored)
    ensures s.StoredRow? <==> Lookup(db, u).Some?
    ensures s.StoredRow? ==> s.lastFetched == Lookup(db, u).value.lastFetched
  {
    match Lookup(db, u)
    case None => Fetcher.NotStored
    case Some(row) => Fetcher.StoredRow(row.lastFetched)
  }

  /** The attempts of the selected URLs, processed in order, each seeing
      what the earlier ones wrote. */
  function ChunkAttempts(db: seq<Row>, sel: seq<string>, steps: nat -> Fetcher.Step): seq<Fetcher.Attempt> {
    Fetcher.BatchAttempts(InitialOf(db), sel, steps)
  }

  function InitialOf(db: seq<Row>): string -> Fetcher.Stored {
    u => InitialStored(db, u)
  }

  /** The same clock reading and outcomes at every position. */
  function Constant(step: Fetcher.Step): nat -> Fetcher.Step {
    k => step
  }

  /** `process_chunk`: `steps` stands for what the clock, the network and the
      database write give the URL at each position of the chunk; the stored
      row each attempt sees follows from the table and the earlier
      attempts. */
  method ProcessChunk(db: seq<Row>, urls: seq<string>, chunkSize: int, steps: nat -> Fetcher.Step)
    returns (r: ChunkResult)
    ensures var sel := ChunkSelection(db, urls, chunkSize);
            && (r.NothingToRefresh? <==> |sel| == 0)
            && (r.NothingToRefresh? ==> r == NothingToRefresh(0, 0, |urls|))
            && (r.Refreshed? ==>
                  var attempts := ChunkAttempts(db, sel, steps);
                  && r.processed == |sel| && r.totalAvailable == |urls|
                  && r.success == Fetcher.Tally(attempts, Fetcher.Succeeded)
                  && r.error == Fetcher.Tally(attempts, Fetcher.Errored)
                  && r.success + r.error <= r.processed)
  {
    var sel := ChunkSelection(db, urls, chunkSize);
    if |sel| == 0 {
      return NothingToRefresh(0, 0, |urls|);
    }
    var attempts := ChunkAttempts(db, sel, steps);
    var counts := Fetcher.ProcessBatch(attempts);
    r := Refreshed(counts.success, counts.error, |sel|, |urls|);
  }

  /** A URL given twice and not stored yet is selected twice; when its first
      processing succeeds, the second copy, less than a day later, is
      skipped, so the chunk counts one success out of two processed. */
  lemma {:induction false} RepeatedNewUrlCountsOnce(u: string, t: int)
    ensures ChunkSelection([], [u, u], 2) == [u, u]
    ensures Fetcher.Tally(ChunkAttempts([], [u, u], Constant(Fetcher.Step(t, true, Fetcher.Saved))), Fetcher.Succeeded) == 1
    ensures Fetcher.Tally(ChunkAttempts([], [u, u], Constant(Fetcher.Step(t, true, Fetcher.Saved))), Fetcher.Skipped) == 1
  {
    var urls := [u, u];
    assert NewUrls([], urls) == urls by {
      assert urls[1..] == [u] && [u][1..] == [];
    }
    assert |StaleUrls([], urls, 2)| == 0;
    assert NewUrls([], urls) + StaleUrls([], urls, 2) == urls;
    var steps := Constant(Fetcher.Step(t, true, Fetcher.Saved));
    var initial := InitialOf([]);
    var r := ChunkAttempts([], urls, steps);
    Fetcher.FirstCopySeesInitial(initial, urls, steps, 0);
    assert r[0] == Fetcher.Attempt(Fetcher.NotStored, t, true, Fetcher.Saved);
    Fetcher.RepeatSeesEarlierWrite(initial, urls, steps, 0, 1);
    assert r[1].stored == Fetcher.StoredRow(Some(t));
    assert Fetcher.ProcessRepository(r[0]) == Fetcher.Succeeded;
    assert Fetcher.ProcessRepository(r[1]) == Fetcher.Skipped;
    var first := r[..1];
    assert |r| == 2 && r[..|r| - 1] == first;
    assert first[..|first| - 1] == [] && first[|first| - 1] == r[0];
    assert Fetcher.ProcessRepository(first[0]) != Fetcher.Skipped;
    assert Fetcher.Tally(first, Fetcher.Succeeded) == 1;
    assert Fetcher.Tally(first, Fetcher.Skipped) == 0;
  }

  /** When the first copy's row is committed but its log commit fails, the
      first copy is an error and the row stays stored, so the second copy is
      still skipped: one error and one skip out of two processed. */
  lemma {:induction false} RepeatedNewUrlAfterLogFailure(u: string, t: int)
    ensures ChunkSelection([], [u, u], 2) == [u, u]
    ensures Fetcher.Tally(ChunkAttempts([], [u, u], Constant(Fetcher.Step(t, true, Fetcher.LogNotSaved))), Fetcher.Errored) == 1
    ensures Fetcher.Tally(ChunkAttempts([], [u, u], Constant(Fetcher.Step(t, true, Fetcher.LogNotSaved))), Fetcher.Skipped) == 1
    ensures Fetcher.Tally(ChunkAttempts([], [u, u], Constant(Fetcher.Step(t, true, Fetcher.LogNotSaved))), Fetcher.Succeeded) == 0
  {
    RepeatedNewUrlCountsOnce(u, t);
    var urls := [u, u];
    var steps := Constant(Fetcher.Step(t, true, Fetcher.LogNotSaved));
    var initial := InitialOf([]);
    var r := ChunkAttempts([], urls, steps);
    Fetcher.FirstCopySeesInitial(initial, urls, steps, 0);
    assert r[0] == Fetcher.Attempt(Fetcher.NotStored, t, true, Fetcher.LogNotSaved);
    Fetcher.RepeatSeesEarlierWrite(initial, urls, steps, 0, 1);
    assert r[1].stored == Fetcher.StoredRow(Some(t));
    assert Fetcher.ProcessRepository(r[0]) == Fetcher.Errored;
    assert Fetcher.ProcessRepository(r[1]) == Fetcher.Skipped;
    var first := r[..1];
    assert |r| == 2 && r[..|r| - 1] == first;
    assert first[..|first| - 1] == [] && first[|first| - 1] == r[0];
    assert Fetcher.Tally(first, Fetcher.Errored) == 1;
    assert Fetcher.Tally(first, Fetcher.Skipped) == 0;
    assert Fetcher.Tally(first, Fetcher.Succeeded) == 0;
  }

  // ---------------------------------------------------------------------
  // The freshness report

  /** The four filters of `get_refresh_status`; a comparison with a missing
      time is false, as in SQL. */
  predicate FetchedToday(row: Row, now: int) {
    row.lastFetched.Some? && row.lastFetched.value > now - Fetcher.Day
  }

  predicate FetchedThisWeek(row: Row, now: int) {
    row.lastFetched.Some? && row.lastFetched.value <= now - Fetcher.Day
    && row.lastFetched.value > now - 7 * Fetcher.Day
  }

  predicate FetchedEarlier(row: Row, now: int) {
    row.lastFetched.Some? && row.lastFetched.value <= now - 7 * Fetcher.Day
  }

  predicate NeverFetched(row: Row) {
    row.lastFetched.None?
  }

  datatype Bucket = Today | ThisWeek | Earlier | Never

  function InBucket(row: Row, now: int, b: Bucket): bool {
    match b
    case Today => FetchedToday(row, now)
    case ThisWeek => FetchedThisWeek(row, now)
    case Earlier => FetchedEarlier(row, now)
    case Never => NeverFetched(row)
  }

  /** Each row passes exactly one of the four filters. */
  lemma {:induction false} BucketsPartitionRow(row: Row, now: int)
    ensures InBucket(row, now, Today) || InBucket(row, now, ThisWeek)
            || InBucket(row, now, Earlier) || InBucket(row, now, Never)
    ensures forall a: Bucket, b: Bucket :: a != b ==> !(InBucket(row, now, a) && InBucket(row, now, b))
  {
  }

  function CountIn(rows: seq<Row>, now: int, b: Bucket): (n: nat)
    ensures n <= |rows|
  {
    if |rows| == 0 then 0
    else (if InBucket(rows[0], now, b) then 1 else 0) + CountIn(rows[1..], now, b)
  }

  function CountCompleted(rows: seq<Row>): (n: nat)
    ensures n <= |rows|
  {
    if |rows| == 0 then 0
    else (if rows[0].processingStatus == "completed" then 1 else 0) + CountCompleted(rows[1..])
  }

  datatype Freshness = Freshness(fresh1Day: nat, recent1Week: nat, staleOlder: nat, neverFetched: nat)

  datatype RefreshStatus = RefreshStatus(totalRepositories: nat, completedRepositories: nat, freshness: Freshness)

  /** `get_refresh_status`: the four buckets share the rows out between
      them, so their counts add up to the total. */
  function RefreshStatusOf(rows: seq<Row>, now: int): (s: RefreshStatus)
    ensures s.totalRepositories == |rows|
    ensures s.completedRepositories <= s.totalRepositories
    ensures s.freshness.fresh1Day + s.freshness.recent1Week + s.freshness.staleOlder + s.freshness.neverFetched
            == s.totalRepositories
  {
    BucketsAddUp(rows, now);
    RefreshStatus(|rows|, CountCompleted(rows),
      Freshness(CountIn(rows, now, Today), CountIn(rows, now, ThisWeek),
                CountIn(rows, now, Earlier), CountIn(rows, now, Never)))
  }

  lemma {:induction false} BucketsAddUp(rows: seq<Row>, now: int)
    ensures CountIn(rows, now, Today) + CountIn(rows, now, ThisWeek)
            + CountIn(rows, now, Earlier) + CountIn(rows, now, Never) == |rows|
    decreases |rows|
  {
    if |rows| > 0 {
      BucketsPartitionRow(rows[0], now);
      BucketsAddUp(rows[1..], now);
    }
  }
}

=== FILE: sorting.dfy ===
/** Stable ascending sort on lexicographically compared `real` key vectors.
    Python's `sorted(..., reverse=True)`, `list.sort(key=tuple)` and pandas'
    `nlargest(keep="first")` are all this sort with a suitable key. */
module Sorting {
  /** Lexicographic `<=` on key vectors. */
  predicate LexLe(a: seq<real>, b: seq<real>)
    decreases |a|
  {
    |a| == 0 || (|b| > 0 && (a[0] < b[0] || (a[0] == b[0] && LexLe(a[1..], b[1..]))))
  }

  lemma {:induction false} LexLeRefl(a: seq<real>)
    ensures LexLe(a, a)
    decreases |a|
  {
    if |a| > 0 { LexLeRefl(a[1..]); }
  }

  lemma {:induction false} LexLeTotal(a: seq<real>, b: seq<real>)
    ensures LexLe(a, b) || LexLe(b, a)
    decreases |a|
  {
    if |a| > 0 && |b| > 0 && a[0] == b[0] { LexLeTotal(a[1..], b[1..]); }
  }

  lemma {:induction false} LexLeTrans(a: seq<real>, b: seq<real>, c: seq<real>)
    requires LexLe(a, b) && LexLe(b, c)
    ensures LexLe(a, c)
    decreases |a|
  {
    if |a| > 0 && a[0] == b[0] && b[0] == c[0] { LexLeTrans(a[1..], b[1..], c[1..]); }
  }

  predicate Sorted<T>(s: seq<T>, key: T -> seq<real>) {
    forall i, j :: 0 <= i < j < |s| ==> LexLe(key(s[i]), key(s[j]))
  }

  /** The elements of `s` whose key is `k`, in order. */
  function WithKey<T>(s: seq<T>, key: T -> seq<real>, k: seq<real>): (r: seq<T>)
    ensures |r| <= |s|
    ensures forall x :: x in r ==> x in s && key(x) == k
  {
    if |s| == 0 then []
    else (if key(s[0]) == k then [s[0]] else []) + WithKey(s[1..], key, k)
  }

  /** Puts `x` before the first element whose key is not below its own. */
  function Insert<T>(x: T, s: seq<T>, key: T -> seq<real>): (r: seq<T>)
    ensures |r| == |s| + 1
  {
    if |s| == 0 then [x]
    else if LexLe(key(x), key(s[0])) then [x] + s
    else [s[0]] + Insert(x, s[1..], key)
  }

  /** Insertion sort, inserting from the back so that equal keys keep their
      order. */
  function Sort<T>(s: seq<T>, key: T -> seq<real>): (r: seq<T>)
    ensures |r| == |s|
  {
    if |s| == 0 then [] else Insert(s[0], Sort(s[1..], key), key)
  }

  lemma {:induction false} WithKeyAppend<T>(a: seq<T>, b: seq<T>, key: T -> seq<real>, k: seq<real>)
    ensures WithKey(a + b, key, k) == WithKey(a, key, k) + WithKey(b, key, k)
  {
    if |a| > 0 {
      assert (a + b)[1..] == a[1..] + b;
      WithKeyAppend(a[1..], b, key, k);
    } else {
      assert a + b == b;
    }
  }

  /** A prefix keeps, for every key, a prefix of the elements with that key. */
  lemma {:induction false} WithKeyPrefix<T>(s: seq<T>, key: T -> seq<real>, n: nat, k: seq<real>)
    requires n <= |s|
    ensures |WithKey(s[..n], key, k)| <= |WithKey(s, key, k)|
    ensures WithKey(s[..n], key, k) == WithKey(s, key, k)[..|WithKey(s[..n], key, k)|]
  {
    assert s == s[..n] + s[n..];
    WithKeyAppend(s[..n], s[n..], key, k);
  }

  lemma {:induction false} InsertMultiset<T>(x: T, s: seq<T>, key: T -> seq<real>)
    ensures multiset(Insert(x, s, key)) == multiset(s) + multiset{x}
    decreases |s|
  {
    if |s| > 0 && !LexLe(key(x), key(s[0])) {
      InsertMultiset(x, s[1..], key);
      assert s == [s[0]] + s[1..];
    }
  }

  lemma {:induction false} InsertSorted<T>(x: T, s: seq<T>, key: T -> seq<real>)
    requires Sorted(s, key)
    ensures Sorted(Insert(x, s, key), key)
    ensures forall y :: y in Insert(x, s, key) ==> y == x || y in s
    decreases |s|
  {
    if |s| == 0 {
    } else if LexLe(key(x), key(s[0])) {
      forall j | 0 < j < |s| ensures LexLe(key(x), key(s[j])) {
        LexLeTrans(key(x), key(s[0]), key(s[j]));
      }
    } else {
      InsertSorted(x, s[1..], key);
      LexLeTotal(key(x), key(s[0]));
      var r := Insert(x, s, key);
      assert r == [s[0]] + Insert(x, s[1..], key);
      forall i, j | 0 <= i < j < |r| ensures LexLe(key(r[i]), key(r[j])) {
        if i == 0 {
          assert r[j] in Insert(x, s[1..], key);
          if r[j] != x {
            assert r[j] in s[1..];
          }
        }
      }
    }
  }

  lemma {:induction false} NotLeDistinct(a: seq<real>, b: seq<real>)
    requires !LexLe(a, b)
    ensures a != b
  {
    LexLeRefl(a);
  }

  lemma {:induction false} InsertWithKey<T>(x: T, s: seq<T>, key: T -> seq<real>, k: seq<real>)
    ensures WithKey(Insert(x, s, key), key, k) == WithKey([x], key, k) + WithKey(s, key, k)
    decreases |s|
  {
    if |s| == 0 {
      assert Insert(x, s, key) == [x];
      assert WithKey(s, key, k) == [];
    } else if LexLe(key(x), key(s[0])) {
      WithKeyAppend([x], s, key, k);
    } else {
      var t := s[1..];
      var y := Insert(x, t, key);
      NotLeDistinct(key(x), key(s[0]));
      InsertWithKey(x, t, key, k);
      assert Insert(x, s, key) == [s[0]] + y;
      assert ([s[0]] + y)[1..] == y;
      if key(x) == k {
        assert WithKey(Insert(x, s, key), key, k) == WithKey(y, key, k);
        assert WithKey(s, key, k) == WithKey(t, key, k);
      } else {
        assert WithKey([x], key, k) == [];
      }
    }
  }

  /** The sort orders by key, permutes its input, and is stable: the
      elements sharing any one key come out in their input order. */
  lemma {:induction false} SortCorrect<T>(s: seq<T>, key: T -> seq<real>)
    ensures Sorted(Sort(s, key), key)
    ensures multiset(Sort(s, key)) == multiset(s)
    ensures forall k :: WithKey(Sort(s, key), key, k) == WithKey(s, key, k)
  {
    SortSorted(s, key);
    SortMultiset(s, key);
    forall k ensures WithKey(Sort(s, key), key, k) == WithKey(s, key, k) {
      SortStable(s, key, k);
    }
  }

  lemma {:induction false} SortSorted<T>(s: seq<T>, key: T -> seq<real>)
    ensures Sorted(Sort(s, key), key)
    decreases |s|
  {
    if |s| > 0 {
      SortSorted(s[1..], key);
      InsertSorted(s[0], Sort(s[1..], key), key);
    }
  }

  lemma {:induction false} SortMultiset<T>(s: seq<T>, key: T -> seq<real>)
    ensures multiset(Sort(s, key)) == multiset(s)
    decreases |s|
  {
    if |s| > 0 {
      SortMultiset(s[1..], key);
      InsertMultiset(s[0], Sort(s[1..], key), key);
      assert s == [s[0]] + s[1..];
    }
  }

  lemma {:induction false} SortStable<T>(s: seq<T>, key: T -> seq<real>, k: seq<real>)
    ensures WithKey(Sort(s, key), key, k) == WithKey(s, key, k)
    decreases |s|
  {
    if |s| > 0 {
      SortStable(s[1..], key, k);
      InsertWithKey(s[0], Sort(s[1..], key), key, k);
      assert s == [s[0]] + s[1..];
      WithKeyAppend([s[0]], s[1..], key, k);
    }
  }

  /** Sorting keeps exactly the input's elements. */
  lemma {:induction false} SortSameElements<T>(s: seq<T>, key: T -> seq<real>)
    ensures forall x :: x in Sort(s, key) <==> x in s
  {
    SortCorrect(s, key);
    forall x ensures x in Sort(s, key) <==> x in s {
      assert x in Sort(s, key) <==> x in multiset(Sort(s, key));
      assert x in s <==> x in multiset(s);
    }
  }

  /** An element of `s` missing from the first `k` sorted elements is not
      below any of them: cutting a sorted list keeps the smallest keys. */
  lemma {:induction false} SortedPrefixSmallest<T>(s: seq<T>, key: T -> seq<real>, k: nat, x: T)
    requires k <= |s|
    requires x in s && x !in Sort(s, key)[..k]
    ensures forall y :: y in Sort(s, key)[..k] ==> LexLe(key(y), key(x))
  {
    var sorted := Sort(s, key);
    SortCorrect(s, key);
    SortSameElements(s, key);
    var j :| 0 <= j < |sorted| && sorted[j] == x;
    assert forall i :: 0 <= i < k ==> sorted[..k][i] == sorted[i];
    assert j >= k;
    forall y | y in sorted[..k]
      ensures LexLe(key(y), key(x))
    {
      var i :| 0 <= i < k && sorted[..k][i] == y;
      assert sorted[i] == y;
    }
  }

  /** A cut of the sorted list holds elements of the input, none more often
      than the input does, and an uncut one holds them all. */
  lemma {:induction false} SortPrefixMultiset<T>(s: seq<T>, key: T -> seq<real>, k: nat)
    requires k <= |s|
    ensures multiset(Sort(s, key)[..k]) <= multiset(s)
    ensures k == |s| ==> multiset(Sort(s, key)[..k]) == multiset(s)
  {
    var sorted := Sort(s, key);
    SortMultiset(s, key);
    assert sorted == sorted[..k] + sorted[k..];
    assert multiset(sorted) == multiset(sorted[..k]) + multiset(sorted[k..]);
  }
}

=== FILE: text.dfy ===
/** String primitives with the semantics of the Python built-ins the
    repository relies on: `str.isspace`, `str.lower`, `in`, `find`,
    `strip`/`rstrip`, `replace`, `split`, `join` and slicing. */
module Text {
  import opened Wrappers

  /** Python's `str.isspace` (also what `\s` and argument-less `strip()`
      use for `str` values). */
  predicate IsSpace(c: char) {
    || ('\t' <= c <= '\r')
    || ('\U{1C}' <= c <= '\U{1F}')
    || c == ' '
    || c == '\U{85}'
    || c == '\U{A0}'
    || c == '\U{1680}'
    || ('\U{2000}' <= c <= '\U{200A}')
    || c == '\U{2028}'
    || c == '\U{2029}'
    || c == '\U{202F}'
    || c == '\U{205F}'
    || c == '\U{3000}'
  }

  /** The argument of `strip("/")` and `rstrip("/")`. */
  predicate IsSlash(c: char) {
    c == '/'
  }

  /** Lower-casing of one character as far as comparisons against ASCII text
      can observe it: ASCII capitals and the KELVIN SIGN lower to ASCII; every
      other character is kept (Python lowers it to non-ASCII text). */
  function Lower(c: char): char {
    if 'A' <= c <= 'Z' then (c as int + 32) as char
    else if c == '\U{212A}' then 'k'
    else c
  }

  function LowerStr(s: string): string {
    seq(|s|, i requires 0 <= i < |s| => Lower(s[i]))
  }

  /** `p` occurs in `s` starting at index `i`. */
  predicate At(s: string, i: nat, p: string) {
    i + |p| <= |s| && s[i..i + |p|] == p
  }

  /** Concatenation regrouped, for the append lemmas of the list filters. */
  lemma Regroup<T>(head: seq<T>, x: seq<T>, y: seq<T>)
    ensures head + (x + y) == (head + x) + y
  {
  }

  /** A text is what lies before a position, the character there, and
      what lies after. */
  lemma CutAround(s: string, i: nat)
    requires i < |s|
    ensures s == s[..i] + ([s[i]] + s[i + 1..])
  {
  }

  /** A prefix of a prefix is a prefix of the whole. */
  lemma TakeTake<T>(s: seq<T>, n: nat, k: nat)
    requires k <= n <= |s|
    ensures s[..n][..k] == s[..k]
  {
  }

  /** A prefix of `r` within the prefix that equals `q` is that prefix of `q`. */
  lemma PrefixWithin<T>(r: seq<T>, q: seq<T>, p: seq<T>, n: nat, k: nat)
    requires k <= n <= |r| && r[..n] == q && q[..k] == p
    ensures r[..k] == p
  {
    TakeTake(r, n, k);
  }

  /** A slice of a slice is a slice of the whole. */
  lemma {:induction false} SliceOfSlice<T>(s: seq<T>, i: nat, j: nat, a: nat, b: nat)
    requires i <= j <= |s| && a <= b <= j - i
    ensures s[i..j][a..b] == s[i + a..i + b]
  {
    var t := s[i..j];
    assert forall m :: 0 <= m < |t| ==> t[m] == s[i + m];
    var u := t[a..b];
    assert forall m :: 0 <= m < |u| ==> u[m] == t[a + m];
    assert forall m :: 0 <= m < |u| ==> u[m] == s[i + a + m];
  }

  /** Occurrences seen from the tail `s[1..]` are occurrences one further in `s`. */
  lemma {:induction false} AtTail(s: string, i: nat, p: string)
    requires |s| > 0
    ensures At(s[1..], i, p) == At(s, i + 1, p)
  {
    if i + |p| <= |s| - 1 {
      assert s[1..][i..i + |p|] == s[i + 1..i + 1 + |p|];
    }
  }

  /** A two-character occurrence, character by character. */
  lemma {:induction false} AtTwo(s: string, i: nat, p: string)
    requires |p| == 2
    ensures At(s, i, p) == (i + 2 <= |s| && s[i] == p[0] && s[i + 1] == p[1])
  {
    if i + 2 <= |s| {
      assert s[i..i + 2] == [s[i], s[i + 1]];
      assert p == [p[0], p[1]];
    }
  }

  /** An occurrence fixes each character it covers. */
  lemma {:induction false} AtChar(s: string, i: nat, p: string, m: nat)
    requires m < |p|
    ensures At(s, i, p) ==> i + m < |s| && s[i + m] == p[m]
  {
    if At(s, i, p) {
      assert s[i..i + |p|][m] == s[i + m];
    }
  }

  predicate StartsWith(s: string, p: string) {
    At(s, 0, p)
  }

  /** `re.search` over the start positions `i` to `n`: the match at the first
      position where `at` matches. */
  function FirstMatch<T>(at: nat -> Option<T>, i: nat, n: nat): (r: Option<T>)
    ensures r.Some? ==> exists k :: i <= k <= n && at(k) == r
    ensures r.None? ==> forall k :: i <= k <= n ==> at(k).None?
    decreases n + 1 - i
  {
    if i > n then None
    else if at(i).Some? then at(i)
    else FirstMatch(at, i + 1, n)
  }

  /** The search reports the match at the first position that matches. */
  lemma {:induction false} FirstMatchFindsFirst<T>(at: nat -> Option<T>, i: nat, k: nat, n: nat)
    requires i <= k <= n && at(k).Some?
    requires forall j :: i <= j < k ==> at(j).None?
    ensures FirstMatch(at, i, n) == at(k)
    decreases k - i
  {
    if i < k {
      FirstMatchFindsFirst(at, i + 1, k, n);
    }
  }

  /** `s.find(p, from)`: the first occurrence of `p` at or after `from`. */
  function Find(s: string, p: string, from: nat): (r: Option<nat>)
    ensures r.Some? ==> from <= r.value && At(s, r.value, p)
    ensures r.Some? ==> forall j :: from <= j < r.value ==> !At(s, j, p)
    ensures r.None? ==> forall j :: from <= j ==> !At(s, j, p)
    decreases |s| - from
  {
    if from + |p| > |s| then None
    else if At(s, from, p) then Some(from)
    else Find(s, p, from + 1)
  }

  /** Python's `p in s` for strings. */
  predicate Contains(s: string, p: string) {
    Find(s, p, 0).Some?
  }

  lemma {:induction false} ContainsAt(s: string, p: string, i: nat)
    requires At(s, i, p)
    ensures Contains(s, p)
  {
  }

  /** An occurrence in the tail is an occurrence in the whole. */
  lemma {:induction false} ContainsOfTail(s: string, p: string)
    requires |s| > 0
    ensures Contains(s[1..], p) ==> Contains(s, p)
  {
    if Contains(s[1..], p) {
      var i := Find(s[1..], p, 0).value;
      AtTail(s, i, p);
      ContainsAt(s, p, i + 1);
    }
  }

  /** Index of the first `c` in `s`. */
  function IndexOfChar(s: string, c: char): (r: Option<nat>)
    ensures r.Some? ==> r.value < |s| && s[r.value] == c && c !in s[..r.value]
    ensures r.None? ==> c !in s
  {
    if |s| == 0 then None
    else if s[0] == c then Some(0)
    else match IndexOfChar(s[1..], c)
      case None => None
      case Some(k) => assert s[..k + 1] == [s[0]] + s[1..][..k]; Some(k + 1)
  }

  /** The first `c` is at `k` when `s[k]` is `c` and nothing before it is. */
  lemma {:induction false} IndexOfCharAt(s: string, c: char, k: nat)
    requires k < |s| && s[k] == c && c !in s[..k]
    ensures IndexOfChar(s, c) == Some(k)
  {
    if k > 0 {
      assert s[1..][..k - 1] == s[..k][1..];
      IndexOfCharAt(s[1..], c, k - 1);
    }
  }

  /** `s.rstrip(chars)`: drop the longest suffix whose characters all satisfy
      `drop`. */
  function RStripBy(s: string, drop: char -> bool): (r: string)
    ensures |r| <= |s| && r == s[..|r|]
    ensures forall i :: |r| <= i < |s| ==> drop(s[i])
    ensures |r| == 0 || !drop(r[|r| - 1])
    decreases |s|
  {
    if |s| > 0 && drop(s[|s| - 1]) then
      var r := RStripBy(s[..|s| - 1], drop);
      RStripCons(s, s[..|s| - 1], r, drop);
      r
    else s
  }

  /** What stripping all but the last character leaves, stripping the whole
      leaves when the last character is dropped too. */
  lemma RStripCons(s: string, t: string, r: string, drop: char -> bool)
    requires |s| > 0 && drop(s[|s| - 1]) && t == s[..|s| - 1]
    requires |r| <= |t| && r == t[..|r|]
    requires forall i :: |r| <= i < |t| ==> drop(t[i])
    requires |r| == 0 || !drop(r[|r| - 1])
    ensures |r| <= |s| && r == s[..|r|]
    ensures forall i :: |r| <= i < |s| ==> drop(s[i])
    ensures |r| == 0 || !drop(r[|r| - 1])
  {
    assert t[..|r|] == s[..|r|];
    forall i | |r| <= i < |s| ensures drop(s[i]) {
      if i < |t| {
        assert s[i] == t[i];
      }
    }
  }

  /** `s.lstrip(chars)`: drop the longest prefix whose characters all satisfy
      `drop`. */
  function LStripBy(s: string, drop: char -> bool): (r: string)
    ensures |r| <= |s| && r == s[|s| - |r|..]
    ensures |s| > 0 && drop(s[0]) ==> |r| < |s|
    ensures forall i :: 0 <= i < |s| - |r| ==> drop(s[i])
    ensures |r| == 0 || !drop(r[0])
    decreases |s|
  {
    if |s| > 0 && drop(s[0]) then
      var r := LStripBy(s[1..], drop);
      LStripCons(s, r, drop);
      r
    else s
  }

  /** What stripping the tail leaves, stripping the whole leaves when the
      first character is dropped too. */
  lemma LStripCons(s: string, r: string, drop: char -> bool)
    requires |s| > 0 && drop(s[0])
    requires |r| <= |s| - 1 && r == s[1..][|s| - 1 - |r|..]
    requires forall i :: 0 <= i < |s| - 1 - |r| ==> drop(s[1..][i])
    requires |r| == 0 || !drop(r[0])
    ensures |r| <= |s| && r == s[|s| - |r|..]
    ensures |s| > 0 && drop(s[0]) ==> |r| < |s|
    ensures forall i :: 0 <= i < |s| - |r| ==> drop(s[i])
    ensures |r| == 0 || !drop(r[0])
  {
    assert s[1..][|s| - 1 - |r|..] == s[|s| - |r|..];
    forall i | 0 <= i < |s| - |r| ensures drop(s[i]) {
      if i > 0 {
        assert s[i] == s[1..][i - 1];
      }
    }
  }

  function StripBy(s: string, drop: char -> bool): string {
    RStripBy(LStripBy(s, drop), drop)
  }

  /** Argument-less `s.strip()`. */
  function Strip(s: string): string {
    StripBy(s, IsSpace)
  }

  /** `s.replace(pat, rep)`: every non-overlapping occurrence, left to right. */
  function ReplaceAll(s: string, pat: string, rep: string): (r: string)
    requires |pat| > 0
    decreases |s|
  {
    if |s| < |pat| then s
    else if At(s, 0, pat) then rep + ReplaceAll(s[|pat|..], pat, rep)
    else [s[0]] + ReplaceAll(s[1..], pat, rep)
  }

  /** Replacing a pattern that does not occur changes nothing. */
  lemma {:induction false} ReplaceAllAbsent(s: string, pat: string, rep: string)
    requires |pat| > 0 && !Contains(s, pat)
    ensures ReplaceAll(s, pat, rep) == s
    decreases |s|
  {
    if |s| >= |pat| {
      assert !At(s, 0, pat);
      ContainsOfTail(s, pat);
      ReplaceAllAbsent(s[1..], pat, rep);
    }
  }

  /** A prefix in which no occurrence starts is copied unchanged. */
  lemma {:induction false} ReplaceAllSkip(t: string, q: string, pat: string, rep: string)
    requires |pat| > 0
    requires forall j :: 0 <= j < |t| ==> !At(t + q, j, pat)
    ensures ReplaceAll(t + q, pat, rep) == t + ReplaceAll(q, pat, rep)
    decreases |t|
  {
    if |t| > 0 {
      var s := t + q;
      if |s| < |pat| {
        assert ReplaceAll(q, pat, rep) == q;
      } else {
        assert !At(s, 0, pat);
        assert ReplaceAll(s, pat, rep) == [s[0]] + ReplaceAll(s[1..], pat, rep);
        assert s[1..] == t[1..] + q;
        forall j | 0 <= j < |t[1..]| ensures !At(t[1..] + q, j, pat) {
          AtTail(s, j, pat);
        }
        ReplaceAllSkip(t[1..], q, pat, rep);
        assert t == [t[0]] + t[1..];
      }
    } else {
      assert t + q == q;
    }
  }

  function Join(parts: seq<string>, sep: string): string
    decreases |parts|
  {
    if |parts| == 0 then ""
    else if |parts| == 1 then parts[0]
    else parts[0] + sep + Join(parts[1..], sep)
  }

  /** `s.split(sep)` for a one-character separator. */
  function Split(s: string, sep: char): (parts: seq<string>)
    ensures |parts| >= 1
    ensures forall i :: 0 <= i < |parts| ==> sep !in parts[i]
    ensures Join(parts, [sep]) == s
    decreases |s|
  {
    match IndexOfChar(s, sep)
    case None => [s]
    case Some(k) =>
      var rest := Split(s[k + 1..], sep);
      assert s == s[..k] + [sep] + s[k + 1..];
      [s[..k]] + rest
  }

  /** Splitting at a first separator peels off the text before it. */
  lemma {:induction false} SplitCons(a: string, b: string, sep: char)
    requires sep !in a
    ensures Split(a + [sep] + b, sep) == [a] + Split(b, sep)
  {
    var s := a + [sep] + b;
    assert s[..|a|] == a;
    IndexOfCharAt(s, sep, |a|);
    assert s[|a| + 1..] == b;
  }

  /** Text without the separator splits into itself. */
  lemma {:induction false} SplitNone(a: string, sep: char)
    requires sep !in a
    ensures Split(a, sep) == [a]
  {
  }

  /** Python's `s[:n]`, where a negative `n` counts from the end. */
  function Take<T>(s: seq<T>, n: int): (r: seq<T>)
    ensures |r| <= |s| && r == s[..|r|]
    ensures n >= 0 ==> |r| == if n <= |s| then n else |s|
    ensures n < 0 ==> |r| == if |s| + n >= 0 then |s| + n else 0
  {
    if n >= 0 then (if n <= |s| then s[..n] else s)
    else if |s| + n >= 0 then s[..|s| + n]
    else []
  }

  function Filter<T>(s: seq<T>, keep: T -> bool): (r: seq<T>)
    ensures |r| <= |s|
    ensures forall x :: x in r ==> x in s && keep(x)
    ensures forall x :: x in s && keep(x) ==> x in r
  {
    if |s| == 0 then []
    else if keep(s[0]) then [s[0]] + Filter(s[1..], keep)
    else Filter(s[1..], keep)
  }

  function Count<T>(s: seq<T>, keep: T -> bool): nat {
    |Filter(s, keep)|
  }
}

=== FILE: tree.dfy ===
/** The package cache and the dependency tree built over it:
    `_build_package_cache`, `_build_dependency_graph`,
    `_calculate_dependency_metrics` and `build_dependency_tree`. */
module Tree {
  import opened Wrappers
  import opened Identity
  import opened Manifest
  import opened Graph
  import opened Bfs

  /** A package in the tree. `dependencyCount`/`dependentCount` are absent
      until the metrics pass sets them. */
  datatype DependencyNode = DependencyNode(
    packageId: string, name: string, owner: string, repo: string, url: string,
    stars: int, forks: int, hasPackageSwift: bool, linuxCompatible: bool, androidCompatible: bool,
    dependencies: seq<PackageDependency>, dependents: seq<string>, depth: int,
    dependencyCount: Option<nat>, dependentCount: Option<nat>)

  /** `DependencyNode(...)` with its dataclass defaults: absent lists become
      empty and the depth starts at 0. */
  function NewNode(packageId: string, name: string, owner: string, repo: string, url: string,
                   stars: int, forks: int, hasPackageSwift: bool, linuxCompatible: bool,
                   androidCompatible: bool, dependencies: Option<seq<PackageDependency>>,
                   dependents: Option<seq<string>>): (n: DependencyNode)
    ensures n.dependencies == (if dependencies.None? then [] else dependencies.value)
    ensures n.dependents == (if dependents.None? then [] else dependents.value)
    ensures n.depth == 0 && n.dependencyCount.None? && n.dependentCount.None?
    ensures n.packageId == packageId && n.name == name && n.url == url && n.stars == stars
  {
    DependencyNode(packageId, name, owner, repo, url, stars, forks, hasPackageSwift, linuxCompatible,
                   androidCompatible, dependencies.GetOr([]), dependents.GetOr([]), 0, None, None)
  }

  /** A repository row from the store; nullable columns are options. */
  datatype RepositoryRow = RepositoryRow(
    owner: string, name: string, url: string, stars: Option<int>, forks: Option<int>,
    hasPackageSwift: Option<bool>, linuxCompatible: Option<bool>, androidCompatible: Option<bool>,
    packageSwiftContent: Option<string>, processingStatus: string)

  /** The cache keeps its keys in first-insertion order, as a `dict` does. */
  datatype Cache = Cache(order: seq<string>, nodes: map<string, DependencyNode>)

  const EmptyCache := Cache([], map[])

  ghost predicate ValidCache(c: Cache) {
    && Distinct(c.order)
    && (forall id :: id in c.order <==> id in c.nodes)
  }

  /** `cache[id] = node`: a new key goes last, an existing one keeps its
      place and takes the new value. */
  function Put(c: Cache, id: string, n: DependencyNode): (r: Cache)
    ensures r.nodes == c.nodes[id := n]
    ensures id in c.nodes ==> r.order == c.order
    ensures id !in c.nodes ==> r.order == c.order + [id]
  {
    if id in c.nodes then Cache(c.order, c.nodes[id := n]) else Cache(c.order + [id], c.nodes[id := n])
  }

  lemma {:induction false} PutValid(c: Cache, id: string, n: DependencyNode)
    requires ValidCache(c)
    ensures ValidCache(Put(c, id, n))
  {
    var r := Put(c, id, n);
    if id !in c.nodes {
      forall i, j | 0 <= i < j < |r.order| ensures r.order[i] != r.order[j] {
        if j == |c.order| { assert r.order[i] in c.order; }
      }
    }
  }

  function PackageId(row: RepositoryRow): string {
    row.owner + "/" + row.name
  }

  /** The node of one row: missing counts and flags default to 0/false, and a
      manifest is parsed only when its text is non-empty. */
  function NodeFor(row: RepositoryRow): (n: DependencyNode)
    ensures n.packageId == PackageId(row) && n.dependents == [] && n.depth == 0
    ensures n.dependencies == (if row.packageSwiftContent.Some? && row.packageSwiftContent.value != ""
                               then ParsePackageSwift(row.packageSwiftContent.value) else [])
    ensures n.stars == row.stars.GetOr(0) && n.forks == row.forks.GetOr(0)
  {
    var deps := if row.packageSwiftContent.Some? && row.packageSwiftContent.value != ""
                then ParsePackageSwift(row.packageSwiftContent.value) else [];
    NewNode(PackageId(row), row.name, row.owner, row.name, row.url, row.stars.GetOr(0), row.forks.GetOr(0),
            row.hasPackageSwift.GetOr(false), row.linuxCompatible.GetOr(false),
            row.androidCompatible.GetOr(false), Some(deps), None)
  }

  predicate Completed(row: RepositoryRow) {
    row.processingStatus == "completed"
  }

  /** `_build_package_cache`: every completed row replaces the entry under
      its package id; the cache is not cleared first. */
  function BuildCache(c: Cache, rows: seq<RepositoryRow>): Cache
    decreases |rows|
  {
    if |rows| == 0 then c
    else BuildCache(if Completed(rows[0]) then Put(c, PackageId(rows[0]), NodeFor(rows[0])) else c, rows[1..])
  }

  /** The last completed row for `id`, if any. */
  function LastRowFor(rows: seq<RepositoryRow>, id: string): Option<RepositoryRow> {
    if |rows| == 0 then None
    else match LastRowFor(rows[1..], id)
      case Some(r) => Some(r)
      case None => if Completed(rows[0]) && PackageId(rows[0]) == id then Some(rows[0]) else None
  }

  /** Each key holds the node of its last completed row, or its old node;
      the keys are the old ones plus the completed rows' ids. */
  lemma {:induction false} BuildCacheContents(c: Cache, rows: seq<RepositoryRow>)
    ensures forall id :: id in BuildCache(c, rows).nodes <==> id in c.nodes || LastRowFor(rows, id).Some?
    ensures forall id :: id in BuildCache(c, rows).nodes ==>
      (BuildCache(c, rows).nodes[id] ==
         match LastRowFor(rows, id)
         case Some(r) => NodeFor(r)
         case None => c.nodes[id])
    ensures ValidCache(c) ==> ValidCache(BuildCache(c, rows))
  {
    BuildCacheNodes(c, rows);
    if ValidCache(c) { BuildCacheValid(c, rows); }
  }

  lemma {:induction false} BuildCacheNodes(c: Cache, rows: seq<RepositoryRow>)
    ensures forall id :: id in BuildCache(c, rows).nodes <==> id in c.nodes || LastRowFor(rows, id).Some?
    ensures forall id :: id in BuildCache(c, rows).nodes ==>
      (BuildCache(c, rows).nodes[id] ==
         match LastRowFor(rows, id)
         case Some(r) => NodeFor(r)
         case None => c.nodes[id])
  {
    BuildCacheKeys(c, rows);
    forall id | id in BuildCache(c, rows).nodes
      ensures BuildCache(c, rows).nodes[id] ==
        match LastRowFor(rows, id)
        case Some(r) => NodeFor(r)
        case None => c.nodes[id]
    {
      BuildCacheValue(c, rows, id);
    }
  }

  lemma {:induction false} BuildCacheKeys(c: Cache, rows: seq<RepositoryRow>)
    ensures forall id :: id in BuildCache(c, rows).nodes <==> id in c.nodes || LastRowFor(rows, id).Some?
    decreases |rows|
  {
    if |rows| > 0 {
      var c1 := if Completed(rows[0]) then Put(c, PackageId(rows[0]), NodeFor(rows[0])) else c;
      BuildCacheKeys(c1, rows[1..]);
    }
  }

  lemma {:induction false} BuildCacheValue(c: Cache, rows: seq<RepositoryRow>, id: string)
    requires id in c.nodes || LastRowFor(rows, id).Some?
    ensures id in BuildCache(c, rows).nodes
    ensures BuildCache(c, rows).nodes[id] ==
      match LastRowFor(rows, id)
      case Some(r) => NodeFor(r)
      case None => c.nodes[id]
    decreases |rows|
  {
    if |rows| > 0 {
      var c1 := if Completed(rows[0]) then Put(c, PackageId(rows[0]), NodeFor(rows[0])) else c;
      assert BuildCache(c, rows) == BuildCache(c1, rows[1..]);
      BuildCacheValue(c1, rows[1..], id);
    }
  }

  lemma {:induction false} BuildCacheValid(c: Cache, rows: seq<RepositoryRow>)
    requires ValidCache(c)
    ensures ValidCache(BuildCache(c, rows))
    decreases |rows|
  {
    if |rows| > 0 {
      var c1 := if Completed(rows[0]) then Put(c, PackageId(rows[0]), NodeFor(rows[0])) else c;
      if Completed(rows[0]) { PutValid(c, PackageId(rows[0]), NodeFor(rows[0])); }
      BuildCacheValid(c1, rows[1..]);
    }
  }

  /** Rows whose ids are already cached leave the key order alone. */
  lemma {:induction false} BuildCacheKeepsOrder(c: Cache, rows: seq<RepositoryRow>)
    requires forall id :: LastRowFor(rows, id).Some? ==> id in c.nodes
    ensures BuildCache(c, rows).order == c.order
    decreases |rows|
  {
    if |rows| > 0 {
      var c1 := if Completed(rows[0]) then Put(c, PackageId(rows[0]), NodeFor(rows[0])) else c;
      forall id | LastRowFor(rows[1..], id).Some? ensures id in c1.nodes {
        assert LastRowFor(rows, id).Some?;
      }
      if Completed(rows[0]) {
        assert LastRowFor(rows, PackageId(rows[0])).Some?;
      }
      BuildCacheKeepsOrder(c1, rows[1..]);
    }
  }

  // ---------------------------------------------------------------------
  // The graph pass

  function InfoOf(n: DependencyNode): PackageInfo {
    PackageInfo(n.stars, n.forks, n.hasPackageSwift, n.linuxCompatible, n.androidCompatible)
  }

  function DeclarationSteps(id: string, deps: seq<PackageDependency>): (r: seq<Step>)
    ensures |r| == |deps|
    ensures forall i :: 0 <= i < |r| ==> r[i] == Declare(id, deps[i])
  {
    if |deps| == 0 then [] else [Declare(id, deps[0])] + DeclarationSteps(id, deps[1..])
  }

  /** The steps of the graph loop over the packages `ids`: each package's
      node, then each of its declarations in order. */
  function PackageSteps(c: Cache, ids: seq<string>): seq<Step>
    requires forall id :: id in ids ==> id in c.nodes
  {
    if |ids| == 0 then []
    else
      var n := c.nodes[ids[0]];
      [AddPackage(ids[0], n.name, InfoOf(n))] + DeclarationSteps(ids[0], n.dependencies) + PackageSteps(c, ids[1..])
  }

  function Steps(c: Cache): seq<Step>
    requires ValidCache(c)
  {
    PackageSteps(c, c.order)
  }

  /** A node without the fields the graph and metrics passes write. */
  function Base(n: DependencyNode): DependencyNode {
    n.(dependents := [], depth := 0, dependencyCount := None, dependentCount := None)
  }

  /** Two caches that agree on everything but dependents and metrics. */
  ghost predicate SameBase(c1: Cache, c2: Cache) {
    && c1.order == c2.order
    && c1.nodes.Keys == c2.nodes.Keys
    && (forall id :: id in c1.nodes ==> Base(c1.nodes[id]) == Base(c2.nodes[id]))
  }

  lemma {:induction false} SameBaseSameSteps(c1: Cache, c2: Cache, ids: seq<string>)
    requires SameBase(c1, c2)
    requires forall id :: id in ids ==> id in c1.nodes
    ensures PackageSteps(c1, ids) == PackageSteps(c2, ids)
    decreases |ids|
  {
    if |ids| > 0 {
      assert Base(c1.nodes[ids[0]]) == Base(c2.nodes[ids[0]]);
      SameBaseSameSteps(c1, c2, ids[1..]);
    }
  }

  /** Appends `p` to the dependents of every known target a step declares. */
  function AddDependents(c: Cache, steps: seq<Step>): Cache
    decreases |steps|
  {
    if |steps| == 0 then c else AddDependents(AddDependent(c, steps[0]), steps[1..])
  }

  /** One step of `AddDependents`. */
  function AddDependent(c: Cache, s: Step): Cache {
    match s
    case AddPackage(_, _, _) => c
    case Declare(p, dep) =>
      match Target(dep)
      case Some(t) =>
        if t in c.nodes then Cache(c.order, c.nodes[t := c.nodes[t].(dependents := c.nodes[t].dependents + [p])])
        else c
      case None => c
  }

  /** Sources of the declared edges into `t`. */
  function DeclaredInto(steps: seq<Step>, t: string): set<string> {
    set e | e in Declared(steps) && e.1 == t :: e.0
  }

  /** Appending dependents changes nothing else, and the distinct new
      entries of a known target are the sources of its declared edges. */
  lemma {:induction false} AddDependentsContents(c: Cache, steps: seq<Step>)
    ensures AddDependents(c, steps).order == c.order
    ensures AddDependents(c, steps).nodes.Keys == c.nodes.Keys
    ensures forall t :: t in c.nodes ==> Base(AddDependents(c, steps).nodes[t]) == Base(c.nodes[t])
    ensures forall t :: t in c.nodes ==>
      (forall x :: x in AddDependents(c, steps).nodes[t].dependents <==>
        x in c.nodes[t].dependents || x in DeclaredInto(steps, t))
    decreases |steps|
  {
    if |steps| > 0 {
      var c1 := AddDependent(c, steps[0]);
      AddDependentContents(c, steps[0]);
      AddDependentsContents(c1, steps[1..]);
      forall t | t in c.nodes
        ensures forall x :: x in AddDependents(c, steps).nodes[t].dependents <==>
                  x in c.nodes[t].dependents || x in DeclaredInto(steps, t)
      {
        DeclaredIntoCons(steps, t);
      }
    }
  }

  lemma AddDependentContents(c: Cache, s: Step)
    ensures AddDependent(c, s).order == c.order
    ensures AddDependent(c, s).nodes.Keys == c.nodes.Keys
    ensures forall t :: t in c.nodes ==> Base(AddDependent(c, s).nodes[t]) == Base(c.nodes[t])
    ensures forall t :: t in c.nodes ==>
      (forall x :: x in AddDependent(c, s).nodes[t].dependents <==>
        x in c.nodes[t].dependents || (x, t) in StepDeclares(s))
  {
  }

  lemma DeclaredIntoCons(steps: seq<Step>, t: string)
    requires |steps| > 0
    ensures forall x :: x in DeclaredInto(steps, t) <==> (x, t) in StepDeclares(steps[0]) || x in DeclaredInto(steps[1..], t)
  {
    forall x ensures x in DeclaredInto(steps, t) <==> (x, t) in StepDeclares(steps[0]) || x in DeclaredInto(steps[1..], t) {
      if (x, t) in StepDeclares(steps[0]) || x in DeclaredInto(steps[1..], t) {
        assert (x, t) in Declared(steps);
      }
    }
  }

  /** `_build_dependency_graph`: the graph after the steps, and the cache
      with dependents appended. */
  function BuildGraph(g: Graph, c: Cache): (Graph, Cache)
    requires ValidCache(c)
  {
    (Run(g, Steps(c)), AddDependents(c, Steps(c)))
  }

  /** Resolved `(package, target)` pairs of one package's declarations. */
  function PairsOf(id: string, deps: seq<PackageDependency>): set<(string, string)> {
    set dep | dep in deps && Target(dep).Some? :: (id, Target(dep).value)
  }

  function TargetsOf(deps: seq<PackageDependency>): set<string> {
    set dep | dep in deps && Target(dep).Some? :: Target(dep).value
  }

  /** The identity pairs `(package, target)` that the packages `ids` declare. */
  function DeclaredPairs(c: Cache, ids: seq<string>): set<(string, string)>
    requires forall id :: id in ids ==> id in c.nodes
  {
    if |ids| == 0 then {} else PairsOf(ids[0], c.nodes[ids[0]].dependencies) + DeclaredPairs(c, ids[1..])
  }

  /** Resolved targets the packages `ids` declare. */
  function DeclaredTargets(c: Cache, ids: seq<string>): set<string>
    requires forall id :: id in ids ==> id in c.nodes
  {
    if |ids| == 0 then {} else TargetsOf(c.nodes[ids[0]].dependencies) + DeclaredTargets(c, ids[1..])
  }

  /** A pair is declared iff its package is among `ids` and one of its
      declarations resolves to the target. */
  lemma {:induction false} DeclaredPairsMeaning(c: Cache, ids: seq<string>, p: string, t: string)
    requires forall id :: id in ids ==> id in c.nodes
    ensures (p, t) in DeclaredPairs(c, ids) <==>
      p in ids && exists dep :: dep in c.nodes[p].dependencies && Target(dep) == Some(t)
    decreases |ids|
  {
    if |ids| > 0 {
      DeclaredPairsMeaning(c, ids[1..], p, t);
      assert p in ids <==> p == ids[0] || p in ids[1..];
    }
  }

  lemma {:induction false} TargetsOfCons(deps: seq<PackageDependency>)
    requires |deps| > 0
    ensures TargetsOf(deps) == (if Target(deps[0]).Some? then {Target(deps[0]).value} else {}) + TargetsOf(deps[1..])
  {
    assert forall dep :: dep in deps <==> dep == deps[0] || dep in deps[1..];
  }

  lemma {:induction false} PairsOfCons(id: string, deps: seq<PackageDependency>)
    requires |deps| > 0
    ensures PairsOf(id, deps) == (if Target(deps[0]).Some? then {(id, Target(deps[0]).value)} else {}) + PairsOf(id, deps[1..])
  {
    assert forall dep :: dep in deps <==> dep == deps[0] || dep in deps[1..];
  }

  lemma {:induction false} DeclarationStepsDeclared(id: string, deps: seq<PackageDependency>)
    ensures Declared(DeclarationSteps(id, deps)) == PairsOf(id, deps)
    decreases |deps|
  {
    if |deps| > 0 {
      DeclarationStepsDeclared(id, deps[1..]);
      assert DeclarationSteps(id, deps)[1..] == DeclarationSteps(id, deps[1..]);
      PairsOfCons(id, deps);
    }
  }

  lemma {:induction false} DeclarationStepsIntroduced(id: string, deps: seq<PackageDependency>)
    ensures Introduced(DeclarationSteps(id, deps)) == TargetsOf(deps) + (if TargetsOf(deps) == {} then {} else {id})
    decreases |deps|
  {
    if |deps| > 0 {
      DeclarationStepsIntroduced(id, deps[1..]);
      assert DeclarationSteps(id, deps)[1..] == DeclarationSteps(id, deps[1..]);
      TargetsOfCons(deps);
    }
  }

  /** The steps introduce exactly the known packages and the targets they
      declare, and declare exactly their resolved identity pairs. */
  lemma {:induction false} PackageStepsContents(c: Cache, ids: seq<string>)
    requires forall id :: id in ids ==> id in c.nodes
    ensures Introduced(PackageSteps(c, ids)) == (set id | id in ids) + DeclaredTargets(c, ids)
    ensures Declared(PackageSteps(c, ids)) == DeclaredPairs(c, ids)
  {
    PackageStepsIntroduced(c, ids);
    PackageStepsDeclared(c, ids);
  }

  /** One package's steps: its own, then its declarations'. */
  lemma PackageStepsCons(c: Cache, ids: seq<string>)
    requires |ids| > 0 && forall id :: id in ids ==> id in c.nodes
    ensures var n := c.nodes[ids[0]];
            PackageSteps(c, ids) == [AddPackage(ids[0], n.name, InfoOf(n))] + DeclarationSteps(ids[0], n.dependencies)
                                    + PackageSteps(c, ids[1..])
  {
  }

  lemma {:induction false} PackageStepsIntroduced(c: Cache, ids: seq<string>)
    requires forall id :: id in ids ==> id in c.nodes
    ensures Introduced(PackageSteps(c, ids)) == (set id | id in ids) + DeclaredTargets(c, ids)
    decreases |ids|
  {
    if |ids| > 0 {
      var id := ids[0];
      var n := c.nodes[id];
      var head := [AddPackage(id, n.name, InfoOf(n))];
      var d := DeclarationSteps(id, n.dependencies);
      var rest := PackageSteps(c, ids[1..]);
      PackageStepsCons(c, ids);
      PackageStepsIntroduced(c, ids[1..]);
      DeclarationStepsIntroduced(id, n.dependencies);
      IntroducedAppend(head + d, rest);
      IntroducedAppend(head, d);
      assert Introduced(head) == {id};
      ElementsCons(ids);
      var t := TargetsOf(n.dependencies);
      var x: set<string> := if t == {} then {} else {id};
      var later := set x | x in ids[1..];
      UnionRegroup(id, t, x, later, DeclaredTargets(c, ids[1..]));
    }
  }

  lemma {:induction false} PackageStepsDeclared(c: Cache, ids: seq<string>)
    requires forall id :: id in ids ==> id in c.nodes
    ensures Declared(PackageSteps(c, ids)) == DeclaredPairs(c, ids)
    decreases |ids|
  {
    if |ids| > 0 {
      var id := ids[0];
      var n := c.nodes[id];
      var head := [AddPackage(id, n.name, InfoOf(n))];
      var d := DeclarationSteps(id, n.dependencies);
      var rest := PackageSteps(c, ids[1..]);
      PackageStepsCons(c, ids);
      PackageStepsDeclared(c, ids[1..]);
      DeclarationStepsDeclared(id, n.dependencies);
      DeclaredAppend(head + d, rest);
      DeclaredAppend(head, d);
      assert Declared(head) == {};
    }
  }

  lemma UnionRegroup(id: string, t: set<string>, x: set<string>, s: set<string>, u: set<string>)
    requires x <= {id}
    ensures {id} + (t + x) + (s + u) == ({id} + s) + (t + u)
  {
  }

  lemma ElementsCons(ids: seq<string>)
    requires |ids| > 0
    ensures (set x | x in ids) == {ids[0]} + (set x | x in ids[1..])
  {
    assert forall x :: x in ids <==> x == ids[0] || x in ids[1..];
  }

  lemma {:induction false} IntroducedAppend(a: seq<Step>, b: seq<Step>)
    ensures Introduced(a + b) == Introduced(a) + Introduced(b)
    decreases |a|
  {
    if |a| > 0 {
      assert (a + b)[1..] == a[1..] + b;
      IntroducedAppend(a[1..], b);
    } else {
      assert a + b == b;
    }
  }

  lemma {:induction false} DeclaredAppend(a: seq<Step>, b: seq<Step>)
    ensures Declared(a + b) == Declared(a) + Declared(b)
    decreases |a|
  {
    if |a| > 0 {
      assert (a + b)[1..] == a[1..] + b;
      DeclaredAppend(a[1..], b);
    } else {
      assert a + b == b;
    }
  }

  /** Every known package becomes a node, as does every resolved target;
      the edges are the resolved `(package, target)` pairs, so an
      unresolved declaration adds none. */
  lemma {:induction false} GraphContents(g: Graph, c: Cache)
    requires ValidCache(c)
    ensures BuildGraph(g, c).0.attrs.Keys == g.attrs.Keys + c.nodes.Keys + DeclaredTargets(c, c.order)
    ensures BuildGraph(g, c).0.edges.Keys == g.edges.Keys + DeclaredPairs(c, c.order)
  {
    OrderKeys(c);
    PackageStepsContents(c, c.order);
    RunContents(g, Steps(c));
  }

  /** A valid cache's order lists exactly its keys. */
  lemma OrderKeys(c: Cache)
    requires ValidCache(c)
    ensures forall id :: id in c.order ==> id in c.nodes
    ensures (set id | id in c.order) == c.nodes.Keys
  {
  }

  /** Built from an empty graph over fresh nodes, the distinct dependents
      of every known package are exactly its graph predecessors. */
  lemma {:induction false} DependentsArePredecessors(c: Cache)
    requires ValidCache(c)
    requires forall id :: id in c.nodes ==> c.nodes[id].dependents == []
    ensures forall t :: t in c.nodes ==> (t in BuildGraph(EmptyGraph, c).1.nodes &&
      forall x :: x in BuildGraph(EmptyGraph, c).1.nodes[t].dependents <==> x in Predecessors(BuildGraph(EmptyGraph, c).0, t))
  {
    var steps := Steps(c);
    AddDependentsContents(c, steps);
    RunContents(EmptyGraph, steps);
    var g := Run(EmptyGraph, steps);
    forall t, x | t in c.nodes
      ensures x in Predecessors(g, t) <==> x in DeclaredInto(steps, t)
    {
      if x in DeclaredInto(steps, t) { assert (x, t) in g.edges; }
      if x in Predecessors(g, t) { assert (x, t) in Declared(steps); }
    }
  }

  // ---------------------------------------------------------------------
  // Metrics and the tree

  /** `_calculate_dependency_metrics`: every cached package in the graph gets
      its depth and its out- and in-degree. */
  function Metrics(g: Graph, c: Cache): (r: Cache)
    ensures r.order == c.order && r.nodes.Keys == c.nodes.Keys
    ensures forall id :: id in c.nodes && id in g.attrs ==>
      r.nodes[id].depth == Depth(g, id) &&
      r.nodes[id].dependencyCount == Some(|Successors(g, id)|) &&
      r.nodes[id].dependentCount == Some(|Predecessors(g, id)|)
    ensures forall id :: id in c.nodes && id !in g.attrs ==> r.nodes[id] == c.nodes[id]
    ensures forall id :: id in c.nodes ==>
      (Base(r.nodes[id]) == Base(c.nodes[id]) && r.nodes[id].dependents == c.nodes[id].dependents)
  {
    Cache(c.order, map id | id in c.nodes ::
      if id in g.attrs then
        c.nodes[id].(depth := Depth(g, id),
                     dependencyCount := Some(|Successors(g, id)|),
                     dependentCount := Some(|Predecessors(g, id)|))
      else c.nodes[id])
  }

  datatype Analyzer = Analyzer(cache: Cache, graph: Graph)

  const NewAnalyzer := Analyzer(EmptyCache, EmptyGraph)

  ghost predicate ValidAnalyzer(a: Analyzer) {
    ValidCache(a.cache)
  }

  /** `build_dependency_tree`: rebuild when asked to or when the cache is
      empty, without clearing either the cache or the graph. */
  function BuildDependencyTree(a: Analyzer, rows: seq<RepositoryRow>, refresh: bool): (r: Analyzer)
    requires ValidAnalyzer(a)
    ensures ValidAnalyzer(r)
    ensures !refresh && |a.cache.nodes| > 0 ==> r == a
  {
    if refresh || |a.cache.nodes| == 0 then
      BuildCacheContents(a.cache, rows);
      var c1 := BuildCache(a.cache, rows);
      var (g2, c2) := BuildGraph(a.graph, c1);
      AddDependentsContents(c1, Steps(c1));
      Analyzer(Metrics(g2, c2), g2)
    else a
  }

  /** Depth reads only the node and edge sets. */
  lemma {:induction false} WithinSameKeys(g1: Graph, g2: Graph, s: string, k: nat)
    requires g1.edges.Keys == g2.edges.Keys
    ensures Within(g1, s, k) == Within(g2, s, k)
    decreases k
  {
    if k > 0 {
      WithinSameKeys(g1, g2, s, k - 1);
      assert Targets(g1, Within(g1, s, k - 1)) == Targets(g2, Within(g2, s, k - 1));
    }
  }

  lemma {:induction false} DepthSameKeys(g1: Graph, g2: Graph, s: string)
    requires g1.edges.Keys == g2.edges.Keys && g1.attrs.Keys == g2.attrs.Keys
    ensures Depth(g1, s) == Depth(g2, s)
  {
    if s in g1.attrs {
      forall j: nat ensures Levels(g1, s)(j) == Levels(g2, s)(j) {
        WithinSameKeys(g1, g2, s, j);
      }
      assert Universe(g1, s) == Universe(g2, s);
      LevelsChain(g1, s);
      SettleSame(Levels(g1, s), Levels(g2, s), Universe(g1, s), 0);
    }
  }

  /** A build's cache agrees with the rebuilt cache apart from dependents
      and metrics, and its graph is the step replay over that cache. */
  lemma {:induction false} BuildShape(a: Analyzer, rows: seq<RepositoryRow>)
    requires ValidAnalyzer(a)
    ensures ValidCache(BuildCache(a.cache, rows))
    ensures SameBase(BuildDependencyTree(a, rows, true).cache, BuildCache(a.cache, rows))
    ensures BuildDependencyTree(a, rows, true).graph == Run(a.graph, Steps(BuildCache(a.cache, rows)))
  {
    BuildCacheContents(a.cache, rows);
    var c1 := BuildCache(a.cache, rows);
    AddDependentsContents(c1, Steps(c1));
  }

  /** Caches agreeing apart from dependents and metrics are rebuilt alike. */
  lemma {:induction false} BuildCacheSameBase(c1: Cache, c2: Cache, rows: seq<RepositoryRow>)
    requires SameBase(c1, c2)
    ensures SameBase(BuildCache(c1, rows), BuildCache(c2, rows))
    decreases |rows|
  {
    if |rows| > 0 {
      var n1 := if Completed(rows[0]) then Put(c1, PackageId(rows[0]), NodeFor(rows[0])) else c1;
      var n2 := if Completed(rows[0]) then Put(c2, PackageId(rows[0]), NodeFor(rows[0])) else c2;
      assert SameBase(n1, n2);
      BuildCacheSameBase(n1, n2, rows[1..]);
    }
  }

  /** Rebuilding a rebuilt cache from the same rows changes nothing. */
  lemma {:induction false} BuildCacheTwice(c: Cache, rows: seq<RepositoryRow>)
    ensures BuildCache(BuildCache(c, rows), rows) == BuildCache(c, rows)
  {
    var c1 := BuildCache(c, rows);
    BuildCacheContents(c, rows);
    BuildCacheContents(c1, rows);
    BuildCacheKeepsOrder(c1, rows);
    var c2 := BuildCache(c1, rows);
    assert c2.nodes.Keys == c1.nodes.Keys;
    forall id | id in c2.nodes ensures c2.nodes[id] == c1.nodes[id] {
    }
  }

  /** Rebuilding from the same rows reproduces the node set, the edge set,
      every edge's attributes and every depth. */
  lemma {:induction false} RebuildIsIdempotent(a: Analyzer, rows: seq<RepositoryRow>)
    requires ValidAnalyzer(a)
    ensures var a1 := BuildDependencyTree(a, rows, true);
            var a2 := BuildDependencyTree(a1, rows, true);
            && a2.graph.attrs.Keys == a1.graph.attrs.Keys
            && a2.graph.edges.Keys == a1.graph.edges.Keys
            && (forall e :: e in a1.graph.edges ==> a2.graph.edges[e] == a1.graph.edges[e])
            && a2.cache.nodes.Keys == a1.cache.nodes.Keys
            && (forall id :: id in a1.cache.nodes ==> a2.cache.nodes[id].depth == a1.cache.nodes[id].depth)
  {
    var a1 := BuildDependencyTree(a, rows, true);
    var c1 := BuildCache(a.cache, rows);
    BuildShape(a, rows);
    var c2 := BuildCache(a1.cache, rows);
    BuildCacheSameBase(a1.cache, c1, rows);
    BuildCacheTwice(a.cache, rows);
    assert SameBase(c2, c1);
    SameBaseSameSteps(c2, c1, c1.order);
    RunTwiceSameSets(a.graph, Steps(c1));
    var a2 := BuildDependencyTree(a1, rows, true);
    BuildShape(a1, rows);
    assert a2.graph == Run(a1.graph, Steps(c1));
    TreeDepths(a, rows);
    TreeDepths(a1, rows);
    forall id | id in a1.cache.nodes ensures a2.cache.nodes[id].depth == a1.cache.nodes[id].depth {
      DepthSameKeys(a2.graph, a1.graph, id);
    }
  }

  /** After a build every cached package is a graph node whose depth is
      the reference depth. */
  lemma {:induction false} TreeDepths(a: Analyzer, rows: seq<RepositoryRow>)
    requires ValidAnalyzer(a)
    ensures var r := BuildDependencyTree(a, rows, true);
            forall id :: id in r.cache.nodes ==> id in r.graph.attrs && r.cache.nodes[id].depth == Depth(r.graph, id)
  {
    var c1 := BuildCache(a.cache, rows);
    BuildCacheContents(a.cache, rows);
    AddDependentsContents(c1, Steps(c1));
    GraphContents(a.graph, c1);
  }
}

=== FILE: url.dfy ===
/** The part of Python's `urllib.parse.urlparse` that the fetchers observe:
    the WHATWG clean-up of the input, the scheme, the network location, and
    the path with its query, fragment and `;` parameters split off. */
module Url {
  import opened Wrappers
  import opened Text

  datatype Parts = Parts(scheme: string, netloc: string, path: string, params: string, query: string, fragment: string)

  /** A C0 control or space, which `urlsplit` strips from the front. */
  predicate IsC0OrSpace(c: char) {
    c <= ' '
  }

  /** Tab, carriage return and line feed are deleted everywhere. */
  predicate IsUnsafe(c: char) {
    c == '\t' || c == '\r' || c == '\n'
  }

  predicate IsAsciiAlpha(c: char) {
    'a' <= c <= 'z' || 'A' <= c <= 'Z'
  }

  predicate IsSchemeChar(c: char) {
    IsAsciiAlpha(c) || '0' <= c <= '9' || c == '+' || c == '-' || c == '.'
  }

  function Sanitize(url: string): (r: string)
    ensures forall c :: c in r ==> !IsUnsafe(c)
    ensures (forall c :: c in url ==> !IsUnsafe(c)) && (|url| == 0 || !IsC0OrSpace(url[0])) ==> r == url
  {
    RemoveUnsafe(LStripBy(url, IsC0OrSpace))
  }

  function RemoveUnsafe(s: string): (r: string)
    ensures forall c :: c in r <==> c in s && !IsUnsafe(c)
    ensures (forall c :: c in s ==> !IsUnsafe(c)) ==> r == s
  {
    if |s| == 0 then ""
    else if IsUnsafe(s[0]) then RemoveUnsafe(s[1..])
    else
      assert s == [s[0]] + s[1..];
      [s[0]] + RemoveUnsafe(s[1..])
  }

  /** The scheme is everything before the first `:` when that is non-empty,
      starts with a letter and is made of scheme characters; it is lowered and
      the `:` is dropped. Otherwise there is no scheme. */
  function SplitScheme(url: string): (r: (string, string))
    ensures r.0 == "" ==> r.1 == url
    ensures r.0 != "" ==>
      (|r.0| < |url| && url[|r.0|] == ':' && r.1 == url[|r.0| + 1..]
       && r.0 == LowerStr(url[..|r.0|]) && ':' !in url[..|r.0|])
  {
    match IndexOfChar(url, ':')
    case None => ("", url)
    case Some(i) =>
      if i > 0 && IsAsciiAlpha(url[0]) && (forall k :: 0 <= k < i ==> IsSchemeChar(url[k])) then
        (LowerStr(url[..i]), url[i + 1..])
      else ("", url)
  }

  /** The characters that end a network location. */
  predicate IsNetlocStop(c: char) {
    c == '/' || c == '?' || c == '#'
  }

  /** The first index at or after `from` holding a network-location stop,
      or `|s|`. */
  function FirstStop(s: string, from: nat): (e: nat)
    requires from <= |s|
    ensures from <= e <= |s|
    ensures e < |s| ==> IsNetlocStop(s[e])
    ensures forall k :: from <= k < e ==> !IsNetlocStop(s[k])
    decreases |s| - from
  {
    if from == |s| || IsNetlocStop(s[from]) then from else FirstStop(s, from + 1)
  }

  /** After `//`, the network location runs to the first `/`, `?` or `#`. */
  function SplitNetloc(rest: string): (r: (string, string))
    ensures |rest| >= 2 && rest[..2] == "//" ==>
      (rest == "//" + r.0 + r.1 && (forall c :: c in r.0 ==> !IsNetlocStop(c)) && (|r.1| == 0 || IsNetlocStop(r.1[0])))
    ensures !(|rest| >= 2 && rest[..2] == "//") ==> r == ("", rest)
  {
    if |rest| >= 2 && rest[..2] == "//" then
      var e := FirstStop(rest, 2);
      assert rest == rest[..2] + rest[2..e] + rest[e..];
      (rest[2..e], rest[e..])
    else ("", rest)
  }

  /** `s.split(c, 1)` guarded by `c in s`: the text before the first `c` and
      the text after it, or all of `s` and `""` when `c` does not occur. */
  function CutAt(s: string, c: char): (r: (string, string))
    ensures c !in r.0
    ensures c in s ==> s == r.0 + [c] + r.1
    ensures c !in s ==> r == (s, "")
  {
    match IndexOfChar(s, c)
    case None => (s, "")
    case Some(i) =>
      assert s == s[..i] + [c] + s[i + 1..];
      (s[..i], s[i + 1..])
  }

  /** The schemes for which `urlparse` splits `;` parameters off the path. */
  const ParamSchemes: seq<string> :=
    ["", "ftp", "hdl", "prospero", "http", "imap", "https", "shttp", "rtsp", "rtspu", "sip", "sips", "mms", "sftp", "tel"]

  function LastIndexOf(s: string, c: char): (r: Option<nat>)
    ensures r.Some? ==> r.value < |s| && s[r.value] == c && c !in s[r.value + 1..]
    ensures r.None? ==> c !in s
  {
    if |s| == 0 then None
    else if s[|s| - 1] == c then Some(|s| - 1)
    else
      var r := LastIndexOf(s[..|s| - 1], c);
      assert s == s[..|s| - 1] + [s[|s| - 1]];
      r
  }

  /** `_splitparams`: with a `/`, the parameters start at the first `;` after
      the last `/`; without one, at the first `;`. */
  function SplitParams(s: string): (r: (string, string))
    ensures r.0 + r.1 == s || s == r.0 + ";" + r.1
    ensures ';' in s && '/' !in s ==> s == r.0 + ";" + r.1 && ';' !in r.0
  {
    match LastIndexOf(s, '/')
    case Some(j) =>
      (match Find(s, ";", j)
       case None => (s, "")
       case Some(i) =>
         assert s == s[..i] + ";" + s[i + 1..];
         (s[..i], s[i + 1..]))
    case None => var c := CutAt(s, ';'); c
  }

  /** `urlparse(url)`; a network location with an unmatched `[` or `]` is
      rejected with `ValueError`. */
  function Parse(url: string): (r: Result<Parts>)
    ensures r.Success? ==> forall c :: c in r.value.netloc ==> !IsNetlocStop(c)
    ensures r.Success? ==> '#' !in r.value.path && '?' !in r.value.path
    ensures r.Failure? <==> ('[' in SplitNetloc(SplitScheme(Sanitize(url)).1).0) != (']' in SplitNetloc(SplitScheme(Sanitize(url)).1).0)
  {
    var s := Sanitize(url);
    var (scheme, rest) := SplitScheme(s);
    var (netloc, rest2) := SplitNetloc(rest);
    if ('[' in netloc) != (']' in netloc) then Failure("Invalid IPv6 URL")
    else
      var (rest3, fragment) := CutAt(rest2, '#');
      var (rest4, query) := CutAt(rest3, '?');
      assert '#' !in rest4 && '?' !in rest4 by {
        if '?' in rest3 { assert rest3 == rest4 + "?" + query; }
      }
      var (path, params) := if scheme in ParamSchemes && ';' in rest4 then SplitParams(rest4) else (rest4, "");
      assert path <= rest4 by {
        if scheme in ParamSchemes && ';' in rest4 {
          assert path + params == rest4 || rest4 == path + ";" + params;
        }
      }
      Success(Parts(scheme, netloc, path, params, query, fragment))
  }
}

=== FILE: wrappers.dfy ===
/** Failure-compatible wrappers used throughout the model: an absent value
    (`None` in the source) and a result that is either a value or a raised
    exception. */
module Wrappers {

  datatype Option<+T> = None | Some(value: T) {
    /** The value, or `default` when absent (the source's `x or default`). */
    function GetOr(default: T): T {
      match this
      case Some(v) => v
      case None => default
    }
  }

  /** `Failure` carries the message of the exception the source raises. */
  datatype Result<+R> = Success(value: R) | Failure(error: string) {
    predicate IsFailure() {
      Failure?
    }
  }
}
